=== FILE: README.md ===
# qqstudy, verified core

The qqstudy repository is a set of Python teaching scripts. This project
models the parts of it that carry real logic:

- the small pygame games: snake, space shooter, catch-ball, the bouncing
  ball, keyboard control, the per-frame rules of the exercises and the
  tutorial lessons;
- two algorithms: the in-place back-to-front merge of two sorted arrays,
  and the answers to the basics exercises (primality, de-duplication,
  password strength, calculator, word counter, temperature conversions);
- the automation tools, with their I/O reduced to values: batch renaming,
  the file organizer, the text replacer, the Excel helpers and the nested
  helpers of the automation lessons;
- the book crawler's parsing and filtering, the Flask tutorial's student
  table, calculator and form labels, the pandas lessons' classifiers, the
  keyword chatbot and the keyword-count sentiment scorers.

There is one module per source file, with the same name in CamelCase. Four
shared modules model library behaviour the scripts rely on:

- `Text`: Python's string operations (`in`, `count`, `replace`, `lower`,
  `strip`, `split`, `os.path.splitext`, `str(int)`, `zfill`);
- `Lists`: comprehension filters and generator counts;
- `Reals`: `sum`, `max`, `min` and averages on exact reals;
- `Geometry`: `int()` truncation, pygame's `Rect.colliderect`, clamping.

`Options` is a plain optional value, and `Score` holds the step-of-10
score arithmetic the games share.

Objects whose fields the scripts update become classes whose methods say
what they modify: the snake and its game, the players, paddles, balls, the
folders and the student store. Per-frame loops over lists of bullets,
enemies, balls, coins and files become methods. Each one is proved equal
to a recursive specification function, and the properties the games
promise are lemmas about that function. Random draws, key states, mouse
events, directory listings, timestamps and file contents are parameters.

## Model

| member | source | states |
|---|---|---|
| Snake.InitialBody | game_dev/games/06_snake.py:90-92 | a new body has `length` cells, the head at the start cell, each cell one step left of the previous one, and no cell twice |
| Snake.AdvanceShape | game_dev/games/06_snake.py:130-142 | a move puts the new head one step from the old head and shifts every old cell back one place; the length is kept, or grows by exactly one when growth was pending |
| Snake.AdvanceCells | game_dev/games/06_snake.py:133-140 | a move creates no cell other than the new head |
| Snake.OppositeDiffers | game_dev/games/06_snake.py:111-116 | no direction is its own reverse, so the accepted next direction never reverses the snake |
| Snake.Snake.constructor | game_dev/games/06_snake.py:71-99 | the new snake has the initial body, moves RIGHT with RIGHT queued, and no growth pending |
| Snake.Snake.ChangeDirection | game_dev/games/06_snake.py:101-116 | the next direction becomes the new one unless it is the exact reverse of the current direction; nothing else changes |
| Snake.Snake.Update | game_dev/games/06_snake.py:118-142 | the queued direction becomes current, the body advances in it (growing if flagged) and the growth flag is cleared |
| Snake.Snake.Grow | game_dev/games/06_snake.py:144-150 | sets the growth flag and changes nothing else |
| Snake.SelfCollisionIff | game_dev/games/06_snake.py:156-165 | self collision holds exactly when the head's cell appears again at some index of 1 or more |
| Snake.WallCollisionIff | game_dev/games/06_snake.py:167-180 | wall collision holds exactly when the head is outside [0, grid width) by [0, grid height) |
| Snake.Food.constructor | game_dev/games/06_snake.py:235-245 | new food sits at (0, 0) |
| Snake.Food.Spawn | game_dev/games/06_snake.py:247-262 | the food ends inside the grid and off the snake, on the first random draw that is free |
| Snake.KeyDirection | game_dev/games/06_snake.py:484-491 | arrow keys and WASD select one of the four unit directions; other keys select none |
| Snake.SnakeGame.constructor | game_dev/games/06_snake.py:298-326 | the grid is width and height divided by the cell size; the fresh game has the start body, score 0, not over, not paused, timer 0, delay 8 |
| Snake.SnakeGame.Reset | game_dev/games/06_snake.py:328-350 | restores a fresh snake of length 3 at the grid centre moving RIGHT with RIGHT queued, respawned food, score 0, not over, not paused, timer 0 and delay 8 |
| Snake.SnakeGame.Update | game_dev/games/06_snake.py:352-380 | nothing changes when the game is over or paused; otherwise the timer counts up, and when it reaches the delay it resets to 0 and the snake moves; the invariant (score a multiple of 10, delay in [3, 8], food in the grid and off the snake) is kept |
| Snake.SnakeGame.Move | game_dev/games/06_snake.py:361-380 | the snake advances; eating adds exactly 10, requests growth, respawns the food and lowers the delay by 1 only when the score is a multiple of 50 and the delay is above 3; the game is over exactly when it was, or the head hits the body or a wall |
| Snake.SnakeGame.HandleEvent | game_dev/games/06_snake.py:464-493 | quit and Escape stop the game; SPACE toggles pause only when not over; R resets only when over; direction keys reach the snake only while neither paused nor over; the new state is exactly `EventOf` of the old one |
| Snake.EventOf | game_dev/games/06_snake.py:466-491 | quit, Escape and unknown events change nothing; an event never ends a game, never moves the snake other than back to the restart body, and never changes the score other than resetting it to 0 |
| Snake.EventsOf | game_dev/games/06_snake.py:464-493 | a frame's events handled one by one with `EventOf` up to the first quit or Escape; `EventsNeverMove` states what a batch can change and `SnakeGame.HandleInput` is proved equal to it |
| Snake.EventsNeverMove | game_dev/games/06_snake.py:464-493 | after any batch of events the game is over only if it was, and the body is the old one or the restart body |
| Snake.SnakeGame.HandleInput | game_dev/games/06_snake.py:464-493 | a frame's events are handled in order up to the first quit or Escape: the new state is exactly `EventsOf`, the fold of `EventOf` over them; the result is false exactly when one of them is quit or Escape; the game invariant holds after |
| SpaceShooter.Player.constructor | game_dev/games/07_space_shooter.py:61-76 | the ship takes the given position, size and speed |
| SpaceShooter.Player.HandleInput | game_dev/games/07_space_shooter.py:78-93 | the velocity is -speed, 0 or +speed; right wins when both keys are held; no key gives 0 |
| SpaceShooter.Player.Update | game_dev/games/07_space_shooter.py:95-109 | the ship moves by the velocity and is pushed back so that 0 <= x <= screen width - ship width; a move that stays inside is taken unchanged |
| SpaceShooter.Bullet.Update | game_dev/games/07_space_shooter.py:183-185 | a bullet rises by its speed and keeps everything else |
| SpaceShooter.Enemy.Update | game_dev/games/07_space_shooter.py:250-256 | an enemy falls by its speed; only type 2 drifts sideways |
| SpaceShooter.Explosion.Update | game_dev/games/07_space_shooter.py:328-332 | the radius grows by 3, and the explosion stays active exactly while the new radius is below the maximum |
| SpaceShooter.MoveBullets | game_dev/games/07_space_shooter.py:497-498 | the list keeps its length and order, and every bullet rises by its own speed with its column, speed and flag unchanged |
| SpaceShooter.MoveEnemies | game_dev/games/07_space_shooter.py:516-517 | the list keeps its length and order, and every enemy falls by its own speed with its speed, type and flag unchanged; only a type-2 enemy can move sideways |
| SpaceShooter.GrowExplosions | game_dev/games/07_space_shooter.py:558-559 | the list keeps its length and order, every radius grows by 3, and an explosion stays active exactly while it was active and its new radius is below its maximum |
| SpaceShooter.NewEnemy | game_dev/games/07_space_shooter.py:469-474 | a spawned enemy starts at y = -40, active, at the drawn column, with speed in [2 + difficulty/2, 3 + difficulty/2) |
| SpaceShooter.FirstHit | game_dev/games/07_space_shooter.py:527-530 | the index found is the first enemy from the start index on that the bullet overlaps while both are active; none exactly when there is no such enemy |
| SpaceShooter.BulletStep | game_dev/games/07_space_shooter.py:527-539 | one bullet against the enemy list: at most one hit, on the first active enemy it overlaps; the bullet and that enemy are switched off and one explosion of radius 5 growing to 30 is left; no explosion exactly when the bullet overlaps no active enemy; afterwards the bullet overlaps no active enemy; objects are only switched off, never on |
| SpaceShooter.Resolve | game_dev/games/07_space_shooter.py:526-539 | all bullets in list order, each meeting the enemies the earlier ones left: lists keep their length and objects, flags only go off; the explosions number exactly the bullets switched off and exactly the enemies switched off; afterwards no active bullet overlaps an active enemy |
| SpaceShooter.ResolveSnoc | game_dev/games/07_space_shooter.py:526-539 | handling one more bullet is `BulletStep` of it against the enemies the earlier bullets left |
| SpaceShooter.ResolveHits | game_dev/games/07_space_shooter.py:526-539 | the nested loops compute exactly `Resolve` of the bullets and enemies |
| SpaceShooter.BulletHits | game_dev/games/07_space_shooter.py:527-539 | the inner loop computes exactly `BulletStep` of the bullet and enemies |
| SpaceShooter.Breach | game_dev/games/07_space_shooter.py:520-523 | every enemy is kept, and an enemy stays active exactly when it was active and is not below the bottom edge |
| SpaceShooter.CheckBreaches | game_dev/games/07_space_shooter.py:520-523 | the loop computes exactly `Breach`, and reports a breach exactly when some enemy is below the bottom edge |
| SpaceShooter.ShipBooms | game_dev/games/07_space_shooter.py:542-551 | one explosion of maximum radius 50 at the ship's centre per active enemy touching the ship; none exactly when no active enemy touches it |
| SpaceShooter.PlayerHits | game_dev/games/07_space_shooter.py:542-551 | the ship is hit exactly when an active enemy overlaps it, and the loop's explosions are exactly `ShipBooms` |
| SpaceShooter.CombatOf | game_dev/games/07_space_shooter.py:516-560 | the game is over exactly when a moved enemy is below the bottom edge or an enemy left active by the bullets touches the ship; the hits equal the active bullets used up and the on-screen enemies destroyed; the survivors are active bullets of the input, active on-screen moved enemies and active explosions, and no surviving bullet overlaps a surviving enemy |
| SpaceShooter.CombatSurvivors | game_dev/games/07_space_shooter.py:553-557 | after the hits, the kept bullets are active input bullets, the kept enemies are active on-screen moved enemies, and no kept bullet overlaps a kept enemy |
| SpaceShooter.Combat | game_dev/games/07_space_shooter.py:516-560 | the frame's combat code computes exactly `CombatOf` |
| SpaceShooter.Cooldown | game_dev/games/07_space_shooter.py:488-494 | a shot with the cooldown run out sets it to the delay, which then counts down by one; otherwise it counts down only while positive, so from 0 or more it never goes negative |
| SpaceShooter.NextSpawn | game_dev/games/07_space_shooter.py:504-513 | below the interval the timer just counts up; on reaching it the timer restarts at 0; the difficulty rises by 0.2 exactly when that spawn makes the enemy count a multiple of 10; an even interval of at least 20 stays even, at least 20 and never rises |
| SpaceShooter.ShipOf | game_dev/games/07_space_shooter.py:482-501 | the ship's part of a frame on values: the ship stays on screen, bullets that were active stay active and at or below the top edge, and only the column, bullets and cooldown change |
| SpaceShooter.SpawnOf | game_dev/games/07_space_shooter.py:504-513 | the spawn part of a frame on values: below the interval only the timer counts up; on reaching it the drawn enemy is appended and the timer restarts; only the enemies, timer, interval and difficulty change |
| SpaceShooter.SpaceShooterGame.constructor | game_dev/games/07_space_shooter.py:393-458 | the window size is kept and the game starts in the fresh state of `reset_game`: the ship centred near the bottom, no bullets, enemies or explosions, score 0, not over, cooldown 0, delay 10, spawn timer 0, interval 60, difficulty 1.0 |
| SpaceShooter.SpaceShooterGame.Reset | game_dev/games/07_space_shooter.py:426-458 | the game is back in that fresh state, with a new ship |
| SpaceShooter.SpaceShooterGame.Shoot | game_dev/games/07_space_shooter.py:461-466 | with the cooldown run out, exactly one bullet is appended at the gun and the cooldown becomes the delay; otherwise nothing changes; every other field is kept |
| SpaceShooter.SpaceShooterGame.SpawnEnemy | game_dev/games/07_space_shooter.py:469-473 | exactly one `NewEnemy` for the drawn column, speed and kind at the current difficulty is appended; every other field is kept |
| SpaceShooter.SpaceShooterGame.Update | game_dev/games/07_space_shooter.py:476-560 | a finished game does not change; otherwise the new state is `ShipOf`, then `SpawnOf`, then the combat of `CombatOf` with 10 points per hit, and the invariant (ship on screen, score a multiple of 10, cooldown in [0, delay], interval in [20, 60] and even, only active objects in the lists) is kept |
| SpaceShooter.SpaceShooterGame.ShipStep | game_dev/games/07_space_shooter.py:482-501 | the ship moves by its input velocity and is kept inside the screen; a shot is added at the gun exactly when fire is held and the cooldown has run out; the cooldown is `Cooldown`; the bullets are the old ones plus the shot, moved, with those above the top edge dropped; nothing else changes |
| SpaceShooter.SpaceShooterGame.SpawnTick | game_dev/games/07_space_shooter.py:504-513 | the timer, interval and difficulty become `NextSpawn` of the old ones and the enemy count; the drawn enemy is appended exactly when the timer reaches the interval; the spawn invariant (interval even and in [20, 60], timer below it, difficulty at least 1) is kept and nothing else changes |
| SpaceShooter.SpaceShooterGame.CombatStep | game_dev/games/07_space_shooter.py:516-560 | the lists become those of `CombatOf` against the ship's rectangle, the score gains exactly 10 per hit, game over is set exactly when it was set or `CombatOf` says so, and the ship, cooldown and spawn fields do not change |
| SpaceShooter.SpaceShooterGame.HandleEvent | game_dev/games/07_space_shooter.py:627-641 | quit and Escape stop the game; R restarts only a finished game; any other event changes nothing |
| SpaceShooter.IntervalFloor | game_dev/games/07_space_shooter.py:510-513 | lowering the interval by 2 only while above 20, from an even start of at least 20, never takes it below 20 or above its start |
| CatchBall.Paddle.constructor | game_dev/games/05_catch_ball.py:59-76 | the paddle takes the given position, size and speed |
| CatchBall.Paddle.HandleInput | game_dev/games/05_catch_ball.py:78-93 | the velocity is -speed, 0 or +speed; right wins over left; left alone gives -speed; no key gives 0 |
| CatchBall.Paddle.Update | game_dev/games/05_catch_ball.py:95-109 | the paddle moves by the velocity and is pushed back so that 0 <= x <= screen width - paddle width |
| CatchBall.Ball.Update | game_dev/games/05_catch_ball.py:168-171 | an active ball falls by its speed; an inactive one stays; nothing else changes |
| CatchBall.Ball.CheckCollision | game_dev/games/05_catch_ball.py:183-210 | a ball is caught exactly when it is active, its square overlaps the paddle and its centre is above the paddle's middle line; catching switches it off |
| CatchBall.BallStep | game_dev/games/05_catch_ball.py:325-337 | a ball is caught or lost at most once, never both, and only while active; a caught or lost ball is switched off |
| CatchBall.ActiveAfterFrame | game_dev/games/05_catch_ball.py:325-340 | after a frame the active balls are those before, less the caught and the lost |
| CatchBall.SurvivorsValid | game_dev/games/05_catch_ball.py:340 | the kept balls are all active with the standard radius, and number those before less the caught and the lost |
| CatchBall.UpdateBalls | game_dev/games/05_catch_ball.py:324-337 | the loop leaves every ball as one `BallStep` leaves it, in list order; the score rises by 10 per catch, lives fall by 1 per lost ball, and the game is over exactly when it was, or a ball was lost and lives reached 0 |
| CatchBall.FrameBalls | game_dev/games/05_catch_ball.py:324-340 | the kept balls are exactly the active ones among the balls after their `BallStep`, in order; the score rises by 10 per catch and lives fall by 1 per lost ball; the game is over exactly when lives <= 0, lives stay at most 3 and the score a non-negative multiple of 10 |
| CatchBall.CatchBallGame.constructor | game_dev/games/05_catch_ball.py:231-254 | a new game is in the fresh state and satisfies the invariant |
| CatchBall.CatchBallGame.Reset | game_dev/games/05_catch_ball.py:256-281 | no balls, score 0, 3 lives, not over, timer 0, interval 60, difficulty 1, paddle centred near the bottom |
| CatchBall.CatchBallGame.SpawnBall | game_dev/games/05_catch_ball.py:283-297 | exactly one active ball of radius 12 is appended at the top, and nothing else changes |
| CatchBall.CatchBallGame.Update | game_dev/games/05_catch_ball.py:299-340 | a finished game does not change; otherwise the paddle follows the keys and stays on screen, the spawn fields become `NextSpawn`, and with the drawn ball appended when the timer reaches the interval the balls become the active ones after their `BallStep` against the moved paddle, the score gains 10 per catch and lives lose 1 per lost ball, and the game is over exactly when lives <= 0; the invariant is kept |
| CatchBall.NextSpawn | game_dev/games/05_catch_ball.py:312-321 | below the interval the timer just counts up; on reaching it the timer restarts at 0; the difficulty rises by 0.5 exactly when that spawn makes the ball count a multiple of 5, and the interval drops exactly when the difficulty rises and the interval is above 30; an even interval of at least 30 stays even, at least 30 and never rises |
| CatchBall.CatchBallGame.PaddleStep | game_dev/games/05_catch_ball.py:305-309 | the paddle follows the held keys and stays on screen |
| CatchBall.CatchBallGame.SpawnTick | game_dev/games/05_catch_ball.py:312-321 | every interval frames a ball appears and the timer resets; when the list then holds a multiple of 5 balls the difficulty rises by 0.5 and the interval shrinks by 2 down to 30; the timer, interval and difficulty are exactly `NextSpawn` |
| CatchBall.CatchBallGame.BallsStep | game_dev/games/05_catch_ball.py:324-340 | the balls become the active ones after their `BallStep`, the score rises by 10 per catch, lives fall by 1 per lost ball, the game is over exactly when lives <= 0, and the spawn fields do not change |
| CatchBall.CatchBallGame.HandleEvent | game_dev/games/05_catch_ball.py:400-408 | quit and Escape stop; SPACE restarts only a finished game; anything else changes nothing |
| Score.AddTens | game_dev/games/07_space_shooter.py:539 | adding tens keeps a number's last digit and never lowers it, so a score that only gains 10 at a time stays a multiple of 10 |
| MovingBall.Bounce | game_dev/games/03_moving_ball.py:106-119 | a ball touching a wall along an axis is put back at radius distance inside and its speed along that axis reversed; otherwise position and speed are kept; the speed's size never changes |
| MovingBall.BounceSettles | game_dev/games/03_moving_ball.py:106-119 | bouncing again right away leaves the position where the first bounce put it |
| MovingBall.Ball.constructor | game_dev/games/03_moving_ball.py:51-71 | the ball takes the given position, radius and speeds |
| MovingBall.Ball.Update | game_dev/games/03_moving_ball.py:73-81 | the new position is the old one plus the speed; the speed is kept |
| MovingBall.Ball.CheckBoundary | game_dev/games/03_moving_ball.py:93-119 | each axis bounces independently, and a ball that fits ends with its centre at least a radius inside every wall |
| MovingBall.TrailMove | game_dev/games/03_moving_ball.py:219-226 | the trail version moves first and then reverses the speed along an axis whose wall is touched, without pushing the ball back inside |
| MovingBall.LastN | game_dev/games/03_moving_ball.py:229-231 | the last k elements of a list, all of it when shorter; what precedes them is the rest of the list |
| MovingBall.LastNPush | game_dev/games/03_moving_ball.py:229-231 | appending and popping the oldest entry once the list grows past k keeps exactly the last k elements |
| MovingBall.RunWithTrail | game_dev/games/03_moving_ball.py:201-231 | after any number of frames the ball is where the frame rule takes it and the trail holds the last 50 positions, oldest first, never more than 50 |
| KeyboardControl.AxisVelocity | game_dev/games/04_keyboard_control.py:97-107 | on one axis the key towards the positive side overrides the other; no key gives 0 |
| KeyboardControl.Velocity | game_dev/games/04_keyboard_control.py:92-112 | the velocity the held keys select; its cases are stated by `VelocityCases`, and `Player.HandleInput` and `KeyboardGame.Frame` set exactly this velocity |
| KeyboardControl.VelocityCases | game_dev/games/04_keyboard_control.py:92-112 | down overrides up and right overrides left; one axis keeps the full speed, a diagonal gets 0.707 of it on each axis, no key means no movement |
| KeyboardControl.Player.constructor | game_dev/games/04_keyboard_control.py:51-74 | the player takes the given position, size and speed, standing still |
| KeyboardControl.Player.HandleInput | game_dev/games/04_keyboard_control.py:76-112 | the velocity becomes the one the held keys select, and the position is kept |
| KeyboardControl.Player.Update | game_dev/games/04_keyboard_control.py:114-135 | the player moves by the velocity and each axis is pushed back inside the window separately, so a player that fits stays inside |
| KeyboardControl.AfterCollect | game_dev/games/04_keyboard_control.py:273-275 | a food touched by the player becomes collected; nothing else about it changes |
| KeyboardControl.CollectFoods | game_dev/games/04_keyboard_control.py:272-276 | every touched food is marked collected, and the points gained are 10 per newly collected food, never negative |
| KeyboardControl.Uncollect | game_dev/games/04_keyboard_control.py:258-259 | every food is marked uncollected again and nothing else about it changes |
| KeyboardControl.KeyboardGame.constructor | game_dev/games/04_keyboard_control.py:230-241 | the player starts in the middle, score 0, and the foods at the drawn spots, none collected |
| KeyboardControl.KeyboardGame.Frame | game_dev/games/04_keyboard_control.py:263-276 | the velocity is `Velocity` of the held keys; the player moves by it and is pushed back inside the window on each axis; every food the moved player touches is marked collected and nothing else about the foods changes; the score gains exactly 10 per newly collected food, so it keeps counting 10 per collected food and never drops |
| KeyboardControl.KeyboardGame.HandleEvent | game_dev/games/04_keyboard_control.py:247-259 | R puts the player back in the middle, zeroes the score and uncollects all food; quit and Escape stop; other events change nothing |
| KeyboardControl.BoostSpeed | game_dev/games/04_keyboard_control.py:342-345 | the speed doubles exactly while SHIFT is held |
| KeyboardControl.MaxMin | game_dev/games/04_keyboard_control.py:370-371 | `max(0, min(v, hi))` lies in [0, hi] and leaves a value already there unchanged |
| KeyboardControl.MaxMinKeepsInside | game_dev/games/04_keyboard_control.py:370-371 | for a square that fits, the max/min clamp equals the player's if/elif clamp |
| KeyboardControl.BoostFrame | game_dev/games/04_keyboard_control.py:339-371 | one boost frame moves by the boosted velocity and ends with the square inside the window |
| Geometry.Trunc | game_dev/games/07_space_shooter.py:142 | `int()` on a float truncates toward zero |
| Geometry.CollideSymmetric | game_dev/games/07_space_shooter.py:529 | rectangle collision does not depend on which rectangle asks |
| Geometry.CollideIffCommonPoint | game_dev/games/07_space_shooter.py:529 | two rectangles collide exactly when some integer point lies inside both |
| Geometry.Clamp | game_dev/games/04_keyboard_control.py:370 | `max(lo, min(v, hi))` lies in [lo, hi], equals v inside and the nearer bound outside |
| Geometry.KeepInside | game_dev/games/07_space_shooter.py:106-109 | the if/elif clamp of the ships and paddles equals `Clamp` into [0, bound - size] for an object that fits |
| Geometry.KeepInsideReal | game_dev/games/04_keyboard_control.py:127-135 | the same clamp on floats lands in [0, bound - size] for an object that fits and leaves a position already inside unchanged |
| GameExercises.BlinkStep | game_dev/game_dev_exercises.py:205-209 | the timer counts frames and restarts on reaching 30, the colour index then moving to the next of the 5 colours; both stay in range |
| GameExercises.Blink | game_dev/game_dev_exercises.py:193-209 | after n frames the timer is n mod 30 and the colour index is (n div 30) mod 5: one change per 30 frames, cycling through the colours |
| GameExercises.CycleStep | game_dev/game_dev_exercises.py:209 | stepping the colour index modulo 5 from q mod 5 gives (q + 1) mod 5 |
| GameExercises.DivMod | game_dev/game_dev_exercises.py:206-209 | division by 30 recovers the frame quotient and remainder the loop builds |
| GameExercises.Scoreboard | game_dev/game_dev_exercises.py:240-253 | the score is 10 times the SPACE presses since the last R, so always a non-negative multiple of 10 |
| GameExercises.DragStep | game_dev/game_dev_exercises.py:308-322 | a left click inside the square, edges included, starts a drag with the corner-to-pointer offset; releasing the left button stops it; motion while dragging moves the corner to pointer plus offset; nothing else moves the square |
| GameExercises.DragFollows | game_dev/game_dev_exercises.py:308-322 | after a press on the square and any pointer moves the square keeps the offset it had from the pointer at the press |
| GameExercises.DragMovesKeepsOffset | game_dev/game_dev_exercises.py:320-322 | pointer motion never starts or stops a drag nor changes the offset |
| GameExercises.ResizeStep | game_dev/game_dev_exercises.py:363-370 | UP gives exactly `min(radius + 5, 200)` and DOWN `max(radius - 5, 10)`, both keeping the colour; LEFT and RIGHT keep the radius and give the index congruent to colour - 1 and colour + 1 modulo 3, in [0, 3); a radius in [10, 200] stays there |
| GameExercises.ColorCycle | game_dev/game_dev_exercises.py:367-370 | LEFT undoes RIGHT on the colour index |
| GameExercises.Resize | game_dev/game_dev_exercises.py:351-370 | over any key sequence from radius 50 the radius stays in [10, 200] on the 5-pixel grid and the colour index in [0, 3) |
| GameExercises.MarqueeStep | game_dev/game_dev_exercises.py:426-430 | x advances by 5 and reappears at -50 once it has passed 800; it stays within [-50, 800] |
| GameExercises.Marquee | game_dev/game_dev_exercises.py:412-430 | from x = 0 the square stays in [-50, 800] on the 5-pixel grid |
| GameExercises.MaxMinInt | game_dev/game_dev_exercises.py:577-578 | `max(0, min(v, hi))` is the clamp of v into [0, hi] |
| GameExercises.CollectorMove | game_dev/game_dev_exercises.py:566-578 | each held key moves by 5 (opposite keys cancel), then the square is clamped into the 800 x 600 window; with no net key a square inside stays put |
| GameExercises.CollectCoins | game_dev/game_dev_exercises.py:580-587 | the coins left are exactly the untouched ones in their original order, and each removed coin scores 10 |
| GameExercises.CoinFrame | game_dev/game_dev_exercises.py:566-587 | one frame moves the collector into the window and then collects, with the same guarantees |
| GameExercises.FallAll | game_dev/game_dev_exercises.py:709-710 | every obstacle moves down by its own speed, and the list keeps its length and order |
| GameExercises.MoveObstacles | game_dev/game_dev_exercises.py:709-715 | the obstacles left are the fallen ones still at or above y = 600, in order, and the dodge count grows by the number removed |
| GameExercises.AnyHit | game_dev/game_dev_exercises.py:718-723 | the loop that stops at the first hit reports a hit exactly when some obstacle overlaps the player |
| GameExercises.NextDelay | game_dev/game_dev_exercises.py:726-727 | the spawn delay drops by one or stays, never below 15 |
| GameExercises.DodgeGame.constructor | game_dev/game_dev_exercises.py:645-661 | the game starts with the player at x = 375, no obstacles, timer 0, delay 40 and no dodges |
| GameExercises.DodgeGame.HandleKey | game_dev/game_dev_exercises.py:670-681 | Escape stops; R after a game over clears the obstacles, moves the player back and resets delay and dodges (not the spawn timer); any other key changes nothing |
| GameExercises.DodgeGame.Frame | game_dev/game_dev_exercises.py:683-727 | a finished game does not change; in a running one the player moves by 7 per held key (opposite keys cancel) and is clamped into [0, 750]; the timer restarts at 0 and an obstacle at the drawn column is appended exactly when it reaches the delay, otherwise it counts up; the obstacles become the fallen ones still at or above y = 600 and the dodge count grows by the number removed; the game ends exactly when an obstacle overlaps the player; the delay is `NextDelay` of the new dodge count, so it stays in [15, 40] and never rises |
| GameLessons.HeldMove | game_dev/game_dev_quick_start.py:283-296 | LEFT/RIGHT and UP/DOWN move by the speed (opposite keys cancel) and each coordinate is clamped into the window; without a key on an axis a position inside is kept |
| GameLessons.ReplayInside | game_dev/game_dev_quick_start.py:283-296 | a square that starts inside the window stays inside over any run of frames |
| GameLessons.ReplayIdle | game_dev/game_dev_quick_start.py:283-296 | with no key ever held the square stays where it started |
| GameLessons.CollectorIsLessonMove | game_dev/game_dev_exercises.py:566-578 | the coin collector of exercise 601 moves by exactly the lesson rule with speed 5 and a 40-pixel square |
| GameLessons.Lesson4 | game_dev/game_dev_quick_start.py:283-296 | the box ends where replaying the frames puts it, within [0, 750] x [0, 550] |
| GameLessons.Lesson5 | game_dev/game_dev_quick_start.py:381-400 | the ball stays within [20, 780] x [20, 580] and its speeds keep their sizes 5 and 3, only their signs flipping |
| GameLessons.DistanceBySquares | game_dev/game_dev_quick_start.py:497-503 | comparing a distance with a non-negative bound is the same as comparing its square with the bound's square |
| GameLessons.Lesson6 | game_dev/game_dev_quick_start.py:477-503 | the player stays within [0, 760] x [0, 560], and after a frame the two flags say exactly whether it overlaps the target rectangle and whether its centre is nearer the circle's than 20 + 40 |
| GameLessons.RunLesson | game_dev/game_dev_quick_start.py:631-652 | exactly the numbers 2 to 8 start a lesson; any other choice is invalid |
| GameLessons.RunLessonOneToOne | game_dev/game_dev_quick_start.py:639-647 | different numbers start different lessons and every lesson has a number |
| BatchRename.GlobStar | automation/scripts/batch_rename.py:338-341 | `*` matches every name |
| BatchRename.GlobLiteral | automation/scripts/batch_rename.py:341 | a pattern without wildcards matches exactly the name equal to it |
| BatchRename.GlobStarSuffix | automation/scripts/batch_rename.py:143 | `*` followed by a literal suffix matches exactly the names ending with that suffix, case-sensitively |
| BatchRename.GetMatchingFiles | automation/scripts/batch_rename.py:320-341 | a missing folder gives no names; otherwise the names returned are exactly the listed names the pattern matches |
| BatchRename.StarShortcut | automation/scripts/batch_rename.py:338-341 | the shortcut for `*` returns what filtering the listing with `*` would |
| BatchRename.WithDot | automation/scripts/batch_rename.py:137-140 | the extension starts with a dot: unchanged when it had one, a dot added in front otherwise |
| BatchRename.WithDotIdempotent | automation/scripts/batch_rename.py:384-385 | adding the dot twice is the same as once |
| BatchRename.Target | automation/scripts/batch_rename.py:29-317 | the new name each renaming helper gives one listed file, or none when the helper skips it; `SuffixBeforeExtension`, `SequentialName`, `LowercaseIdempotent` and `ReplaceTouchesOnlyMatches` state its cases |
| BatchRename.SuffixBeforeExtension | automation/scripts/batch_rename.py:98-103 | `add_suffix` puts the suffix between the stem and the extension, both kept |
| BatchRename.SequentialName | automation/scripts/batch_rename.py:198-200 | the sequential name is the base, the counter with leading zeros to at least `digits` digits and never cut short, then the file's own extension |
| BatchRename.LowercaseIdempotent | automation/scripts/batch_rename.py:296-306 | a name already in lower case is skipped, so lowering twice renames nothing more |
| BatchRename.ReplaceTouchesOnlyMatches | automation/scripts/batch_rename.py:236-245 | only names containing the search text are renamed; replacing a text by itself gives the name back |
| BatchRename.Step | automation/scripts/batch_rename.py:50-67 | the loop body renames at most one file, only a regular file whose target is free or itself; the renamed file is at its target and its old name gone |
| BatchRename.StepKeepsSize | automation/scripts/batch_rename.py:60-62 | a rename never overwrites, so the folder keeps its number of entries |
| BatchRename.StepKeepsDirectories | automation/scripts/batch_rename.py:53-54 | directories are never renamed |
| BatchRename.RenameInvariants | automation/scripts/batch_rename.py:47-70 | renaming a whole listing keeps the number of entries and all directories, and counts at most one rename per listed name |
| BatchRename.RenameNoFiles | automation/scripts/batch_rename.py:53-54 | a listing naming no regular file of the folder renames nothing and returns 0 |
| BatchRename.SortNamesSorted | automation/scripts/batch_rename.py:190 | `sorted` returns the names in ascending order |
| BatchRename.SortNamesPermutes | automation/scripts/batch_rename.py:190 | `sorted` returns the same names, each as often as before |
| BatchRename.SimulateRename | automation/scripts/batch_rename.py:373-394 | the name `simulate_rename` shows for one file; `SimulateAgrees`, `SimulateSequentialUnchanged` and `SimulateLowercaseIdempotent` tie it to the renaming helpers |
| BatchRename.SimulateAgrees | automation/scripts/batch_rename.py:373-394 | the preview shows exactly the new name each renaming operation other than `sequential` gives a file, and the name unchanged where the operation skips it |
| BatchRename.SimulateSequentialUnchanged | automation/scripts/batch_rename.py:394 | `sequential` is not a word the preview knows, so its preview shows the name unchanged |
| BatchRename.SimulateLowercaseIdempotent | automation/scripts/batch_rename.py:391-394 | previewing `lowercase` twice is the same as once, and an unknown word changes nothing |
| BatchRename.Preview | automation/scripts/batch_rename.py:344-370 | the pairs `preview_rename` prints for the sorted matching files; `PreviewPairs` and `PreviewSequentialEmpty` state which pairs appear |
| BatchRename.PreviewPairs | automation/scripts/batch_rename.py:361-370 | every pair the preview prints is a regular file of the folder together with a simulated name that differs from it |
| BatchRename.PreviewSequentialEmpty | automation/scripts/batch_rename.py:361-370 | a preview of `sequential` prints nothing |
| BatchRename.ExtensionCaseMissed | automation/scripts/batch_rename.py:143-146 | `A.TXT` asked to go from txt to md is not even listed by the case-sensitive pattern, though the loop's lower-case test and the preview (`A.md`) accept it |
| BatchRename.ExtensionAnyCaseSeesAll | automation/scripts/batch_rename.py:145-153 | with the whole listing every name whose extension matches in any letter case reaches the renaming step and gets the dotted new extension; `A.TXT` does |
| BatchRename.Folder.constructor | automation/scripts/batch_rename.py:320-341 | the folder holds the given entries |
| BatchRename.Folder.RenameOne | automation/scripts/batch_rename.py:50-67 | one pass of the loop body changes the folder and the count as `Step` says |
| BatchRename.Folder.Apply | automation/scripts/batch_rename.py:47-70 | the loop over a listing changes the folder and returns the count as renaming the listing name by name does |
| BatchRename.Folder.AddPrefix | automation/scripts/batch_rename.py:29-70 | the files the pattern lists get the prefix in front, with the skip rules |
| BatchRename.Folder.AddSuffix | automation/scripts/batch_rename.py:73-114 | the files the pattern lists get the suffix before their extension, with the skip rules |
| BatchRename.Folder.ChangeExtension | automation/scripts/batch_rename.py:117-165 | with the dotted extensions, the files the case-sensitive `*old_ext` listing shows get the new extension |
| BatchRename.Folder.ChangeExtensionAnyCase | automation/scripts/batch_rename.py:145-165 | the corrected version looks at the whole listing, so the loop's lower-case test decides alone |
| BatchRename.Folder.SequentialRename | automation/scripts/batch_rename.py:168-211 | the sorted listing is numbered from `start`, one number per listed name, renamed or not |
| BatchRename.Folder.FindReplace | automation/scripts/batch_rename.py:214-257 | the listed files containing the search text get every occurrence replaced |
| BatchRename.Folder.AddDatePrefix | automation/scripts/batch_rename.py:260-276 | the listed files get the date prefix in front, as `add_prefix` does |
| BatchRename.Folder.MakeLowercase | automation/scripts/batch_rename.py:279-317 | the listed files not already in lower case are renamed to lower case |
| MergeSorted.MergeUpTo | python/test.py:14-27 | merging i elements of one input with j of the other gives i + j elements |
| MergeSorted.MergeBack | python/test.py:14-27 | the merge of both inputs has their combined length |
| MergeSorted.PermutesTakingA | python/test.py:15-17 | the step writing the element of `nums1` keeps every element counted |
| MergeSorted.PermutesTakingB | python/test.py:18-20 | the step writing the element of `nums2` keeps every element counted |
| MergeSorted.MergePermutes | python/test.py:14-27 | the merge of two prefixes holds exactly their elements, each as often |
| MergeSorted.SortedAppend | python/test.py:14-21 | appending an element at least as large as everything keeps a sequence sorted |
| MergeSorted.MergeBounded | python/test.py:14-27 | a bound on both prefixes bounds their merge |
| MergeSorted.MergeSorts | python/test.py:14-27 | merging sorted inputs gives a sorted sequence |
| MergeSorted.MergeBackPermutes | python/test.py:5-27 | the merged array is a permutation of the two inputs together |
| MergeSorted.MergeBackSorted | python/test.py:5-27 | merging two sorted inputs gives a sorted array |
| MergeSorted.Example | python/test.py:34-42 | `[1,2,3]` and `[2,5,6]` merge to `[1,2,2,3,5,6]` |
| MergeSorted.TakeFromA | python/test.py:15-17 | when the last unread element of `nums1` is the larger, it is the one that belongs at slot `p`, and the rest of the merge is that of what remains |
| MergeSorted.TakeFromB | python/test.py:18-20 | when `nums1` is used up or its last unread element is not larger, the last unread element of `nums2` belongs at slot `p` |
| MergeSorted.Exhausted | python/test.py:24-27 | once one input is used up, the merge of what remains is the other input's unread prefix |
| MergeSorted.CopyRest | python/test.py:24-27 | the second loop copies `nums2[0..p2]` to the same positions of `nums1` and touches nothing above |
| MergeSorted.MergeTails | python/test.py:14-21 | the first loop stops with one input used up, the unread part of `nums1` untouched and every slot above the unread parts holding its merged element |
| MergeSorted.Merge | python/test.py:5-27 | afterwards `nums1` holds the merge of its first m elements and `nums2`, so it is sorted and a permutation of both when they are sorted |
| ExerciseAnswers.IsPrime | python/exercises_answers.py:132-145 | the answer is true exactly when n is at least 2 and no d with 2 <= d and d * d <= n divides it; the square-root bound is modelled as d * d <= n |
| ExerciseAnswers.SmallCofactor | python/exercises_answers.py:141 | a divisor above the square root has a cofactor below it, which is why checking up to the root suffices |
| ExerciseAnswers.PrimeIffNoSmallDivisor | python/exercises_answers.py:141 | having no divisor up to the square root is the same as being prime |
| ExerciseAnswers.IsPrimeExamples | python/exercises_answers.py:148-153 | of the listed test numbers 2, 3, 5, 7, 11, 17 and 23 are prime and 4, 15 and 20 are not |
| ExerciseAnswers.RemoveDuplicatesOrdered | python/exercises_answers.py:284-289 | the loop's result is the de-duplication of the list |
| ExerciseAnswers.Dedup | python/exercises_answers.py:284-289 | the ordered de-duplication of a list; `DedupProperties` proves it free of repeats, with the same elements in first-occurrence order, and `RemoveDuplicatesOrdered` proves the loop equal to it |
| ExerciseAnswers.FirstIndex | python/exercises_answers.py:286-288 | the first position holding an element |
| ExerciseAnswers.DedupProperties | python/exercises_answers.py:284-289 | the result has no repeats, holds exactly the elements of the list, and orders them by first occurrence |
| ExerciseAnswers.DedupExample | python/exercises_answers.py:281-291 | `[1,2,2,3,3,3,4,5,5]` gives `[1,2,3,4,5]` |
| ExerciseAnswers.CheckPasswordStrength | python/exercises_answers.py:240-254 | fewer than 8 characters is weak whatever the characters; otherwise strong with all of upper case, lower case and digit, medium with some, weak with none |
| ExerciseAnswers.StrengthMonotone | python/exercises_answers.py:245-254 | for a password of 8 or more characters, adding characters never lowers a strong or medium rating |
| ExerciseAnswers.PasswordExamples | python/exercises_answers.py:256-259 | "abc", "abcdefg" and "Abc123" are weak for their length (the comment's 中 for "Abc123" does not hold) and "Abcdefg123" is strong |
| ExerciseAnswers.Calculator | python/exercises_answers.py:220-233 | division by zero and an unknown operation give their messages; the four operations give numbers, and on exact reals a quotient times the divisor gives the dividend back |
| ExerciseAnswers.CalculatorInverses | python/exercises_answers.py:220-233 | on exact reals, subtraction undoes addition and division by a non-zero number undoes multiplication |
| ExerciseAnswers.CalculatorOnIntegers | python/exercises_answers.py:222-227 | on integers, addition, subtraction and multiplication give the integer results |
| ExerciseAnswers.CalculatorExamples | python/exercises_answers.py:235-236 | 10 + 5 is 15 and 10 / 5 is 2 |
| ExerciseAnswers.WordCounter | python/exercises_answers.py:263-268 | the second count is the length of the text without its spaces |
| ExerciseAnswers.SplitWords | python/exercises_answers.py:265 | splitting words joined by single spaces gives the words back |
| ExerciseAnswers.SpacesOfJoin | python/exercises_answers.py:267 | words joined by single spaces hold one space fewer than words |
| ExerciseAnswers.WordCounterOfJoin | python/exercises_answers.py:263-268 | for space-free words joined by single spaces the counts are the number of words and the length without the joining spaces |
| ExerciseAnswers.WordCounterExample | python/exercises_answers.py:270-273 | "Hello Python World" gives (3, 16), not the 15 of the comment |
| ExerciseAnswers.CelsiusToFahrenheit | python/exercises_answers.py:207-209 | 0 degrees Celsius is 32 Fahrenheit |
| ExerciseAnswers.FahrenheitToCelsius | python/exercises_answers.py:211-213 | 32 Fahrenheit is 0 degrees Celsius |
| ExerciseAnswers.ConversionsInverse | python/exercises_answers.py:207-216 | the two conversions are inverse to each other on exact reals; 25 degrees Celsius is 77 Fahrenheit |
| FileOrganizer.CategoryFrom | automation/scripts/file_organizer.py:97-101 | the category found is 其他 or the name of a table entry, from the given position on, whose list holds the extension |
| FileOrganizer.FindCategory | automation/scripts/file_organizer.py:97-101 | the scan that stops at the first list holding the extension returns the category of the extension |
| FileOrganizer.FirstMatchIsOnlyMatch | automation/scripts/file_organizer.py:97-101 | when a list shares no extension with the lists before it, the first match is its category exactly when the list holds the extension: the table's order does not matter |
| FileOrganizer.CategoryNamesDistinct | automation/scripts/file_organizer.py:61-71 | the category names differ from each other |
| FileOrganizer.DocumentsApartImages | automation/scripts/file_organizer.py:62-63 | the 文档 and 图片 lists share no extension |
| FileOrganizer.VideosApartImages | automation/scripts/file_organizer.py:62-64 | the 视频 and 图片 lists share no extension |
| FileOrganizer.VideosApartDocuments | automation/scripts/file_organizer.py:63-64 | the 视频 and 文档 lists share no extension |
| FileOrganizer.MusicApartImages | automation/scripts/file_organizer.py:62-65 | the 音乐 and 图片 lists share no extension |
| FileOrganizer.MusicApartDocuments | automation/scripts/file_organizer.py:63-65 | the 音乐 and 文档 lists share no extension |
| FileOrganizer.MusicApartVideos | automation/scripts/file_organizer.py:64-65 | the 音乐 and 视频 lists share no extension |
| FileOrganizer.ArchivesApartImages | automation/scripts/file_organizer.py:62-66 | the 压缩包 and 图片 lists share no extension |
| FileOrganizer.ArchivesApartDocuments | automation/scripts/file_organizer.py:63-66 | the 压缩包 and 文档 lists share no extension |
| FileOrganizer.ArchivesApartVideos | automation/scripts/file_organizer.py:64-66 | the 压缩包 and 视频 lists share no extension |
| FileOrganizer.ArchivesApartMusic | automation/scripts/file_organizer.py:65-66 | the 压缩包 and 音乐 lists share no extension |
| FileOrganizer.CodeApartImages | automation/scripts/file_organizer.py:62-67 | the 代码 and 图片 lists share no extension |
| FileOrganizer.CodeApartDocuments | automation/scripts/file_organizer.py:63-67 | the 代码 and 文档 lists share no extension |
| FileOrganizer.CodeApartVideos | automation/scripts/file_organizer.py:64-67 | the 代码 and 视频 lists share no extension |
| FileOrganizer.CodeApartMusic | automation/scripts/file_organizer.py:65-67 | the 代码 and 音乐 lists share no extension |
| FileOrganizer.CodeApartArchives | automation/scripts/file_organizer.py:66-67 | the 代码 and 压缩包 lists share no extension |
| FileOrganizer.ExecutablesApartImages | automation/scripts/file_organizer.py:62-68 | the 可执行文件 and 图片 lists share no extension |
| FileOrganizer.ExecutablesApartDocuments | automation/scripts/file_organizer.py:63-68 | the 可执行文件 and 文档 lists share no extension |
| FileOrganizer.ExecutablesApartVideos | automation/scripts/file_organizer.py:64-68 | the 可执行文件 and 视频 lists share no extension |
| FileOrganizer.ExecutablesApartMusic | automation/scripts/file_organizer.py:65-68 | the 可执行文件 and 音乐 lists share no extension |
| FileOrganizer.ExecutablesApartArchives | automation/scripts/file_organizer.py:66-68 | the 可执行文件 and 压缩包 lists share no extension |
| FileOrganizer.ExecutablesApartCode | automation/scripts/file_organizer.py:67-68 | the 可执行文件 and 代码 lists share no extension |
| FileOrganizer.FontsApartImages | automation/scripts/file_organizer.py:62-69 | the 字体 and 图片 lists share no extension |
| FileOrganizer.FontsApartDocuments | automation/scripts/file_organizer.py:63-69 | the 字体 and 文档 lists share no extension |
| FileOrganizer.FontsApartVideos | automation/scripts/file_organizer.py:64-69 | the 字体 and 视频 lists share no extension |
| FileOrganizer.FontsApartMusic | automation/scripts/file_organizer.py:65-69 | the 字体 and 音乐 lists share no extension |
| FileOrganizer.FontsApartArchives | automation/scripts/file_organizer.py:66-69 | the 字体 and 压缩包 lists share no extension |
| FileOrganizer.FontsApartCode | automation/scripts/file_organizer.py:67-69 | the 字体 and 代码 lists share no extension |
| FileOrganizer.FontsApartExecutables | automation/scripts/file_organizer.py:68-69 | the 字体 and 可执行文件 lists share no extension |
| FileOrganizer.DocumentsDisjoint | automation/scripts/file_organizer.py:62-63 | the 文档 list shares no extension with any list before it |
| FileOrganizer.VideosDisjoint | automation/scripts/file_organizer.py:62-64 | the 视频 list shares no extension with any list before it |
| FileOrganizer.MusicDisjoint | automation/scripts/file_organizer.py:62-65 | the 音乐 list shares no extension with any list before it |
| FileOrganizer.ArchivesDisjoint | automation/scripts/file_organizer.py:62-66 | the 压缩包 list shares no extension with any list before it |
| FileOrganizer.CodeDisjoint | automation/scripts/file_organizer.py:62-67 | the 代码 list shares no extension with any list before it |
| FileOrganizer.ExecutablesDisjoint | automation/scripts/file_organizer.py:62-68 | the 可执行文件 list shares no extension with any list before it |
| FileOrganizer.FontsDisjoint | automation/scripts/file_organizer.py:62-69 | the 字体 list shares no extension with any list before it |
| FileOrganizer.CategoryOfIff | automation/scripts/file_organizer.py:92-101 | a file goes to a category exactly when the category's list holds its lower-cased extension |
| FileOrganizer.BumpLookup | automation/scripts/file_organizer.py:108 | `stats[c] += 1` raises the count of c by one and leaves every other count alone |
| FileOrganizer.BumpTotal | automation/scripts/file_organizer.py:108 | each file adds one to the total |
| FileOrganizer.BumpKeys | automation/scripts/file_organizer.py:108 | the counted categories gain c; keys stay distinct and counts positive |
| FileOrganizer.StatsBy | automation/scripts/file_organizer.py:89-108 | the per-category counts of a list of files; `StatsWellFormed`, `StatsCount` and `StatsTotal` state them and `Folder.OrganizeAll` is proved equal to them |
| FileOrganizer.StatsWellFormed | automation/scripts/file_organizer.py:74-108 | the statistics name each category once, each with a positive count |
| FileOrganizer.StatsCount | automation/scripts/file_organizer.py:89-108 | the count of a category is the number of files that belong to it |
| FileOrganizer.StatsTotal | automation/scripts/file_organizer.py:89-108 | the counts add up to the number of files |
| FileOrganizer.MoveOne | automation/scripts/file_organizer.py:110-130 | the move raises (None) exactly when a regular file at the top already has the category folder's name, as `os.makedirs` does; otherwise it takes the file out of the top folder and leaves the other top-level files as they were |
| FileOrganizer.MoveKeeps | automation/scripts/file_organizer.py:114-128 | when the move does not raise, the file lands in its category's folder, under its own name when no entry of that folder (file or sub-folder) has it and under the timestamped name otherwise; other category folders are untouched, and the entries already in its folder stay unless the timestamped name itself is taken |
| FileOrganizer.MoveAll | automation/scripts/file_organizer.py:89-130 | the folder after moving each listed file into its category folder in turn, stopped by the first move that raises; `MoveAllEmptiesTop`, `MoveAllRaisedStays`, `MoveAllNoClash` and `DocumentsFileOrder` state it and `Folder.OrganizeAll` is proved equal to it |
| FileOrganizer.MoveAllEmptiesTop | automation/scripts/file_organizer.py:89-130 | a run that does not raise leaves none of the listed files at the top; in every run everything still at the top was there before, unchanged, and after a full run it is not listed |
| FileOrganizer.MoveAllRaisedStays | automation/scripts/file_organizer.py:89-130 | once a move has raised, the later files change nothing: the exception ends the loop |
| FileOrganizer.MoveAllNoClash | automation/scripts/file_organizer.py:110-116 | with no top-level file named like a category folder, no move raises |
| FileOrganizer.NoExtensionOther | automation/scripts/file_organizer.py:94-103 | a name without a dot has no extension and goes to 其他 |
| FileOrganizer.OtherFileRaises | automation/scripts/file_organizer.py:110-116 | a regular file named 其他 belongs in the folder of its own name, so creating that folder raises and the folder is unchanged |
| FileOrganizer.DocumentsFileOrder | automation/scripts/file_organizer.py:89-116 | with a file 文档 beside a.pdf, moving a.pdf first raises, while moving 文档 into 其他 first lets a.pdf through: the listing order decides |
| FileOrganizer.RegularFiles | automation/scripts/file_organizer.py:78-79 | the files looked at are exactly the listed entries that are regular files |
| FileOrganizer.Folder.constructor | automation/scripts/file_organizer.py:29 | the folder holds the given tree |
| FileOrganizer.Folder.Move | automation/scripts/file_organizer.py:114-128 | false exactly when `makedirs` raises, and then nothing changes; otherwise the tree changes as `MoveOne` says |
| FileOrganizer.Folder.OrganizeOne | automation/scripts/file_organizer.py:89-130 | one pass counts the file in its category, and moves it unless this is a dry run; a raising move reports it and changes nothing |
| FileOrganizer.Folder.OrganizeAll | automation/scripts/file_organizer.py:89-132 | the loop's counts are the per-category statistics of the files when nothing raises; a dry run never raises and changes nothing; a real run ends in the folder and raise flag of `MoveAll` |
| FileOrganizer.Folder.OrganizeFiles | automation/scripts/file_organizer.py:29-132 | a missing folder gives no statistics and changes nothing; a FileExistsError gives no statistics; otherwise the statistics are those of its regular files; a real run leaves the folder as `MoveAll` does, a dry run leaves it alone |
| FileOrganizer.InsertByCountSorted | automation/scripts/file_organizer.py:164 | inserting by count keeps the largest counts first |
| FileOrganizer.InsertByCountPermutes | automation/scripts/file_organizer.py:164 | inserting adds exactly the one entry |
| FileOrganizer.InsertByCountTotal | automation/scripts/file_organizer.py:164 | inserting adds the entry's count to the total |
| FileOrganizer.SortByCountDesc | automation/scripts/file_organizer.py:164 | `sorted(stats.items(), key=lambda x: -x[1])`; `SortByCountDescSorted`, `SortByCountDescPermutes`, `SortByCountDescStable` and `SortByCountDescTotal` prove it ordered, a permutation, stable and total-preserving |
| FileOrganizer.SortByCountDescSorted | automation/scripts/file_organizer.py:164 | the report lists categories by falling count |
| FileOrganizer.SortByCountDescPermutes | automation/scripts/file_organizer.py:164 | the sorted report holds the same entries |
| FileOrganizer.SortByCountDescTotal | automation/scripts/file_organizer.py:164 | sorting keeps the total |
| FileOrganizer.SortByCountDescStable | automation/scripts/file_organizer.py:164 | the sort is stable: for every count, the categories with that count are reported in the order of the statistics |
| FileOrganizer.Listed | automation/scripts/file_organizer.py:165 | only categories with a positive count are written |
| FileOrganizer.WriteLines | automation/scripts/file_organizer.py:163-170 | the lines written are the positive entries in order, and the total is the sum of all counts |
| FileOrganizer.ReportLines | automation/scripts/file_organizer.py:135-172 | the report lists the positive categories by falling count, and its total is the number of files counted |
| FileOrganizer.TotalAppend | automation/scripts/file_organizer.py:166 | adding a line's count to the running total |
| TextReplacer.Candidates | automation/scripts/text_replacer.py:98-102 | the files processed are exactly the listed names the pattern matches that are regular files |
| TextReplacer.Results | automation/scripts/text_replacer.py:107-111 | the result map holds exactly the processed files with a positive count, each with its count of occurrences |
| TextReplacer.Replaced | automation/scripts/text_replacer.py:106-111 | replacing in some files keeps the set of files |
| TextReplacer.NoMatchNoChange | automation/scripts/text_replacer.py:51-52 | without an occurrence the replacement leaves the content as it was |
| TextReplacer.ReplacedStep | automation/scripts/text_replacer.py:106-108 | processing one more file changes only that file, to its replaced content |
| TextReplacer.ResultsStep | automation/scripts/text_replacer.py:108-110 | processing one more file adds it to the results exactly when its count is positive |
| TextReplacer.Folder.constructor | automation/scripts/text_replacer.py:26 | the folder holds the given files |
| TextReplacer.Folder.ReplaceInFile | automation/scripts/text_replacer.py:26-65 | a file that cannot be read gives -1 and changes nothing; otherwise the count is the number of non-overlapping occurrences, no occurrence writes nothing, and a positive count writes back the content with every occurrence replaced |
| TextReplacer.Folder.ReplaceInFiles | automation/scripts/text_replacer.py:68-115 | the results are those of the matching files, and every matching file holds its replaced content |
| TextReplacer.Folder.ProcessAll | automation/scripts/text_replacer.py:106-115 | the loop over the collected files gives the results and the contents of processing them in order |
| TextReplacer.Folder.ProcessOne | automation/scripts/text_replacer.py:107-112 | one pass of the loop extends the results and contents by one file |
| TextReplacer.TallyIsLinesTimesListed | automation/scripts/text_replacer.py:186-192 | a keyword's count is the number of lines holding it times the number of times it is listed |
| TextReplacer.OccurrencesOfDistinct | automation/scripts/text_replacer.py:181-182 | in a keyword list without repeats each keyword is listed once |
| TextReplacer.LinesWithBound | automation/scripts/text_replacer.py:188-192 | no more lines hold a word than the file has |
| TextReplacer.DistinctKeywordsCountLines | automation/scripts/text_replacer.py:181-192 | with distinct keywords each keyword counts at most once per line, independently of the others, so its count is the number of lines holding it |
| TextReplacer.ErrorLinesSound | automation/scripts/text_replacer.py:195-196 | every recorded error line is a 1-based line number with the stripped text of a line containing ERROR |
| TextReplacer.ErrorLinesComplete | automation/scripts/text_replacer.py:195-196 | every line containing ERROR is recorded, whether or not ERROR is a keyword |
| TextReplacer.ErrorLinesOrdered | automation/scripts/text_replacer.py:188-196 | the error lines are recorded in file order with line numbers inside the file |
| TextReplacer.AnalyzeLogFile | automation/scripts/text_replacer.py:162-206 | an unreadable file gives `None`; otherwise the keywords default to INFO, WARNING, ERROR and DEBUG and the report holds the keyword statistics, the error lines and the line count |
| TextReplacer.CountLine | automation/scripts/text_replacer.py:189-192 | checking one more line against every keyword gives the statistics of one more line |
| TextReplacer.WindowLines | automation/scripts/text_replacer.py:271-279 | the shown lines are numbered from 1 in order, and only the match is marked |
| TextReplacer.WindowAroundMatch | automation/scripts/text_replacer.py:270-279 | the window around a match holds the match, stays inside the file and spans at most 2 * context + 1 lines, the match the only marked line |
| TextReplacer.PreviewReplace | automation/scripts/text_replacer.py:241-292 | an unreadable file gives -1; otherwise the count is the number of lines holding the text, not of occurrences, and the shown lines are the windows around each of them |
| TextReplacer.ShowWindow | automation/scripts/text_replacer.py:273-279 | the inner loop shows exactly the window's lines |
| TextReplacer.SplitExtAppendPlain | automation/scripts/text_replacer.py:312-313 | appending text without a dot to a name without extension keeps it without extension |
| TextReplacer.SplitExtInsert | automation/scripts/text_replacer.py:312-313 | text inserted between a stem and its extension joins the stem |
| TextReplacer.BackupName | automation/scripts/text_replacer.py:311-313 | the backup's name; `BackupKeepsExtension` proves it stem + "_backup_" + timestamp + extension and `CreateBackup` copies the file under it |
| TextReplacer.BackupKeepsExtension | automation/scripts/text_replacer.py:311-313 | a backup is named stem + "_backup_" + timestamp and keeps the original extension |
| TextReplacer.CreateBackup | automation/scripts/text_replacer.py:295-316 | a missing file gives no backup and changes nothing; otherwise a copy of the file appears under the backup name and nothing else changes |
| ExcelProcessor.SetCell | automation/scripts/excel_processor.py:95 | writing a cell grows the sheet's used range to include it |
| ExcelProcessor.SetCellAt | automation/scripts/excel_processor.py:95 | after writing a value only that cell changes; writing nothing (None) leaves the cell empty |
| ExcelProcessor.WriteRowStep | automation/scripts/excel_processor.py:94-95 | writing a row is writing its first cell, then the rest one column further |
| ExcelProcessor.WriteRowCell | automation/scripts/excel_processor.py:94-95 | the j-th value of a row lands in column start + j and no other cell changes |
| ExcelProcessor.WriteRowsCell | automation/scripts/excel_processor.py:93-95 | `data[i][j]` lands at (start_row + i, start_col + j) and every other cell keeps its value |
| ExcelProcessor.SetCellGrid | automation/scripts/excel_processor.py:95 | a written sheet stays a well-formed sheet |
| ExcelProcessor.WriteRowGrid | automation/scripts/excel_processor.py:94-95 | writing a row keeps the sheet well-formed |
| ExcelProcessor.WriteRowsGrid | automation/scripts/excel_processor.py:93-95 | writing the data keeps the sheet well-formed |
| ExcelProcessor.WriteRowHeight | automation/scripts/excel_processor.py:94-95 | writing a row never shrinks the sheet and reaches the row written |
| ExcelProcessor.WriteRowsHeight | automation/scripts/excel_processor.py:93-95 | after writing, the sheet reaches the last data row |
| ExcelProcessor.LongestBounds | automation/scripts/excel_processor.py:204-210 | no truthy cell of the column is longer than the longest text found |
| ExcelProcessor.LongestAttained | automation/scripts/excel_processor.py:204-210 | a positive longest text is the length of some truthy cell of the column |
| ExcelProcessor.ColumnWidthFits | automation/scripts/excel_processor.py:215 | the width is between 2 and 50 and leaves two characters beyond every cell unless capped at 50 |
| ExcelProcessor.ColumnWidthExact | automation/scripts/excel_processor.py:215 | below the cap of 50 and with some truthy cell, the width is exactly the longest cell plus 2 |
| ExcelProcessor.WidthsAt | automation/scripts/excel_processor.py:202-216 | every column of the sheet gets a width, and that width is the column's own |
| ExcelProcessor.WidthsStep | automation/scripts/excel_processor.py:216 | setting one more column's width extends the widths by that column |
| ExcelProcessor.FillRowsCell | automation/scripts/excel_processor.py:249-251 | rows 2 to max_row of the column get the formula with every "2" replaced by the row number; every other cell is unchanged |
| ExcelProcessor.FillRowsShape | automation/scripts/excel_processor.py:249-251 | filling the formula keeps the sheet well-formed and its height |
| ExcelProcessor.Sheet.constructor | automation/scripts/excel_processor.py:38-58 | a new sheet has no rows, no columns and no widths set, as a sheet in which no cell was created yet |
| ExcelProcessor.Sheet.Of | automation/scripts/excel_processor.py:126-129 | a sheet loaded with the given cells, no widths set |
| ExcelProcessor.Sheet.WriteCell | automation/scripts/excel_processor.py:95 | `ws.cell(row, column, value)` changes the sheet as `SetCell` says |
| ExcelProcessor.Sheet.WriteDataRow | automation/scripts/excel_processor.py:94-95 | the inner loop writes one data row |
| ExcelProcessor.Sheet.WriteData | automation/scripts/excel_processor.py:61-95 | `write_data` writes every row at its place and leaves the widths alone |
| ExcelProcessor.Sheet.LongestText | automation/scripts/excel_processor.py:204-210 | the inner loop finds the longest text among the truthy cells of the column |
| ExcelProcessor.Sheet.SetWidth | automation/scripts/excel_processor.py:215-216 | one column gets `min(longest + 2, 50)` |
| ExcelProcessor.Sheet.AutoColumnWidth | automation/scripts/excel_processor.py:178-216 | every column gets its width and the cells do not change |
| ExcelProcessor.Sheet.FillFormula | automation/scripts/excel_processor.py:246-251 | the loop fills the formula into rows 2 to max_row and leaves the widths alone |
| ExcelProcessor.RowValues | automation/scripts/excel_processor.py:131-132 | `iter_rows(values_only=True)` gives one list per row, the used width long, holding the cells in place; a sheet without a created cell gives no rows |
| ExcelProcessor.ReadData | automation/scripts/excel_processor.py:98-138 | a missing file gives `None`; with a header and a non-empty sheet the result is the first row and the rest; otherwise all rows |
| ExcelProcessor.PyIndex | automation/scripts/excel_processor.py:287 | Python list indexing: defined exactly for -len to len-1, negative indices counting from the end |
| ExcelProcessor.ColumnCells | automation/scripts/excel_processor.py:287 | `row[col-1]` taken from every data row, or failure when some row has no such index |
| ExcelProcessor.NumericValues | automation/scripts/excel_processor.py:287 | the numbers kept are as many as the numeric cells |
| ExcelProcessor.SummaryOrdered | automation/scripts/excel_processor.py:290-295 | minimum <= average <= maximum |
| ExcelProcessor.ColumnName | automation/scripts/excel_processor.py:289 | the header of the column when there is one, else 列 followed by the column number |
| ExcelProcessor.StepEntries | automation/scripts/excel_processor.py:286-296 | one column's pass keeps earlier entries and adds or replaces only the column's own entry, summarising its numbers |
| ExcelProcessor.StatsFromSound | automation/scripts/excel_processor.py:286-296 | every entry came with the start or summarises the numbers of one requested column under its key |
| ExcelProcessor.StatsFromKeeps | automation/scripts/excel_processor.py:286-296 | a key once present stays present |
| ExcelProcessor.StatsFromUnfold | automation/scripts/excel_processor.py:286 | processing a column list is processing its first column, then the rest |
| ExcelProcessor.StepAddsKey | automation/scripts/excel_processor.py:288-289 | a column holding a number gets an entry under its name |
| ExcelProcessor.StatsFromSplit | automation/scripts/excel_processor.py:286 | processing a column list is processing a prefix, then the rest |
| ExcelProcessor.StatsFromComplete | automation/scripts/excel_processor.py:286-296 | every requested column holding a number has an entry |
| ExcelProcessor.Statistics | automation/scripts/excel_processor.py:259-297 | what `calculate_statistics` returns; `StatisticsSound`, `StatisticsComplete` and `StatisticsEdges` state it and `CalculateStatistics` is proved equal to it |
| ExcelProcessor.CalculateStatistics | automation/scripts/excel_processor.py:259-297 | the loop over the columns gives the statistics the specification function defines |
| ExcelProcessor.StatisticsSound | automation/scripts/excel_processor.py:286-296 | each entry names a requested column holding numbers and summarises exactly those numbers |
| ExcelProcessor.StatisticsComplete | automation/scripts/excel_processor.py:286-296 | each requested column holding a number has an entry, under its header or 列 name |
| ExcelProcessor.ExplainedEntry | automation/scripts/excel_processor.py:290-295 | an entry's count is the number of numeric cells of its column, positive, and min <= avg <= max |
| ExcelProcessor.StatisticsEdges | automation/scripts/excel_processor.py:280-284 | a missing file makes the unpacking of `read_data`'s `None` raise, a sheet without a cell makes the unpacking of its empty list raise; a sheet with only a header row gives `None` |
| ExcelProcessor.Selected | automation/scripts/excel_processor.py:240-243 | the intended sheet lookup gives an existing sheet or the active one |
| ExcelProcessor.AddFormulaAsWritten | automation/scripts/excel_processor.py:220-253 | as written, any non-empty sheet name fails on the undefined `workbook`; without one the active sheet gets the formula |
| ExcelProcessor.AddFormula | automation/scripts/excel_processor.py:220-253 | with the lookup intended, the named (or active) sheet gets the formula and a missing name fails |
| ExcelProcessor.AddFormulaNamedSheet | automation/scripts/excel_processor.py:240-251 | with the intended lookup a named sheet gets the formula in rows 2 to max_row of the column, and every other sheet and cell is unchanged |
| ExcelProcessor.AddFormulaNameErrorExample | automation/scripts/excel_processor.py:240-241 | the workbook holding sheet 成绩表 is well formed and the intended lookup finds that sheet, so the failure `AddFormulaAsWritten` gives for that name is the undefined name's, not a missing sheet's |
| ExcelProcessor.GradeLetter | automation/scripts/excel_processor.py:331-342 | A from 90, B from 80, C from 70, D from 60, F below, each exactly on its band |
| ExcelProcessor.Tenths | automation/scripts/excel_processor.py:343 | `round(avg, 1)` is within half a tenth of the average |
| ExcelProcessor.IntCells | automation/scripts/excel_processor.py:327 | the scores become integer cells, in order |
| ExcelProcessor.StudentRow | automation/scripts/excel_processor.py:326-343 | one completed student row; `StudentRowFields` states its sum, average and letter and `GradeBook` builds the sheet from it |
| ExcelProcessor.StudentRowFields | automation/scripts/excel_processor.py:326-343 | a student row keeps name and scores, then holds their sum, the average to within 0.05, and the letter of the unrounded average |
| ExcelProcessor.GradeBook | automation/scripts/excel_processor.py:313-346 | the data written is the header row followed by one completed row per student, in order |
| ExcelProcessor.GradeBookExampleB | automation/scripts/excel_processor.py:316 | 小明's 85, 92 and 88 give 265, 88.3 and B |
| ExcelProcessor.GradeBookExampleA | automation/scripts/excel_processor.py:319 | 小芳's 88, 90 and 92 give 270, 90.0 and A |
| AutomationQuickStart.Rename | automation/automation_quick_start.py:358 | `os.rename` fails on a missing source or a target it may not replace; otherwise the entry moves to the target name with its content, replacing what was there, and every other entry stays |
| AutomationQuickStart.Target | automation/automation_quick_start.py:356-423 | `change_extension` renames exactly the names ending with the old extension, case-sensitively; `add_prefix` and `format_numbers` give every name a new one |
| AutomationQuickStart.Planned | automation/automation_quick_start.py:352-358 | `add_prefix` renames exactly the names that are files at that moment; the others rename whatever their name test lets through |
| AutomationQuickStart.FreshPlanStep | automation/automation_quick_start.py:352-358 | after the first rename of a clash-free plan the rest of the plan is still clash-free |
| AutomationQuickStart.FreshRun | automation/automation_quick_start.py:352-358 | a clash-free plan runs to the end without raising: every listed file is found under its new name with its content, every unlisted entry stays, and nothing else exists |
| AutomationQuickStart.FreshRunFirst | automation/automation_quick_start.py:352-358 | the same for the run after its first rename |
| AutomationQuickStart.FreshMoved | automation/automation_quick_start.py:358 | every file of the plan ends under its new name with its old content |
| AutomationQuickStart.FreshKept | automation/automation_quick_start.py:358 | every entry outside the plan keeps its content |
| AutomationQuickStart.FreshOnly | automation/automation_quick_start.py:358 | nothing but the untouched entries and the new names is left |
| AutomationQuickStart.AddPrefixFresh | automation/automation_quick_start.py:341-358 | over distinct files whose prefixed names are all new, `add_prefix` renames each to prefix + name and touches nothing else |
| AutomationQuickStart.ChangeExtensionName | automation/automation_quick_start.py:380-383 | a name with a real stem and the old extension becomes the stem followed by the new extension |
| AutomationQuickStart.ChangeExtensionCaseSensitive | automation/automation_quick_start.py:380 | "photo.JPG" is left alone by a ".jpg" rename: the test is case-sensitive |
| AutomationQuickStart.ChangeExtensionHiddenFile | automation/automation_quick_start.py:380-383 | the hidden file ".jpg" has no extension to `splitext`, so it becomes ".jpg.png" |
| AutomationQuickStart.ZFillPlain | automation/automation_quick_start.py:423 | `str(n).zfill(digits)` holds digits only |
| AutomationQuickStart.NumberedName | automation/automation_quick_start.py:419-423 | the file at position i gets the prefix, i padded with zeros to at least `digits` places and never cut, then its own extension, which splitting the new name gives back |
| AutomationQuickStart.MoveInto | automation/automation_quick_start.py:613-617 | `makedirs` fails when the sub-folder name is a file; otherwise the file leaves the top, the sub-folder holds it under the target name with its content, its other files stay, and every other top entry stays |
| AutomationQuickStart.SortFrom | automation/automation_quick_start.py:594-620 | the sorting loop only ever counts under the names it started with |
| AutomationQuickStart.SortFromStep | automation/automation_quick_start.py:594-620 | one pass skips a non-file, or moves the file to its sub-folder and counts it there |
| AutomationQuickStart.ReachesStep | automation/automation_quick_start.py:594-620 | one pass of the loop keeps the state it ends in |
| AutomationQuickStart.SortCounts | automation/automation_quick_start.py:620 | every count grows by the number of moved files placed under it |
| AutomationQuickStart.TotalBump | automation/automation_quick_start.py:620 | counting one more under a name listed once adds one to the sum |
| AutomationQuickStart.TotalZero | automation/automation_quick_start.py:591 | counts that all start at 0 add up to 0 |
| AutomationQuickStart.SortTotal | automation/automation_quick_start.py:594-620 | each moved file counts exactly once, so the sum grows by the number of files moved |
| AutomationQuickStart.SortMovesListedFiles | automation/automation_quick_start.py:594-617 | only files of the listing are moved, in listing order, and the moved files are gone from the top |
| AutomationQuickStart.SortMakesNoFile | automation/automation_quick_start.py:613-617 | sorting never puts a file at the top of the folder |
| AutomationQuickStart.SortFromZero | automation/automation_quick_start.py:591-623 | starting from zero counts, each name's count is the number of moved files placed under it and the counts add up to the files moved |
| AutomationQuickStart.ZeroStats | automation/automation_quick_start.py:591 | one count per category, each 0 |
| AutomationQuickStart.FileType | automation/automation_quick_start.py:602-609 | every file gets one of the seven category names |
| AutomationQuickStart.FileTypeNamesDistinct | automation/automation_quick_start.py:579-587 | the category names differ |
| AutomationQuickStart.SortByType | automation/automation_quick_start.py:562-623 | the counts and folder of `organize_files`; `OrganizeFilesCounts` states the counts and `Folder.OrganizeFiles` is proved equal to it |
| AutomationQuickStart.OrganizeFilesCounts | automation/automation_quick_start.py:562-623 | `organize_files` returns one count per category, each the number of moved files of that category, adding up to the files moved |
| AutomationQuickStart.FirstSubject | automation/automation_quick_start.py:1435-1443 | the subject is 其他 or one from the table |
| AutomationQuickStart.FirstSubjectIs | automation/automation_quick_start.py:1440-1443 | the subject chosen is the first whose keywords meet the lower-cased name |
| AutomationQuickStart.FirstSubjectNone | automation/automation_quick_start.py:1435 | with no keyword in the name the subject is 其他 |
| AutomationQuickStart.Subject | automation/automation_quick_start.py:1435-1443 | every file gets one of the nine subjects or 其他 |
| AutomationQuickStart.SubjectExample | automation/automation_quick_start.py:1406 | "math_quiz.pdf" goes to 数学 |
| AutomationQuickStart.HomeworkNamesDistinct | automation/automation_quick_start.py:1405-1424 | the subject names and 其他 differ |
| AutomationQuickStart.SortHomework | automation/automation_quick_start.py:1387-1461 | the counts and folder of `organize_homework`; `OrganizeHomeworkCounts` states the counts and `Folder.OrganizeHomework` is proved equal to it |
| AutomationQuickStart.OrganizeHomeworkCounts | automation/automation_quick_start.py:1387-1461 | `organize_homework` returns one count per subject and 其他, each the number of moved files of that subject, adding up to the files moved |
| AutomationQuickStart.LevelOf | automation/automation_quick_start.py:1035-1041 | INFO wins over WARNING and WARNING over ERROR, so a line is in at most one bucket |
| AutomationQuickStart.LogStats | automation/automation_quick_start.py:1029-1041 | the INFO, WARNING and ERROR counters; `TallyPartition` proves they partition the marked lines and `AnalyzeLog` returns them |
| AutomationQuickStart.TallyPartition | automation/automation_quick_start.py:1034-1041 | the three buckets and the unmarked lines add up to the number of lines |
| AutomationQuickStart.ErrorsAreErrorLines | automation/automation_quick_start.py:1039-1041 | the error list holds one stripped line per line classified as ERROR, and only those |
| AutomationQuickStart.AnalyzeLog | automation/automation_quick_start.py:1005-1043 | an unopenable file raises (`None`); otherwise the counters of the three buckets and the error lines |
| AutomationQuickStart.PriceFields | automation/automation_quick_start.py:1097-1099 | a line yields its name and price text exactly when its stripped text holds ", "; otherwise indexing raises |
| AutomationQuickStart.PriceItem | automation/automation_quick_start.py:1097-1100 | a line yields an item exactly when it has its two fields and `float` accepts the price text; the item carries the line's name |
| AutomationQuickStart.Prices | automation/automation_quick_start.py:1091-1102 | when nothing raises there is one item, with its price read by `float`, per line holding both markers |
| AutomationQuickStart.PricesFromMarkedLines | automation/automation_quick_start.py:1095-1100 | every item comes from a line holding both markers, in file order |
| AutomationQuickStart.PriceItemOf | automation/automation_quick_start.py:1071-1100 | a line written as the demo writes it gives back its product name and its price text without the unit, and so the item of that name with the price `float` reads from the text |
| AutomationQuickStart.PriceText | automation/automation_quick_start.py:1099 | the price field loses its label and its unit |
| AutomationQuickStart.ExtractPrices | automation/automation_quick_start.py:1078-1102 | an unopenable file, a marked line without its two fields or a price text `float` rejects gives `None`; otherwise exactly the items of `Prices` |
| AutomationQuickStart.PricesRaise | automation/automation_quick_start.py:1094-1100 | once a line raises, the whole call raises |
| AutomationQuickStart.RenameLoop | automation/automation_quick_start.py:352-358 | the loop ends in the state and with the error of the specification run |
| AutomationQuickStart.SortPass | automation/automation_quick_start.py:595-620 | one pass keeps every count present and keeps the loop on course to the specification's end state |
| AutomationQuickStart.SortLoop | automation/automation_quick_start.py:594-620 | the loop ends in the state, with the counts and the moved files, of the specification run |
| AutomationQuickStart.Folder.constructor | automation/automation_quick_start.py:341 | the folder holds the given entries |
| AutomationQuickStart.Folder.RenameAll | automation/automation_quick_start.py:352-358 | the renaming loop changes the folder as the specification run does, numbering from 1 |
| AutomationQuickStart.Folder.AddPrefix | automation/automation_quick_start.py:341-358 | `add_prefix` renames the listed files to prefix + name |
| AutomationQuickStart.Folder.ChangeExtension | automation/automation_quick_start.py:367-386 | `change_extension` renames the listed names ending with the old extension |
| AutomationQuickStart.Folder.FormatNumbers | automation/automation_quick_start.py:395-426 | `format_numbers` renames the files of the listing, sorted by name, numbering from 1 |
| AutomationQuickStart.Folder.ReplaceInFile | automation/automation_quick_start.py:940-967 | an unopenable name gives `None` and changes nothing; otherwise the count of the old text, and the file written back with every occurrence replaced whatever the count |
| AutomationQuickStart.Folder.SortAll | automation/automation_quick_start.py:594-620 | the shared loop changes the folder as the specification run does |
| AutomationQuickStart.Folder.OrganizeFiles | automation/automation_quick_start.py:562-623 | the counts and folder of `organize_files` are those of sorting by file type |
| AutomationQuickStart.Folder.OrganizeHomework | automation/automation_quick_start.py:1387-1461 | the counts and folder of `organize_homework` are those of sorting by subject, each moved file renamed to date + "_" + name |
| AutomationQuickStart.FilesOf | automation/automation_quick_start.py:414 | the names kept are exactly the listed names that are files |
| CrawlBooks.RatingFrom | web_crawler/examples/crawl_books.py:79-82 | the loop from a given word on returns 0 exactly when none of the remaining words occurs, and otherwise the value of the first one that does |
| CrawlBooks.ParseRating | web_crawler/examples/crawl_books.py:66-82 | the rating is at most 5; it is 0 exactly when no rating word occurs in the class text, and otherwise the value of the first word, in the map's order, that does |
| CrawlBooks.ParseRatingOnly | web_crawler/examples/crawl_books.py:76-82 | a class text holding exactly one rating word gives that word's value |
| CrawlBooks.InStock | web_crawler/examples/crawl_books.py:85-95 | `"In stock" in availability_str`; `InStockCases`, `InStockIff` and `InStockCaseSensitive` characterise it |
| CrawlBooks.InStockCases | web_crawler/examples/crawl_books.py:95 | a text starting with "In stock" reads as in stock, and one that reads as in stock holds a capital I |
| CrawlBooks.InStockIff | web_crawler/examples/crawl_books.py:95 | in stock exactly when the phrase occurs at some position; any text with the phrase inside it is in stock |
| CrawlBooks.InStockCaseSensitive | web_crawler/examples/crawl_books.py:95 | the test is case-sensitive: "in stock" and "Out of stock" are not in stock |
| CrawlBooks.RunEnd | web_crawler/examples/crawl_books.py:60 | the run of price characters from a position ends at the first character outside `[\d.]` |
| CrawlBooks.SpanFrom | web_crawler/examples/crawl_books.py:60 | the search finds nothing exactly when no price character follows; otherwise the leftmost maximal run |
| CrawlBooks.PriceSpan | web_crawler/examples/crawl_books.py:60 | `re.search(r'[\d.]+', s)`: none exactly when the text holds no digit or dot, otherwise the leftmost maximal run |
| CrawlBooks.ParsePrice | web_crawler/examples/crawl_books.py:49-63 | `Some(0.0)` when no run is found; otherwise what `float` gives for the first run, None standing for its ValueError |
| CrawlBooks.ParsePriceNoMatch | web_crawler/examples/crawl_books.py:63 | a text with no digit and no dot reads as the price 0.0 |
| CrawlBooks.ParsePricePound | web_crawler/examples/crawl_books.py:54-62 | the pound sign in front is skipped and the whole number taken |
| CrawlBooks.StageMinPrice | web_crawler/examples/crawl_books.py:268-278 | the `min_price` stage followed by the later ones filters by all their bounds at once |
| CrawlBooks.StageMaxPrice | web_crawler/examples/crawl_books.py:271-278 | the `max_price` stage followed by the later ones filters by all their bounds at once |
| CrawlBooks.StageMinRating | web_crawler/examples/crawl_books.py:274-278 | the `min_rating` stage followed by the last one filters by both bounds at once |
| CrawlBooks.StageInStock | web_crawler/examples/crawl_books.py:277-278 | the `in_stock_only` stage filters only when the flag is true |
| CrawlBooks.FilterBooks | web_crawler/examples/crawl_books.py:241-280 | the chain of `filter_books`; `FilterBooksIsOneFilter`, `FilterBooksSound`, `FilterBooksNoFilters` and `FilterBooksKeepsAll` state it |
| CrawlBooks.FilterBooksIsOneFilter | web_crawler/examples/crawl_books.py:266-280 | the chain of filters is one filter by every supplied bound |
| CrawlBooks.FilterBooksSound | web_crawler/examples/crawl_books.py:241-280 | the books keep their order, and a book is kept exactly when it meets every supplied bound |
| CrawlBooks.FilterBooksNoFilters | web_crawler/examples/crawl_books.py:266-280 | with no bound supplied, or only `in_stock_only=False`, the list comes back unchanged |
| CrawlBooks.FilterBooksKeepsAll | web_crawler/examples/crawl_books.py:266-280 | when every book meets the bounds the list comes back unchanged |
| CrawlBooks.Keys | web_crawler/examples/crawl_books.py:224-226 | one key per entry of the dict |
| CrawlBooks.Bump | web_crawler/examples/crawl_books.py:226 | `counts[r] = counts.get(r, 0) + 1` raises the count of r by one, leaves the others alone and adds one to the total |
| CrawlBooks.BumpKeys | web_crawler/examples/crawl_books.py:226 | bumping adds r to the keys if it is new and keeps every count positive |
| CrawlBooks.BumpDistinct | web_crawler/examples/crawl_books.py:226 | bumping keeps the keys without repetitions |
| CrawlBooks.TallySound | web_crawler/examples/crawl_books.py:223-226 | the tally holds, for each rating that occurs, once and positive, the number of books with that rating, and adds up to the number of books |
| CrawlBooks.Ratings | web_crawler/examples/crawl_books.py:223 | one rating per book |
| CrawlBooks.RatingCounts | web_crawler/examples/crawl_books.py:223-226 | the counting loop builds the tally of the books' ratings |
| CrawlBooks.RatingCountsSum | web_crawler/examples/crawl_books.py:228-232 | the printed distribution adds up to the number of books |
| Webserver.AllowedFile | webserver/webserver_quick_start.py:805-808 | `allowed_file`; `AllowedFileSplit` and the four examples after it state it |
| Webserver.AllowedFileSplit | webserver/webserver_quick_start.py:805-808 | only the lower-cased text after the last dot decides, whatever precedes it, dots included |
| Webserver.AllowedFileNeedsDot | webserver/webserver_quick_start.py:807 | a name without a dot is refused |
| Webserver.AllowedFileUpperCase | webserver/webserver_quick_start.py:808 | "photo.JPG" passes: the extension is lower-cased first |
| Webserver.AllowedFileOnlyExtension | webserver/webserver_quick_start.py:807-808 | ".png", an extension with an empty stem, passes |
| Webserver.AllowedFileLastExtension | webserver/webserver_quick_start.py:808 | "a.txt.exe" is refused: only the last extension counts |
| Webserver.Calculator | webserver/webserver_quick_start.py:418-453 | a text `float` refuses gives the invalid-number page and only it; a text result is shown exactly for division by zero or an unknown operator, the first exactly under "div" |
| Webserver.CalculatorInverses | webserver/webserver_quick_start.py:426-437 | add gives the sum; on exact reals, subtracting undoes adding and dividing by a non-zero number undoes multiplying |
| Webserver.CalculatorErrors | webserver/webserver_quick_start.py:435-440 | division by zero shows its error text under ÷, an unknown operator its text under ?, never a number |
| Webserver.GenderText | webserver/webserver_quick_start.py:885 | the gender label is 男 or 女 |
| Webserver.FormLabels | webserver/webserver_quick_start.py:885-886 | each of the grades 7, 8 and 9 has its own label and anything else, a missing field included, is 未知; 男 is given exactly for 'M' |
| Webserver.Ids | webserver/webserver_quick_start.py:976-982 | one id per record |
| Webserver.FindFirst | webserver/webserver_quick_start.py:1037 | no record is found exactly when no record has the id; otherwise the first record with it |
| Webserver.FindFirstUnique | webserver/webserver_quick_start.py:1037 | with ids free of repeats the record found is the only one with the id |
| Webserver.WithoutSound | webserver/webserver_quick_start.py:1145 | deleting takes out exactly the records with the id and keeps the others in order; with no such record the table is unchanged |
| Webserver.Edited | webserver/webserver_quick_start.py:1128-1132 | an edit keeps the record's id |
| Webserver.Patched | webserver/webserver_quick_start.py:1262-1266 | an update keeps the record's id |
| Webserver.PatchedFields | webserver/webserver_quick_start.py:1262-1266 | an update changes only the fields the body holds, to the body's values; an empty body changes nothing |
| Webserver.Created | webserver/webserver_quick_start.py:1231-1238 | a created record gets the counter's id and the body's name, None when the body has no `name` key; a missing gender becomes 'M' and a missing score 0 |
| Webserver.InitialValid | webserver/webserver_quick_start.py:976-984 | the demo table's ids are distinct and below the counter 6 |
| Webserver.AppendValid | webserver/webserver_quick_start.py:1083-1092 | appending a record with the counter's id and moving the counter on keeps the ids distinct and below the counter |
| Webserver.ReplaceValid | webserver/webserver_quick_start.py:1128-1132 | replacing a record by one with the same id keeps the table valid |
| Webserver.WithoutValid | webserver/webserver_quick_start.py:1145 | deleting keeps the table valid |
| Webserver.StudentStore.constructor | webserver/webserver_quick_start.py:976-984 | the demo table of five students and `next_id = 6` |
| Webserver.StudentStore.Lookup | webserver/webserver_quick_start.py:1031-1039 | no record exactly when none has the id (the not-found page and the 404); otherwise a record of the table with that id |
| Webserver.StudentStore.Add | webserver/webserver_quick_start.py:1061-1092 | the new record, with the counter's id never handed out before, goes at the end with the form's fields, and the counter moves on |
| Webserver.StudentStore.ApiCreate | webserver/webserver_quick_start.py:1225-1240 | as `Add`, with the record built from the JSON body: its name, None when the body has no `name` key, and the defaults 'M', 0, '' and 0 for the other missing keys |
| Webserver.StudentStore.Edit | webserver/webserver_quick_start.py:1102-1132 | not found exactly when no record has the id, and then nothing changes; otherwise the first record with the id gets every form field and keeps its id |
| Webserver.StudentStore.ApiUpdate | webserver/webserver_quick_start.py:1250-1266 | not found (404) exactly when no record has the id, and then nothing changes; otherwise the first record with the id gets the fields the body holds |
| Webserver.StudentStore.Delete | webserver/webserver_quick_start.py:1142-1145 | the records with the id go, whether or not there were any, and the counter stays |
| Webserver.StudentStore.ApiDelete | webserver/webserver_quick_start.py:1276-1287 | not found (404) exactly when no record has the id; the table afterwards has no record with the id |
| DataAnalysis.GradeRank | data_analysis/data_analysis_exercises.py:422-432 | each of the five labels has its own position in the lowest-first list, and nothing else has one |
| DataAnalysis.Grade | data_analysis/data_analysis_exercises.py:422-432 | each label is given exactly on its half-open score interval: 优秀 from 90, 良好 on [80, 90), 中等 on [70, 80), 及格 on [60, 70), 不及格 below 60 |
| DataAnalysis.GradesDistinct | data_analysis/data_analysis_exercises.py:424-432 | the five labels are different, so every score has exactly one |
| DataAnalysis.Band | data_analysis/data_analysis_exercises.py:423-429 | the number of thresholds reached is between 0 and 4 |
| DataAnalysis.GradeRankIsBand | data_analysis/data_analysis_exercises.py:422-432 | the label's position is the number of the thresholds 60, 70, 80 and 90 the score reaches |
| DataAnalysis.GradeMonotone | data_analysis/data_analysis_exercises.py:422-432 | a higher score never gets a lower grade |
| DataAnalysis.GradeExamples | data_analysis/data_analysis_quick_start.py:893-896 | 95 gives 优秀, 85.5 gives 良好, 55 gives 不及格, and the pass mark 60 gives 及格 |
| DataAnalysis.RatingRank | data_analysis/data_analysis_exercises.py:580-588 | each of the four rating labels has its own position, and nothing else has one |
| DataAnalysis.RatingGrade | data_analysis/data_analysis_exercises.py:580-588 | each label exactly on its interval: 神作 from 9, 佳作 on [8, 9), 普通 on [6, 8), 烂片 below 6 |
| DataAnalysis.RatingGradeMonotone | data_analysis/data_analysis_exercises.py:580-588 | a higher rating never gets a lower label |
| DataAnalysis.MaxFrom | data_analysis/data_analysis_exercises.py:453 | the scan with a running maximum ends on a position holding the largest score with every earlier score strictly smaller |
| DataAnalysis.FirstMax | data_analysis/data_analysis_exercises.py:453 | `max` with a key gives the first position of the largest score |
| DataAnalysis.FirstMaxUnique | data_analysis/data_analysis_exercises.py:453 | the first maximum is the only position that is a maximum with all earlier scores smaller |
| DataAnalysis.BestSubject | data_analysis/data_analysis_exercises.py:451-453 | one of the four subjects with the highest score, and among equal highest scores the first in the subject list |
| DataAnalysis.BestSubjectTie | data_analysis/data_analysis_exercises.py:451-453 | with four equal scores the first subject, 语文, is chosen |
| AiIntro.FirstKey | ai_intro/ai_exercises.py:64-66 | no keyword found exactly when none occurs in the question; otherwise the first keyword, in dictionary order, that occurs |
| AiIntro.Reply | ai_intro/ai_exercises.py:57-67 | the reply is "我不明白" or the answer of a keyword that occurs in the question |
| AiIntro.MyChatbot | ai_intro/ai_exercises.py:46-67 | `my_chatbot` with its own table; `Reply`, `ReplyFirstKey` and `ReplyNoKey` characterise it and the `Chatbot*` lemmas check the script's questions |
| AiIntro.ReplyFirstKey | ai_intro/ai_exercises.py:64-66 | when keyword i occurs and no earlier one does, its answer is the reply, whatever later keywords also occur |
| AiIntro.ReplyNoKey | ai_intro/ai_exercises.py:67 | with no keyword in the question the reply is "我不明白" |
| AiIntro.ChatbotHello | ai_intro/ai_exercises.py:70 | "你好呀" is answered "你好！" |
| AiIntro.ChatbotSum | ai_intro/ai_exercises.py:70 | "1+1等于几？" is answered "等于2" |
| AiIntro.ChatbotWeekday | ai_intro/ai_exercises.py:70 | "今天星期几" is answered "我不知道" |
| AiIntro.ChatbotBye | ai_intro/ai_exercises.py:70 | "拜拜，再见" is answered "再见！" |
| AiIntro.Hits | ai_intro/ai_exercises.py:450-451 | the count of listed words present is at most the list's length |
| AiIntro.HitsDistinctWords | ai_intro/ai_exercises.py:450-451 | over a list without repeats the count is the number of different listed words present, however often each occurs |
| AiIntro.HitsPresence | ai_intro/ai_exercises.py:450-451 | two texts holding the same listed words get the same count |
| AiIntro.HitsNone | ai_intro/ai_exercises.py:450-451 | no listed word present: the count is 0 |
| AiIntro.HitsSome | ai_intro/ai_exercises.py:450-451 | one listed word present: the count is at least 1 |
| AiIntro.AnalyzeSentiment | ai_intro/ai_exercises.py:448-458 | 正面 exactly when more positive than negative words occur, 负面 exactly in the opposite case, 中性 exactly on a tie |
| AiIntro.SentimentWordsDistinct | ai_intro/ai_exercises.py:445-446 | neither word list repeats a word, so each count is a number of different words |
| AiIntro.Analyze | ai_intro/projects/sentiment_analysis.py:429-448 | the score is the positive count minus the negative count; 正面 exactly for a positive score, 负面 for a negative one, 中性 for zero |
| AiIntro.LikeCountsTwice | ai_intro/projects/sentiment_analysis.py:426 | 喜欢 is listed twice, so a text containing it scores one more than the first nine entries give |
| AiIntro.PraiseCountsTwice | ai_intro/projects/sentiment_analysis.py:426 | a text with 好评 also holds 好 and scores at least 2 |
| AiIntro.NoNegativeIn | ai_intro/projects/sentiment_analysis.py:452-454 | the satisfied and the plain sample hold no negative word |
| AiIntro.NoPositiveIn | ai_intro/projects/sentiment_analysis.py:453-454 | the disappointed and the plain sample hold no positive word |
| AiIntro.AnalyzeSatisfied | ai_intro/projects/sentiment_analysis.py:452 | "这个产品非常好，我很满意" is 正面 |
| AiIntro.AnalyzeDisappointed | ai_intro/projects/sentiment_analysis.py:453 | "质量太差了，很失望" is 负面 |
| AiIntro.AnalyzePlain | ai_intro/projects/sentiment_analysis.py:454 | "普通的产品，没什么特别的" is 中性 |

## Left out

- Drawing, fonts, surfaces, sounds, the event pump, `clock.tick` and the `run` loops of every game: they are rendering and a foreign library. The rules inside the loops are modelled as step methods.
- Random draws (`random.randint`, `uniform`, `choice`): they are parameters of the methods that use them.
- Game positions and speeds that the scripts keep as floats are exact reals, or ints where the scripts use ints. Floating-point rounding is not modelled, and neither is the 0.707 diagonal factor's distance from 1/sqrt(2).
- The type-2 enemy's `math.sin` sway in the space shooter is a function parameter. The explosion's fading alpha is drawing only.
- The sqrt of the circle test in lesson 6 is restated with squares, which agrees for the non-negative distances involved.
- Aliasing between list elements and the objects that hold them is not modelled. Bullets, enemies, balls, coins and obstacles are values in sequences that the step methods rebuild.
- File system effects (`os.rename`, `shutil.move`, `shutil.copy`, `os.makedirs`, reading and writing files): folders are maps from names to entries, and file contents are strings or lists of lines.
- `os.listdir` order: the listing is a parameter, required to enumerate the folder's names without repeats, as a directory listing does.
- `datetime.now()` timestamps: each is one string parameter. The file organizer reads the clock once per clash, and the model uses one value for all of them.
- `input()` menus, `main()` functions and every `print`: they are console I/O.
- `fnmatch` bracket classes `[...]` in rename patterns: the model matches `*`, `?` and literal characters, and a `[` only literally. The patterns in the scripts' documentation and defaults (`*`, `*.txt`, `photo*`) use none.
- `Text.Lower`: it lowers ASCII letters only, where Python's `str.lower` also folds other scripts. The scripts compare extensions and keywords written in ASCII.
- Case-insensitive file systems: the folder maps treat names as case-sensitive, as on POSIX.
- Names holding a path separator `/` inside a folder listing are not modelled.
- The recursive `os.walk` variant of the text replacer: only the single-folder listing is modelled.
- Exceptions other than the missing file: a file that cannot be read is one missing from the folder map, which gives the -1 and None paths. Encoding errors and permissions are not modelled.
- Regular expressions: the regex tools of the text replacer are not modelled. The price pattern of `parse_price` is written out as the first run of digits and dots.
- Python's `float` on a price text is a parameter returning an optional real, where None is its ValueError. `parse_price` and `extract_prices` take it. Which texts it accepts and how it rounds are not modelled.
- CrawlBooks.ParsePrice: `\d` matches the ASCII digits 0-9 only. Python's `re` with a str pattern also matches other Unicode decimal digits, such as Arabic-Indic digits. Book prices are written in ASCII.
- ExerciseAnswers.CheckPasswordStrength: the upper-case, lower-case and digit tests use the ASCII letters and digits only. Python's `isupper`, `islower` and `isdigit` also accept other scripts, such as 'É' or '٣'. A password of only such characters scores lower here than in Python.
- ExcelProcessor.CalculateStatistics: a statistics key is a header cell's `Value`, and keys are equal only when the values are. Python's dictionary treats the headers 1, 1.0 and True as one key, so a later column overwrites the earlier one. The model keeps them as separate entries. Text headers, as in the scripts' sheets, behave the same in both.
- openpyxl styling, fonts, fills and saving. A worksheet is a grid of cell values with its row and column count, as `iter_rows` reports them.
- Flask routing, templates, redirects, status-code plumbing and JSON encoding: requests are parameters and responses are results.
- `request.form` and `request.get_json` conversions (`int`, `float`): the form carries already-converted values, and a failed conversion (a ValueError page) is not modelled for the student forms.
- ExerciseAnswers.Calculator: the operands are exact reals, not IEEE doubles, so the inverse laws proved here fail for Python floats (`0.30000000000000004 - 0.2` is not `0.1`, `1/49*49` is not `1`, `1e308*10/10` is `inf`); overflow to `inf` and `nan` are not modelled.
- ExerciseAnswers.CalculatorInverses: holds on exact reals only; for Python floats rounding breaks both laws, as the examples on the line above show.
- Webserver.Calculator: `float()` of the form texts is a parameter returning an exact real; the texts "inf" and "nan" that Python accepts, overflow to `inf` and rounding of the four operations are not modelled.
- Webserver.CalculatorInverses: holds on exact reals only; for Python floats rounding breaks both laws (`1/49*49` is not `1`).
- Webserver.Patched: a JSON key holding `null` in an update body reads as a missing key, so the model keeps the old value where the source stores None.
- Webserver.StudentStore.ApiUpdate: the same as `Patched`: a `null` in the body leaves the field as it was in the model, where the source sets it to None.
- Webserver.StudentStore.ApiCreate: a JSON key holding `null` reads as a missing key. The stored name is None either way, as in the source, but a `null` gender, age, class or score gets its default in the model, where the source stores None.
- Network fetching in the book crawler: page texts are parameters.
- The pandas and matplotlib bodies of the data analysis scripts: only the row functions they apply are modelled.
- The scikit-learn pipeline of the sentiment project: only its dictionary scorer `analyze` is modelled.

## Findings

| source | as written | input that shows it | evidently intended | confidence | as-written member | corrected member |
|---|---|---|---|---|---|---|
| automation/scripts/batch_rename.py:143-146 | `change_extension` lists files with the case-sensitive pattern `"*" + old_ext`, then tests the lower-cased name, so its case-insensitive test can never let through a file the pattern dropped | a folder holding `A.TXT`, old extension `txt`, new `md`: nothing is renamed, while the preview of the same request gives `A.md` | a file whose extension matches in any letter case is renamed, as the lower-case test and the preview suggest | not executed | BatchRename.ExtensionCaseMissed | BatchRename.ExtensionAnyCaseSeesAll |
| automation/scripts/excel_processor.py:240-241 | with a sheet name, `add_formula` indexes the undefined name `workbook` instead of the loaded `wb` | `sheet_name="成绩表"` on a workbook holding that sheet fails with a NameError | the named sheet of `wb` gets the formula | not executed | ExcelProcessor.AddFormulaAsWritten | ExcelProcessor.AddFormulaNamedSheet |

=== FILE: ai_intro.dfy ===
/** The rule-based pieces of the AI lessons: a question-answering bot that
    replies with the answer of the first keyword it finds, and two
    sentiment scorers that count how many words of a positive and of a
    negative list occur in a text. */
module AiIntro {
  import opened Options
  import opened Text
  import Lists

  // ---------------------------------------------------------------------
  // my_chatbot

  /** The bot's dictionary, in its insertion order: keyword and answer. */
  const QA: seq<(string, string)> := [("你好", "你好！"), ("1+1", "等于2"), ("星期", "我不知道"), ("再见", "再见！")]

  const NOT_UNDERSTOOD: string := "我不明白"

  /** Position of the first keyword, from position `k` on, that occurs in
      the question. */
  function FirstKey(qa: seq<(string, string)>, question: string, k: nat): (r: Option<nat>)
    requires k <= |qa|
    ensures r.None? <==> forall i :: k <= i < |qa| ==> !Contains(question, qa[i].0)
    ensures r.Some? ==> k <= r.value < |qa| && Contains(question, qa[r.value].0)
    ensures r.Some? ==> forall i :: k <= i < r.value ==> !Contains(question, qa[i].0)
    decreases |qa| - k
  {
    if k == |qa| then None
    else if Contains(question, qa[k].0) then Some(k)
    else FirstKey(qa, question, k + 1)
  }

  /** The loop over `qa_dict.items()` with its early return: the answer of
      the first keyword found in the question, else "I don't understand". */
  function Reply(qa: seq<(string, string)>, question: string): (r: string)
    ensures r == NOT_UNDERSTOOD || exists i :: 0 <= i < |qa| && r == qa[i].1 && Contains(question, qa[i].0)
  {
    match FirstKey(qa, question, 0)
    case Some(i) => qa[i].1
    case None => NOT_UNDERSTOOD
  }

  /** When keyword `i` is the first that occurs, its answer is the reply. */
  lemma ReplyFirstKey(qa: seq<(string, string)>, question: string, i: nat)
    requires i < |qa| && Contains(question, qa[i].0)
    requires forall j :: 0 <= j < i ==> !Contains(question, qa[j].0)
    ensures Reply(qa, question) == qa[i].1
  {
    var r := FirstKey(qa, question, 0);
    assert r.Some?;
    assert r.value <= i;
  }

  /** When no keyword occurs the bot does not understand. */
  lemma ReplyNoKey(qa: seq<(string, string)>, question: string)
    requires forall j :: 0 <= j < |qa| ==> !Contains(question, qa[j].0)
    ensures Reply(qa, question) == NOT_UNDERSTOOD
  {
  }

  function MyChatbot(question: string): string
  {
    Reply(QA, question)
  }

  lemma ChatbotHello()
    ensures MyChatbot("你好呀") == "你好！"
  {
    var q := "你好呀";
    assert q == [] + "你好" + "呀";
    ContainsInfix([], "你好", "呀");
    ReplyFirstKey(QA, q, 0);
  }

  lemma ChatbotSum()
    ensures MyChatbot("1+1等于几？") == "等于2"
  {
    var q := "1+1等于几？";
    assert q == [] + "1+1" + "等于几？";
    ContainsInfix([], "1+1", "等于几？");
    ContainsMissingChar(q, "你好");
    ReplyFirstKey(QA, q, 1);
  }

  lemma ChatbotWeekday()
    ensures MyChatbot("今天星期几") == "我不知道"
  {
    var q := "今天星期几";
    assert q == "今天" + "星期" + "几";
    ContainsInfix("今天", "星期", "几");
    ContainsMissingChar(q, "你好");
    ContainsMissingChar(q, "1+1");
    ReplyFirstKey(QA, q, 2);
  }

  lemma ChatbotBye()
    ensures MyChatbot("拜拜，再见") == "再见！"
  {
    var q := "拜拜，再见";
    assert q == "拜拜，" + "再见" + [];
    ContainsInfix("拜拜，", "再见", []);
    ContainsMissingChar(q, "你好");
    ContainsMissingChar(q, "1+1");
    ContainsMissingChar(q, "星期");
    ReplyFirstKey(QA, q, 3);
  }

  // ---------------------------------------------------------------------
  // Counting listed words

  /** `w in text`, as the test of a generator expression. */
  function Present(text: string): string -> bool
  {
    w => Contains(text, w)
  }

  /** `sum(1 for w in words if w in text)`. */
  function Hits(words: seq<string>, text: string): (n: nat)
    ensures n <= |words|
  {
    Lists.Count(words, Present(text))
  }

  /** The different listed words that occur in the text. */
  function Found(words: seq<string>, text: string): set<string>
  {
    set w | w in words && Contains(text, w)
  }

  /** Each listed word counts once however often it occurs: over a list
      without repeats the score is the number of different listed words
      present. */
  lemma {:induction false} HitsDistinctWords(words: seq<string>, text: string)
    requires Lists.Distinct(words)
    ensures Hits(words, text) == |Found(words, text)|
    decreases |words|
  {
    if words != [] {
      var rest := Found(words[1..], text);
      HitsDistinctWords(words[1..], text);
      assert words[0] !in words[1..];
      assert Hits(words, text) == (if Contains(text, words[0]) then 1 else 0) + Hits(words[1..], text);
      if Contains(text, words[0]) {
        assert words[0] !in rest;
        assert Found(words, text) == {words[0]} + rest;
      } else {
        assert Found(words, text) == rest;
      }
    }
  }

  /** Only which listed words occur matters, not where or how often. */
  lemma {:induction false} HitsPresence(words: seq<string>, a: string, b: string)
    requires forall w :: w in words ==> (Contains(a, w) <==> Contains(b, w))
    ensures Hits(words, a) == Hits(words, b)
    decreases |words|
  {
    if words != [] {
      HitsPresence(words[1..], a, b);
    }
  }

  /** No listed word occurs: the count is zero. */
  lemma HitsNone(words: seq<string>, text: string)
    requires forall i :: 0 <= i < |words| ==> !Contains(text, words[i])
    ensures Hits(words, text) == 0
  {
    forall i | 0 <= i < |words| ensures !Present(text)(words[i]) {
    }
    Lists.CountNone(words, Present(text));
  }

  /** A list of words none of whose first characters is in the text has no
      word in the text. */
  lemma FirstCharsMissing(words: seq<string>, text: string)
    requires forall i :: 0 <= i < |words| ==> words[i] != [] && words[i][0] !in text
    ensures forall i :: 0 <= i < |words| ==> !Contains(text, words[i])
  {
    forall i | 0 <= i < |words| ensures !Contains(text, words[i]) {
      ContainsMissingChar(text, words[i]);
    }
  }

  /** One listed word occurs: the count is positive. */
  lemma HitsSome(words: seq<string>, text: string, i: nat)
    requires i < |words| && Contains(text, words[i])
    ensures Hits(words, text) >= 1
  {
    Lists.CountSome(words, i, Present(text));
  }

  // ---------------------------------------------------------------------
  // analyze_sentiment

  const POSITIVE_WORDS: seq<string> := ["好", "棒", "喜欢", "开心", "优秀"]
  const NEGATIVE_WORDS: seq<string> := ["差", "烂", "讨厌", "难过", "糟糕"]

  /** `analyze_sentiment(text)`: positive when more positive words occur
      than negative ones, negative in the opposite case, neutral on a tie. */
  function AnalyzeSentiment(text: string): (r: string)
    ensures r == "正面" <==> Hits(POSITIVE_WORDS, text) > Hits(NEGATIVE_WORDS, text)
    ensures r == "负面" <==> Hits(NEGATIVE_WORDS, text) > Hits(POSITIVE_WORDS, text)
    ensures r == "中性" <==> Hits(POSITIVE_WORDS, text) == Hits(NEGATIVE_WORDS, text)
  {
    var pos := Hits(POSITIVE_WORDS, text);
    var neg := Hits(NEGATIVE_WORDS, text);
    if pos > neg then "正面" else if neg > pos then "负面" else "中性"
  }

  /** Both lists are free of repeats, so each count is a number of
      different words. */
  lemma SentimentWordsDistinct()
    ensures Lists.Distinct(POSITIVE_WORDS) && Lists.Distinct(NEGATIVE_WORDS)
  {
  }

  // ---------------------------------------------------------------------
  // analyze, inside simple_sentiment_dict

  /** The dictionary's lists; 喜欢 is listed twice. */
  const DICT_POSITIVE: seq<string> := ["好", "棒", "喜欢", "开心", "满意", "优秀", "推荐", "完美", "好评", "喜欢"]
  const DICT_NEGATIVE: seq<string> := ["差", "烂", "讨厌", "难过", "失望", "糟糕", "差评", "问题", "损坏", "不满"]

  /** `analyze(text)`: the score is the number of positive list entries
      occurring minus the number of negative ones, and the category its
      sign. */
  function Analyze(text: string): (r: (string, int))
    ensures r.1 == Hits(DICT_POSITIVE, text) - Hits(DICT_NEGATIVE, text)
    ensures r.0 == "正面" <==> r.1 > 0
    ensures r.0 == "负面" <==> r.1 < 0
    ensures r.0 == "中性" <==> r.1 == 0
  {
    var score := Hits(DICT_POSITIVE, text) - Hits(DICT_NEGATIVE, text);
    if score > 0 then ("正面", score)
    else if score < 0 then ("负面", score)
    else ("中性", score)
  }

  /** The repeated 喜欢 counts twice: the positive score is that of the
      first nine entries, which hold 喜欢 already, plus one more for it. */
  lemma LikeCountsTwice(text: string)
    ensures "喜欢" in DICT_POSITIVE[..9]
    ensures Hits(DICT_POSITIVE, text) == Hits(DICT_POSITIVE[..9], text) + (if Contains(text, "喜欢") then 1 else 0)
  {
    assert DICT_POSITIVE[..9][2] == "喜欢";
    assert DICT_POSITIVE == DICT_POSITIVE[..9] + ["喜欢"];
    Lists.CountAppend(DICT_POSITIVE[..9], "喜欢", Present(text));
  }

  /** A text with 好评 also holds 好, so it scores at least two positive
      words. */
  lemma PraiseCountsTwice(text: string)
    requires Contains(text, "好评")
    ensures Hits(DICT_POSITIVE, text) >= 2
  {
    assert "好" + "评" == "好评";
    ContainsPiece(text, "好", "评");
    var s := DICT_POSITIVE[1..];
    assert DICT_POSITIVE == ["好"] + s;
    assert s[7] == "好评";
    HitsSome(s, text, 7);
  }

  /** The sample texts of the lesson, one list at a time. */
  lemma NoNegativeIn(t: string)
    requires t == "这个产品非常好，我很满意" || t == "普通的产品，没什么特别的"
    ensures Hits(DICT_NEGATIVE, t) == 0
  {
    FirstCharsMissing(DICT_NEGATIVE, t);
    HitsNone(DICT_NEGATIVE, t);
  }

  lemma NoPositiveIn(t: string)
    requires t == "质量太差了，很失望" || t == "普通的产品，没什么特别的"
    ensures Hits(DICT_POSITIVE, t) == 0
  {
    FirstCharsMissing(DICT_POSITIVE, t);
    HitsNone(DICT_POSITIVE, t);
  }

  lemma AnalyzeSatisfied()
    ensures Analyze("这个产品非常好，我很满意").0 == "正面"
  {
    var t := "这个产品非常好，我很满意";
    assert t == "这个产品非常" + "好" + "，我很满意";
    ContainsInfix("这个产品非常", "好", "，我很满意");
    HitsSome(DICT_POSITIVE, t, 0);
    NoNegativeIn(t);
  }

  lemma AnalyzeDisappointed()
    ensures Analyze("质量太差了，很失望").0 == "负面"
  {
    var t := "质量太差了，很失望";
    assert t == "质量太" + "差" + "了，很失望";
    ContainsInfix("质量太", "差", "了，很失望");
    HitsSome(DICT_NEGATIVE, t, 0);
    NoPositiveIn(t);
  }

  lemma AnalyzePlain()
    ensures Analyze("普通的产品，没什么特别的").0 == "中性"
  {
    var t := "普通的产品，没什么特别的";
    NoNegativeIn(t);
    NoPositiveIn(t);
  }
}

=== FILE: automation_quick_start.dfy ===
/** The helper functions the automation lessons define inside their demos:
    renaming by prefix, by extension and by number, sorting files into
    sub-folders by type or by subject, replacing text in a file, tallying a
    log and picking prices out of a text file. The demo folder is a map from
    entry names to entries; the listing `os.listdir` returns and the lines a
    file holds are parameters. */
module AutomationQuickStart {
  import opened Options
  import opened Text
  import Lists
  import BatchRename
  import FileOrganizer
  import TextReplacer

  /** An entry of the folder: a file with its text, or a sub-folder holding
      files by name. */
  datatype Node = File(content: string) | Dir(files: map<string, string>)

  // ---------------------------------------------------------------------
  // os.rename

  /** `os.rename(source, target)` inside the folder on POSIX. A file
      replaces a file of the target name; a folder replaces only an empty
      folder. None stands for the OSError raised when the source is
      missing, when a file would replace a folder, or when a folder would
      replace a file or a folder that is not empty. */
  function Rename(e: map<string, Node>, source: string, target: string): (r: Option<map<string, Node>>)
    ensures r.None? <==> (source !in e ||
      (source != target && target in e &&
       (if e[source].File? then e[target].Dir? else e[target] != Dir(map[]))))
    ensures r.Some? ==> target in r.value && r.value[target] == e[source]
    ensures r.Some? && source != target ==> source !in r.value
    ensures r.Some? ==> forall n :: n in e && n != source && n != target ==> n in r.value && r.value[n] == e[n]
    ensures r.Some? ==> forall n :: n in r.value ==> n in e || n == target
  {
    if source !in e then None
    else if source == target then Some(e)
    else if target in e && (if e[source].File? then e[target].Dir? else e[target] != Dir(map[])) then None
    else Some((e - {source})[target := e[source]])
  }

  /** Where a rename loop stopped: the folder, and whether a rename raised
      (the folder then holds what the renames before it did). */
  datatype Run = Run(entries: map<string, Node>, raised: bool)

  /** The three renaming helpers of the lesson. */
  datatype Op =
    | Prefix(prefix: string)
    | Extension(oldExt: string, newExt: string)
    | Numbered(prefix: string, digits: int)

  /** The name the helper gives the listed name `f` at position `i` (counting
      from 1), None when it leaves the name alone on the strength of the
      name alone: `change_extension` only renames names that end in the old
      extension, letter case counting; it then puts the new extension after
      the stem `os.path.splitext` gives. `format_numbers` numbers with
      `str(i).zfill(digits)` and keeps the extension. */
  function Target(op: Op, f: string, i: nat): (t: Option<string>)
    ensures op.Extension? ==> (t.Some? <==> EndsWith(f, op.oldExt))
    ensures op.Prefix? || op.Numbered? ==> t.Some?
  {
    match op
    case Prefix(p) => Some(p + f)
    case Extension(o, n) => if EndsWith(f, o) then Some(SplitExt(f).0 + n) else None
    case Numbered(p, d) => Some(p + ZFill(NatToStr(i), d) + SplitExt(f).1)
  }

  /** The loop body's decision: `add_prefix` also skips names that are not
      files at that moment (`os.path.isfile`), the others rename whatever
      their test lets through. */
  function Planned(e: map<string, Node>, op: Op, f: string, i: nat): (t: Option<string>)
    ensures t.Some? ==> t == Target(op, f, i)
    ensures op.Prefix? ==> (t.Some? <==> f in e && e[f].File?)
    ensures !op.Prefix? ==> t == Target(op, f, i)
  {
    if op.Prefix? && !(f in e && e[f].File?) then None else Target(op, f, i)
  }

  /** The rename loop over `files`, the first of them at position `i`; the
      first rename that raises ends it. */
  function RenameRun(e: map<string, Node>, op: Op, files: seq<string>, i: nat): Run
    decreases |files|
  {
    if files == [] then Run(e, false)
    else match Planned(e, op, files[0], i)
      case None => RenameRun(e, op, files[1..], i + 1)
      case Some(t) =>
        match Rename(e, files[0], t)
        case None => Run(e, true)
        case Some(next) => RenameRun(next, op, files[1..], i + 1)
  }

  /** A plan with no clashes: the listed names are distinct files, `ts`
      holds the name each gets, the new names are distinct and none of
      them is taken. */
  ghost predicate FreshPlan(e: map<string, Node>, op: Op, files: seq<string>, ts: seq<string>, i: nat)
  {
    |ts| == |files| && Lists.Distinct(files) && Lists.Distinct(ts) &&
    (forall j :: 0 <= j < |files| ==> Target(op, files[j], i + j) == Some(ts[j])) &&
    (forall f :: f in files ==> f in e && e[f].File?) &&
    (forall t :: t in ts ==> t !in e)
  }

  /** What is left of a list without repetitions after its head has none. */
  lemma DistinctTail(s: seq<string>)
    requires s != [] && Lists.Distinct(s)
    ensures Lists.Distinct(s[1..]) && s[0] !in s[1..]
  {
    forall a, b | 0 <= a < b < |s[1..]| ensures s[1..][a] != s[1..][b] {
      assert s[1..][a] == s[a + 1] && s[1..][b] == s[b + 1];
    }
    forall b | 0 <= b < |s[1..]| ensures s[1..][b] != s[0] {
      assert s[1..][b] == s[b + 1];
    }
  }

  /** After the first rename of a clash-free plan the rest of the plan is
      clash-free. */
  lemma FreshPlanStep(e: map<string, Node>, op: Op, files: seq<string>, ts: seq<string>, i: nat)
    requires files != [] && FreshPlan(e, op, files, ts, i)
    ensures Planned(e, op, files[0], i) == Some(ts[0])
    ensures Rename(e, files[0], ts[0]).Some?
    ensures FreshPlan(Rename(e, files[0], ts[0]).value, op, files[1..], ts[1..], i + 1)
  {
    assert Target(op, files[0], i + 0) == Some(ts[0]);
    assert files[0] in files && ts[0] in ts;
    var next := Rename(e, files[0], ts[0]).value;
    DistinctTail(files);
    DistinctTail(ts);
    forall j | 0 <= j < |files[1..]|
      ensures Target(op, files[1..][j], i + 1 + j) == Some(ts[1..][j])
    {
      assert files[1..][j] == files[j + 1] && ts[1..][j] == ts[j + 1];
      assert Target(op, files[j + 1], i + (j + 1)) == Some(ts[j + 1]);
    }
    forall f | f in files[1..] ensures f in next && next[f].File? {
      assert f in files && f != files[0];
    }
    forall t | t in ts[1..] ensures t !in next {
      assert t in ts && t != ts[0];
    }
  }

  /** A clash-free plan runs to the end and does exactly what it says:
      every listed file is found under its new name with its old content,
      every entry not listed stays as it was, and nothing else is there. */
  lemma {:induction false} FreshRun(e: map<string, Node>, op: Op, files: seq<string>, ts: seq<string>, i: nat)
    requires FreshPlan(e, op, files, ts, i)
    ensures !RenameRun(e, op, files, i).raised
    ensures var r := RenameRun(e, op, files, i).entries;
      forall j :: 0 <= j < |files| ==> ts[j] in r && r[ts[j]] == e[files[j]]
    ensures var r := RenameRun(e, op, files, i).entries;
      forall n :: n in e && n !in files ==> n in r && r[n] == e[n]
    ensures var r := RenameRun(e, op, files, i).entries;
      forall n :: n in r ==> (n in e && n !in files) || n in ts
    decreases |files|
  {
    if files != [] {
      FreshPlanStep(e, op, files, ts, i);
      var next := Rename(e, files[0], ts[0]).value;
      FreshRun(next, op, files[1..], ts[1..], i + 1);
      FreshRunFirst(e, op, files, ts, i);
    }
  }

  /** The step of `FreshRun` after the recursive call. */
  lemma FreshRunFirst(e: map<string, Node>, op: Op, files: seq<string>, ts: seq<string>, i: nat)
    requires files != [] && FreshPlan(e, op, files, ts, i)
    requires Planned(e, op, files[0], i) == Some(ts[0]) && Rename(e, files[0], ts[0]).Some?
    requires var next := Rename(e, files[0], ts[0]).value;
      var r := RenameRun(next, op, files[1..], i + 1).entries;
      !RenameRun(next, op, files[1..], i + 1).raised &&
      (forall j :: 0 <= j < |files[1..]| ==> ts[1..][j] in r && r[ts[1..][j]] == next[files[1..][j]]) &&
      (forall n :: n in next && n !in files[1..] ==> n in r && r[n] == next[n]) &&
      (forall n :: n in r ==> (n in next && n !in files[1..]) || n in ts[1..])
    ensures !RenameRun(e, op, files, i).raised
    ensures var r := RenameRun(e, op, files, i).entries;
      forall j :: 0 <= j < |files| ==> ts[j] in r && r[ts[j]] == e[files[j]]
    ensures var r := RenameRun(e, op, files, i).entries;
      forall n :: n in e && n !in files ==> n in r && r[n] == e[n]
    ensures var r := RenameRun(e, op, files, i).entries;
      forall n :: n in r ==> (n in e && n !in files) || n in ts
  {
    var next := Rename(e, files[0], ts[0]).value;
    var r := RenameRun(next, op, files[1..], i + 1).entries;
    assert RenameRun(e, op, files, i) == RenameRun(next, op, files[1..], i + 1);
    DistinctTail(files);
    DistinctTail(ts);
    assert ts[0] in ts && files[0] in files;
    FreshMoved(e, files, ts, next, r);
    FreshKept(e, files, ts, next, r);
    FreshOnly(e, files, ts, next, r);
  }

  /** Every file of the plan ends under its new name. */
  lemma FreshMoved(e: map<string, Node>, files: seq<string>, ts: seq<string>, next: map<string, Node>, r: map<string, Node>)
    requires files != [] && |ts| == |files| && files[0] in e && ts[0] !in e
    requires files[0] !in files[1..] && ts[0] !in ts[1..]
    requires forall f :: f in files ==> f in e
    requires forall t :: t in ts ==> t !in e
    requires next == (e - {files[0]})[ts[0] := e[files[0]]]
    requires forall j :: 0 <= j < |files[1..]| ==> ts[1..][j] in r && r[ts[1..][j]] == next[files[1..][j]]
    requires forall n :: n in next && n !in files[1..] ==> n in r && r[n] == next[n]
    ensures forall j :: 0 <= j < |files| ==> ts[j] in r && r[ts[j]] == e[files[j]]
  {
    var rest, trest := files[1..], ts[1..];
    assert ts[0] !in rest by {
      forall f | f in rest ensures f != ts[0] {
        assert f in files;
      }
    }
    forall j | 0 <= j < |files| ensures ts[j] in r && r[ts[j]] == e[files[j]]
    {
      if j > 0 {
        assert rest[j - 1] == files[j] && trest[j - 1] == ts[j];
        assert files[j] in rest && files[j] in files;
        assert files[j] != ts[0];
      }
    }
  }

  /** Every entry outside the plan keeps its content. */
  lemma FreshKept(e: map<string, Node>, files: seq<string>, ts: seq<string>, next: map<string, Node>, r: map<string, Node>)
    requires files != [] && ts != [] && files[0] in e && ts[0] !in e
    requires next == (e - {files[0]})[ts[0] := e[files[0]]]
    requires forall n :: n in next && n !in files[1..] ==> n in r && r[n] == next[n]
    ensures forall n :: n in e && n !in files ==> n in r && r[n] == e[n]
  {
    forall n | n in e && n !in files ensures n in r && r[n] == e[n]
    {
      assert n != files[0] && n != ts[0];
      assert n !in files[1..];
    }
  }

  /** Nothing but the untouched entries and the new names is left. */
  lemma FreshOnly(e: map<string, Node>, files: seq<string>, ts: seq<string>, next: map<string, Node>, r: map<string, Node>)
    requires files != [] && ts != [] && files[0] in e
    requires next == (e - {files[0]})[ts[0] := e[files[0]]]
    requires forall n :: n in r ==> (n in next && n !in files[1..]) || n in ts[1..]
    ensures forall n :: n in r ==> (n in e && n !in files) || n in ts
  {
    forall n | n in r ensures (n in e && n !in files) || n in ts
    {
      if n in ts[1..] {
        assert n in ts;
      } else if n != ts[0] {
        assert n in e && n != files[0];
        assert n !in files by {
          assert files == [files[0]] + files[1..];
        }
      }
    }
  }

  /** `add_prefix` over a listing of distinct files whose prefixed names are
      all new renames each of them to its prefixed name and nothing else. */
  lemma AddPrefixFresh(e: map<string, Node>, prefix: string, files: seq<string>)
    requires Lists.Distinct(files)
    requires forall f :: f in files ==> f in e && e[f].File? && prefix + f !in e
    ensures var ts := seq(|files|, j requires 0 <= j < |files| => prefix + files[j]);
      FreshPlan(e, Prefix(prefix), files, ts, 1)
  {
    var ts := seq(|files|, j requires 0 <= j < |files| => prefix + files[j]);
    forall a, b | 0 <= a < b < |ts| ensures ts[a] != ts[b] {
      assert files[a] != files[b];
      assert ts[a][|prefix|..] == files[a];
      assert ts[b][|prefix|..] == files[b];
    }
    forall t | t in ts ensures t !in e {
      var j :| 0 <= j < |ts| && ts[j] == t;
      assert files[j] in files;
    }
  }

  /** `change_extension` with an extension of the usual form (a dot, then
      neither dots nor separators) renames a name with a real stem to that
      stem followed by the new extension. */
  lemma ChangeExtensionName(stem: string, oldExt: string, newExt: string, i: nat)
    requires oldExt != [] && oldExt[0] == '.' && '.' !in oldExt[1..] && '/' !in oldExt
    requires exists k :: LastIndexOf(stem, '/') < k < |stem| && stem[k] != '.'
    ensures Target(Extension(oldExt, newExt), stem + oldExt, i) == Some(stem + newExt)
  {
    SplitExtJoin(stem, oldExt);
    assert (stem + oldExt)[|stem + oldExt| - |oldExt|..] == oldExt;
  }

  /** Letter case counts: "photo.JPG" is left alone by a `.jpg` rename. */
  lemma ChangeExtensionCaseSensitive(i: nat)
    ensures Target(Extension(".jpg", ".png"), "photo.JPG", i) == None
  {
    assert "photo.JPG"[5..] == ".JPG";
  }

  /** A hidden file named like the extension has no extension to
      `os.path.splitext`, so the new one is appended: ".jpg" becomes
      ".jpg.png". */
  lemma ChangeExtensionHiddenFile(i: nat)
    ensures Target(Extension(".jpg", ".png"), ".jpg", i) == Some(".jpg.png")
  {
    var p := ".jpg";
    LastIndexOfUnique(p, '/', -1);
    LastIndexOfUnique(p, '.', 0);
    assert SplitExt(p) == (p, "");
    assert EndsWith(p, ".jpg") by {
      assert p[|p| - |".jpg"|..] == p;
    }
    assert p + ".png" == ".jpg.png";
  }

  /** `str(n).zfill(digits)` is digits only: no dot, no separator. */
  lemma ZFillPlain(n: nat, digits: int)
    ensures var z := ZFill(NatToStr(n), digits);
      z != [] && '.' !in z && '/' !in z
  {
    var s := NatToStr(n);
    var z := ZFill(s, digits);
    ZFillNat(n, digits);
    forall j | 0 <= j < |z| ensures z[j] != '.' && z[j] != '/' {
      if j < |z| - |s| {
        assert z[j] == Zeros(|z| - |s|)[j];
      } else {
        assert z[j] == s[j - (|z| - |s|)];
      }
    }
  }

  /** `format_numbers` gives the file at position `i` the prefix, then `i`
      padded with zeros to `digits` places and never cut, then the file's
      own extension, which splitting the new name gives back. */
  lemma NumberedName(prefix: string, digits: int, f: string, i: nat)
    requires SplitExt(f).1 != [] && '.' !in prefix && '/' !in prefix
    ensures var t := Target(Numbered(prefix, digits), f, i).value;
      var s := NatToStr(i);
      var width := if |s| >= digits then |s| else digits;
      var pad := Zeros(width - |s|) + s;
      t == prefix + pad + SplitExt(f).1 && SplitExt(t) == (prefix + pad, SplitExt(f).1)
  {
    var s := NatToStr(i);
    var z := ZFill(s, digits);
    var ext := SplitExt(f).1;
    var t := Target(Numbered(prefix, digits), f, i).value;
    assert t == prefix + z + ext;
    ZFillNat(i, digits);
    ZFillPlain(i, digits);
    SplitExtParts(f);
    TextReplacer.SplitExtInsert(prefix, z, ext);
  }

  // ---------------------------------------------------------------------
  // Sorting into sub-folders

  /** `os.makedirs(folder/d, exist_ok=True)` then `shutil.move` of file `f`
      to `folder/d/target`. None stands for the FileExistsError makedirs
      raises when `d` is a file; a file of the target name inside `d` is
      replaced. */
  function MoveInto(e: map<string, Node>, f: string, d: string, target: string): (r: Option<map<string, Node>>)
    requires f in e && e[f].File?
    ensures r.None? <==> d in e && e[d].File?
    ensures r.Some? ==> (f !in r.value && d in r.value && r.value[d].Dir? &&
      target in r.value[d].files && r.value[d].files[target] == e[f].content)
    ensures r.Some? ==> forall m :: d in e && m in e[d].files && m != target ==>
      m in r.value[d].files && r.value[d].files[m] == e[d].files[m]
    ensures r.Some? ==> forall n :: n in e && n != f && n != d ==> n in r.value && r.value[n] == e[n]
    ensures r.Some? ==> forall n :: n in r.value ==> n in e || n == d
  {
    if d in e && e[d].File? then None
    else
      var inside := if d in e then e[d].files else map[];
      Some((e - {f})[d := Dir(inside[target := e[f].content])])
  }

  /** What a sorting loop ends with: the folder, the counts per sub-folder,
      the files it moved in order, and whether a move raised (then the
      helper returns nothing). */
  datatype Sorting = Sorting(entries: map<string, Node>, stats: map<string, nat>, moved: seq<string>, raised: bool)

  /** The sorting loop of `organize_files` and `organize_homework` over the
      listing: skip what is not a file, pick the sub-folder with `place`,
      move the file there under the name `rename` gives and count one for
      that sub-folder. */
  function SortFrom(e: map<string, Node>, listing: seq<string>, place: string -> string, rename: string -> string,
                    stats: map<string, nat>): (r: Sorting)
    requires forall f :: place(f) in stats
    ensures r.stats.Keys == stats.Keys
    decreases |listing|
  {
    if listing == [] then Sorting(e, stats, [], false)
    else
      var f := listing[0];
      if !(f in e && e[f].File?) then SortFrom(e, listing[1..], place, rename, stats)
      else
        var d := place(f);
        match MoveInto(e, f, d, rename(f))
        case None => Sorting(e, stats, [], true)
        case Some(next) =>
          var r := SortFrom(next, listing[1..], place, rename, stats[d := stats[d] + 1]);
          r.(moved := [f] + r.moved)
  }

  /** The files `place` puts under `c`. */
  function Under(place: string -> string, c: string): string -> bool
  {
    (f: string) => place(f) == c
  }

  /** One pass of the sorting loop, as the method takes it. */
  lemma SortFromStep(e: map<string, Node>, listing: seq<string>, place: string -> string, rename: string -> string,
                     stats: map<string, nat>)
    requires listing != [] && forall f :: place(f) in stats
    ensures var f := listing[0];
      var r := SortFrom(e, listing, place, rename, stats);
      if !(f in e && e[f].File?) then r == SortFrom(e, listing[1..], place, rename, stats)
      else if MoveInto(e, f, place(f), rename(f)).None? then r.raised && r.entries == e && r.stats == stats
      else
        var r2 := SortFrom(MoveInto(e, f, place(f), rename(f)).value, listing[1..], place, rename,
                           stats[place(f) := stats[place(f)] + 1]);
        r.entries == r2.entries && r.stats == r2.stats && r.raised == r2.raised
  {
  }

  /** Sorting `listing` from folder `e` and counts `stats` ends where `goal`
      ended. */
  ghost predicate Reaches(e: map<string, Node>, listing: seq<string>, place: string -> string,
                          rename: string -> string, stats: map<string, nat>, goal: Sorting)
    requires forall f :: place(f) in stats
  {
    var r := SortFrom(e, listing, place, rename, stats);
    r.entries == goal.entries && r.stats == goal.stats && r.raised == goal.raised
  }

  /** One pass of the loop keeps its destination. */
  lemma ReachesStep(e: map<string, Node>, listing: seq<string>, place: string -> string, rename: string -> string,
                    stats: map<string, nat>, goal: Sorting)
    requires listing != [] && forall f :: place(f) in stats
    requires Reaches(e, listing, place, rename, stats, goal)
    ensures var f := listing[0];
      if !(f in e && e[f].File?) then Reaches(e, listing[1..], place, rename, stats, goal)
      else if MoveInto(e, f, place(f), rename(f)).None? then goal.raised && goal.entries == e
      else Reaches(MoveInto(e, f, place(f), rename(f)).value, listing[1..], place, rename,
                   stats[place(f) := stats[place(f)] + 1], goal)
  {
    SortFromStep(e, listing, place, rename, stats);
  }

  /** Every count grows by the number of moved files placed under it. */
  lemma {:induction false} SortCounts(e: map<string, Node>, listing: seq<string>, place: string -> string,
                                      rename: string -> string, stats: map<string, nat>, c: string)
    requires forall f :: place(f) in stats
    requires c in stats
    ensures var r := SortFrom(e, listing, place, rename, stats);
      r.stats[c] == stats[c] + Lists.Count(r.moved, Under(place, c))
    decreases |listing|
  {
    if listing != [] {
      var f := listing[0];
      if !(f in e && e[f].File?) {
        SortCounts(e, listing[1..], place, rename, stats, c);
      } else {
        var d := place(f);
        var m := MoveInto(e, f, d, rename(f));
        if m.Some? {
          SortCounts(m.value, listing[1..], place, rename, stats[d := stats[d] + 1], c);
          var rest := SortFrom(m.value, listing[1..], place, rename, stats[d := stats[d] + 1]).moved;
          assert ([f] + rest)[1..] == rest;
        }
      }
    }
  }

  /** The sum of the counts under the names `keys`. */
  function Total(stats: map<string, nat>, keys: seq<string>): nat
    requires forall k :: k in keys ==> k in stats
  {
    if keys == [] then 0 else stats[keys[0]] + Total(stats, keys[1..])
  }

  /** Counting one more under a name listed once adds one to the sum. */
  lemma {:induction false} TotalBump(stats: map<string, nat>, keys: seq<string>, d: string)
    requires forall k :: k in keys ==> k in stats
    requires d in stats && Lists.Distinct(keys)
    ensures Total(stats[d := stats[d] + 1], keys) == Total(stats, keys) + (if d in keys then 1 else 0)
    decreases |keys|
  {
    if keys != [] {
      DistinctTail(keys);
      TotalBump(stats, keys[1..], d);
      assert d in keys <==> keys[0] == d || d in keys[1..];
    }
  }

  /** Counts that are all 0 add up to 0. */
  lemma {:induction false} TotalZero(stats: map<string, nat>, keys: seq<string>)
    requires forall k :: k in keys ==> k in stats && stats[k] == 0
    ensures Total(stats, keys) == 0
    decreases |keys|
  {
    if keys != [] {
      TotalZero(stats, keys[1..]);
    }
  }

  /** Each moved file counts exactly once: when every sub-folder a file can
      go to is among `keys`, listed once each, the sum over `keys` grows by
      the number of files moved. */
  lemma {:induction false} SortTotal(e: map<string, Node>, listing: seq<string>, place: string -> string,
                                     rename: string -> string, stats: map<string, nat>, keys: seq<string>)
    requires forall f :: place(f) in stats
    requires forall k :: k in keys ==> k in stats
    requires forall f :: place(f) in keys
    requires Lists.Distinct(keys)
    ensures var r := SortFrom(e, listing, place, rename, stats);
      Total(r.stats, keys) == Total(stats, keys) + |r.moved|
    decreases |listing|
  {
    if listing != [] {
      var f := listing[0];
      if !(f in e && e[f].File?) {
        SortTotal(e, listing[1..], place, rename, stats, keys);
      } else {
        var d := place(f);
        var m := MoveInto(e, f, d, rename(f));
        if m.Some? {
          TotalBump(stats, keys, d);
          SortTotal(m.value, listing[1..], place, rename, stats[d := stats[d] + 1], keys);
        }
      }
    }
  }

  /** Only files of the listing are moved, in listing order, and the moved
      files are gone from the top of the folder. */
  lemma {:induction false} SortMovesListedFiles(e: map<string, Node>, listing: seq<string>, place: string -> string,
                                                rename: string -> string, stats: map<string, nat>)
    requires forall f :: place(f) in stats
    ensures var r := SortFrom(e, listing, place, rename, stats);
      Lists.IsSublist(r.moved, listing) &&
      (forall g :: g in r.moved ==> g in e && e[g].File? && !(g in r.entries && r.entries[g].File?))
    decreases |listing|
  {
    if listing != [] {
      var f := listing[0];
      if !(f in e && e[f].File?) {
        SortMovesListedFiles(e, listing[1..], place, rename, stats);
      } else {
        var d := place(f);
        var m := MoveInto(e, f, d, rename(f));
        if m.Some? {
          var s2 := stats[d := stats[d] + 1];
          SortMovesListedFiles(m.value, listing[1..], place, rename, s2);
          var r := SortFrom(m.value, listing[1..], place, rename, s2);
          SortMakesNoFile(m.value, listing[1..], place, rename, s2, f);
          assert ([f] + r.moved)[1..] == r.moved;
          forall g | g in [f] + r.moved ensures g in e && e[g].File? && !(g in r.entries && r.entries[g].File?) {
            if g != f {
              assert g in r.moved;
              assert g != d;
            }
          }
        }
      }
    }
  }

  /** Sorting puts no file at the top of the folder. */
  lemma {:induction false} SortMakesNoFile(e: map<string, Node>, listing: seq<string>, place: string -> string,
                                           rename: string -> string, stats: map<string, nat>, g: string)
    requires forall f :: place(f) in stats
    requires !(g in e && e[g].File?)
    ensures var r := SortFrom(e, listing, place, rename, stats).entries;
      !(g in r && r[g].File?)
    decreases |listing|
  {
    if listing != [] {
      var f := listing[0];
      if !(f in e && e[f].File?) {
        SortMakesNoFile(e, listing[1..], place, rename, stats, g);
      } else {
        var d := place(f);
        var m := MoveInto(e, f, d, rename(f));
        if m.Some? {
          SortMakesNoFile(m.value, listing[1..], place, rename, stats[d := stats[d] + 1], g);
        }
      }
    }
  }

  /** The counts of a sorting loop that starts with every name of `keys`
      at 0: one count per name, each the number of moved files placed under
      it, adding up to the number of files moved. */
  lemma SortFromZero(e: map<string, Node>, listing: seq<string>, place: string -> string,
                     rename: string -> string, keys: seq<string>, c: string)
    requires Lists.Distinct(keys) && forall f :: place(f) in keys
    ensures var r := SortFrom(e, listing, place, rename, ZeroStats(keys));
      r.stats.Keys == (set k | k in keys) &&
      (c in keys ==> r.stats[c] == Lists.Count(r.moved, Under(place, c))) &&
      Total(r.stats, keys) == |r.moved|
  {
    var z := ZeroStats(keys);
    if c in keys {
      SortCounts(e, listing, place, rename, z, c);
    }
    TotalZero(z, keys);
    SortTotal(e, listing, place, rename, z, keys);
  }

  /** The counts a sorting helper starts from: every name at 0. */
  function ZeroStats(keys: seq<string>): (m: map<string, nat>)
    ensures m.Keys == set k | k in keys
    ensures forall k :: k in m ==> m[k] == 0
  {
    map k | k in keys :: 0
  }

  // organize_files

  /** The type table of the nested `organize_files`, in its order; the last
      entry lists no extension. */
  const FILE_TYPES: seq<(string, seq<string>)> := [
    ("图片", [".jpg", ".jpeg", ".png", ".gif", ".bmp", ".svg"]),
    ("文档", [".txt", ".doc", ".docx", ".pdf", ".ppt", ".pptx", ".xls", ".xlsx"]),
    ("视频", [".mp4", ".avi", ".mov", ".mkv", ".flv"]),
    ("音乐", [".mp3", ".wav", ".flac", ".aac", ".ogg"]),
    ("压缩包", [".zip", ".rar", ".7z", ".tar", ".gz"]),
    ("代码", [".py", ".js", ".html", ".css", ".java", ".cpp"]),
    ("其他", [])
  ]

  const FILE_TYPE_NAMES: seq<string> := ["图片", "文档", "视频", "音乐", "压缩包", "代码", "其他"]

  /** The sub-folder of a file: the first type whose list holds its lower-cased
      extension, else 其他. */
  function FileType(f: string): (c: string)
    ensures c in FILE_TYPE_NAMES
  {
    var c := FileOrganizer.CategoryFrom(FILE_TYPES, FileOrganizer.Ext(f), 0);
    assert forall j :: 0 <= j < |FILE_TYPES| ==> FILE_TYPES[j].0 == FILE_TYPE_NAMES[j];
    c
  }

  function Keep(f: string): string { f }

  /** The run of `organize_files(folder)`. */
  function SortByType(e: map<string, Node>, listing: seq<string>): Sorting
  {
    SortFrom(e, listing, FileType, Keep, ZeroStats(FILE_TYPE_NAMES))
  }

  lemma FileTypeNamesDistinct()
    ensures Lists.Distinct(FILE_TYPE_NAMES)
  {
  }

  /** The counts of `organize_files`: one per type, each the number of
      moved files of that type, adding up to the number of files moved. */
  lemma OrganizeFilesCounts(e: map<string, Node>, listing: seq<string>, c: string)
    ensures SortByType(e, listing).stats.Keys == set k | k in FILE_TYPE_NAMES
    ensures c in FILE_TYPE_NAMES ==>
      SortByType(e, listing).stats[c] == Lists.Count(SortByType(e, listing).moved, Under(FileType, c))
    ensures Total(SortByType(e, listing).stats, FILE_TYPE_NAMES) == |SortByType(e, listing).moved|
  {
    FileTypeNamesDistinct();
    SortFromZero(e, listing, FileType, Keep, FILE_TYPE_NAMES, c);
  }

  // organize_homework

  /** The subject table of `organize_homework`, in its order. */
  const SUBJECTS: seq<(string, seq<string>)> := [
    ("数学", ["math"]),
    ("语文", ["chinese", "chinese_essay", "作文"]),
    ("英语", ["english"]),
    ("物理", ["physics"]),
    ("化学", ["chemistry"]),
    ("历史", ["history"]),
    ("地理", ["geography"]),
    ("生物", ["biology"]),
    ("政治", ["politics"])
  ]

  const HOMEWORK_NAMES: seq<string> := ["数学", "语文", "英语", "物理", "化学", "历史", "地理", "生物", "政治", "其他"]

  /** Some keyword of the list is a substring of `s`. */
  predicate AnyKeyword(keywords: seq<string>, s: string)
  {
    exists k :: k in keywords && Contains(s, k)
  }

  /** The first subject of `table` from position `i` on with a keyword in
      `name`, else 其他. */
  function FirstSubject(table: seq<(string, seq<string>)>, name: string, i: nat): (c: string)
    ensures c == "其他" || exists j :: i <= j < |table| && c == table[j].0
    decreases |table| - i
  {
    if i >= |table| then "其他"
    else if AnyKeyword(table[i].1, name) then table[i].0
    else FirstSubject(table, name, i + 1)
  }

  /** The subject chosen is the first whose keywords meet the name ... */
  lemma {:induction false} FirstSubjectIs(table: seq<(string, seq<string>)>, name: string, i: nat, j: nat)
    requires i <= j < |table| && AnyKeyword(table[j].1, name)
    requires forall k :: i <= k < j ==> !AnyKeyword(table[k].1, name)
    ensures FirstSubject(table, name, i) == table[j].0
    decreases j - i
  {
    if i < j {
      FirstSubjectIs(table, name, i + 1, j);
    }
  }

  /** ... and 其他 when no subject's keyword is in the name. */
  lemma {:induction false} FirstSubjectNone(table: seq<(string, seq<string>)>, name: string, i: nat)
    requires forall k :: i <= k < |table| ==> !AnyKeyword(table[k].1, name)
    ensures FirstSubject(table, name, i) == "其他"
    decreases |table| - i
  {
    if i < |table| {
      FirstSubjectNone(table, name, i + 1);
    }
  }

  /** The subject of a file, from its lower-cased name. */
  function Subject(f: string): (c: string)
    ensures c in HOMEWORK_NAMES
  {
    var c := FirstSubject(SUBJECTS, Lower(f), 0);
    assert forall j :: 0 <= j < |SUBJECTS| ==> SUBJECTS[j].0 == HOMEWORK_NAMES[j];
    c
  }

  /** The demo's "math_quiz.pdf" goes to 数学. */
  lemma SubjectExample()
    ensures Subject("math_quiz.pdf") == "数学"
  {
    var name := "math_quiz.pdf";
    assert Lower(name) == name;
    assert name[..4] == "math";
    assert "math" in SUBJECTS[0].1 && Contains(name, "math");
    FirstSubjectIs(SUBJECTS, name, 0, 0);
  }

  /** The date prefix `organize_homework` gives a moved file. */
  function Dated(today: string): string -> string
  {
    (f: string) => today + "_" + f
  }

  /** The run of `organize_homework(folder)`, with today's date passed in. */
  function SortHomework(e: map<string, Node>, listing: seq<string>, today: string): Sorting
  {
    SortFrom(e, listing, Subject, Dated(today), ZeroStats(HOMEWORK_NAMES))
  }

  lemma HomeworkNamesDistinct()
    ensures Lists.Distinct(HOMEWORK_NAMES)
  {
  }

  /** The counts of `organize_homework`: one per subject and 其他, each the
      number of moved files of that subject, adding up to the number of
      files moved. */
  lemma OrganizeHomeworkCounts(e: map<string, Node>, listing: seq<string>, today: string, c: string)
    ensures SortHomework(e, listing, today).stats.Keys == set k | k in HOMEWORK_NAMES
    ensures c in HOMEWORK_NAMES ==>
      SortHomework(e, listing, today).stats[c] ==
        Lists.Count(SortHomework(e, listing, today).moved, Under(Subject, c))
    ensures Total(SortHomework(e, listing, today).stats, HOMEWORK_NAMES) == |SortHomework(e, listing, today).moved|
  {
    HomeworkNamesDistinct();
    SortFromZero(e, listing, Subject, Dated(today), HOMEWORK_NAMES, c);
  }

  // ---------------------------------------------------------------------
  // The log and the price list

  datatype Level = Info | Warning | Error | Unmarked

  /** The bucket of a log line: INFO wins over WARNING, WARNING over ERROR. */
  function LevelOf(line: string): (lv: Level)
    ensures lv == Info <==> Contains(line, "INFO")
    ensures lv == Warning <==> !Contains(line, "INFO") && Contains(line, "WARNING")
    ensures lv == Error <==> !Contains(line, "INFO") && !Contains(line, "WARNING") && Contains(line, "ERROR")
  {
    if Contains(line, "INFO") then Info
    else if Contains(line, "WARNING") then Warning
    else if Contains(line, "ERROR") then Error
    else Unmarked
  }

  /** The number of lines in bucket `lv`. */
  function Tally(lines: seq<string>, lv: Level): nat
  {
    if lines == [] then 0
    else Tally(lines[..|lines| - 1], lv) + (if LevelOf(lines[|lines| - 1]) == lv then 1 else 0)
  }

  /** The stripped ERROR lines, in file order. */
  function ErrorsOf(lines: seq<string>): seq<string>
  {
    if lines == [] then []
    else ErrorsOf(lines[..|lines| - 1]) + (if LevelOf(lines[|lines| - 1]) == Error then [Strip(lines[|lines| - 1])] else [])
  }

  /** Each line lands in exactly one of the three buckets or in none: the
      buckets and the unmarked lines add up to the number of lines. */
  lemma {:induction false} TallyPartition(lines: seq<string>)
    ensures Tally(lines, Info) + Tally(lines, Warning) + Tally(lines, Error) + Tally(lines, Unmarked) == |lines|
    decreases |lines|
  {
    if lines != [] {
      TallyPartition(lines[..|lines| - 1]);
    }
  }

  /** The error list holds one stripped line per ERROR line, and only those. */
  lemma {:induction false} ErrorsAreErrorLines(lines: seq<string>)
    ensures |ErrorsOf(lines)| == Tally(lines, Error)
    ensures forall x :: x in ErrorsOf(lines) ==>
      exists i :: 0 <= i < |lines| && LevelOf(lines[i]) == Error && x == Strip(lines[i])
    decreases |lines|
  {
    if lines != [] {
      var front := lines[..|lines| - 1];
      ErrorsAreErrorLines(front);
      forall x | x in ErrorsOf(lines)
        ensures exists i :: 0 <= i < |lines| && LevelOf(lines[i]) == Error && x == Strip(lines[i])
      {
        if x in ErrorsOf(front) {
          var i :| 0 <= i < |front| && LevelOf(front[i]) == Error && x == Strip(front[i]);
          assert lines[i] == front[i];
        } else {
          assert LevelOf(lines[|lines| - 1]) == Error && x == Strip(lines[|lines| - 1]);
        }
      }
    }
  }

  /** The counters `analyze_log` returns. */
  function LogStats(lines: seq<string>): map<string, nat>
  {
    map["INFO" := Tally(lines, Info), "WARNING" := Tally(lines, Warning), "ERROR" := Tally(lines, Error)]
  }

  /** `analyze_log(file_path)`: None when the file cannot be opened. */
  method AnalyzeLog(content: Option<seq<string>>) returns (r: Option<(map<string, nat>, seq<string>)>)
    ensures content.None? <==> r.None?
    ensures r.Some? ==> r.value == (LogStats(content.value), ErrorsOf(content.value))
  {
    if content.None? {
      return None;
    }
    var lines := content.value;
    var info, warning, error := 0, 0, 0;
    var errors: seq<string> := [];
    var i := 0;
    while i < |lines|
      invariant 0 <= i <= |lines|
      invariant info == Tally(lines[..i], Info) && warning == Tally(lines[..i], Warning)
      invariant error == Tally(lines[..i], Error) && errors == ErrorsOf(lines[..i])
      decreases |lines| - i
    {
      assert lines[..i + 1][..i] == lines[..i];
      var line := lines[i];
      if Contains(line, "INFO") {
        info := info + 1;
      } else if Contains(line, "WARNING") {
        warning := warning + 1;
      } else if Contains(line, "ERROR") {
        error := error + 1;
        errors := errors + [Strip(line)];
      }
      i := i + 1;
    }
    assert lines[..i] == lines;
    return Some((map["INFO" := info, "WARNING" := warning, "ERROR" := error], errors));
  }

  /** The name and the price text of one line, or None for the IndexError
      of a line with no ", " after stripping. */
  function PriceFields(line: string): (r: Option<(string, string)>)
    ensures r.Some? <==> Contains(Strip(line), ", ")
  {
    var parts := SplitOn(Strip(line), ", ");
    SplitOnCount(Strip(line), ", ");
    CountZeroIff(Strip(line), ", ");
    if |parts| < 2 then None
    else Some((ReplaceAll(parts[0], "商品: ", ""), ReplaceAll(ReplaceAll(parts[1], "价格: ", ""), "元", "")))
  }

  /** The name and the price of one line. `toFloat` stands for Python's
      `float` on the price text, None being its ValueError. The line raises
      (None) exactly when it has no ", " or its price text is not a number. */
  function PriceItem(line: string, toFloat: string -> Option<real>): (r: Option<(string, real)>)
    ensures r.Some? <==> PriceFields(line).Some? && toFloat(PriceFields(line).value.1).Some?
    ensures r.Some? ==> r.value.0 == PriceFields(line).value.0
  {
    match PriceFields(line)
    case None => None
    case Some((name, text)) =>
      match toFloat(text)
      case None => None
      case Some(price) => Some((name, price))
  }

  /** A line yields an item only when it holds both markers. */
  predicate Marked(line: string)
  {
    Contains(line, "商品:") && Contains(line, "价格:")
  }

  /** The items of the marked lines, in file order; None when one of them
      raises. */
  function Prices(lines: seq<string>, toFloat: string -> Option<real>): (r: Option<seq<(string, real)>>)
    ensures r.Some? ==> |r.value| == Lists.Count(lines, Marked)
  {
    if lines == [] then Some([])
    else
      var front := lines[..|lines| - 1];
      var last := lines[|lines| - 1];
      Lists.CountAppend(front, last, Marked);
      assert front + [last] == lines;
      match Prices(front, toFloat)
      case None => None
      case Some(items) =>
        if !Marked(last) then Some(items)
        else match PriceItem(last, toFloat)
          case None => None
          case Some(item) => Some(items + [item])
  }

  /** Every item comes from a marked line of the file. */
  lemma {:induction false} PricesFromMarkedLines(lines: seq<string>, toFloat: string -> Option<real>)
    requires Prices(lines, toFloat).Some?
    ensures forall x :: x in Prices(lines, toFloat).value ==>
      exists i :: 0 <= i < |lines| && Marked(lines[i]) && PriceItem(lines[i], toFloat) == Some(x)
    decreases |lines|
  {
    if lines != [] {
      var front := lines[..|lines| - 1];
      PricesFromMarkedLines(front, toFloat);
      forall x | x in Prices(lines, toFloat).value
        ensures exists i :: 0 <= i < |lines| && Marked(lines[i]) && PriceItem(lines[i], toFloat) == Some(x)
      {
        if x in Prices(front, toFloat).value {
          var i :| 0 <= i < |front| && Marked(front[i]) && PriceItem(front[i], toFloat) == Some(x);
          assert lines[i] == front[i];
        }
      }
    }
  }

  /** A line written as the demo writes it gives back its product name and
      its price text without the unit, and so the price that text reads as. */
  lemma PriceItemOf(name: string, price: string, toFloat: string -> Option<real>)
    requires ',' !in name && '商' !in name
    requires ',' !in price && '价' !in price && '元' !in price
    ensures PriceFields("商品: " + name + ", 价格: " + price + "元") == Some((name, price))
    ensures toFloat(price).Some? ==>
      PriceItem("商品: " + name + ", 价格: " + price + "元", toFloat) == Some((name, toFloat(price).value))
  {
    var head, tail := "商品: " + name, "价格: " + price + "元";
    var line := "商品: " + name + ", 价格: " + price + "元";
    assert line == head + ", " + tail;
    assert line[0] == '商' && line[|line| - 1] == '元';
    StripPlain(line);
    SplitOnFirst(head, ", ", tail);
    SplitOnNone(tail, ", ");
    assert SplitOn(line, ", ") == [head, tail];
    ReplaceLead("商品: ", name, "");
    ReplacePlainPrefix(name, [], "商品: ", "");
    assert name + [] == name;
    ReplacePlainShort([], "商品: ", "");
    assert ReplaceAll(name, "商品: ", "") == name;
    assert ReplaceAll(head, "商品: ", "") == name;
    PriceText(price);
    assert PriceFields(line) == Some((ReplaceAll(head, "商品: ", ""),
      ReplaceAll(ReplaceAll(tail, "价格: ", ""), "元", "")));
  }

  /** The price field loses its label and its unit. */
  lemma PriceText(price: string)
    requires '价' !in price && '元' !in price
    ensures ReplaceAll(ReplaceAll("价格: " + price + "元", "价格: ", ""), "元", "") == price
  {
    var tail := "价格: " + price + "元";
    assert tail == "价格: " + (price + "元");
    ReplaceLead("价格: ", price + "元", "");
    assert "" + ReplaceAll(price + "元", "价格: ", "") == ReplaceAll(price + "元", "价格: ", "");
    ReplacePlainPrefix(price, "元", "价格: ", "");
    ReplacePlainShort("元", "价格: ", "");
    ReplacePlainPrefix(price, "元", "元", "");
    ReplaceLead("元", [], "");
    assert price + "" == price;
  }

  /** `extract_prices(file_path)`: None when the file cannot be opened or
      a marked line raises. */
  method ExtractPrices(content: Option<seq<string>>, toFloat: string -> Option<real>)
    returns (r: Option<seq<(string, real)>>)
    ensures content.None? ==> r.None?
    ensures content.Some? ==> r == Prices(content.value, toFloat)
  {
    if content.None? {
      return None;
    }
    var lines := content.value;
    var items: seq<(string, real)> := [];
    var i := 0;
    while i < |lines|
      invariant 0 <= i <= |lines|
      invariant Prices(lines[..i], toFloat) == Some(items)
      decreases |lines| - i
    {
      assert lines[..i + 1][..i] == lines[..i];
      var line := lines[i];
      if Marked(line) {
        var item := PriceItem(line, toFloat);
        if item.None? {
          PricesRaise(lines, i, toFloat);
          return None;
        }
        items := items + [item.value];
      }
      i := i + 1;
    }
    assert lines[..i] == lines;
    return Some(items);
  }

  /** Once a prefix of the file raises, the whole file does. */
  lemma {:induction false} PricesRaise(lines: seq<string>, i: nat, toFloat: string -> Option<real>)
    requires i < |lines| && Prices(lines[..i], toFloat).Some?
    requires Marked(lines[i]) && PriceItem(lines[i], toFloat).None?
    ensures Prices(lines, toFloat).None?
    decreases |lines|
  {
    assert lines[..i + 1][..i] == lines[..i];
    if i + 1 < |lines| {
      var front := lines[..|lines| - 1];
      assert front[..i] == lines[..i] && front[i] == lines[i];
      PricesRaise(front, i, toFloat);
    } else {
      assert lines[..i + 1] == lines;
    }
  }

  /** The rename loop, pass by pass, on the folder's entries. */
  method RenameLoop(e0: map<string, Node>, op: Op, files: seq<string>) returns (e: map<string, Node>, raised: bool)
    ensures Run(e, raised) == RenameRun(e0, op, files, 1)
  {
    e := e0;
    var rest, i := files, 1;
    while rest != []
      invariant RenameRun(e, op, rest, i) == RenameRun(e0, op, files, 1)
      decreases |rest|
    {
      var t := Planned(e, op, rest[0], i);
      if t.Some? {
        var next := Rename(e, rest[0], t.value);
        if next.None? {
          return e, true;
        }
        e := next.value;
      }
      rest, i := rest[1..], i + 1;
    }
    return e, false;
  }

  /** One pass of the sorting loop, on the first file of `rest`. */
  method SortPass(e: map<string, Node>, rest: seq<string>, place: string -> string, rename: string -> string,
                  counts: map<string, nat>, ghost goal: Sorting)
      returns (e2: map<string, Node>, counts2: map<string, nat>, raised: bool)
    requires rest != [] && forall f :: place(f) in counts
    requires Reaches(e, rest, place, rename, counts, goal)
    ensures forall f :: place(f) in counts2
    ensures raised ==> goal.raised && goal.entries == e2
    ensures !raised ==> Reaches(e2, rest[1..], place, rename, counts2, goal)
  {
    ReachesStep(e, rest, place, rename, counts, goal);
    e2, counts2, raised := e, counts, false;
    var f := rest[0];
    if f in e && e[f].File? {
      var d := place(f);
      var next := MoveInto(e, f, d, rename(f));
      if next.None? {
        raised := true;
        return;
      }
      e2 := next.value;
      counts2 := counts[d := counts[d] + 1];
    }
  }

  /** The sorting loop, pass by pass, on the folder's entries. */
  method SortLoop(e0: map<string, Node>, listing: seq<string>, place: string -> string, rename: string -> string,
                  start: map<string, nat>) returns (e: map<string, Node>, stats: Option<map<string, nat>>)
    requires forall f :: place(f) in start
    ensures var r := SortFrom(e0, listing, place, rename, start);
      e == r.entries && (stats.None? <==> r.raised) && (stats.Some? ==> stats.value == r.stats)
  {
    ghost var goal := SortFrom(e0, listing, place, rename, start);
    e := e0;
    var counts := start;
    var rest := listing;
    while rest != []
      invariant forall f :: place(f) in counts
      invariant Reaches(e, rest, place, rename, counts, goal)
      decreases |rest|
    {
      var raised;
      e, counts, raised := SortPass(e, rest, place, rename, counts, goal);
      if raised {
        return e, None;
      }
      rest := rest[1..];
    }
    return e, Some(counts);
  }

  // ---------------------------------------------------------------------
  // The folder

  class Folder {
    var entries: map<string, Node>

    constructor(entries: map<string, Node>)
      ensures this.entries == entries
    {
      this.entries := entries;
    }

    /** The loop the renaming helpers share, numbering from 1. */
    method RenameAll(op: Op, files: seq<string>) returns (raised: bool)
      modifies this
      ensures Run(entries, raised) == RenameRun(old(entries), op, files, 1)
    {
      entries, raised := RenameLoop(entries, op, files);
    }

    /** `add_prefix(folder, prefix)`. */
    method AddPrefix(listing: seq<string>, prefix: string) returns (raised: bool)
      modifies this
      ensures Run(entries, raised) == RenameRun(old(entries), Prefix(prefix), listing, 1)
    {
      raised := RenameAll(Prefix(prefix), listing);
    }

    /** `change_extension(folder, old_ext, new_ext)`. */
    method ChangeExtension(listing: seq<string>, oldExt: string, newExt: string) returns (raised: bool)
      modifies this
      ensures Run(entries, raised) == RenameRun(old(entries), Extension(oldExt, newExt), listing, 1)
    {
      raised := RenameAll(Extension(oldExt, newExt), listing);
    }

    /** `format_numbers(folder, prefix, digits)`: the files of the listing,
        sorted by name, numbered from 1. */
    method FormatNumbers(listing: seq<string>, prefix: string, digits: int) returns (raised: bool)
      modifies this
      ensures Run(entries, raised) ==
        RenameRun(old(entries), Numbered(prefix, digits), BatchRename.SortNames(FilesOf(old(entries), listing)), 1)
    {
      var files := BatchRename.SortNames(FilesOf(entries, listing));
      raised := RenameAll(Numbered(prefix, digits), files);
    }

    /** `replace_in_file(file_path, old_text, new_text)`: the count of the
        old text, with the file written back whatever the count; None when
        the name is not a file that can be opened. */
    method ReplaceInFile(name: string, oldText: string, newText: string) returns (count: Option<nat>)
      modifies this
      ensures count.None? <==> !(name in old(entries) && old(entries)[name].File?)
      ensures count.None? ==> entries == old(entries)
      ensures count.Some? ==>
        count.value == CountOf(old(entries)[name].content, oldText) &&
        entries == old(entries)[name := File(ReplaceAll(old(entries)[name].content, oldText, newText))]
    {
      if !(name in entries && entries[name].File?) {
        return None;
      }
      var content := entries[name].content;
      var n := CountOf(content, oldText);
      entries := entries[name := File(ReplaceAll(content, oldText, newText))];
      return Some(n);
    }

    /** The loop `organize_files` and `organize_homework` share. */
    method SortAll(listing: seq<string>, place: string -> string, rename: string -> string, start: map<string, nat>)
      returns (stats: Option<map<string, nat>>)
      requires forall f :: place(f) in start
      modifies this
      ensures var r := SortFrom(old(entries), listing, place, rename, start);
        entries == r.entries && (stats.None? <==> r.raised) && (stats.Some? ==> stats.value == r.stats)
    {
      entries, stats := SortLoop(entries, listing, place, rename, start);
    }

    /** `organize_files(folder)`. */
    method OrganizeFiles(listing: seq<string>) returns (stats: Option<map<string, nat>>)
      modifies this
      ensures var r := SortByType(old(entries), listing);
        entries == r.entries && (stats.None? <==> r.raised) && (stats.Some? ==> stats.value == r.stats)
    {
      stats := SortAll(listing, FileType, Keep, ZeroStats(FILE_TYPE_NAMES));
    }

    /** `organize_homework(folder)`, with today's date as `datetime` would
        print it passed in. */
    method OrganizeHomework(listing: seq<string>, today: string) returns (stats: Option<map<string, nat>>)
      modifies this
      ensures var r := SortHomework(old(entries), listing, today);
        entries == r.entries && (stats.None? <==> r.raised) && (stats.Some? ==> stats.value == r.stats)
    {
      stats := SortAll(listing, Subject, Dated(today), ZeroStats(HOMEWORK_NAMES));
    }
  }

  /** The listed names that are files when the listing is taken. */
  function FilesOf(e: map<string, Node>, listing: seq<string>): (r: seq<string>)
    ensures forall f :: f in r <==> f in listing && f in e && e[f].File?
  {
    Lists.FilterMembers(listing, (f: string) => f in e && e[f].File?);
    Lists.Filter(listing, (f: string) => f in e && e[f].File?)
  }
}

=== FILE: batch_rename.dfy ===
/** The batch renaming tool: the new name each operation gives a file, the
    shared skip rules, the `fnmatch` listing filter, the preview and the
    rename loop over a folder. The folder is a map from entry names to their
    kind; the directory listing `os.listdir` returns is a parameter, `None`
    when the folder does not exist. */
module BatchRename {
  import opened Text
  import opened Lists
  import opened Options

  datatype Entry = RegularFile | Directory

  /** One renaming operation with its arguments. */
  datatype Rename =
    | Prefix(prefix: string)
    | Suffix(suffix: string)
    | Extension(oldExt: string, newExt: string)
    | Sequential(base: string, start: int, digits: int)
    | Replace(find: string, replacement: string)
    | Lowercase

  // ---------------------------------------------------------------------
  // fnmatch patterns

  /** `fnmatch` on a case-sensitive file system: `*` matches any run of
      characters, `?` any one character, everything else itself. */
  predicate GlobMatch(pattern: string, name: string)
    decreases |pattern| + |name|
  {
    if pattern == [] then name == []
    else if pattern[0] == '*' then
      GlobMatch(pattern[1..], name) || (name != [] && GlobMatch(pattern, name[1..]))
    else
      name != [] && (pattern[0] == '?' || pattern[0] == name[0]) && GlobMatch(pattern[1..], name[1..])
  }

  /** A pattern without wildcards. */
  predicate Literal(pattern: string)
  {
    '*' !in pattern && '?' !in pattern
  }

  /** `*` matches every name. */
  lemma {:induction false} GlobStar(name: string)
    ensures GlobMatch("*", name)
    decreases |name|
  {
    if name != [] {
      GlobStar(name[1..]);
    }
  }

  /** A pattern without wildcards matches exactly itself. */
  lemma {:induction false} GlobLiteral(pattern: string, name: string)
    requires Literal(pattern)
    ensures GlobMatch(pattern, name) <==> name == pattern
    decreases |pattern|
  {
    if pattern != [] {
      assert pattern[0] in pattern;
      assert Literal(pattern[1..]) by {
        assert forall c :: c in pattern[1..] ==> c in pattern;
      }
      if name != [] {
        GlobLiteral(pattern[1..], name[1..]);
        if name[1..] == pattern[1..] && name[0] == pattern[0] {
          assert name == [name[0]] + name[1..];
          assert pattern == [pattern[0]] + pattern[1..];
        }
      }
    }
  }

  /** `*` followed by a literal suffix matches exactly the names that end
      with it: this is the listing `change_extension` asks for. */
  lemma {:induction false} GlobStarSuffix(suffix: string, name: string)
    requires Literal(suffix)
    ensures GlobMatch("*" + suffix, name) <==> EndsWith(name, suffix)
    decreases |name|
  {
    var pattern := "*" + suffix;
    assert pattern[1..] == suffix;
    GlobLiteral(suffix, name);
    if name != [] {
      GlobStarSuffix(suffix, name[1..]);
      if |suffix| < |name| {
        assert name[1..][|name| - 1 - |suffix|..] == name[|name| - |suffix|..];
      }
    }
  }

  /** `get_matching_files`: nothing for a missing folder, the whole listing
      for `*`, otherwise the entries the pattern matches, in listing order. */
  function GetMatchingFiles(listing: Option<seq<string>>, pattern: string): (r: seq<string>)
    ensures listing.None? ==> r == []
    ensures listing.Some? ==> forall n :: n in r <==> n in listing.value && GlobMatch(pattern, n)
  {
    match listing
    case None => []
    case Some(names) =>
      if pattern == "*" then
        AllMatchStar(names);
        names
      else
        FilterMembers(names, n => GlobMatch(pattern, n));
        Filter(names, n => GlobMatch(pattern, n))
  }

  lemma AllMatchStar(names: seq<string>)
    ensures forall n :: GlobMatch("*", n)
  {
    forall n ensures GlobMatch("*", n) {
      GlobStar(n);
    }
  }

  /** The shortcut for `*` returns what filtering with `*` would: the
      shortcut changes nothing but speed. */
  lemma StarShortcut(names: seq<string>)
    ensures GetMatchingFiles(Some(names), "*") == Filter(names, n => GlobMatch("*", n))
  {
    AllMatchStar(names);
    FilterAll(names, n => GlobMatch("*", n));
  }

  // ---------------------------------------------------------------------
  // names

  /** An extension as `change_extension` uses it: with a leading dot added
      when it has none. */
  function WithDot(ext: string): (r: string)
    ensures StartsWith(r, ".")
    ensures r == ext || r == "." + ext
    ensures StartsWith(ext, ".") ==> r == ext
  {
    if StartsWith(ext, ".") then ext else "." + ext
  }

  lemma WithDotIdempotent(ext: string)
    ensures WithDot(WithDot(ext)) == WithDot(ext)
  {
  }

  /** The new name an operation gives the file `name`, the `pos`-th of the
      listing, or `None` when the operation leaves the file out before
      looking at it: a name not ending with the old extension in any letter
      case, a name not containing the text to find, a name already in lower
      case. */
  function Target(op: Rename, name: string, pos: nat): Option<string>
  {
    match op
    case Prefix(p) => Some(p + name)
    case Suffix(x) => Some(SplitExt(name).0 + x + SplitExt(name).1)
    case Extension(o, n) =>
      if EndsWith(Lower(name), Lower(o)) then Some(SplitExt(name).0 + n) else None
    case Sequential(base, start, digits) =>
      Some(NumberedName(base, start + pos, digits, name))
    case Replace(f, r) =>
      if Contains(name, f) then Some(ReplaceAll(name, f, r)) else None
    case Lowercase =>
      if name == Lower(name) then None else Some(Lower(name))
  }

  /** A suffix goes between the stem and the extension, which stay. */
  lemma SuffixBeforeExtension(x: string, name: string, pos: nat)
    ensures var t := Target(Suffix(x), name, pos).value;
      var (stem, ext) := SplitExt(name);
      name == stem + ext && t == stem + x + ext
  {
    SplitExtParts(name);
  }

  /** The name `sequential_rename` gives the file `name` under number `i`. */
  function NumberedName(base: string, i: int, digits: int, name: string): string
  {
    base + ZFill(IntToStr(i), digits) + SplitExt(name).1
  }

  /** A sequential name is the base, then at least `digits` digits of the
      counter with leading zeros and never cut short, then the file's own
      extension. */
  lemma SequentialName(base: string, n: nat, digits: int, name: string)
    ensures var num := if |NatToStr(n)| >= digits then |NatToStr(n)| else digits;
      NumberedName(base, n, digits, name) ==
        base + Zeros(num - |NatToStr(n)|) + NatToStr(n) + SplitExt(name).1
  {
    var s := NatToStr(n);
    ZFillNat(n, digits);
    var z := ZFill(s, digits);
    Regroup(base, Zeros(|z| - |s|), s, SplitExt(name).1);
  }

  lemma Regroup(a: string, b: string, c: string, d: string)
    ensures a + (b + c) + d == a + b + c + d
  {
  }

  /** A name in lower case is left out by `lowercase`, and lowering once
      leaves nothing more to do. */
  lemma LowercaseIdempotent(name: string, pos: nat)
    ensures Target(Lowercase, Lower(name), pos) == None
    ensures Target(Lowercase, name, pos).Some? ==> Target(Lowercase, Target(Lowercase, name, pos).value, pos) == None
  {
    LowerIdempotent(name);
  }

  /** `find_replace` touches only names containing the text; replacing by
      the text itself gives the name back. */
  lemma ReplaceTouchesOnlyMatches(f: string, r: string, name: string, pos: nat)
    ensures Target(Replace(f, r), name, pos).Some? <==> Contains(name, f)
    ensures f != [] && Contains(name, f) ==> Target(Replace(f, f), name, pos) == Some(name)
  {
    if f != [] {
      ReplaceSelf(name, f);
    }
  }

  // ---------------------------------------------------------------------
  // one file, then a whole listing

  /** What the loop body does with one file, given the new name the
      operation picks for it: keep going without renaming when the
      operation leaves the file out, when it is not a regular file, or when
      the new name already exists and differs; otherwise rename it and
      count one. */
  function Step(e: map<string, Entry>, name: string, target: Option<string>): (r: (map<string, Entry>, nat))
    ensures r.1 <= 1 && (r.1 == 0 ==> r.0 == e)
    ensures r.1 == 1 <==>
      target.Some? && name in e && e[name] == RegularFile && (target.value !in e || target.value == name)
    ensures r.1 == 1 ==> target.value in r.0 && r.0[target.value] == RegularFile
    ensures r.1 == 1 && target.value != name ==> name !in r.0
  {
    match target
    case None => (e, 0)
    case Some(n) =>
      if name !in e || e[name] != RegularFile then (e, 0)
      else if n in e && name != n then (e, 0)
      else ((e - {name})[n := RegularFile], 1)
  }

  /** The listing processed from position `k` on. */
  function RenameFrom(e: map<string, Entry>, op: Rename, files: seq<string>, k: nat): (r: (map<string, Entry>, nat))
    decreases |files| - k
  {
    if k >= |files| then (e, 0)
    else
      var s := Step(e, files[k], Target(op, files[k], k));
      var rest := RenameFrom(s.0, op, files, k + 1);
      (rest.0, s.1 + rest.1)
  }

  /** A rename never overwrites: the folder holds as many entries afterwards
      as before. */
  lemma StepKeepsSize(e: map<string, Entry>, name: string, target: Option<string>)
    ensures |Step(e, name, target).0| == |e|
  {
    if Step(e, name, target).1 == 1 {
      var n := target.value;
      var d := e - {name};
      assert d.Keys == e.Keys - {name};
      assert |d.Keys| == |e.Keys| - 1;
      assert n !in d;
      assert d[n := RegularFile].Keys == d.Keys + {n};
    }
  }

  /** Directories stay as they were. */
  lemma StepKeepsDirectories(e: map<string, Entry>, name: string, target: Option<string>)
    ensures forall m :: m in e && e[m] == Directory ==>
      m in Step(e, name, target).0 && Step(e, name, target).0[m] == Directory
  {
  }

  lemma RenameFromStep(e: map<string, Entry>, op: Rename, files: seq<string>, k: nat)
    requires k < |files|
    ensures var s := Step(e, files[k], Target(op, files[k], k));
      RenameFrom(e, op, files, k) == (RenameFrom(s.0, op, files, k + 1).0, s.1 + RenameFrom(s.0, op, files, k + 1).1)
  {
  }

  /** Renaming a whole listing loses no entry, leaves directories alone and
      counts at most one rename per listed name. */
  lemma {:induction false} RenameInvariants(e: map<string, Entry>, op: Rename, files: seq<string>, k: nat)
    ensures |RenameFrom(e, op, files, k).0| == |e|
    ensures forall m :: m in e && e[m] == Directory ==>
      m in RenameFrom(e, op, files, k).0 && RenameFrom(e, op, files, k).0[m] == Directory
    ensures k <= |files| ==> RenameFrom(e, op, files, k).1 <= |files| - k
    decreases |files| - k
  {
    if k < |files| {
      var s := Step(e, files[k], Target(op, files[k], k));
      RenameFromStep(e, op, files, k);
      StepKeepsSize(e, files[k], Target(op, files[k], k));
      StepKeepsDirectories(e, files[k], Target(op, files[k], k));
      RenameInvariants(s.0, op, files, k + 1);
      assert s.1 <= 1;
      assert RenameFrom(s.0, op, files, k + 1).1 <= |files| - (k + 1);
    }
  }

  /** A listing that names no regular file of the folder renames nothing. */
  lemma {:induction false} RenameNoFiles(e: map<string, Entry>, op: Rename, files: seq<string>, k: nat)
    requires forall i :: k <= i < |files| ==> files[i] !in e || e[files[i]] != RegularFile
    ensures RenameFrom(e, op, files, k) == (e, 0)
    decreases |files| - k
  {
    if k < |files| {
      RenameNoFiles(e, op, files, k + 1);
    }
  }

  // ---------------------------------------------------------------------
  // sorting, for sequential_rename and the preview

  predicate SortedNames(s: seq<string>)
  {
    forall i :: 0 <= i < |s| - 1 ==> LexLe(s[i], s[i + 1])
  }

  function Insert(x: string, s: seq<string>): seq<string>
  {
    if s == [] then [x]
    else if LexLe(x, s[0]) then [x] + s
    else [s[0]] + Insert(x, s[1..])
  }

  /** Python's `sorted` on a list of names. */
  function SortNames(s: seq<string>): seq<string>
  {
    if s == [] then [] else Insert(s[0], SortNames(s[1..]))
  }

  lemma {:induction false} InsertSorted(x: string, s: seq<string>)
    requires SortedNames(s)
    ensures SortedNames(Insert(x, s))
    ensures |Insert(x, s)| > 0 && (Insert(x, s)[0] == x || (s != [] && Insert(x, s)[0] == s[0]))
    decreases |s|
  {
    if s != [] && !LexLe(x, s[0]) {
      LexTotal(x, s[0]);
      InsertSorted(x, s[1..]);
    }
  }

  lemma {:induction false} InsertPermutes(x: string, s: seq<string>)
    ensures multiset(Insert(x, s)) == multiset(s) + multiset{x}
    decreases |s|
  {
    if s != [] && !LexLe(x, s[0]) {
      InsertPermutes(x, s[1..]);
      assert s == [s[0]] + s[1..];
    }
  }

  /** `sorted` returns the names in ascending order ... */
  lemma {:induction false} SortNamesSorted(s: seq<string>)
    ensures SortedNames(SortNames(s))
    decreases |s|
  {
    if s != [] {
      SortNamesSorted(s[1..]);
      InsertSorted(s[0], SortNames(s[1..]));
    }
  }

  /** ... and they are the same names, each as often as before. */
  lemma {:induction false} SortNamesPermutes(s: seq<string>)
    ensures multiset(SortNames(s)) == multiset(s)
    decreases |s|
  {
    if s != [] {
      SortNamesPermutes(s[1..]);
      InsertPermutes(s[0], SortNames(s[1..]));
      assert s == [s[0]] + s[1..];
    }
  }

  // ---------------------------------------------------------------------
  // simulate_rename and the preview

  /** `simulate_rename`: the name an operation given by its menu word would
      produce, `None` where the script would fail on a missing argument.
      Unknown words, `sequential` among them, leave the name unchanged. */
  function SimulateRename(filename: string, operation: string, args: seq<string>): Option<string>
  {
    var (stem, ext) := SplitExt(filename);
    if operation == "prefix" then
      if |args| < 1 then None else Some(args[0] + filename)
    else if operation == "suffix" then
      if |args| < 1 then None else Some(stem + args[0] + ext)
    else if operation == "extension" then
      if |args| < 2 then None
      else if EndsWith(Lower(filename), Lower(WithDot(args[0]))) then Some(stem + WithDot(args[1]))
      else Some(filename)
    else if operation == "replace" then
      if |args| < 2 then None else Some(ReplaceAll(filename, args[0], args[1]))
    else if operation == "lowercase" then Some(Lower(filename))
    else Some(filename)
  }

  /** The menu word and the arguments under which the preview knows an
      operation. */
  function OperationWord(op: Rename): string
  {
    match op
    case Prefix(_) => "prefix"
    case Suffix(_) => "suffix"
    case Extension(_, _) => "extension"
    case Sequential(_, _, _) => "sequential"
    case Replace(_, _) => "replace"
    case Lowercase => "lowercase"
  }

  function OperationArgs(op: Rename): seq<string>
  {
    match op
    case Prefix(p) => [p]
    case Suffix(x) => [x]
    case Extension(o, n) => [o, n]
    case Sequential(_, _, _) => []
    case Replace(f, r) => [f, r]
    case Lowercase => []
  }

  /** The preview predicts the renaming operations: where an operation
      gives a file a new name the preview shows that name, and where it
      leaves the file out the preview shows the name unchanged. The
      extensions are as `change_extension` passes them on, with their dot. */
  lemma SimulateAgrees(op: Rename, name: string, pos: nat)
    requires !op.Sequential?
    requires op.Extension? ==> StartsWith(op.oldExt, ".") && StartsWith(op.newExt, ".")
    ensures Target(op, name, pos).Some? ==>
      SimulateRename(name, OperationWord(op), OperationArgs(op)) == Target(op, name, pos)
    ensures Target(op, name, pos).None? ==>
      SimulateRename(name, OperationWord(op), OperationArgs(op)) == Some(name)
  {
    match op
    case Replace(f, r) =>
      if !Contains(name, f) {
        ContainsTrivial(name);
        ReplaceAbsent(name, f, r);
      }
    case _ =>
  }

  /** `sequential` is not among the words `simulate_rename` knows, so the
      preview of a sequential renaming shows no change at all. */
  lemma SimulateSequentialUnchanged(name: string, args: seq<string>)
    ensures SimulateRename(name, "sequential", args) == Some(name)
  {
  }

  /** `lowercase` is idempotent and unknown words change nothing. */
  lemma SimulateLowercaseIdempotent(name: string, word: string)
    ensures SimulateRename(SimulateRename(name, "lowercase", []).value, "lowercase", []) ==
      SimulateRename(name, "lowercase", [])
    ensures word !in ["prefix", "suffix", "extension", "replace", "lowercase"] ==>
      SimulateRename(name, word, []) == Some(name)
  {
    LowerIdempotent(name);
  }

  /** `preview_rename` over the sorted listing: the (old, new) pairs it
      prints for regular files whose simulated name differs, or `None` when
      a missing argument makes it fail. */
  function PreviewPairs(e: map<string, Entry>, files: seq<string>, operation: string, args: seq<string>)
    : (r: Option<seq<(string, string)>>)
    ensures r.Some? ==> forall i :: 0 <= i < |r.value| ==>
      r.value[i].0 != r.value[i].1 && r.value[i].0 in files &&
      r.value[i].0 in e && e[r.value[i].0] == RegularFile
    decreases |files|
  {
    if files == [] then Some([])
    else
      var name := files[0];
      var rest := PreviewPairs(e, files[1..], operation, args);
      if name !in e || e[name] != RegularFile then rest
      else
        match SimulateRename(name, operation, args)
        case None => None
        case Some(n) =>
          if rest.None? then None
          else if n != name then Some([(name, n)] + rest.value)
          else rest
  }

  function Preview(e: map<string, Entry>, listing: Option<seq<string>>, operation: string, args: seq<string>, pattern: string)
    : Option<seq<(string, string)>>
  {
    PreviewPairs(e, SortNames(GetMatchingFiles(listing, pattern)), operation, args)
  }

  /** A preview of `sequential` prints nothing. */
  lemma {:induction false} PreviewSequentialEmpty(e: map<string, Entry>, files: seq<string>, args: seq<string>)
    ensures PreviewPairs(e, files, "sequential", args) == Some([])
    decreases |files|
  {
    if files != [] {
      PreviewSequentialEmpty(e, files[1..], args);
    }
  }

  // ---------------------------------------------------------------------
  // the folder and the rename functions

  /** The pattern `change_extension` lists with: `*` and the dotted old
      extension, matched case-sensitively. */
  function ExtensionListing(listing: Option<seq<string>>, oldExt: string): seq<string>
  {
    GetMatchingFiles(listing, "*" + WithDot(oldExt))
  }

  /** The listing a case-insensitive `change_extension` needs: every entry,
      left to the lower-case test in the loop. */
  function ExtensionListingAnyCase(listing: Option<seq<string>>, oldExt: string): seq<string>
  {
    GetMatchingFiles(listing, "*")
  }

  /** On a case-sensitive file system `change_extension` never sees a file
      whose extension differs from `old_ext` in letter case, although its
      own lower-case test and the preview accept it: `A.TXT` with `txt` to
      `md` is listed by neither pattern, yet previewed as `A.md`. */
  lemma ExtensionCaseMissed()
    ensures ExtensionListing(Some(["A.TXT"]), "txt") == []
    ensures SimulateRename("A.TXT", "extension", ["txt", "md"]) == Some("A.md")
  {
    ExampleNotListed();
    ExampleSplitExt();
    ExampleLower();
    var args := ["txt", "md"];
    assert !StartsWith(args[0], ".") by { assert args[0][..1][0] == 't'; }
    assert !StartsWith(args[1], ".") by { assert args[1][..1][0] == 'm'; }
    assert WithDot(args[0]) == ".txt";
    assert WithDot(args[1]) == ".md";
    assert "extension" != "prefix" && "extension" != "suffix";
    assert "A" + ".md" == "A.md";
  }

  lemma ExampleNotListed()
    ensures ExtensionListing(Some(["A.TXT"]), "txt") == []
  {
    var ext := WithDot("txt");
    assert !StartsWith("txt", ".") by { assert "txt"[..1][0] == 't'; }
    GlobStarSuffix(ext, "A.TXT");
    assert "A.TXT"[1..] != ext by {
      assert "A.TXT"[1..][1] == 'T';
    }
    assert !GlobMatch("*" + ext, "A.TXT");
    assert Filter(["A.TXT"], n => GlobMatch("*" + ext, n)) == [];
  }

  lemma ExampleSplitExt()
    ensures SplitExt("A.TXT") == ("A", ".TXT")
  {
    var name := "A.TXT";
    assert name[1] == '.' && name[2] != '.' && name[3] != '.' && name[4] != '.';
    assert LastIndexOf(name, '.') == 1;
    assert forall j :: 0 <= j < 5 ==> name[j] != '/';
    var sep := LastIndexOf(name, '/');
    var dot := LastIndexOf(name, '.');
    assert sep == -1 && dot == 1;
    assert sep < 0 < dot && name[0] != '.';
    assert name[..dot] == "A" && name[dot..] == ".TXT";
  }

  lemma ExampleLower()
    ensures EndsWith(Lower("A.TXT"), Lower(".txt"))
  {
    var l := Lower("A.TXT");
    assert l[1] == '.' && l[2] == 't' && l[3] == 'x' && l[4] == 't';
    assert Lower(".txt") == ".txt";
    assert l[1..] == ".txt";
  }

  /** With the whole listing, every listed regular file whose name ends with
      the old extension in any letter case reaches the renaming step with
      the dotted new extension, and so does `A.TXT`. */
  lemma ExtensionAnyCaseSeesAll(names: seq<string>, oldExt: string, newExt: string, pos: nat)
    ensures forall m :: m in names ==> m in ExtensionListingAnyCase(Some(names), oldExt)
    ensures forall m :: EndsWith(Lower(m), Lower(WithDot(oldExt))) ==>
      Target(Extension(WithDot(oldExt), WithDot(newExt)), m, pos) == Some(SplitExt(m).0 + WithDot(newExt))
    ensures "A.TXT" in ExtensionListingAnyCase(Some(["A.TXT"]), "txt")
  {
  }

  class Folder {
    var entries: map<string, Entry>

    constructor(entries: map<string, Entry>)
      ensures this.entries == entries
    {
      this.entries := entries;
    }

    /** The loop body for one listed name: the skip rules, then the rename. */
    method RenameOne(op: Rename, filename: string, pos: nat) returns (renamed: nat)
      modifies this
      ensures (entries, renamed) == Step(old(entries), filename, Target(op, filename, pos))
    {
      renamed := 0;
      var target := Target(op, filename, pos);
      if target.None? || filename !in entries || entries[filename] != RegularFile {
        return;
      }
      var newName := target.value;
      if newName in entries && filename != newName {
        return;
      }
      entries := (entries - {filename})[newName := RegularFile];
      renamed := 1;
    }

    /** The loop every rename function runs over its listing. */
    method Apply(op: Rename, files: seq<string>) returns (count: nat)
      modifies this
      ensures (entries, count) == RenameFrom(old(entries), op, files, 0)
    {
      ghost var final := RenameFrom(entries, op, files, 0);
      count := 0;
      var k := 0;
      while k < |files|
        invariant 0 <= k <= |files|
        invariant RenameFrom(entries, op, files, k).0 == final.0
        invariant count + RenameFrom(entries, op, files, k).1 == final.1
        decreases |files| - k
      {
        RenameFromStep(entries, op, files, k);
        var renamed := RenameOne(op, files[k], k);
        count := count + renamed;
        k := k + 1;
      }
    }

    method AddPrefix(listing: Option<seq<string>>, prefix: string, pattern: string) returns (count: nat)
      modifies this
      ensures (entries, count) == RenameFrom(old(entries), Prefix(prefix), GetMatchingFiles(listing, pattern), 0)
    {
      count := Apply(Prefix(prefix), GetMatchingFiles(listing, pattern));
    }

    method AddSuffix(listing: Option<seq<string>>, suffix: string, pattern: string) returns (count: nat)
      modifies this
      ensures (entries, count) == RenameFrom(old(entries), Suffix(suffix), GetMatchingFiles(listing, pattern), 0)
    {
      count := Apply(Suffix(suffix), GetMatchingFiles(listing, pattern));
    }

    /** Both extensions get their dot first; the listing is the
        case-sensitive one of `ExtensionListing`. */
    method ChangeExtension(listing: Option<seq<string>>, oldExt: string, newExt: string) returns (count: nat)
      modifies this
      ensures (entries, count) ==
        RenameFrom(old(entries), Extension(WithDot(oldExt), WithDot(newExt)), ExtensionListing(listing, oldExt), 0)
    {
      count := Apply(Extension(WithDot(oldExt), WithDot(newExt)), ExtensionListing(listing, oldExt));
    }

    /** `change_extension` as its lower-case test intends it, renaming
        whatever the letter case of the extension. */
    method ChangeExtensionAnyCase(listing: Option<seq<string>>, oldExt: string, newExt: string) returns (count: nat)
      modifies this
      ensures (entries, count) ==
        RenameFrom(old(entries), Extension(WithDot(oldExt), WithDot(newExt)), ExtensionListingAnyCase(listing, oldExt), 0)
    {
      count := Apply(Extension(WithDot(oldExt), WithDot(newExt)), ExtensionListingAnyCase(listing, oldExt));
    }

    /** The counter runs over the sorted listing from `start`, one step per
        listed name whether or not it is renamed. */
    method SequentialRename(listing: Option<seq<string>>, base: string, start: int, digits: int, pattern: string)
      returns (count: nat)
      modifies this
      ensures (entries, count) ==
        RenameFrom(old(entries), Sequential(base, start, digits), SortNames(GetMatchingFiles(listing, pattern)), 0)
    {
      count := Apply(Sequential(base, start, digits), SortNames(GetMatchingFiles(listing, pattern)));
    }

    method FindReplace(listing: Option<seq<string>>, find: string, replacement: string, pattern: string)
      returns (count: nat)
      modifies this
      ensures (entries, count) ==
        RenameFrom(old(entries), Replace(find, replacement), GetMatchingFiles(listing, pattern), 0)
    {
      count := Apply(Replace(find, replacement), GetMatchingFiles(listing, pattern));
    }

    /** `add_date_prefix`, with the date prefix the clock would give passed in. */
    method AddDatePrefix(listing: Option<seq<string>>, datePrefix: string, pattern: string) returns (count: nat)
      modifies this
      ensures (entries, count) == RenameFrom(old(entries), Prefix(datePrefix), GetMatchingFiles(listing, pattern), 0)
    {
      count := AddPrefix(listing, datePrefix, pattern);
    }

    method MakeLowercase(listing: Option<seq<string>>, pattern: string) returns (count: nat)
      modifies this
      ensures (entries, count) == RenameFrom(old(entries), Lowercase, GetMatchingFiles(listing, pattern), 0)
    {
      count := Apply(Lowercase, GetMatchingFiles(listing, pattern));
    }
  }
}

=== FILE: catch_ball.dfy ===
/** The catch-ball game: balls fall from the top and a paddle at the bottom
    catches them. A ball that falls past the bottom edge costs a life; the game
    ends when no lives are left. Drawing and ball colours are not modelled. */
module CatchBall {
  import opened Geometry
  import opened Lists
  import opened Score

  const PADDLE_WIDTH := 100
  const PADDLE_HEIGHT := 15
  const PADDLE_SPEED := 8
  const BALL_RADIUS := 12
  const START_LIVES := 3
  const START_INTERVAL := 60
  const MIN_INTERVAL := 30

  /** Held controls: `left` is the left arrow or A, `right` the right arrow or D. */
  datatype Keys = Keys(left: bool, right: bool)

  class Paddle {
    var x: int
    const y: int
    const width: int
    const height: int
    const speed: int

    constructor (x0: int, y0: int, w: int, h: int, s: int)
      ensures x == x0 && y == y0 && width == w && height == h && speed == s
    {
      x, y, width, height, speed := x0, y0, w, h, s;
    }

    /** The horizontal velocity for the held keys: right overrides left. */
    function HandleInput(keys: Keys): (v: int)
      ensures v == speed || v == -speed || v == 0
      ensures keys.right ==> v == speed
      ensures !keys.left && !keys.right ==> v == 0
      ensures keys.left && !keys.right ==> v == -speed
    {
      var v := if keys.left then -speed else 0;
      if keys.right then speed else v
    }

    /** Moves by the velocity, then pushes the paddle back inside the screen. */
    method Update(velocity: int, screenWidth: int)
      modifies this
      ensures x == KeepInside(old(x) + velocity, width, screenWidth)
      ensures 0 <= width <= screenWidth ==> 0 <= x <= screenWidth - width
    {
      x := x + velocity;
      if x < 0 {
        x := 0;
      } else if x + width > screenWidth {
        x := screenWidth - width;
      }
    }

    function GetRect(): Rect
      reads this
    {
      Rect(x, y, width, height)
    }
  }

  datatype Ball = Ball(x: int, y: real, radius: int, speedY: real, active: bool)
  {
    /** Falls by its speed while active. */
    function Update(): (b: Ball)
      ensures b.y == (if active then y + speedY else y)
      ensures b == this.(y := b.y)
    {
      if active then this.(y := y + speedY) else this
    }

    function GetRect(): Rect
    {
      Rect(x - radius, Trunc(y - radius as real), radius * 2, radius * 2)
    }

    /** `check_collision`: an active ball whose square overlaps the paddle while
        its centre is above the paddle's middle line is caught, which switches
        it off. Returns whether it was caught and the ball afterwards. */
    function CheckCollision(paddle: Rect): (r: (bool, Ball))
      ensures r.0 <==> active && CollideRect(GetRect(), paddle) && y < paddle.CenterY() as real
      ensures r.1 == this.(active := active && !r.0)
    {
      if !active then (false, this)
      else if CollideRect(GetRect(), paddle) && y < paddle.CenterY() as real then (true, this.(active := false))
      else (false, this)
    }

    predicate IsOffScreen(height: int)
    {
      y - radius as real > height as real
    }
  }

  /** What one frame does to one ball: it falls, may be caught, and if still
      active below the screen it is lost. */
  datatype Outcome = Outcome(ball: Ball, caught: bool, lost: bool)

  function BallStep(b: Ball, paddle: Rect, height: int): (o: Outcome)
    ensures o.caught ==> b.active && !o.lost && !o.ball.active
    ensures o.lost ==> b.active && !o.ball.active
    ensures !o.caught && !o.lost ==> o.ball.active == b.active
    ensures o.ball.x == b.x && o.ball.radius == b.radius && o.ball.speedY == b.speedY
  {
    var b1 := b.Update();
    var (caught, b2) := b1.CheckCollision(paddle);
    var lost := b2.active && b2.IsOffScreen(height);
    Outcome(if lost then b2.(active := false) else b2, caught, lost)
  }

  /** Every ball of the list after its frame, in list order. */
  function Fall(balls: seq<Ball>, paddle: Rect, height: int): (r: seq<Ball>)
    ensures |r| == |balls|
    ensures forall k :: 0 <= k < |balls| ==> r[k] == BallStep(balls[k], paddle, height).ball
  {
    seq(|balls|, k requires 0 <= k < |balls| => BallStep(balls[k], paddle, height).ball)
  }

  /** Balls caught among the first balls of the list. */
  function Caught(balls: seq<Ball>, paddle: Rect, height: int): nat
  {
    if balls == [] then 0
    else Caught(balls[..|balls| - 1], paddle, height) + (if BallStep(balls[|balls| - 1], paddle, height).caught then 1 else 0)
  }

  /** Balls lost among the first balls of the list. */
  function Lost(balls: seq<Ball>, paddle: Rect, height: int): nat
  {
    if balls == [] then 0
    else Lost(balls[..|balls| - 1], paddle, height) + (if BallStep(balls[|balls| - 1], paddle, height).lost then 1 else 0)
  }

  /** No ball is both caught and lost, and only active balls are either: after
      a frame the active balls are those before, less the caught and the lost. */
  lemma {:induction false} ActiveAfterFrame(before: seq<Ball>, after: seq<Ball>, paddle: Rect, height: int)
    requires |after| == |before|
    requires forall k :: 0 <= k < |after| ==> after[k] == BallStep(before[k], paddle, height).ball
    ensures Count(after, IsActiveBall) + Caught(before, paddle, height) + Lost(before, paddle, height)
            == Count(before, IsActiveBall)
    decreases |before|
  {
    if before != [] {
      var n := |before| - 1;
      ActiveAfterFrame(before[..n], after[..n], paddle, height);
      assert before == before[..n] + [before[n]];
      assert after == after[..n] + [after[n]];
      CountAppend(before[..n], before[n], IsActiveBall);
      CountAppend(after[..n], after[n], IsActiveBall);
    }
  }

  predicate IsActiveBall(b: Ball) { b.active }

  /** A new ball at the top; `x` and `speed` are the random draws. */
  function NewBall(x: int, speed: real): Ball
  {
    Ball(x, 0.0, BALL_RADIUS, speed, true)
  }

  /** The balls kept after a frame, `[b for b in balls if b.active]`, are
      valid again and number those before less the caught and the lost. */
  lemma SurvivorsValid(before: seq<Ball>, after: seq<Ball>, paddle: Rect, height: int)
    requires BallsValid(before) && |after| == |before|
    requires forall k :: 0 <= k < |after| ==> after[k] == BallStep(before[k], paddle, height).ball
    ensures BallsValid(Filter(after, IsActiveBall))
    ensures |Filter(after, IsActiveBall)| + Caught(before, paddle, height) + Lost(before, paddle, height) == |before|
  {
    ActiveAfterFrame(before, after, paddle, height);
    FilterAll(before, IsActiveBall);
    FilterKeeps(after, IsActiveBall, HasBallRadius);
  }

  /** Every ball in turn: it falls, a catch scores 10, and an active ball
      below the screen is switched off and costs one life, ending the game once
      lives reach 0. The loop does not stop early, so several balls lost in one
      frame can take the lives below 0. */
  method UpdateBalls(balls: seq<Ball>, paddle: Rect, height: int, score: int, lives: int, gameOver: bool)
    returns (bs: seq<Ball>, newScore: int, newLives: int, over: bool)
    ensures bs == Fall(balls, paddle, height)
    ensures newScore == score + 10 * Caught(balls, paddle, height)
    ensures newLives == lives - Lost(balls, paddle, height)
    ensures over <==> gameOver || (Lost(balls, paddle, height) > 0 && newLives <= 0)
  {
    bs, newScore, newLives, over := balls, score, lives, gameOver;
    var i := 0;
    while i < |bs|
      invariant 0 <= i <= |bs| == |balls|
      invariant forall k :: 0 <= k < i ==> bs[k] == BallStep(balls[k], paddle, height).ball
      invariant forall k :: i <= k < |bs| ==> bs[k] == balls[k]
      invariant newScore == score + 10 * Caught(balls[..i], paddle, height)
      invariant newLives == lives - Lost(balls[..i], paddle, height)
      invariant over <==> gameOver || (Lost(balls[..i], paddle, height) > 0 && newLives <= 0)
    {
      assert balls[..i + 1][..i] == balls[..i];
      var o := BallStep(bs[i], paddle, height);
      if o.caught {
        newScore := newScore + 10;
      }
      if o.lost {
        newLives := newLives - 1;
        if newLives <= 0 {
          over := true;
        }
      }
      bs := bs[i := o.ball];
      i := i + 1;
    }
    assert balls[..i] == balls;
    assert bs == Fall(balls, paddle, height);
  }

  /** The ball half of a frame of a running game: `UpdateBalls`, then
      `[b for b in balls if b.active]`. It keeps the score and ball invariants. */
  method FrameBalls(balls: seq<Ball>, paddle: Rect, height: int, score: int, lives: int)
    returns (kept: seq<Ball>, newScore: int, newLives: int, over: bool)
    requires BallsValid(balls) && ScoreValid(score, lives, false)
    ensures BallsValid(kept) && ScoreValid(newScore, newLives, over)
    ensures kept == Filter(Fall(balls, paddle, height), IsActiveBall)
    ensures over <==> newLives <= 0
    ensures newScore == score + 10 * Caught(balls, paddle, height)
    ensures newLives == lives - Lost(balls, paddle, height)
    ensures |kept| + Caught(balls, paddle, height) + Lost(balls, paddle, height) == |balls|
  {
    var bs;
    bs, newScore, newLives, over := UpdateBalls(balls, paddle, height, score, lives, false);
    AddTens(score, Caught(balls, paddle, height));
    SurvivorsValid(balls, bs, paddle, height);
    kept := Filter(bs, IsActiveBall);
  }

  datatype Key = Escape | Space | OtherKey
  datatype Event = Quit | KeyPress(key: Key) | OtherEvent

  class CatchBallGame {
    const width: int
    const height: int
    var paddle: Paddle
    var balls: seq<Ball>
    var score: int
    var lives: int
    var gameOver: bool
    var ballTimer: int
    var ballInterval: int
    var difficulty: real

    /** The game is over exactly when no lives are left; lives never exceed 3;
        the score is a non-negative multiple of 10; the spawn interval stays
        in [30, 60] and the timer below it; all listed balls are active. */
    ghost predicate Valid()
      reads this, paddle
    {
      PADDLE_WIDTH <= width &&
      paddle.width == PADDLE_WIDTH && paddle.height == PADDLE_HEIGHT && paddle.speed == PADDLE_SPEED &&
      0 <= paddle.x <= width - PADDLE_WIDTH &&
      ScoreValid(score, lives, gameOver) &&
      SpawnValid(ballTimer, ballInterval, difficulty) &&
      BallsValid(balls)
    }

    /** The state `reset_game` sets up. */
    ghost predicate Fresh()
      reads this, paddle
    {
      paddle.x == width / 2 - PADDLE_WIDTH / 2 && paddle.y == height - 40 &&
      balls == [] && score == 0 && lives == START_LIVES && !gameOver &&
      ballTimer == 0 && ballInterval == START_INTERVAL && difficulty == 1.0
    }

    constructor (w: int, h: int)
      requires w >= PADDLE_WIDTH
      ensures width == w && height == h && Valid() && Fresh()
    {
      width, height := w, h;
      paddle := new Paddle(w / 2 - 50, h - 40, PADDLE_WIDTH, PADDLE_HEIGHT, PADDLE_SPEED);
      balls, score, lives, gameOver := [], 0, START_LIVES, false;
      ballTimer, ballInterval, difficulty := 0, START_INTERVAL, 1.0;
    }

    method Reset()
      requires width >= PADDLE_WIDTH
      modifies this
      ensures Valid() && Fresh() && fresh(paddle)
    {
      paddle := new Paddle(width / 2 - 50, height - 40, PADDLE_WIDTH, PADDLE_HEIGHT, PADDLE_SPEED);
      balls, score, lives, gameOver := [], 0, START_LIVES, false;
      ballTimer, ballInterval, difficulty := 0, START_INTERVAL, 1.0;
    }

    /** `spawn_ball` with its draws: `x` from `randint(30, width - 30)` and
        `speed` from `uniform(base, base + 2)`, base being 3 + difficulty / 2. */
    method SpawnBall(x: int, speed: real)
      requires 30 <= x <= width - 30
      requires 3.0 + difficulty * 0.5 <= speed <= 5.0 + difficulty * 0.5
      modifies this
      ensures balls == old(balls) + [NewBall(x, speed)]
      ensures paddle == old(paddle) && score == old(score) && lives == old(lives) && gameOver == old(gameOver)
      ensures ballTimer == old(ballTimer) && ballInterval == old(ballInterval) && difficulty == old(difficulty)
    {
      balls := balls + [NewBall(x, speed)];
    }

    /** One frame. `spawnX` and `spawnSpeed` are the draws for a ball spawned on
        this frame. */
    method Update(keys: Keys, spawnX: int, spawnSpeed: real)
      requires Valid()
      requires 30 <= spawnX <= width - 30
      requires 3.0 + difficulty * 0.5 <= spawnSpeed <= 5.0 + difficulty * 0.5
      modifies this, paddle
      ensures Valid() && paddle == old(paddle)
      ensures old(gameOver) ==> unchanged(this, paddle)
      ensures score >= old(score) && lives <= old(lives)
      ensures ballInterval <= old(ballInterval) && difficulty >= old(difficulty)
      ensures !old(gameOver) ==>
        paddle.x == KeepInside(old(paddle.x) + paddle.HandleInput(keys), PADDLE_WIDTH, width) &&
        (ballTimer, ballInterval, difficulty) == NextSpawn(old(ballTimer), old(ballInterval), old(difficulty), |old(balls)|)
      ensures !old(gameOver) ==>
        var spawned := Spawned(old(balls), old(ballTimer), old(ballInterval), spawnX, spawnSpeed);
        balls == Filter(Fall(spawned, paddle.GetRect(), height), IsActiveBall) &&
        score == old(score) + 10 * Caught(spawned, paddle.GetRect(), height) &&
        lives == old(lives) - Lost(spawned, paddle.GetRect(), height) &&
        (gameOver <==> lives <= 0)
    {
      if gameOver {
        return;
      }
      PaddleStep(keys);
      SpawnTick(spawnX, spawnSpeed);
      BallsStep(paddle.GetRect());
    }

    /** The paddle follows the held keys and stays on screen. */
    method PaddleStep(keys: Keys)
      requires Valid()
      modifies paddle
      ensures Valid() && unchanged(this)
      ensures paddle.x == KeepInside(old(paddle.x) + paddle.HandleInput(keys), PADDLE_WIDTH, width)
    {
      var v := paddle.HandleInput(keys);
      paddle.Update(v, width);
    }

    /** The spawn timer: every `ballInterval` frames a ball appears, and every
        time the list then holds a multiple of 5 balls the difficulty rises by
        0.5 and the interval shrinks by 2 down to 30. */
    method SpawnTick(spawnX: int, spawnSpeed: real)
      requires Valid() && !gameOver
      requires 30 <= spawnX <= width - 30
      requires 3.0 + difficulty * 0.5 <= spawnSpeed <= 5.0 + difficulty * 0.5
      modifies this
      ensures Valid() && !gameOver && paddle == old(paddle)
      ensures score == old(score) && lives == old(lives)
      ensures old(ballTimer) + 1 < old(ballInterval) ==>
                balls == old(balls) && ballTimer == old(ballTimer) + 1 &&
                ballInterval == old(ballInterval) && difficulty == old(difficulty)
      ensures old(ballTimer) + 1 >= old(ballInterval) ==>
                balls == old(balls) + [NewBall(spawnX, spawnSpeed)] && ballTimer == 0
      ensures |balls| % 5 == 0 && balls != old(balls) ==>
                difficulty == old(difficulty) + 0.5 &&
                ballInterval == (if old(ballInterval) > MIN_INTERVAL then old(ballInterval) - 2 else old(ballInterval))
      ensures !(|balls| % 5 == 0 && balls != old(balls)) ==>
                difficulty == old(difficulty) && ballInterval == old(ballInterval)
      ensures balls == Spawned(old(balls), old(ballTimer), old(ballInterval), spawnX, spawnSpeed)
      ensures (ballTimer, ballInterval, difficulty) == NextSpawn(old(ballTimer), old(ballInterval), old(difficulty), |old(balls)|)
    {
      ballTimer := ballTimer + 1;
      if ballTimer >= ballInterval {
        SpawnBall(spawnX, spawnSpeed);
        ballTimer := 0;
        if |balls| % 5 == 0 {
          difficulty := difficulty + 0.5;
          if ballInterval > MIN_INTERVAL {
            ballInterval := ballInterval - 2;
          }
        }
      }
    }

    /** Moves, catches and loses balls, then keeps only the active ones. */
    method BallsStep(rect: Rect)
      requires Valid() && !gameOver && rect == paddle.GetRect()
      modifies this
      ensures Valid() && paddle == old(paddle)
      ensures score == old(score) + 10 * Caught(old(balls), rect, height)
      ensures lives == old(lives) - Lost(old(balls), rect, height)
      ensures |balls| + Caught(old(balls), rect, height) + Lost(old(balls), rect, height) == |old(balls)|
      ensures balls == Filter(Fall(old(balls), rect, height), IsActiveBall)
      ensures gameOver <==> lives <= 0
      ensures ballTimer == old(ballTimer) && ballInterval == old(ballInterval) && difficulty == old(difficulty)
    {
      balls, score, lives, gameOver := FrameBalls(balls, rect, height, score, lives);
    }

    /** A finished game restarts on SPACE; quit or Escape stops. */
    method HandleEvent(e: Event) returns (running: bool)
      requires Valid()
      modifies this
      ensures Valid()
      ensures running <==> !(e == Quit || e == KeyPress(Escape))
      ensures e == KeyPress(Space) && old(gameOver) ==> Fresh()
      ensures !(e == KeyPress(Space) && old(gameOver)) ==> unchanged(this)
    {
      match e
      case Quit => return false;
      case OtherEvent => return true;
      case KeyPress(key) =>
        if key == Escape {
          return false;
        } else if key == Space && gameOver {
          Reset();
        }
        return true;
    }
  }

  /** The game is over exactly when no lives are left, lives never exceed 3,
      and the score is a non-negative multiple of 10. */
  predicate ScoreValid(score: int, lives: int, gameOver: bool)
  {
    (gameOver <==> lives <= 0) && lives <= START_LIVES && 0 <= score && score % 10 == 0
  }

  /** The spawn interval stays in [30, 60] and even, the timer below it. */
  predicate SpawnValid(timer: int, interval: int, difficulty: real)
  {
    MIN_INTERVAL <= interval <= START_INTERVAL && interval % 2 == 0 &&
    0 <= timer < interval && difficulty >= 1.0
  }

  /** The spawn timer, interval and difficulty after one frame, given the
      number of balls before it: when the timer reaches the interval a ball
      spawns and the timer restarts at 0, and when that spawn makes the count
      a multiple of 5 the game gets harder. */
  function NextSpawn(timer: int, interval: int, difficulty: real, count: nat): (r: (int, int, real))
    ensures timer + 1 < interval ==> r == (timer + 1, interval, difficulty)
    ensures timer + 1 >= interval ==> r.0 == 0
    ensures MIN_INTERVAL <= interval && interval % 2 == 0 ==> MIN_INTERVAL <= r.1 <= interval && r.1 % 2 == 0
    ensures difficulty <= r.2 <= difficulty + 0.5
    ensures r.2 > difficulty <==> timer + 1 >= interval && (count + 1) % 5 == 0
    ensures r.1 < interval <==> r.2 > difficulty && interval > MIN_INTERVAL
  {
    if timer + 1 < interval then (timer + 1, interval, difficulty)
    else if (count + 1) % 5 == 0 then (0, if interval > MIN_INTERVAL then interval - 2 else interval, difficulty + 0.5)
    else (0, interval, difficulty)
  }

  /** The list after the spawn part of a frame: the drawn ball is appended
      exactly when the timer reaches the interval. */
  function Spawned(balls: seq<Ball>, timer: int, interval: int, x: int, speed: real): seq<Ball>
  {
    balls + (if timer + 1 >= interval then [NewBall(x, speed)] else [])
  }

  /** Every listed ball is active and has the standard radius. */
  predicate BallsValid(balls: seq<Ball>)
  {
    forall k :: 0 <= k < |balls| ==> balls[k].active && HasBallRadius(balls[k])
  }

  predicate HasBallRadius(b: Ball) { b.radius == BALL_RADIUS }

}

=== FILE: crawl_books.dfy ===
/** The parsing, filtering and tallying helpers of the book crawler: the
    rating word of a star-rating class, the stock text, the price run of a
    price text, the chained filters of `filter_books` and the rating
    distribution `show_statistics` prints. The pages themselves are not
    fetched: their texts are parameters. */
module CrawlBooks {
  import opened Options
  import opened Text
  import Lists

  // ---------------------------------------------------------------------
  // parse_rating

  /** The keys of the rating map, in the map's order; the value of the word
      at index `k` is `k + 1`. */
  const RATING_WORDS: seq<string> := ["One", "Two", "Three", "Four", "Five"]

  /** The loop over the rating map from the word at index `k` on. */
  function RatingFrom(rating: string, k: nat): (r: nat)
    requires k <= |RATING_WORDS|
    ensures r == 0 || k < r <= |RATING_WORDS|
    ensures r == 0 <==> forall j :: k <= j < |RATING_WORDS| ==> !Contains(rating, RATING_WORDS[j])
    ensures r > 0 ==> (Contains(rating, RATING_WORDS[r - 1]) &&
      forall j :: k <= j < r - 1 ==> !Contains(rating, RATING_WORDS[j]))
    decreases |RATING_WORDS| - k
  {
    if k == |RATING_WORDS| then 0
    else if Contains(rating, RATING_WORDS[k]) then k + 1
    else RatingFrom(rating, k + 1)
  }

  /** `parse_rating(rating_class)`: the value of the first rating word, in
      the map's order, that occurs in the class text, else 0. */
  function ParseRating(rating: string): (r: nat)
    ensures r <= 5
    ensures r == 0 <==> forall j :: 0 <= j < 5 ==> !Contains(rating, RATING_WORDS[j])
    ensures r > 0 ==> (Contains(rating, RATING_WORDS[r - 1]) &&
      forall j :: 0 <= j < r - 1 ==> !Contains(rating, RATING_WORDS[j]))
  {
    RatingFrom(rating, 0)
  }

  /** A class text that holds one rating word and no other gives that
      word's value, whatever its position in the map. */
  lemma ParseRatingOnly(rating: string, k: nat)
    requires k < 5 && Contains(rating, RATING_WORDS[k])
    requires forall j :: 0 <= j < 5 && j != k ==> !Contains(rating, RATING_WORDS[j])
    ensures ParseRating(rating) == k + 1
  {
  }

  // ---------------------------------------------------------------------
  // parse_availability

  /** `parse_availability(availability_str)`. */
  predicate InStock(availability: string)
  {
    Contains(availability, "In stock")
  }

  /** A text that starts with the stock phrase reads as in stock, and one
      that reads as in stock holds a capital I. */
  lemma InStockCases(availability: string)
    ensures ("In stock" <= availability ==> InStock(availability))
    ensures (InStock(availability) ==> 'I' in availability)
  {
    ContainsIff(availability, "In stock");
    if "In stock" <= availability {
      assert OccursAt(availability, "In stock", 0);
    }
    if InStock(availability) {
      var i: nat :| OccursAt(availability, "In stock", i);
      assert availability[i..i + 8][0] == 'I';
      assert availability[i] == 'I';
    }
  }

  /** In stock exactly when the phrase occurs somewhere in the text, with
      anything before or after it. */
  lemma InStockIff(availability: string, before: string, after: string)
    ensures InStock(availability) <==> exists i: nat :: OccursAt(availability, "In stock", i)
    ensures InStock(before + "In stock" + after)
  {
    ContainsIff(availability, "In stock");
    ContainsInfix(before, "In stock", after);
  }

  /** The test is case-sensitive: the lower-case phrase and "Out of stock"
      read as not in stock. */
  lemma InStockCaseSensitive()
    ensures !InStock("in stock") && !InStock("Out of stock")
  {
    ContainsMissingChar("in stock", "In stock");
    ContainsMissingChar("Out of stock", "In stock");
  }

  // ---------------------------------------------------------------------
  // parse_price

  /** A character of the class `[\d.]`. */
  predicate PriceChar(c: char)
  {
    IsDigitChar(c) || c == '.'
  }

  /** The end of the run of price characters starting at `i`. */
  function RunEnd(s: string, i: nat): (j: nat)
    requires i <= |s|
    ensures i <= j <= |s|
    ensures forall k :: i <= k < j ==> PriceChar(s[k])
    ensures j == |s| || !PriceChar(s[j])
    decreases |s| - i
  {
    if i == |s| || !PriceChar(s[i]) then i else RunEnd(s, i + 1)
  }

  /** `re.search(r'[\d.]+', s)` from index `i` on: the span of the leftmost
      longest run, None when there is none. */
  function SpanFrom(s: string, i: nat): (r: Option<(nat, nat)>)
    requires i <= |s|
    ensures r.None? <==> forall k :: i <= k < |s| ==> !PriceChar(s[k])
    ensures r.Some? ==> (var (lo, hi) := r.value;
      i <= lo < hi <= |s| &&
      (forall k :: i <= k < lo ==> !PriceChar(s[k])) &&
      (forall k :: lo <= k < hi ==> PriceChar(s[k])) &&
      (hi == |s| || !PriceChar(s[hi])))
    decreases |s| - i
  {
    if i == |s| then None
    else if PriceChar(s[i]) then Some((i, RunEnd(s, i)))
    else SpanFrom(s, i + 1)
  }

  /** The span of the first price run of the text. */
  function PriceSpan(s: string): (r: Option<(nat, nat)>)
    ensures r.None? <==> forall k :: 0 <= k < |s| ==> !PriceChar(s[k])
    ensures r.Some? ==> (var (lo, hi) := r.value;
      lo < hi <= |s| &&
      (forall k :: 0 <= k < lo ==> !PriceChar(s[k])) &&
      (forall k :: lo <= k < hi ==> PriceChar(s[k])) &&
      (hi == |s| || !PriceChar(s[hi])))
  {
    SpanFrom(s, 0)
  }

  /** `parse_price(price_str)`: `float` of the first run, 0.0 when there is
      none. `toFloat` stands for Python's `float` on that run, None being its
      ValueError (a run such as "." or "1.2.3"); the result is then None. */
  function ParsePrice(s: string, toFloat: string -> Option<real>): (r: Option<real>)
    ensures PriceSpan(s).None? ==> r == Some(0.0)
    ensures PriceSpan(s).Some? ==> r == toFloat(s[PriceSpan(s).value.0..PriceSpan(s).value.1])
  {
    match PriceSpan(s)
    case None => Some(0.0)
    case Some((lo, hi)) => toFloat(s[lo..hi])
  }

  /** A text with no digit and no dot is read as the price 0.0. */
  lemma ParsePriceNoMatch(s: string, toFloat: string -> Option<real>)
    requires forall k :: 0 <= k < |s| ==> !IsDigitChar(s[k]) && s[k] != '.'
    ensures ParsePrice(s, toFloat) == Some(0.0)
  {
  }

  /** The pound sign in front of a price is skipped and the whole number is
      taken. */
  lemma ParsePricePound(digits: string, toFloat: string -> Option<real>)
    requires digits != [] && forall k :: 0 <= k < |digits| ==> PriceChar(digits[k])
    ensures ParsePrice("£" + digits, toFloat) == toFloat(digits)
  {
    var s := "£" + digits;
    assert !PriceChar(s[0]);
    assert forall k :: 1 <= k < |s| ==> s[k] == digits[k - 1] && PriceChar(s[k]);
    assert RunEnd(s, 1) == |s|;
    assert SpanFrom(s, 1) == Some((1, RunEnd(s, 1)));
    assert PriceSpan(s) == SpanFrom(s, 1);
    assert s[1..|s|] == digits;
  }

  // ---------------------------------------------------------------------
  // filter_books

  /** One scraped book: the fields the filters and the statistics read. */
  datatype Book = Book(title: string, price: real, priceText: string, rating: int, inStock: bool, imgUrl: string)

  /** The keyword arguments of `filter_books`; a missing key is None, and
      `in_stock_only` only counts when it is given as true. */
  datatype Filters = Filters(minPrice: Option<real>, maxPrice: Option<real>, minRating: Option<int>, inStockOnly: bool)

  function PriceAtLeast(lo: real): Book -> bool
  {
    (b: Book) => b.price >= lo
  }

  function PriceAtMost(hi: real): Book -> bool
  {
    (b: Book) => b.price <= hi
  }

  function RatingAtLeast(lo: int): Book -> bool
  {
    (b: Book) => b.rating >= lo
  }

  function Stocked(): Book -> bool
  {
    (b: Book) => b.inStock
  }

  /** `filter_books(books, **filters)`: each supplied bound filters what the
      previous ones left, in the order of the source. */
  function FilterBooks(books: seq<Book>, f: Filters): seq<Book>
  {
    var r1 := if f.minPrice.Some? then Lists.Filter(books, PriceAtLeast(f.minPrice.value)) else books;
    var r2 := if f.maxPrice.Some? then Lists.Filter(r1, PriceAtMost(f.maxPrice.value)) else r1;
    var r3 := if f.minRating.Some? then Lists.Filter(r2, RatingAtLeast(f.minRating.value)) else r2;
    if f.inStockOnly then Lists.Filter(r3, Stocked()) else r3
  }

  /** Every supplied bound holds of the book. */
  predicate Accepts(f: Filters, b: Book)
  {
    (f.minPrice.None? || b.price >= f.minPrice.value) &&
    (f.maxPrice.None? || b.price <= f.maxPrice.value) &&
    (f.minRating.None? || b.rating >= f.minRating.value) &&
    (!f.inStockOnly || b.inStock)
  }

  function Accepting(f: Filters): Book -> bool
  {
    (b: Book) => Accepts(f, b)
  }

  /** Applies the filters of `f` that are not set in `done` as one more
      filter on what the others left. */
  function Rest(f: Filters, stage: nat): Book -> bool
  {
    (b: Book) => RestAccepts(f, stage, b)
  }

  /** The bounds of `f` from the stage-th on (0: min price, 1: max price,
      2: min rating, 3: stock). */
  predicate RestAccepts(f: Filters, stage: nat, b: Book)
  {
    (stage > 0 || f.minPrice.None? || b.price >= f.minPrice.value) &&
    (stage > 1 || f.maxPrice.None? || b.price <= f.maxPrice.value) &&
    (stage > 2 || f.minRating.None? || b.rating >= f.minRating.value) &&
    (stage > 3 || !f.inStockOnly || b.inStock)
  }

  /** The `min_price` stage followed by the later ones. */
  lemma StageMinPrice(s: seq<Book>, f: Filters)
    ensures Lists.Filter(if f.minPrice.Some? then Lists.Filter(s, PriceAtLeast(f.minPrice.value)) else s, Rest(f, 1))
      == Lists.Filter(s, Rest(f, 0))
  {
    if f.minPrice.Some? {
      Lists.FilterTwice(s, PriceAtLeast(f.minPrice.value), Rest(f, 1), Rest(f, 0));
    } else {
      FilterSame(s, Rest(f, 1), Rest(f, 0));
    }
  }

  /** The `max_price` stage followed by the later ones. */
  lemma StageMaxPrice(s: seq<Book>, f: Filters)
    ensures Lists.Filter(if f.maxPrice.Some? then Lists.Filter(s, PriceAtMost(f.maxPrice.value)) else s, Rest(f, 2))
      == Lists.Filter(s, Rest(f, 1))
  {
    if f.maxPrice.Some? {
      Lists.FilterTwice(s, PriceAtMost(f.maxPrice.value), Rest(f, 2), Rest(f, 1));
    } else {
      FilterSame(s, Rest(f, 2), Rest(f, 1));
    }
  }

  /** The `min_rating` stage followed by the last one. */
  lemma StageMinRating(s: seq<Book>, f: Filters)
    ensures Lists.Filter(if f.minRating.Some? then Lists.Filter(s, RatingAtLeast(f.minRating.value)) else s, Rest(f, 3))
      == Lists.Filter(s, Rest(f, 2))
  {
    if f.minRating.Some? {
      Lists.FilterTwice(s, RatingAtLeast(f.minRating.value), Rest(f, 3), Rest(f, 2));
    } else {
      FilterSame(s, Rest(f, 3), Rest(f, 2));
    }
  }

  /** The `in_stock_only` stage. */
  lemma StageInStock(s: seq<Book>, f: Filters)
    ensures (if f.inStockOnly then Lists.Filter(s, Stocked()) else s) == Lists.Filter(s, Rest(f, 3))
  {
    if f.inStockOnly {
      FilterSame(s, Stocked(), Rest(f, 3));
    } else {
      Lists.FilterAll(s, Rest(f, 3));
    }
  }

  /** Filters with the same test give the same list. */
  lemma {:induction false} FilterSame(s: seq<Book>, p: Book -> bool, q: Book -> bool)
    requires forall b :: p(b) == q(b)
    ensures Lists.Filter(s, p) == Lists.Filter(s, q)
    decreases |s|
  {
    if s != [] {
      FilterSame(s[1..], p, q);
    }
  }

  /** The chain of filters is one filter by all the supplied bounds. */
  lemma FilterBooksIsOneFilter(books: seq<Book>, f: Filters)
    ensures FilterBooks(books, f) == Lists.Filter(books, Accepting(f))
  {
    var r1 := if f.minPrice.Some? then Lists.Filter(books, PriceAtLeast(f.minPrice.value)) else books;
    var r2 := if f.maxPrice.Some? then Lists.Filter(r1, PriceAtMost(f.maxPrice.value)) else r1;
    var r3 := if f.minRating.Some? then Lists.Filter(r2, RatingAtLeast(f.minRating.value)) else r2;
    StageInStock(r3, f);
    StageMinRating(r2, f);
    StageMaxPrice(r1, f);
    StageMinPrice(books, f);
    FilterSame(books, Rest(f, 0), Accepting(f));
  }

  /** `filter_books` keeps the books in their order, and a book is kept
      exactly when it meets every supplied bound. */
  lemma FilterBooksSound(books: seq<Book>, f: Filters)
    ensures Lists.IsSublist(FilterBooks(books, f), books)
    ensures forall b :: b in FilterBooks(books, f) <==> b in books && Accepts(f, b)
    ensures forall i :: 0 <= i < |FilterBooks(books, f)| ==> Accepts(f, FilterBooks(books, f)[i])
  {
    FilterBooksIsOneFilter(books, f);
    Lists.FilterSublist(books, Accepting(f));
    Lists.FilterMembers(books, Accepting(f));
  }

  /** With no bound supplied, or only `in_stock_only=False`, the list comes
      back as it was. */
  lemma FilterBooksNoFilters(books: seq<Book>)
    ensures FilterBooks(books, Filters(None, None, None, false)) == books
  {
  }

  /** Every book that passes is in the result as many times as in the input. */
  lemma FilterBooksKeepsAll(books: seq<Book>, f: Filters)
    requires forall i :: 0 <= i < |books| ==> Accepts(f, books[i])
    ensures FilterBooks(books, f) == books
  {
    FilterBooksIsOneFilter(books, f);
    Lists.FilterAll(books, Accepting(f));
  }

  // ---------------------------------------------------------------------
  // The rating distribution of show_statistics

  /** The `rating_counts` dict as a list of (rating, count) pairs in insertion
      order, the order Python's dict keeps. */
  type Counts = seq<(int, nat)>

  /** `counts.get(r, 0)`. */
  function Get(counts: Counts, r: int): nat
  {
    if counts == [] then 0
    else if counts[0].0 == r then counts[0].1
    else Get(counts[1..], r)
  }

  /** The ratings that are keys. */
  function Keys(counts: Counts): (ks: seq<int>)
    ensures |ks| == |counts|
  {
    seq(|counts|, i requires 0 <= i < |counts| => counts[i].0)
  }

  /** The sum of the counts. */
  function Total(counts: Counts): nat
  {
    if counts == [] then 0 else counts[0].1 + Total(counts[1..])
  }

  /** `counts[r] = counts.get(r, 0) + 1`: the count of an existing key goes
      up in place, a new key goes at the end with count 1. */
  function Bump(counts: Counts, r: int): (c: Counts)
    ensures Total(c) == Total(counts) + 1
    ensures forall k :: Get(c, k) == Get(counts, k) + (if k == r then 1 else 0)
  {
    if counts == [] then [(r, 1)]
    else if counts[0].0 == r then
      var c := [(r, counts[0].1 + 1)] + counts[1..];
      assert c[1..] == counts[1..];
      c
    else
      var rest := Bump(counts[1..], r);
      var c := [counts[0]] + rest;
      assert c[1..] == rest;
      c
  }

  /** Bumping adds `r` to the keys if it is new and keeps every count
      positive. */
  lemma {:induction false} BumpKeys(counts: Counts, r: int)
    ensures forall k :: k in Keys(Bump(counts, r)) <==> k in Keys(counts) || k == r
    ensures (forall i :: 0 <= i < |counts| ==> counts[i].1 > 0) ==>
      forall i :: 0 <= i < |Bump(counts, r)| ==> Bump(counts, r)[i].1 > 0
    decreases |counts|
  {
    var c := Bump(counts, r);
    if counts == [] {
      assert Keys(c) == [r];
    } else if counts[0].0 == r {
      assert Keys(c) == Keys(counts);
      assert Keys(counts)[0] == r;
    } else {
      var rest := Bump(counts[1..], r);
      BumpKeys(counts[1..], r);
      assert c == [counts[0]] + rest;
      assert Keys(c) == [counts[0].0] + Keys(rest);
      assert Keys(counts) == [counts[0].0] + Keys(counts[1..]);
    }
  }

  /** Bumping keeps the keys without repetitions. */
  lemma {:induction false} BumpDistinct(counts: Counts, r: int)
    requires Lists.Distinct(Keys(counts))
    ensures Lists.Distinct(Keys(Bump(counts, r)))
    decreases |counts|
  {
    var c := Bump(counts, r);
    if counts == [] {
      assert Keys(c) == [r];
    } else if counts[0].0 == r {
      assert Keys(c) == Keys(counts);
    } else {
      var rest := Bump(counts[1..], r);
      var x := counts[0].0;
      var kt := Keys(counts[1..]);
      assert c == [counts[0]] + rest;
      assert Keys(counts) == [x] + kt;
      assert x !in kt && Lists.Distinct(kt) by {
        forall j | 0 <= j < |kt| ensures kt[j] != x {
          assert Keys(counts)[0] != Keys(counts)[j + 1];
        }
        forall i, j | 0 <= i < j < |kt| ensures kt[i] != kt[j] {
          assert Keys(counts)[i + 1] != Keys(counts)[j + 1];
        }
      }
      BumpDistinct(counts[1..], r);
      BumpKeys(counts[1..], r);
      var kr := Keys(rest);
      assert Lists.Distinct(kr) && x !in kr;
      var kc := Keys(c);
      assert kc == [x] + kr;
      forall i, j | 0 <= i < j < |kc| ensures kc[i] != kc[j] {
        if i == 0 {
          assert kc[j] == kr[j - 1];
        } else {
          assert kc[i] == kr[i - 1] && kc[j] == kr[j - 1];
        }
      }
    }
  }

  /** The dict after the loop has seen `ratings`. */
  function Tally(ratings: seq<int>): Counts
    decreases |ratings|
  {
    if ratings == [] then [] else Bump(Tally(ratings[..|ratings| - 1]), ratings[|ratings| - 1])
  }

  /** The tally counts every rating of the list exactly once: each key holds
      the number of books with that rating, the keys are the ratings that
      occur, each once and each with a positive count, and the counts sum
      to the number of books. */
  lemma {:induction false} TallySound(ratings: seq<int>)
    ensures forall k :: Get(Tally(ratings), k) == multiset(ratings)[k]
    ensures forall k :: k in Keys(Tally(ratings)) <==> k in ratings
    ensures Lists.Distinct(Keys(Tally(ratings)))
    ensures forall i :: 0 <= i < |Tally(ratings)| ==> Tally(ratings)[i].1 > 0
    ensures Total(Tally(ratings)) == |ratings|
    decreases |ratings|
  {
    if ratings != [] {
      var front := ratings[..|ratings| - 1];
      TallySound(front);
      BumpKeys(Tally(front), ratings[|ratings| - 1]);
      BumpDistinct(Tally(front), ratings[|ratings| - 1]);
      assert ratings == front + [ratings[|ratings| - 1]];
    }
  }

  /** The ratings of the books, in order. */
  function Ratings(books: seq<Book>): (rs: seq<int>)
    ensures |rs| == |books|
  {
    seq(|books|, i requires 0 <= i < |books| => books[i].rating)
  }

  /** The counting loop of `show_statistics`. */
  method RatingCounts(books: seq<Book>) returns (counts: Counts)
    ensures counts == Tally(Ratings(books))
  {
    var ratings := Ratings(books);
    counts := [];
    var k := 0;
    while k < |ratings|
      invariant 0 <= k <= |ratings|
      invariant counts == Tally(ratings[..k])
    {
      assert ratings[..k + 1][..k] == ratings[..k];
      counts := Bump(counts, ratings[k]);
      k := k + 1;
    }
    assert ratings[..k] == ratings;
  }

  /** The printed distribution adds up to the number of books. */
  lemma RatingCountsSum(books: seq<Book>)
    ensures Total(Tally(Ratings(books))) == |books|
  {
    TallySound(Ratings(books));
  }
}

=== FILE: data_analysis.dfy ===
/** The small classifiers the pandas lessons apply row by row: the grade
    band of an average score, the quality band of a film rating, and the
    subject in which a student scores best. Scores are exact reals. */
module DataAnalysis {
  import Lists

  // ---------------------------------------------------------------------
  // get_grade

  /** The five grade labels, lowest band first. */
  const GRADES: seq<string> := ["不及格", "及格", "中等", "良好", "优秀"]

  /** Position of a label in `GRADES`, so that bands can be compared. */
  function GradeRank(g: string): (k: int)
    ensures 0 <= k < |GRADES| <==> g in GRADES
    ensures g in GRADES ==> GRADES[k] == g
  {
    if g == "不及格" then 0
    else if g == "及格" then 1
    else if g == "中等" then 2
    else if g == "良好" then 3
    else if g == "优秀" then 4
    else -1
  }

  /** `get_grade(score)`: the band whose inclusive lower bound of 90, 80, 70
      or 60 the score reaches first, and 不及格 below 60. */
  function Grade(score: real): (r: string)
    ensures r in GRADES
    ensures r == "优秀" <==> 90.0 <= score
    ensures r == "良好" <==> 80.0 <= score < 90.0
    ensures r == "中等" <==> 70.0 <= score < 80.0
    ensures r == "及格" <==> 60.0 <= score < 70.0
    ensures r == "不及格" <==> score < 60.0
  {
    if score >= 90.0 then "优秀"
    else if score >= 80.0 then "良好"
    else if score >= 70.0 then "中等"
    else if score >= 60.0 then "及格"
    else "不及格"
  }

  /** The five labels are different, so every score has exactly one. */
  lemma GradesDistinct()
    ensures Lists.Distinct(GRADES)
  {
  }

  /** The band of a score, as a number: how many of the four thresholds
      60, 70, 80 and 90 it reaches. */
  function Band(score: real): (n: nat)
    ensures n <= 4
  {
    (if score >= 60.0 then 1 else 0) + (if score >= 70.0 then 1 else 0)
    + (if score >= 80.0 then 1 else 0) + (if score >= 90.0 then 1 else 0)
  }

  /** The label's rank is the number of thresholds the score reaches. */
  lemma GradeRankIsBand(score: real)
    ensures GradeRank(Grade(score)) == Band(score)
  {
  }

  /** A higher score never gets a lower grade. */
  lemma GradeMonotone(x: real, y: real)
    requires x <= y
    ensures GradeRank(Grade(x)) <= GradeRank(Grade(y))
  {
    GradeRankIsBand(x);
    GradeRankIsBand(y);
  }

  /** The examples of the lesson, and the pass mark itself. */
  lemma GradeExamples()
    ensures Grade(95.0) == "优秀"
    ensures Grade(85.5) == "良好"
    ensures Grade(55.0) == "不及格"
    ensures Grade(60.0) == "及格"
  {
  }

  // ---------------------------------------------------------------------
  // get_rating_grade

  /** The four rating labels, lowest band first. */
  const RATING_GRADES: seq<string> := ["烂片", "普通", "佳作", "神作"]

  function RatingRank(g: string): (k: int)
    ensures 0 <= k < |RATING_GRADES| <==> g in RATING_GRADES
    ensures g in RATING_GRADES ==> RATING_GRADES[k] == g
  {
    if g == "烂片" then 0
    else if g == "普通" then 1
    else if g == "佳作" then 2
    else if g == "神作" then 3
    else -1
  }

  /** `get_rating_grade(rating)`: 神作 from 9, 佳作 from 8, 普通 from 6, and
      烂片 below 6. */
  function RatingGrade(rating: real): (r: string)
    ensures r in RATING_GRADES
    ensures r == "神作" <==> 9.0 <= rating
    ensures r == "佳作" <==> 8.0 <= rating < 9.0
    ensures r == "普通" <==> 6.0 <= rating < 8.0
    ensures r == "烂片" <==> rating < 6.0
  {
    if rating >= 9.0 then "神作"
    else if rating >= 8.0 then "佳作"
    else if rating >= 6.0 then "普通"
    else "烂片"
  }

  /** A higher rating never gets a lower label. */
  lemma RatingGradeMonotone(x: real, y: real)
    requires x <= y
    ensures RatingRank(RatingGrade(x)) <= RatingRank(RatingGrade(y))
  {
  }

  // ---------------------------------------------------------------------
  // get_best_subject

  const SUBJECTS: seq<string> := ["语文", "数学", "英语", "科学"]

  /** Python's `max` over positions `k..` of `scores`, where `best` is the
      largest seen so far: a later score replaces it only when strictly
      larger, so the first of equal maxima wins. */
  function MaxFrom(scores: seq<real>, k: nat, best: nat): (r: nat)
    requires best < k <= |scores|
    requires forall j :: 0 <= j < k ==> scores[j] <= scores[best]
    requires forall j :: 0 <= j < best ==> scores[j] < scores[best]
    ensures r < |scores|
    ensures forall j :: 0 <= j < |scores| ==> scores[j] <= scores[r]
    ensures forall j :: 0 <= j < r ==> scores[j] < scores[r]
    decreases |scores| - k
  {
    if k == |scores| then best
    else if scores[k] > scores[best] then MaxFrom(scores, k + 1, k)
    else MaxFrom(scores, k + 1, best)
  }

  /** Position of the first maximum of a non-empty list. */
  function FirstMax(scores: seq<real>): (r: nat)
    requires |scores| > 0
    ensures r < |scores|
    ensures forall j :: 0 <= j < |scores| ==> scores[j] <= scores[r]
    ensures forall j :: 0 <= j < r ==> scores[j] < scores[r]
  {
    MaxFrom(scores, 1, 0)
  }

  /** The first maximum is the only position that is a maximum with every
      earlier score strictly smaller. */
  lemma FirstMaxUnique(scores: seq<real>, i: nat)
    requires i < |scores|
    requires forall j :: 0 <= j < |scores| ==> scores[j] <= scores[i]
    requires forall j :: 0 <= j < i ==> scores[j] < scores[i]
    ensures FirstMax(scores) == i
  {
    var r := FirstMax(scores);
    assert scores[r] <= scores[i] && scores[i] <= scores[r];
  }

  /** A student's row: the scores of the four subjects (and other columns). */
  type Row = map<string, real>

  predicate HasSubjects(row: Row)
  {
    forall s :: s in SUBJECTS ==> s in row
  }

  /** `get_best_subject(row)`: the subject with the highest score, and of
      several with the same highest score the first in `SUBJECTS`. */
  function BestSubject(row: Row): (r: string)
    requires HasSubjects(row)
    ensures r in SUBJECTS && r in row
    ensures forall s :: s in SUBJECTS ==> row[s] <= row[r]
    ensures forall i, j :: 0 <= i < j < |SUBJECTS| && SUBJECTS[j] == r ==> row[SUBJECTS[i]] < row[r]
  {
    var scores := seq(|SUBJECTS|, k requires 0 <= k < |SUBJECTS| => row[SUBJECTS[k]]);
    var k := FirstMax(scores);
    assert forall s :: s in SUBJECTS ==> row[s] <= scores[k] by {
      forall s | s in SUBJECTS ensures row[s] <= scores[k] {
        var j :| 0 <= j < |SUBJECTS| && SUBJECTS[j] == s;
        assert scores[j] == row[s];
      }
    }
    assert Lists.Distinct(SUBJECTS);
    forall i, j | 0 <= i < j < |SUBJECTS| && SUBJECTS[j] == SUBJECTS[k]
      ensures row[SUBJECTS[i]] < row[SUBJECTS[k]]
    {
      assert scores[i] == row[SUBJECTS[i]];
    }
    SUBJECTS[k]
  }

  /** When all four scores are equal the first subject, 语文, is chosen. */
  lemma BestSubjectTie(row: Row, x: real)
    requires HasSubjects(row)
    requires forall s :: s in SUBJECTS ==> row[s] == x
    ensures BestSubject(row) == "语文"
  {
    var r := BestSubject(row);
    assert row[r] == x;
    assert row[SUBJECTS[0]] == x;
  }
}

=== FILE: excel_processor.dfy ===
/** The worksheet helpers of the Excel script: writing a block of values,
    reading rows with an optional header row, per-column statistics, column
    widths fitted to their text, filling a column with a row-numbered
    formula, and the grade book example.

    A worksheet is the rectangle `iter_rows` walks: rows 1..max_row by
    columns 1..max_column, with None in every cell never given a value.  A
    worksheet in which no cell was ever created has no rows and no columns:
    `iter_rows` and `columns` yield nothing for it. */
module ExcelProcessor {
  import opened Options
  import Lists
  import Text
  import opened Reals

  /** A cell value as it reaches Python: None, an int, a float, a str or a
      bool.  A float carries the text Python's str() shows for it. */
  datatype Value = Empty | Int(i: int) | Float(x: real, shown: string) | Str(s: string) | Bool(b: bool)

  function Max(a: int, b: int): int { if a >= b then a else b }

  function Min(a: int, b: int): int { if a <= b then a else b }

  /** The used rectangle of a worksheet, rows 1..height by columns
      1..width, and the values stored in it; a cell missing from `cells`
      holds None. */
  datatype Grid = Grid(height: nat, width: nat, cells: map<(int, int), Value>)

  /** Every stored value lies inside the used rectangle, which is either
      empty (no cell created yet) or at least one cell. */
  predicate IsGrid(g: Grid)
  {
    (g.height == 0 <==> g.width == 0) &&
    forall k :: k in g.cells ==> 1 <= k.0 <= g.height && 1 <= k.1 <= g.width
  }

  /** The value at row `r`, column `c`. */
  function At(g: Grid, r: int, c: int): Value
  {
    if (r, c) in g.cells then g.cells[(r, c)] else Empty
  }

  /** `ws.cell(row=r, column=c, value=v)`: the cell is created, which widens
      the used rectangle to cover it, and `v` is stored unless it is None. */
  function SetCell(g: Grid, r: int, c: int, v: Value): (h: Grid)
    requires r >= 1 && c >= 1
    ensures h.height == Max(g.height, r) && h.width == Max(g.width, c)
  {
    Grid(Max(g.height, r), Max(g.width, c), if v == Empty then g.cells else g.cells[(r, c) := v])
  }

  /** After `SetCell`, the cell at (r, c) holds `v` unless `v` is None, and
      every other cell reads as before. */
  lemma SetCellAt(g: Grid, r: int, c: int, v: Value, r': int, c': int)
    requires r >= 1 && c >= 1
    ensures At(SetCell(g, r, c, v), r', c') == (if r' == r && c' == c && v != Empty then v else At(g, r', c'))
  {
  }

  /** One row of `write_data`: `row[j]` goes to column `c + j` of row `r`. */
  function WriteRow(g: Grid, row: seq<Value>, r: int, c: int): Grid
    requires r >= 1 && c >= 1
    decreases |row|
  {
    if row == [] then g else WriteRow(SetCell(g, r, c, row[0]), row[1..], r, c + 1)
  }

  /** All rows of `write_data`, in order: `data[i]` goes to row `r + i`. */
  function WriteRows(g: Grid, data: seq<seq<Value>>, r: int, c: int): Grid
    requires r >= 1 && c >= 1
    decreases |data|
  {
    if data == [] then g else WriteRows(WriteRow(g, data[0], r, c), data[1..], r + 1, c)
  }

  /** Writing `row` from its `j`-th value on starts with that value. */
  lemma WriteRowStep(g: Grid, row: seq<Value>, j: nat, r: int, c: int)
    requires r >= 1 && c >= 1 && j < |row|
    ensures WriteRow(g, row[j..], r, c + j) == WriteRow(SetCell(g, r, c + j, row[j]), row[j + 1..], r, c + j + 1)
  {
    assert row[j..][0] == row[j] && row[j..][1..] == row[j + 1..];
  }

  /** Writing a row stores each non-None value at its own column of row `r`
      and leaves every other cell as it was. */
  lemma {:induction false} WriteRowCell(g: Grid, row: seq<Value>, r: int, c: int, r': int, c': int)
    requires r >= 1 && c >= 1
    ensures At(WriteRow(g, row, r, c), r', c') ==
      (if r' == r && c <= c' < c + |row| && row[c' - c] != Empty then row[c' - c] else At(g, r', c'))
    decreases |row|
  {
    if row != [] {
      SetCellAt(g, r, c, row[0], r', c');
      WriteRowCell(SetCell(g, r, c, row[0]), row[1..], r, c + 1, r', c');
    }
  }

  /** `write_data` places `data[i][j]` at row `r + i`, column `c + j`, unless
      it is None, and changes no other cell. */
  lemma {:induction false} WriteRowsCell(g: Grid, data: seq<seq<Value>>, r: int, c: int, r': int, c': int)
    requires r >= 1 && c >= 1
    ensures At(WriteRows(g, data, r, c), r', c') ==
      (if r <= r' < r + |data| && c <= c' < c + |data[r' - r]| && data[r' - r][c' - c] != Empty
       then data[r' - r][c' - c] else At(g, r', c'))
    decreases |data|
  {
    if data != [] {
      WriteRowCell(g, data[0], r, c, r', c');
      WriteRowsCell(WriteRow(g, data[0], r, c), data[1..], r + 1, c, r', c');
    }
  }

  /** Setting a cell keeps a well-formed worksheet well-formed. */
  lemma SetCellGrid(g: Grid, r: int, c: int, v: Value)
    requires IsGrid(g) && r >= 1 && c >= 1
    ensures IsGrid(SetCell(g, r, c, v))
  {
  }

  /** Writing a row keeps a well-formed worksheet well-formed. */
  lemma {:induction false} WriteRowGrid(g: Grid, row: seq<Value>, r: int, c: int)
    requires IsGrid(g) && r >= 1 && c >= 1
    ensures IsGrid(WriteRow(g, row, r, c))
    decreases |row|
  {
    if row != [] {
      SetCellGrid(g, r, c, row[0]);
      WriteRowGrid(SetCell(g, r, c, row[0]), row[1..], r, c + 1);
    }
  }

  /** Writing rows keeps a well-formed worksheet well-formed. */
  lemma {:induction false} WriteRowsGrid(g: Grid, data: seq<seq<Value>>, r: int, c: int)
    requires IsGrid(g) && r >= 1 && c >= 1
    ensures IsGrid(WriteRows(g, data, r, c))
    decreases |data|
  {
    if data != [] {
      WriteRowGrid(g, data[0], r, c);
      WriteRowsGrid(WriteRow(g, data[0], r, c), data[1..], r + 1, c);
    }
  }

  /** Writing a row never shrinks the sheet, and a non-empty row makes it
      reach down to row `r`. */
  lemma {:induction false} WriteRowHeight(g: Grid, row: seq<Value>, r: int, c: int)
    requires r >= 1 && c >= 1
    ensures WriteRow(g, row, r, c).height >= g.height
    ensures row != [] ==> WriteRow(g, row, r, c).height >= r
    decreases |row|
  {
    if row != [] {
      WriteRowHeight(SetCell(g, r, c, row[0]), row[1..], r, c + 1);
    }
  }

  /** After `write_data` of non-empty rows the sheet reaches down to the last
      row written. */
  lemma {:induction false} WriteRowsHeight(g: Grid, data: seq<seq<Value>>, r: int, c: int)
    requires r >= 1 && c >= 1
    requires forall i :: 0 <= i < |data| ==> data[i] != []
    ensures data != [] ==> WriteRows(g, data, r, c).height >= r + |data| - 1
    decreases |data|
  {
    if data != [] {
      var h := WriteRow(g, data[0], r, c);
      assert WriteRows(g, data, r, c) == WriteRows(h, data[1..], r + 1, c);
      WriteRowHeight(g, data[0], r, c);
      WriteRowsHeight(h, data[1..], r + 1, c);
    }
  }

  /** Python's truth value of a cell: None, 0, 0.0, "" and False are false. */
  predicate Truthy(v: Value)
  {
    match v
    case Empty => false
    case Int(i) => i != 0
    case Float(x, _) => x != 0.0
    case Str(t) => t != ""
    case Bool(b) => b
  }

  /** `str(v)`. */
  function Display(v: Value): string
  {
    match v
    case Empty => "None"
    case Int(i) => Text.IntToStr(i)
    case Float(_, shown) => shown
    case Str(t) => t
    case Bool(b) => if b then "True" else "False"
  }

  /** The longest `str` of a true cell in rows 1..n of column `c`; 0 when
      there is none. */
  function Longest(g: Grid, c: int, n: nat): nat
  {
    if n == 0 then 0
    else
      var rest := Longest(g, c, n - 1);
      var v := At(g, n, c);
      if Truthy(v) && |Display(v)| > rest then |Display(v)| else rest
  }

  /** No true cell in rows 1..n is longer than `Longest`. */
  lemma {:induction false} LongestBounds(g: Grid, c: int, n: nat, r: int)
    requires 1 <= r <= n && Truthy(At(g, r, c))
    ensures |Display(At(g, r, c))| <= Longest(g, c, n)
    decreases n
  {
    if r < n {
      LongestBounds(g, c, n - 1, r);
    }
  }

  /** A positive `Longest` is the length of some true cell's text. */
  lemma {:induction false} LongestAttained(g: Grid, c: int, n: nat)
    requires Longest(g, c, n) > 0
    ensures exists r :: 1 <= r <= n && Truthy(At(g, r, c)) && |Display(At(g, r, c))| == Longest(g, c, n)
    decreases n
  {
    var v := At(g, n, c);
    if !(Truthy(v) && |Display(v)| > Longest(g, c, n - 1)) {
      LongestAttained(g, c, n - 1);
      var r :| 1 <= r <= n - 1 && Truthy(At(g, r, c)) && |Display(At(g, r, c))| == Longest(g, c, n - 1);
      assert 1 <= r <= n;
    }
  }

  /** The width `auto_column_width` gives column `c`: two more than its
      longest text, at most 50. */
  function ColumnWidth(g: Grid, c: int): nat
  {
    Min(Longest(g, c, g.height) + 2, 50)
  }

  /** A column's width is between 2 and 50; every true cell's text plus 2
      fits in it unless the width is capped at 50; and a width above 2 and
      below 50 is exactly some cell's text length plus 2. */
  lemma ColumnWidthFits(g: Grid, c: int, r: int)
    requires 1 <= r <= g.height && Truthy(At(g, r, c))
    ensures 2 <= ColumnWidth(g, c) <= 50
    ensures |Display(At(g, r, c))| + 2 <= ColumnWidth(g, c) || ColumnWidth(g, c) == 50
  {
    LongestBounds(g, c, g.height, r);
  }

  /** A width strictly between 2 and 50 is some true cell's text length plus
      2. */
  lemma ColumnWidthExact(g: Grid, c: int)
    requires 2 < ColumnWidth(g, c) < 50
    ensures exists r :: 1 <= r <= g.height && Truthy(At(g, r, c)) && |Display(At(g, r, c))| + 2 == ColumnWidth(g, c)
  {
    LongestAttained(g, c, g.height);
  }

  /** The widths `auto_column_width` sets on columns 1..n. */
  function Widths(g: Grid, n: int): map<int, nat>
    decreases n
  {
    if n <= 0 then map[] else Widths(g, n - 1)[n := ColumnWidth(g, n)]
  }

  /** Exactly columns 1..n get a width, each its own `ColumnWidth`. */
  lemma {:induction false} WidthsAt(g: Grid, n: int, c: int)
    ensures c in Widths(g, n) <==> 1 <= c <= n
    ensures c in Widths(g, n) ==> Widths(g, n)[c] == ColumnWidth(g, c)
    decreases n
  {
    if n > 0 {
      WidthsAt(g, n - 1, c);
    }
  }

  lemma WidthsStep(base: map<int, nat>, g: Grid, c: int)
    requires c >= 1
    ensures (base + Widths(g, c - 1))[c := ColumnWidth(g, c)] == base + Widths(g, c)
  {
  }

  /** The text `add_formula` writes in row `row`: the formula with every "2"
      replaced by the row number. */
  function FormulaFor(formula: string, row: nat): string
  {
    Text.ReplaceAll(formula, "2", Text.NatToStr(row))
  }

  /** The loop of `add_formula` over rows `lo`..`hi`. */
  function FillRows(g: Grid, column: int, formula: string, lo: int, hi: int): Grid
    requires lo >= 1 && column >= 1
    decreases hi - lo + 1
  {
    if lo > hi then g
    else FillRows(SetCell(g, lo, column, Str(FormulaFor(formula, lo))), column, formula, lo + 1, hi)
  }

  /** Rows `lo`..`hi` of `column` hold their row's formula; every other
      cell is as it was. */
  lemma {:induction false} FillRowsCell(g: Grid, column: int, formula: string, lo: int, hi: int, r': int, c': int)
    requires lo >= 1 && column >= 1
    ensures At(FillRows(g, column, formula, lo, hi), r', c') ==
      (if lo <= r' <= hi && c' == column then Str(FormulaFor(formula, r')) else At(g, r', c'))
    decreases hi - lo + 1
  {
    if lo <= hi {
      SetCellAt(g, lo, column, Str(FormulaFor(formula, lo)), r', c');
      FillRowsCell(SetCell(g, lo, column, Str(FormulaFor(formula, lo))), column, formula, lo + 1, hi, r', c');
    }
  }

  /** Filling rows that already exist adds no row, and keeps a well-formed
      sheet well-formed. */
  lemma {:induction false} FillRowsShape(g: Grid, column: int, formula: string, lo: int, hi: int)
    requires IsGrid(g) && lo >= 1 && column >= 1 && hi <= g.height
    ensures IsGrid(FillRows(g, column, formula, lo, hi))
    ensures FillRows(g, column, formula, lo, hi).height == g.height
    decreases hi - lo + 1
  {
    if lo <= hi {
      SetCellGrid(g, lo, column, Str(FormulaFor(formula, lo)));
      FillRowsShape(SetCell(g, lo, column, Str(FormulaFor(formula, lo))), column, formula, lo + 1, hi);
    }
  }

  /** A worksheet: its cells and the widths set on its columns. */
  class Sheet {
    var grid: Grid
    var widths: map<int, nat>

    ghost predicate Valid()
      reads this
    {
      IsGrid(grid)
    }

    /** A new, empty worksheet. */
    constructor ()
      ensures Valid() && grid == Grid(0, 0, map[]) && widths == map[]
    {
      grid := Grid(0, 0, map[]);
      widths := map[];
    }

    /** A worksheet loaded from a file. */
    constructor Of(g: Grid)
      requires IsGrid(g)
      ensures Valid() && grid == g && widths == map[]
    {
      grid := g;
      widths := map[];
    }

    /** `ws.cell(row=r, column=c, value=v)`; openpyxl rejects a row or column
        below 1. */
    method WriteCell(r: int, c: int, v: Value)
      requires r >= 1 && c >= 1
      modifies this
      ensures grid == SetCell(old(grid), r, c, v) && widths == old(widths)
    {
      grid := SetCell(grid, r, c, v);
    }

    /** The inner loop of `write_data`. */
    method WriteDataRow(row: seq<Value>, r: int, c: int)
      requires r >= 1 && c >= 1
      modifies this
      ensures grid == WriteRow(old(grid), row, r, c) && widths == old(widths)
    {
      var j := 0;
      while j < |row|
        invariant 0 <= j <= |row|
        invariant widths == old(widths)
        invariant WriteRow(grid, row[j..], r, c + j) == WriteRow(old(grid), row, r, c)
        decreases |row| - j
      {
        WriteRowStep(grid, row, j, r, c);
        WriteCell(r, c + j, row[j]);
        j := j + 1;
      }
    }

    /** `write_data(workbook, data, start_row, start_col)`: row `i` of `data`
        goes to sheet row `start_row + i`, starting at column `start_col`. */
    method WriteData(data: seq<seq<Value>>, startRow: int, startCol: int)
      requires Valid() && startRow >= 1 && startCol >= 1
      modifies this
      ensures Valid() && grid == WriteRows(old(grid), data, startRow, startCol) && widths == old(widths)
    {
      var i := 0;
      while i < |data|
        invariant 0 <= i <= |data|
        invariant widths == old(widths)
        invariant WriteRows(grid, data[i..], startRow + i, startCol) == WriteRows(old(grid), data, startRow, startCol)
        decreases |data| - i
      {
        assert data[i..][0] == data[i] && data[i..][1..] == data[i + 1..];
        WriteDataRow(data[i], startRow + i, startCol);
        i := i + 1;
      }
      WriteRowsGrid(old(grid), data, startRow, startCol);
    }

    /** The inner loop of `auto_column_width`: the longest text of a true
        cell in column `c`. */
    method LongestText(c: int) returns (m: nat)
      ensures m == Longest(grid, c, grid.height)
    {
      m := 0;
      var r := 1;
      while r <= grid.height
        invariant 1 <= r <= grid.height + 1
        invariant m == Longest(grid, c, r - 1)
        decreases grid.height - r
      {
        var v := At(grid, r, c);
        if Truthy(v) && |Display(v)| > m {
          m := |Display(v)|;
        }
        r := r + 1;
      }
    }

    /** One pass of `auto_column_width`: column `c` gets its width. */
    method SetWidth(c: int)
      modifies this
      ensures grid == old(grid) && widths == old(widths)[c := ColumnWidth(grid, c)]
    {
      var longest := LongestText(c);
      widths := widths[c := Min(longest + 2, 50)];
    }

    /** `auto_column_width(workbook)`: every column of the used rectangle gets
        the width of its longest text plus 2, at most 50. */
    method AutoColumnWidth()
      modifies this
      ensures grid == old(grid)
      ensures widths == old(widths) + Widths(grid, grid.width)
    {
      var c := 1;
      while c <= grid.width
        invariant 1 <= c <= grid.width + 1
        invariant grid == old(grid)
        invariant widths == old(widths) + Widths(grid, c - 1)
        decreases grid.width - c
      {
        WidthsStep(old(widths), grid, c);
        SetWidth(c);
        c := c + 1;
      }
    }

    /** The loop of `add_formula`: rows 2..max_row of `column` get the formula
        with every "2" replaced by the row number. */
    method FillFormula(column: int, formula: string)
      requires Valid() && column >= 1
      modifies this
      ensures Valid() && grid == FillRows(old(grid), column, formula, 2, old(grid).height)
      ensures widths == old(widths)
    {
      var maxRow := grid.height;
      var row := 2;
      while row <= maxRow
        invariant 2 <= row <= Max(maxRow + 1, 2)
        invariant widths == old(widths)
        invariant FillRows(grid, column, formula, row, maxRow) == FillRows(old(grid), column, formula, 2, maxRow)
        decreases maxRow - row
      {
        WriteCell(row, column, Str(FormulaFor(formula, row)));
        row := row + 1;
      }
      FillRowsShape(old(grid), column, formula, 2, maxRow);
    }
  }

  /** The rows as `iter_rows(values_only=True)` yields them. */
  type Table = seq<seq<Value>>

  /** `ws.iter_rows(values_only=True)`: every row of the used rectangle,
      each as wide as the rectangle, None where nothing is stored. */
  function RowValues(g: Grid): (t: Table)
    ensures |t| == g.height
    ensures forall i :: 0 <= i < |t| ==> |t[i]| == g.width
    ensures forall i, j :: 0 <= i < |t| && 0 <= j < |t[i]| ==> t[i][j] == At(g, i + 1, j + 1)
  {
    seq(g.height, i => seq(g.width, j => At(g, i + 1, j + 1)))
  }

  /** What `read_data` returns: a header row and the rows below it, or all
      rows when there is no header to split off. */
  datatype Rows = Headed(headers: seq<Value>, data: Table) | Plain(all: Table)

  /** `read_data(file_path, has_header=hasHeader)`; `file` is the worksheet
      read, None when the file does not exist. */
  function ReadData(file: Option<Grid>, hasHeader: bool): (r: Option<Rows>)
    ensures r.None? <==> file.None?
    ensures r.Some? && r.value.Headed? ==> hasHeader && [r.value.headers] + r.value.data == RowValues(file.value)
    ensures r.Some? && r.value.Plain? ==> r.value.all == RowValues(file.value) && (!hasHeader || file.value.height == 0)
  {
    match file
    case None => None
    case Some(g) =>
      var all := RowValues(g);
      if hasHeader && |all| > 0 then
        assert [all[0]] + all[1..] == all;
        Some(Headed(all[0], all[1..]))
      else Some(Plain(all))
  }

  /** `isinstance(v, (int, float))`; a bool passes too, since Python's bool
      is a subclass of int. */
  predicate IsNumeric(v: Value)
  {
    v.Int? || v.Float? || v.Bool?
  }

  /** The number a numeric cell stands for; True and False count as 1 and 0. */
  function Number(v: Value): real
    requires IsNumeric(v)
  {
    if v.Int? then v.i as real else if v.Float? then v.x else if v.b then 1.0 else 0.0
  }

  /** `row[k]` with Python's negative indexing; None stands for IndexError. */
  function PyIndex(row: seq<Value>, k: int): (r: Option<Value>)
    ensures r.Some? <==> -|row| <= k < |row|
    ensures 0 <= k < |row| ==> r == Some(row[k])
    ensures -|row| <= k < 0 ==> r == Some(row[|row| + k])
  {
    if 0 <= k < |row| then Some(row[k])
    else if -|row| <= k < 0 then Some(row[|row| + k])
    else None
  }

  /** `[row[k] for row in data]`: the cells of one column, or None when some
      row raises IndexError. */
  function ColumnCells(data: Table, k: int): (r: Option<seq<Value>>)
    ensures r.Some? ==> |r.value| == |data|
    ensures r.Some? ==> forall i :: 0 <= i < |data| ==> PyIndex(data[i], k) == Some(r.value[i])
    ensures r.None? ==> exists i :: 0 <= i < |data| && PyIndex(data[i], k).None?
  {
    if data == [] then Some([])
    else match PyIndex(data[0], k)
      case None => None
      case Some(v) =>
        match ColumnCells(data[1..], k)
        case None => None
        case Some(rest) => Some([v] + rest)
  }

  /** The numbers among `cells`, in order: the `values` list of
      `calculate_statistics`. */
  function NumericValues(cells: seq<Value>): (xs: seq<real>)
    ensures |xs| == Lists.Count(cells, IsNumeric)
  {
    var kept := Lists.Filter(cells, IsNumeric);
    seq(|kept|, i requires 0 <= i < |kept| => Number(kept[i]))
  }

  /** The entry `calculate_statistics` stores for one column. */
  datatype Summary = Summary(sum: real, avg: real, max: real, min: real, count: nat)

  function Summarize(xs: seq<real>): Summary
    requires xs != []
  {
    Summary(SumR(xs), Average(xs), MaxR(xs), MinR(xs), |xs|)
  }

  /** In a column's entry the minimum is at most the average and the
      average at most the maximum. */
  lemma SummaryOrdered(xs: seq<real>)
    requires xs != []
    ensures Summarize(xs).min <= Summarize(xs).avg <= Summarize(xs).max
  {
    AverageAtLeastMin(xs);
    AverageAtMostMax(xs);
  }

  /** The key of a column's entry: its header cell when there are headers
      and the column is within them, else the text "列<col>"; None stands for
      the IndexError a column number below the header row's start raises. */
  function ColumnName(headers: seq<Value>, col: int): (r: Option<Value>)
    ensures |headers| > 0 && 1 <= col <= |headers| ==> r == Some(headers[col - 1])
    ensures !(|headers| > 0 && col <= |headers|) ==> r == Some(Str("列" + Text.IntToStr(col)))
  {
    if |headers| > 0 && col <= |headers| then PyIndex(headers, col - 1)
    else Some(Str("列" + Text.IntToStr(col)))
  }

  /** One pass of the loop of `calculate_statistics`: column `col` adds an
      entry under its key when it holds a number; None stands for an
      IndexError. */
  function Step(headers: seq<Value>, data: Table, col: int, acc: map<Value, Summary>): Option<map<Value, Summary>>
  {
    match ColumnCells(data, col - 1)
    case None => None
    case Some(cells) =>
      var xs := NumericValues(cells);
      if xs == [] then Some(acc)
      else match ColumnName(headers, col)
        case None => None
        case Some(name) => Some(acc[name := Summarize(xs)])
  }

  /** The loop of `calculate_statistics` over `columns`, starting from the
      entries in `acc`. */
  function StatsFrom(headers: seq<Value>, data: Table, columns: seq<int>, acc: map<Value, Summary>): Option<map<Value, Summary>>
    decreases |columns|
  {
    if columns == [] then Some(acc)
    else match Step(headers, data, columns[0], acc)
      case None => None
      case Some(next) => StatsFrom(headers, data, columns[1..], next)
  }

  /** What `calculate_statistics` ends in: an exception, None, or the
      statistics dictionary. */
  datatype Outcome = Raises | NoData | Computed(stats: map<Value, Summary>)

  /** `calculate_statistics(file_path, columns)`.  `headers, data =
      read_data(...)` raises when the file is missing (None cannot be
      unpacked); with no data rows the result is None. */
  function Statistics(file: Option<Grid>, columns: seq<int>): Outcome
  {
    match ReadData(file, true)
    case None => Raises
    case Some(Plain(_)) => Raises
    case Some(Headed(headers, data)) =>
      if data == [] then NoData
      else match StatsFrom(headers, data, columns, map[])
        case None => Raises
        case Some(m) => Computed(m)
  }

  /** `c` is column `col` taken from the header and data rows, holding
      numbers, and the entry `s` summarises them under key `k`. */
  ghost predicate Explains(headers: seq<Value>, data: Table, col: int, k: Value, s: Summary)
  {
    ColumnCells(data, col - 1).Some? && ColumnName(headers, col) == Some(k) &&
    NumericValues(ColumnCells(data, col - 1).value) != [] &&
    s == Summarize(NumericValues(ColumnCells(data, col - 1).value))
  }

  /** The entries after one pass: those of `acc`, with the column's own
      entry added or replaced when it holds a number. */
  lemma StepEntries(headers: seq<Value>, data: Table, col: int, acc: map<Value, Summary>)
    requires Step(headers, data, col, acc).Some?
    ensures var next := Step(headers, data, col, acc).value;
      forall k :: k in next ==> (k in acc && next[k] == acc[k]) || Explains(headers, data, col, k, next[k])
    ensures forall k :: k in acc ==> k in Step(headers, data, col, acc).value
  {
  }

  /** Every entry of the result either came with `acc` or summarises the
      numbers of one of the requested columns under that column's key. */
  lemma {:induction false} StatsFromSound(headers: seq<Value>, data: Table, columns: seq<int>, acc: map<Value, Summary>)
    requires StatsFrom(headers, data, columns, acc).Some?
    ensures var m := StatsFrom(headers, data, columns, acc).value;
      forall k :: k in m ==>
        ((k in acc && m[k] == acc[k]) || exists j :: 0 <= j < |columns| && Explains(headers, data, columns[j], k, m[k]))
    decreases |columns|
  {
    if columns != [] {
      StatsFromUnfold(headers, data, columns, acc);
      var next := Step(headers, data, columns[0], acc).value;
      StepEntries(headers, data, columns[0], acc);
      StatsFromSound(headers, data, columns[1..], next);
      var m := StatsFrom(headers, data, columns, acc).value;
      forall k | k in m
        ensures (k in acc && m[k] == acc[k]) ||
          exists j :: 0 <= j < |columns| && Explains(headers, data, columns[j], k, m[k])
      {
        if exists j :: 0 <= j < |columns[1..]| && Explains(headers, data, columns[1..][j], k, m[k]) {
          var j :| 0 <= j < |columns[1..]| && Explains(headers, data, columns[1..][j], k, m[k]);
          assert columns[1..][j] == columns[j + 1];
        } else if !(k in acc && m[k] == acc[k]) {
          assert Explains(headers, data, columns[0], k, m[k]);
        }
      }
    }
  }

  /** A key present before the loop is still present after it. */
  lemma {:induction false} StatsFromKeeps(headers: seq<Value>, data: Table, columns: seq<int>, acc: map<Value, Summary>, k: Value)
    requires StatsFrom(headers, data, columns, acc).Some? && k in acc
    ensures k in StatsFrom(headers, data, columns, acc).value
    decreases |columns|
  {
    if columns != [] {
      StatsFromUnfold(headers, data, columns, acc);
      StepEntries(headers, data, columns[0], acc);
      StatsFromKeeps(headers, data, columns[1..], Step(headers, data, columns[0], acc).value, k);
    }
  }

  /** The loop after its first pass. */
  lemma StatsFromUnfold(headers: seq<Value>, data: Table, columns: seq<int>, acc: map<Value, Summary>)
    requires columns != [] && StatsFrom(headers, data, columns, acc).Some?
    ensures Step(headers, data, columns[0], acc).Some?
    ensures StatsFrom(headers, data, columns, acc) ==
      StatsFrom(headers, data, columns[1..], Step(headers, data, columns[0], acc).value)
  {
  }

  /** A column holding a number adds its key in one pass. */
  lemma StepAddsKey(headers: seq<Value>, data: Table, col: int, acc: map<Value, Summary>)
    requires Step(headers, data, col, acc).Some? && ColumnCells(data, col - 1).Some?
    requires NumericValues(ColumnCells(data, col - 1).value) != []
    ensures ColumnName(headers, col).Some?
    ensures ColumnName(headers, col).value in Step(headers, data, col, acc).value
  {
  }

  /** The loop over `columns` is the loop over its first `j` columns
      followed by the loop over the rest. */
  lemma {:induction false} StatsFromSplit(headers: seq<Value>, data: Table, columns: seq<int>, acc: map<Value, Summary>, j: nat)
    requires j <= |columns| && StatsFrom(headers, data, columns, acc).Some?
    ensures StatsFrom(headers, data, columns[..j], acc).Some?
    ensures StatsFrom(headers, data, columns, acc) ==
      StatsFrom(headers, data, columns[j..], StatsFrom(headers, data, columns[..j], acc).value)
    decreases j
  {
    if j == 0 {
      assert columns[..0] == [] && columns[0..] == columns;
    } else {
      StatsFromUnfold(headers, data, columns, acc);
      var next := Step(headers, data, columns[0], acc).value;
      var rest := columns[1..];
      StatsFromSplit(headers, data, rest, next, j - 1);
      var front := columns[..j];
      assert front[0] == columns[0] && front[1..] == rest[..j - 1];
      assert rest[j - 1..] == columns[j..];
    }
  }

  /** Every requested column that holds a number has an entry under its key. */
  lemma StatsFromComplete(headers: seq<Value>, data: Table, columns: seq<int>, acc: map<Value, Summary>, j: nat)
    requires StatsFrom(headers, data, columns, acc).Some?
    requires j < |columns| && ColumnCells(data, columns[j] - 1).Some?
    requires NumericValues(ColumnCells(data, columns[j] - 1).value) != []
    ensures ColumnName(headers, columns[j]).Some?
    ensures ColumnName(headers, columns[j]).value in StatsFrom(headers, data, columns, acc).value
  {
    StatsFromSplit(headers, data, columns, acc, j);
    var mid := StatsFrom(headers, data, columns[..j], acc).value;
    var tail := columns[j..];
    assert tail[0] == columns[j];
    StatsFromUnfold(headers, data, tail, mid);
    StepAddsKey(headers, data, columns[j], mid);
    StatsFromKeeps(headers, data, tail[1..], Step(headers, data, columns[j], mid).value, ColumnName(headers, columns[j]).value);
  }

  /** The method form of `calculate_statistics`, looping over `columns`. */
  method CalculateStatistics(file: Option<Grid>, columns: seq<int>) returns (r: Outcome)
    ensures r == Statistics(file, columns)
  {
    var read := ReadData(file, true);
    if read.None? || read.value.Plain? {
      return Raises;
    }
    var headers, data := read.value.headers, read.value.data;
    if data == [] {
      return NoData;
    }
    var stats: map<Value, Summary> := map[];
    var i := 0;
    while i < |columns|
      invariant 0 <= i <= |columns|
      invariant StatsFrom(headers, data, columns[i..], stats) == StatsFrom(headers, data, columns, map[])
      decreases |columns| - i
    {
      assert columns[i..][0] == columns[i] && columns[i..][1..] == columns[i + 1..];
      var cells := ColumnCells(data, columns[i] - 1);
      if cells.None? {
        return Raises;
      }
      var values := NumericValues(cells.value);
      if values != [] {
        var name := ColumnName(headers, columns[i]);
        if name.None? {
          return Raises;
        }
        stats := stats[name.value := Summarize(values)];
      }
      i := i + 1;
    }
    assert columns[i..] == [];
    return Computed(stats);
  }

  /** Each entry of the statistics names a requested column holding numbers
      and summarises exactly those numbers. */
  lemma StatisticsSound(file: Option<Grid>, columns: seq<int>)
    requires Statistics(file, columns).Computed?
    ensures var r := ReadData(file, true).value;
      forall k :: k in Statistics(file, columns).stats ==>
        exists j :: 0 <= j < |columns| && Explains(r.headers, r.data, columns[j], k, Statistics(file, columns).stats[k])
  {
    var r := ReadData(file, true).value;
    StatsFromSound(r.headers, r.data, columns, map[]);
  }

  /** Each requested column holding a number has an entry. */
  lemma StatisticsComplete(file: Option<Grid>, columns: seq<int>, j: nat)
    requires Statistics(file, columns).Computed?
    requires j < |columns|
    requires var d := ReadData(file, true).value.data;
      ColumnCells(d, columns[j] - 1).Some? && NumericValues(ColumnCells(d, columns[j] - 1).value) != []
    ensures ColumnName(ReadData(file, true).value.headers, columns[j]).Some?
    ensures ColumnName(ReadData(file, true).value.headers, columns[j]).value in Statistics(file, columns).stats
  {
    var r := ReadData(file, true).value;
    StatsFromComplete(r.headers, r.data, columns, map[], j);
  }

  /** An entry explained by a column counts that column's numeric cells,
      and its minimum, average and maximum are in order. */
  lemma ExplainedEntry(headers: seq<Value>, data: Table, col: int, k: Value, s: Summary)
    requires Explains(headers, data, col, k, s)
    ensures s.count == Lists.Count(ColumnCells(data, col - 1).value, IsNumeric) > 0
    ensures s.min <= s.avg <= s.max
  {
    SummaryOrdered(NumericValues(ColumnCells(data, col - 1).value));
  }

  /** A missing file makes `calculate_statistics` raise, and so does a sheet
      without a cell, since `read_data` then returns an empty list that
      cannot be unpacked into headers and data; a sheet with only a header
      row gives None. */
  lemma StatisticsEdges(file: Option<Grid>, columns: seq<int>)
    ensures file.None? ==> Statistics(file, columns) == Raises
    ensures file.Some? && file.value.height == 0 ==> Statistics(file, columns) == Raises
    ensures file.Some? && file.value.height == 1 ==> Statistics(file, columns) == NoData
  {
  }

  /** A workbook as `load_workbook` reads it: its sheets by name and the
      name of the active one. */
  datatype Book = Book(sheets: map<string, Grid>, active: string)

  predicate WellFormedBook(b: Book)
  {
    b.active in b.sheets && forall n :: n in b.sheets ==> IsGrid(b.sheets[n])
  }

  /** The sheet `add_formula` should work on: `wb[sheet_name]` when a
      non-empty name is given (None for the KeyError of a missing one), else
      the active sheet. */
  function Selected(b: Book, sheetName: Option<string>): (r: Option<string>)
    ensures r.Some? ==> r.value in b.sheets || r.value == b.active
  {
    if sheetName.Some? && sheetName.value != "" then
      (if sheetName.value in b.sheets then Some(sheetName.value) else None)
    else Some(b.active)
  }

  /** The workbook after the formula loop has run on sheet `name`. */
  function WithFormula(b: Book, name: string, column: int, formula: string): Book
    requires WellFormedBook(b) && name in b.sheets && column >= 1
  {
    var g := b.sheets[name];
    b.(sheets := b.sheets[name := FillRows(g, column, formula, 2, g.height)])
  }

  /** `add_formula(file_path, column, formula, sheet_name)` as written: with
      a non-empty `sheet_name` it reads the undefined name `workbook` and
      raises NameError before anything is saved (None). */
  method AddFormulaAsWritten(b: Book, column: int, formula: string, sheetName: Option<string>) returns (r: Option<Book>)
    requires WellFormedBook(b) && column >= 1
    ensures sheetName.Some? && sheetName.value != "" ==> r.None?
    ensures !(sheetName.Some? && sheetName.value != "") ==> r == Some(WithFormula(b, b.active, column, formula))
  {
    if sheetName.Some? && sheetName.value != "" {
      return None;
    }
    var ws := new Sheet.Of(b.sheets[b.active]);
    ws.FillFormula(column, formula);
    return Some(b.(sheets := b.sheets[b.active := ws.grid]));
  }

  /** `add_formula` as evidently intended: the named sheet is looked up in the
      loaded workbook; a missing name raises KeyError (None). */
  method AddFormula(b: Book, column: int, formula: string, sheetName: Option<string>) returns (r: Option<Book>)
    requires WellFormedBook(b) && column >= 1
    ensures Selected(b, sheetName).None? ==> r.None?
    ensures Selected(b, sheetName).Some? ==> r == Some(WithFormula(b, Selected(b, sheetName).value, column, formula))
  {
    var name := Selected(b, sheetName);
    if name.None? {
      return None;
    }
    var ws := new Sheet.Of(b.sheets[name.value]);
    ws.FillFormula(column, formula);
    return Some(b.(sheets := b.sheets[name.value := ws.grid]));
  }

  /** With the intended lookup, naming an existing sheet fills that sheet's
      column with the row formulas and leaves every other sheet alone. */
  lemma AddFormulaNamedSheet(b: Book, column: int, formula: string, name: string, r: int, c: int)
    requires WellFormedBook(b) && column >= 1 && name != "" && name in b.sheets
    ensures Selected(b, Some(name)) == Some(name)
    ensures var after := WithFormula(b, name, column, formula);
      after.sheets.Keys == b.sheets.Keys &&
      (forall n :: n in b.sheets && n != name ==> after.sheets[n] == b.sheets[n]) &&
      At(after.sheets[name], r, c) ==
        (if 2 <= r <= b.sheets[name].height && c == column then Str(FormulaFor(formula, r)) else At(b.sheets[name], r, c))
  {
    var g := b.sheets[name];
    FillRowsCell(g, column, formula, 2, g.height, r, c);
  }

  /** A call with sheet name 成绩表: the workbook holding sheet
      "成绩表" is well formed and the intended lookup finds that sheet, so
      the None that `AddFormulaAsWritten` gives for this name comes from the
      undefined `workbook`, not from a missing sheet. */
  lemma AddFormulaNameErrorExample()
    ensures var b := Book(map["成绩表" := Grid(3, 4, map[])], "成绩表");
      WellFormedBook(b) && Selected(b, Some("成绩表")) == Some("成绩表")
  {
  }

  /** The grade of an average in the grade book: A from 90, B from 80, C
      from 70, D from 60, F below. */
  function GradeLetter(avg: real): (g: string)
    ensures g == "A" <==> avg >= 90.0
    ensures g == "B" <==> 80.0 <= avg < 90.0
    ensures g == "C" <==> 70.0 <= avg < 80.0
    ensures g == "D" <==> 60.0 <= avg < 70.0
    ensures g == "F" <==> avg < 60.0
  {
    if avg >= 90.0 then "A"
    else if avg >= 80.0 then "B"
    else if avg >= 70.0 then "C"
    else if avg >= 60.0 then "D"
    else "F"
  }

  /** `round(x, 1)` in tenths: the nearest whole number of tenths, a tie going
      to the even one. */
  function Tenths(x: real): (k: int)
    ensures -0.5 <= x * 10.0 - k as real <= 0.5
  {
    var n := (x * 10.0).Floor;
    var f := x * 10.0 - n as real;
    if f > 0.5 || (f == 0.5 && n % 2 == 1) then n + 1 else n
  }

  /** `str` of a float holding `k` tenths, such as "88.3" or "90.0". */
  function OneDecimal(k: int): string
  {
    var m := if k < 0 then -k else k;
    (if k < 0 then "-" else "") + Text.NatToStr(m / 10) + "." + [Text.DigitChar(m % 10)]
  }

  function IntCells(xs: seq<int>): (cells: seq<Value>)
    ensures |cells| == |xs| && forall i :: 0 <= i < |xs| ==> cells[i] == Int(xs[i])
  {
    seq(|xs|, i requires 0 <= i < |xs| => Int(xs[i]))
  }

  /** One student's row after `student.extend([total, round(avg, 1),
      grade])`: name, scores, total, rounded average and grade letter. */
  function StudentRow(name: string, scores: seq<int>): seq<Value>
    requires scores != []
  {
    var total := Lists.Sum(scores);
    var avg := total as real / |scores| as real;
    var k := Tenths(avg);
    [Str(name)] + IntCells(scores) + [Int(total), Float(k as real / 10.0, OneDecimal(k)), Str(GradeLetter(avg))]
  }

  /** A student's row keeps the name and scores, then holds their sum, the
      average to the nearest tenth, and the letter of the unrounded
      average. */
  lemma StudentRowFields(name: string, scores: seq<int>)
    requires scores != []
    ensures var row := StudentRow(name, scores);
      var n := |scores|;
      var avg := Lists.Sum(scores) as real / n as real;
      |row| == n + 4 && row[0] == Str(name) &&
      (forall i :: 0 <= i < n ==> row[i + 1] == Int(scores[i])) &&
      row[n + 1] == Int(Lists.Sum(scores)) &&
      row[n + 2].Float? && -0.05 <= row[n + 2].x - avg <= 0.05 &&
      row[n + 3] == Str(GradeLetter(avg))
  {
    var n := |scores|;
    var avg := Lists.Sum(scores) as real / n as real;
    var k := Tenths(avg);
    assert -0.5 <= avg * 10.0 - k as real <= 0.5;
  }

  /** The header row of the grade book. */
  const GRADE_HEADERS: seq<Value> := [Str("姓名"), Str("语文"), Str("数学"), Str("英语"), Str("总分"), Str("平均分"), Str("等级")]

  /** The loop of `create_grade_book_example` over the students, then the
      rows it writes: the header row followed by one row per student. */
  method GradeBook(students: seq<(string, seq<int>)>) returns (allData: Table)
    requires forall i :: 0 <= i < |students| ==> students[i].1 != []
    ensures |allData| == |students| + 1 && allData[0] == GRADE_HEADERS
    ensures forall i :: 0 <= i < |students| ==> allData[i + 1] == StudentRow(students[i].0, students[i].1)
  {
    var rows: Table := [];
    var i := 0;
    while i < |students|
      invariant 0 <= i <= |students| && |rows| == i
      invariant forall j :: 0 <= j < i ==> rows[j] == StudentRow(students[j].0, students[j].1)
      decreases |students| - i
    {
      var scores := students[i].1;
      var total := Lists.Sum(scores);
      var avg := total as real / |scores| as real;
      var grade := GradeLetter(avg);
      var k := Tenths(avg);
      rows := rows + [[Str(students[i].0)] + IntCells(scores) + [Int(total), Float(k as real / 10.0, OneDecimal(k)), Str(grade)]];
      i := i + 1;
    }
    allData := [GRADE_HEADERS] + rows;
  }

  /** A row of the example: 85, 92 and 88 give 265, 88.3 and B. */
  lemma GradeBookExampleB()
    ensures StudentRow("小明", [85, 92, 88]) ==
      [Str("小明"), Int(85), Int(92), Int(88), Int(265), Float(88.3, "88.3"), Str("B")]
  {
    var scores := [85, 92, 88];
    assert Lists.Sum(scores) == 265;
    var avg := 265.0 / 3.0;
    assert GradeLetter(avg) == "B";
    assert Tenths(avg) == 883;
    assert OneDecimal(883) == "88.3" by {
      assert Text.NatToStr(88) == "88";
    }
    assert IntCells(scores) == [Int(85), Int(92), Int(88)];
  }

  /** A row of the example: 88, 90 and 92 give 270, 90.0 and A. */
  lemma GradeBookExampleA()
    ensures StudentRow("小芳", [88, 90, 92]) ==
      [Str("小芳"), Int(88), Int(90), Int(92), Int(270), Float(90.0, "90.0"), Str("A")]
  {
    var scores := [88, 90, 92];
    assert Lists.Sum(scores) == 270;
    var avg := 270.0 / 3.0;
    assert GradeLetter(avg) == "A";
    assert Tenths(avg) == 900;
    assert OneDecimal(900) == "90.0" by {
      assert Text.NatToStr(90) == "90";
    }
    assert IntCells(scores) == [Int(88), Int(90), Int(92)];
  }
}

=== FILE: exercise_answers.dfy ===
/** The answers to the Python basics exercises: trial-division primality,
    order-preserving de-duplication, a password-strength classifier, a
    four-operation calculator, a word counter and the temperature
    conversions. */
module ExerciseAnswers {
  import opened Text

  // ---------------------------------------------------------------------
  // is_prime

  /** `n` is prime: at least 2 and divisible by nothing strictly between 1
      and `n`. */
  ghost predicate Prime(n: int)
  {
    n >= 2 && forall d :: 2 <= d < n ==> n % d != 0
  }

  /** No divisor `d >= 2` with `d * d <= n`: what trial division up to the
      square root checks. */
  ghost predicate NoSmallDivisor(n: int)
  {
    forall d :: 2 <= d && d * d <= n ==> n % d != 0
  }

  /** No divisor in `[2, k)`. */
  ghost predicate NoDivisorBelow(n: int, k: int)
  {
    forall d :: 2 <= d < k ==> n % d != 0
  }

  lemma SquareMonotone(a: int, b: int)
    requires 0 <= a <= b
    ensures a * a <= b * b
  {
    MulMonotone(a, b, a);
    MulMonotone(a, b, b);
  }

  lemma MulMonotone(a: int, b: int, c: int)
    requires a <= b && 0 <= c
    ensures a * c <= b * c
  {
    assert b * c - a * c == (b - a) * c;
  }

  /** A positive multiple of `q` is at least `q`, a negative one at most
      `-q`. */
  lemma MulSign(a: int, q: int)
    requires q > 0
    ensures a >= 1 ==> q * a >= q
    ensures a <= -1 ==> q * a <= -q
  {
    if a >= 1 {
      MulMonotone(1, a, q);
    } else if a <= -1 {
      MulMonotone(a, -1, q);
    }
  }

  /** `q` divides every multiple of `q`, in the sense of Python's `%`. */
  lemma ModOfMultiple(q: int, k: int)
    requires q > 0
    ensures (q * k) % q == 0
  {
    var n := q * k;
    var m, r := n / q, n % q;
    assert n == q * m + r && 0 <= r < q;
    assert q * (k - m) == r;
    MulSign(k - m, q);
  }

  /** An even number never divides an odd one. */
  lemma EvenNoDivisorOfOdd(n: int, d: int)
    requires n % 2 == 1 && d >= 2 && d % 2 == 0
    ensures n % d != 0
  {
    var q, r := n / d, n % d;
    assert n == d * q + r;
    var e := d / 2;
    assert d * q == 2 * (e * q);
    ModOfMultiple(2, e * q);
  }

  /** No divisor below a bound whose square exceeds `n` means no divisor up
      to the square root. */
  lemma BelowSquareRoot(n: int, i: int)
    requires 0 <= i && NoDivisorBelow(n, i) && i * i > n
    ensures NoSmallDivisor(n)
  {
    forall d | 2 <= d && d * d <= n ensures n % d != 0 {
      if d >= i {
        SquareMonotone(i, d);
      }
    }
  }

  /** The odd trial divisor moves on by two: the even number it skips
      cannot divide an odd `n`. */
  lemma NextOddDivisor(n: int, i: int)
    requires i >= 3 && i % 2 == 1 && n % 2 == 1
    requires NoDivisorBelow(n, i) && n % i != 0
    ensures NoDivisorBelow(n, i + 2)
  {
    EvenNoDivisorOfOdd(n, i + 1);
  }

  /** Python's `is_prime`: reject below 2, accept 2, reject other even
      numbers, then try the odd `i` from 3 while `i <= int(n ** 0.5)`,
      that is while `i * i <= n`. */
  method IsPrime(n: int) returns (r: bool)
    ensures r <==> n >= 2 && NoSmallDivisor(n)
  {
    if n < 2 {
      return false;
    }
    if n == 2 {
      BelowSquareRoot(n, 2);
      return true;
    }
    if n % 2 == 0 {
      assert 2 * 2 <= n && n % 2 == 0;
      return false;
    }
    var i := 3;
    while i * i <= n
      invariant i >= 3 && i % 2 == 1
      invariant NoDivisorBelow(n, i)
      decreases n - i
    {
      if n % i == 0 {
        return false;
      }
      MulMonotone(1, i, i);
      NextOddDivisor(n, i);
      i := i + 2;
    }
    BelowSquareRoot(n, i);
    return true;
  }

  /** A factor pair of `n` has a member at most the square root. */
  lemma SmallCofactor(n: int, d: int) returns (q: int)
    requires 2 <= d < n && n % d == 0 && d * d > n
    ensures 2 <= q && q * q <= n && n % q == 0
  {
    q := n / d;
    assert n == d * q;
    MulSign(q - 1, d);
    assert q * d - d == d * (q - 1);
    assert q - d < 0 by {
      assert d * q - d * d == d * (q - d);
      MulSign(q - d, d);
    }
    MulMonotone(q, d, q);
    assert n == q * d;
    ModOfMultiple(q, d);
  }

  /** Trial division up to the square root decides primality: checking
      the divisors up to the square root is enough. */
  lemma PrimeIffNoSmallDivisor(n: int)
    ensures Prime(n) <==> n >= 2 && NoSmallDivisor(n)
  {
    if n >= 2 {
      if Prime(n) {
        forall d | 2 <= d && d * d <= n ensures n % d != 0 {
          assert d * d >= 2 * d by { SquareMonotone(2, d); }
        }
      }
      if NoSmallDivisor(n) {
        forall d | 2 <= d < n ensures n % d != 0 {
          if n % d == 0 && d * d > n {
            var q := SmallCofactor(n, d);
          }
        }
      }
    }
  }

  /** The script's test numbers: 2, 3, 5, 7, 11, 17 and 23 are prime, 4, 15
      and 20 are not. */
  lemma IsPrimeExamples()
    ensures Prime(2) && Prime(3) && Prime(5) && Prime(7) && Prime(11)
    ensures Prime(17) && Prime(23)
    ensures !Prime(4) && !Prime(15) && !Prime(20)
  {
    assert 4 % 2 == 0 && 15 % 3 == 0 && 20 % 2 == 0;
    forall n | n in {2, 3, 5, 7, 11, 17, 23} ensures Prime(n) {
      forall d | 2 <= d && d * d <= n ensures n % d != 0 {
        if d >= 5 {
          SquareMonotone(5, d);
        }
      }
      PrimeIffNoSmallDivisor(n);
    }
  }

  // ---------------------------------------------------------------------
  // remove_duplicates_ordered

  /** The list `remove_duplicates_ordered` builds: each element the first
      time it occurs. */
  function Dedup<T(==)>(s: seq<T>): seq<T>
  {
    if s == [] then []
    else
      var r := Dedup(s[..|s| - 1]);
      var x := s[|s| - 1];
      if x in r then r else r + [x]
  }

  /** Python's `remove_duplicates_ordered`: walk the list and append each
      item not yet in `seen`. */
  method RemoveDuplicatesOrdered<T(==)>(lst: seq<T>) returns (seen: seq<T>)
    ensures seen == Dedup(lst)
  {
    seen := [];
    for i := 0 to |lst|
      invariant seen == Dedup(lst[..i])
    {
      assert lst[..i + 1][..i] == lst[..i];
      if lst[i] !in seen {
        seen := seen + [lst[i]];
      }
    }
    assert lst[..|lst|] == lst;
  }

  /** Position of the first occurrence of `x` in `s`. */
  function FirstIndex<T(==)>(s: seq<T>, x: T): (k: nat)
    requires x in s
    ensures k < |s| && s[k] == x && x !in s[..k]
  {
    if s[0] == x then 0
    else
      var k := FirstIndex(s[1..], x);
      assert s[..k + 1] == [s[0]] + s[1..][..k];
      k + 1
  }

  /** The first occurrence is the occurrence with none before it. */
  lemma {:induction false} FirstIndexIs<T>(s: seq<T>, x: T, k: nat)
    requires k < |s| && s[k] == x && x !in s[..k]
    ensures FirstIndex(s, x) == k
    decreases k
  {
    if k > 0 {
      assert s[..k][0] == s[0];
      assert s[1..][..k - 1] == s[..k][1..];
      FirstIndexIs(s[1..], x, k - 1);
    }
  }

  lemma FirstIndexAppend<T>(s: seq<T>, y: T, x: T)
    requires x in s
    ensures FirstIndex(s + [y], x) == FirstIndex(s, x)
  {
    var k := FirstIndex(s, x);
    assert (s + [y])[..k] == s[..k];
    FirstIndexIs(s + [y], x, k);
  }

  /** `r` lists each element of `s` once, in the order of first occurrence. */
  ghost predicate FirstOccurrences<T>(s: seq<T>, r: seq<T>)
  {
    (forall i, j :: 0 <= i < j < |r| ==> r[i] != r[j]) &&
    (forall i :: 0 <= i < |r| ==> r[i] in s) &&
    (forall i :: 0 <= i < |s| ==> s[i] in r) &&
    (forall i, j :: 0 <= i < j < |r| ==> FirstIndex(s, r[i]) < FirstIndex(s, r[j]))
  }

  /** A new element is appended: it occurs first after everything in `r`. */
  lemma DedupStepNew<T>(s: seq<T>, r: seq<T>)
    requires s != [] && FirstOccurrences(s[..|s| - 1], r) && s[|s| - 1] !in r
    ensures FirstOccurrences(s, r + [s[|s| - 1]])
  {
    var p, x := s[..|s| - 1], s[|s| - 1];
    assert s == p + [x];
    forall y | y in r ensures FirstIndex(s, y) == FirstIndex(p, y) {
      FirstIndexAppend(p, x, y);
    }
    FirstIndexIs(s, x, |p|);
    forall i, j | 0 <= i < j < |r| + 1
      ensures FirstIndex(s, (r + [x])[i]) < FirstIndex(s, (r + [x])[j])
    {
      assert (r + [x])[i] == r[i] && r[i] in r;
      if j < |r| {
        assert (r + [x])[j] == r[j] && r[j] in r;
      }
    }
  }

  /** An element seen before changes nothing. */
  lemma DedupStepSeen<T>(s: seq<T>, r: seq<T>)
    requires s != [] && FirstOccurrences(s[..|s| - 1], r) && s[|s| - 1] in r
    ensures FirstOccurrences(s, r)
  {
    var p, x := s[..|s| - 1], s[|s| - 1];
    assert s == p + [x];
    forall y | y in r ensures FirstIndex(s, y) == FirstIndex(p, y) {
      FirstIndexAppend(p, x, y);
    }
    forall i, j | 0 <= i < j < |r|
      ensures FirstIndex(s, r[i]) < FirstIndex(s, r[j])
    {
      assert r[i] in r && r[j] in r;
    }
  }

  /** The de-duplicated list has no repeated element, holds exactly the
      input's elements, and lists them in the order of their first
      occurrence in the input. */
  lemma {:induction false} DedupProperties<T>(s: seq<T>)
    ensures FirstOccurrences(s, Dedup(s))
    decreases |s|
  {
    if s != [] {
      var r := Dedup(s[..|s| - 1]);
      DedupProperties(s[..|s| - 1]);
      if s[|s| - 1] in r {
        DedupStepSeen(s, r);
      } else {
        DedupStepNew(s, r);
      }
    }
  }

  lemma DedupExampleStart()
    ensures Dedup([1, 2, 2, 3]) == [1, 2, 3]
  {
    assert Dedup([1]) == [1] by { assert [1][..0] == []; }
    assert Dedup([1, 2]) == [1, 2] by { assert [1, 2][..1] == [1]; }
    assert Dedup([1, 2, 2]) == [1, 2] by { assert [1, 2, 2][..2] == [1, 2]; }
    assert [1, 2, 2, 3][..3] == [1, 2, 2];
  }

  /** The script's example: [1, 2, 2, 3, 3, 3, 4, 5, 5] becomes
      [1, 2, 3, 4, 5]. */
  lemma DedupExample()
    ensures Dedup([1, 2, 2, 3, 3, 3, 4, 5, 5]) == [1, 2, 3, 4, 5]
  {
    DedupExampleStart();
    assert Dedup([1, 2, 2, 3, 3]) == [1, 2, 3] by { assert [1, 2, 2, 3, 3][..4] == [1, 2, 2, 3]; }
    assert Dedup([1, 2, 2, 3, 3, 3]) == [1, 2, 3] by { assert [1, 2, 2, 3, 3, 3][..5] == [1, 2, 2, 3, 3]; }
    assert Dedup([1, 2, 2, 3, 3, 3, 4]) == [1, 2, 3, 4] by {
      assert [1, 2, 2, 3, 3, 3, 4][..6] == [1, 2, 2, 3, 3, 3];
    }
    assert Dedup([1, 2, 2, 3, 3, 3, 4, 5]) == [1, 2, 3, 4, 5] by {
      assert [1, 2, 2, 3, 3, 3, 4, 5][..7] == [1, 2, 2, 3, 3, 3, 4];
    }
    assert [1, 2, 2, 3, 3, 3, 4, 5, 5][..8] == [1, 2, 2, 3, 3, 3, 4, 5];
  }

  // ---------------------------------------------------------------------
  // check_password_strength

  const TOO_SHORT := "弱：密码长度至少8位"
  const STRONG := "强：密码包含大小写字母和数字"
  const MEDIUM := "中：建议混合使用大小写字母和数字"
  const TOO_SIMPLE := "弱：密码过于简单"

  predicate HasUpper(s: string) { exists i :: 0 <= i < |s| && IsUpperChar(s[i]) }
  predicate HasLower(s: string) { exists i :: 0 <= i < |s| && IsLowerChar(s[i]) }
  predicate HasDigit(s: string) { exists i :: 0 <= i < |s| && IsDigitChar(s[i]) }

  /** Python's `check_password_strength`: a password shorter than 8
      characters is weak whatever it contains; otherwise strong with
      upper case, lower case and digits, medium with some of them, weak
      with none. */
  function CheckPasswordStrength(password: string): (r: string)
    ensures |password| < 8 ==> r == TOO_SHORT
    ensures |password| >= 8 ==>
      (r == STRONG <==> HasUpper(password) && HasLower(password) && HasDigit(password))
    ensures |password| >= 8 ==>
      (r == MEDIUM <==> (HasUpper(password) || HasLower(password) || HasDigit(password)) &&
                        !(HasUpper(password) && HasLower(password) && HasDigit(password)))
    ensures |password| >= 8 ==>
      (r == TOO_SIMPLE <==> !HasUpper(password) && !HasLower(password) && !HasDigit(password))
  {
    if |password| < 8 then TOO_SHORT
    else
      var hasUpper := HasUpper(password);
      var hasLower := HasLower(password);
      var hasDigit := HasDigit(password);
      if hasUpper && hasLower && hasDigit then STRONG
      else if hasUpper || hasLower || hasDigit then MEDIUM
      else TOO_SIMPLE
  }

  /** Adding characters never lowers the verdict once the password is long
      enough: the set of character classes present only grows. */
  lemma StrengthMonotone(p: string, extra: string)
    requires |p| >= 8
    ensures CheckPasswordStrength(p) == STRONG ==> CheckPasswordStrength(p + extra) == STRONG
    ensures CheckPasswordStrength(p) != TOO_SIMPLE ==> CheckPasswordStrength(p + extra) != TOO_SIMPLE
  {
    var q := p + extra;
    if HasUpper(p) {
      var i :| 0 <= i < |p| && IsUpperChar(p[i]);
      assert q[i] == p[i];
    }
    if HasLower(p) {
      var i :| 0 <= i < |p| && IsLowerChar(p[i]);
      assert q[i] == p[i];
    }
    if HasDigit(p) {
      var i :| 0 <= i < |p| && IsDigitChar(p[i]);
      assert q[i] == p[i];
    }
  }

  /** The script's four calls: "abc", "abcdefg" and "Abc123" are all too
      short, so all three are weak ("Abc123" too, although the comment
      beside that call expects medium); "Abcdefg123" is strong. */
  lemma PasswordExamples()
    ensures CheckPasswordStrength("abc") == TOO_SHORT
    ensures CheckPasswordStrength("abcdefg") == TOO_SHORT
    ensures CheckPasswordStrength("Abc123") == TOO_SHORT
    ensures CheckPasswordStrength("Abcdefg123") == STRONG
  {
    var p := "Abcdefg123";
    assert IsUpperChar(p[0]) && IsLowerChar(p[1]) && IsDigitChar(p[7]);
  }

  // ---------------------------------------------------------------------
  // calculator

  /** What `calculator` returns: a number, or one of its two messages. */
  datatype CalcResult = Number(value: real) | Message(text: string)

  const DIVIDE_BY_ZERO := "错误：除数不能为零"
  const UNKNOWN_OPERATION := "未知操作"

  /** Python's `calculator(a, b, operation)`, over exact numbers. */
  function Calculator(a: real, b: real, operation: string): (r: CalcResult)
    ensures operation == "/" && b == 0.0 ==> r == Message(DIVIDE_BY_ZERO)
    ensures operation !in ["+", "-", "*", "/"] ==> r == Message(UNKNOWN_OPERATION)
    ensures operation in ["+", "-", "*"] ==> r.Number?
    ensures operation == "/" && b != 0.0 ==> r.Number? && r.value * b == a
  {
    if operation == "+" then Number(a + b)
    else if operation == "-" then Number(a - b)
    else if operation == "*" then Number(a * b)
    else if operation == "/" then
      if b == 0.0 then Message(DIVIDE_BY_ZERO) else Number(a / b)
    else Message(UNKNOWN_OPERATION)
  }

  /** Subtraction undoes addition, division undoes a multiplication by a
      non-zero number, and on whole numbers the three exact operations
      give Python's integer results. */
  lemma CalculatorInverses(a: real, b: real)
    ensures Calculator(Calculator(a, b, "+").value, b, "-") == Number(a)
    ensures b != 0.0 ==> Calculator(Calculator(a, b, "*").value, b, "/") == Number(a)
  {
  }

  lemma CalculatorOnIntegers(a: int, b: int)
    ensures Calculator(a as real, b as real, "+") == Number((a + b) as real)
    ensures Calculator(a as real, b as real, "-") == Number((a - b) as real)
    ensures Calculator(a as real, b as real, "*") == Number((a * b) as real)
  {
  }

  /** The script's calls: 10 + 5 is 15 and 10 / 5 is 2.0. */
  lemma CalculatorExamples()
    ensures Calculator(10.0, 5.0, "+") == Number(15.0)
    ensures Calculator(10.0, 5.0, "/") == Number(2.0)
  {
  }

  // ---------------------------------------------------------------------
  // word_counter

  /** Python's `word_counter`: the number of whitespace-separated words and
      the length of the text with the spaces (only `' '`) removed. */
  function WordCounter(text: string): (r: (nat, nat))
    ensures r.1 == |text| - CountChar(text, ' ')
  {
    (|Split(text)|, |RemoveChar(text, ' ')|)
  }

  /** `split()` finds one word more than the words it skips past: a text
      of words separated by single spaces has one word per space plus one. */
  lemma {:induction false} SplitWords(words: seq<string>)
    requires |words| > 0 && SpaceFreeWords(words)
    ensures Split(JoinSpaced(words)) == words
    decreases |words|
  {
    var w := words[0];
    TakeWordOf(w, if |words| == 1 then [] else [' '] + JoinSpaced(words[1..]));
    if |words| == 1 {
      assert JoinSpaced(words) == w && w + [] == w;
      assert w[0] in w;
      assert w[|w|..] == [];
    } else {
      var rest := JoinSpaced(words[1..]);
      var t := [' '] + rest;
      assert JoinSpaced(words) == w + t;
      assert w[0] in w;
      assert (w + t)[0] == w[0];
      assert Split(w + t) == [w] + Split((w + t)[|w|..]);
      assert (w + t)[|w|..] == t;
      assert t[1..] == rest;
      assert Split(t) == Split(rest);
      SplitWords(words[1..]);
      assert words == [w] + words[1..];
    }
  }

  /** Words joined with single spaces. */
  function JoinSpaced(words: seq<string>): string
  {
    if words == [] then []
    else if |words| == 1 then words[0]
    else words[0] + [' '] + JoinSpaced(words[1..])
  }

  lemma {:induction false} TakeWordOf(w: string, rest: string)
    requires forall c :: c in w ==> !IsSpace(c)
    requires rest == [] || IsSpace(rest[0])
    ensures TakeWord(w + rest) == w
    decreases |w|
  {
    if w == [] {
      assert w + rest == rest;
    } else {
      assert w[0] in w;
      assert (w + rest)[1..] == w[1..] + rest;
      forall c | c in w[1..] ensures !IsSpace(c) {
        assert c in w;
      }
      TakeWordOf(w[1..], rest);
      assert [w[0]] + w[1..] == w;
    }
  }

  /** Non-empty words none of which holds a whitespace character. */
  ghost predicate SpaceFreeWords(words: seq<string>)
  {
    forall k :: 0 <= k < |words| ==> |words[k]| > 0 && forall c :: c in words[k] ==> !IsSpace(c)
  }

  /** Joining n space-free words puts exactly n - 1 spaces in the text. */
  lemma {:induction false} SpacesOfJoin(words: seq<string>)
    requires |words| > 0 && SpaceFreeWords(words)
    ensures CountChar(JoinSpaced(words), ' ') == |words| - 1
    decreases |words|
  {
    var w := words[0];
    forall i | 0 <= i < |w| ensures w[i] != ' ' {
      assert w[i] in w;
    }
    CountCharAbsent(w, ' ');
    if |words| > 1 {
      var rest := JoinSpaced(words[1..]);
      SpacesOfJoin(words[1..]);
      CountCharAppend(w + [' '], rest, ' ');
      CountCharAppend(w, [' '], ' ');
    }
  }

  /** What `word_counter` reports for words joined by single spaces: one
      word per word, and every character except the separating spaces. */
  lemma WordCounterOfJoin(words: seq<string>)
    requires |words| > 0 && SpaceFreeWords(words)
    ensures WordCounter(JoinSpaced(words)) == (|words|, |JoinSpaced(words)| - (|words| - 1))
  {
    SplitWords(words);
    SpacesOfJoin(words);
  }

  const EXAMPLE_TEXT := "Hello Python World"
  const EXAMPLE_WORDS: seq<string> := ["Hello", "Python", "World"]

  /** The script's text is its three words joined by single spaces. */
  lemma ExampleWords()
    ensures SpaceFreeWords(EXAMPLE_WORDS)
    ensures JoinSpaced(EXAMPLE_WORDS) == EXAMPLE_TEXT
  {
    var words := EXAMPLE_WORDS;
    forall k, c | 0 <= k < 3 && c in words[k] ensures !IsSpace(c) {
    }
    assert JoinSpaced(words[2..]) == "World";
    assert JoinSpaced(words[1..]) == "Python" + " " + "World";
  }

  /** The script's call: "Hello Python World" has 3 words and 16 non-space
      characters (the comment beside it says 15). */
  lemma WordCounterExample()
    ensures WordCounter(EXAMPLE_TEXT) == (3, 16)
  {
    ExampleWords();
    WordCounterOfJoin(EXAMPLE_WORDS);
  }

  // ---------------------------------------------------------------------
  // temperature conversions

  function CelsiusToFahrenheit(celsius: real): (f: real)
    ensures celsius == 0.0 ==> f == 32.0
  {
    celsius * 9.0 / 5.0 + 32.0
  }

  function FahrenheitToCelsius(fahrenheit: real): (c: real)
    ensures fahrenheit == 32.0 ==> c == 0.0
  {
    (fahrenheit - 32.0) * 5.0 / 9.0
  }

  /** Over exact numbers the two conversions undo each other, and 25 °C is
      77 °F as the script prints. */
  lemma ConversionsInverse(c: real, f: real)
    ensures FahrenheitToCelsius(CelsiusToFahrenheit(c)) == c
    ensures CelsiusToFahrenheit(FahrenheitToCelsius(f)) == f
    ensures CelsiusToFahrenheit(25.0) == 77.0 && FahrenheitToCelsius(77.0) == 25.0
  {
  }
}

=== FILE: file_organizer.dfy ===
/** The file organizer: every regular file of a folder goes into the
    sub-folder of its type, chosen by its lower-cased extension, and the
    per-type counts feed a report. A file is a name bound to a file identity
    (its content), so that overwriting one file with another is visible. */
module FileOrganizer {
  import opened Text
  import opened Lists
  import opened Options

  const OTHER := "其他"

  /** The category table, in the order the script lists it: the first list
      containing the extension wins, and `其他` takes the rest. */
  const CATEGORIES: seq<(string, seq<string>)> := [
    ("图片", [".jpg", ".jpeg", ".png", ".gif", ".bmp", ".svg", ".webp", ".ico"]),
    ("文档", [".txt", ".doc", ".docx", ".pdf", ".ppt", ".pptx", ".xls", ".xlsx", ".md", ".rtf"]),
    ("视频", [".mp4", ".avi", ".mov", ".mkv", ".flv", ".wmv", ".webm"]),
    ("音乐", [".mp3", ".wav", ".flac", ".aac", ".ogg", ".wma", ".m4a"]),
    ("压缩包", [".zip", ".rar", ".7z", ".tar", ".gz", ".bz2"]),
    ("代码", [".py", ".js", ".html", ".css", ".java", ".cpp", ".c", ".h", ".php", ".go", ".rs"]),
    ("可执行文件", [".exe", ".msi", ".dmg", ".app", ".deb", ".rpm"]),
    ("字体", [".ttf", ".otf", ".woff", ".woff2"]),
    (OTHER, [])
  ]

  /** The extension the organizer looks at: lower-cased, with its dot. */
  function Ext(filename: string): string
  {
    Lower(SplitExt(filename).1)
  }

  /** First category of `table` from position `i` on whose list holds `ext`. */
  function CategoryFrom(table: seq<(string, seq<string>)>, ext: string, i: nat): (c: string)
    ensures c == OTHER || exists j :: i <= j < |table| && c == table[j].0 && ext in table[j].1
    decreases |table| - i
  {
    if i >= |table| then OTHER
    else if ext in table[i].1 then table[i].0
    else CategoryFrom(table, ext, i + 1)
  }

  function CategoryOf(ext: string): string
  {
    CategoryFrom(CATEGORIES, ext, 0)
  }

  /** The inner loop of `organize_files`: scan the table, stop at the first
      list that holds the extension. */
  method FindCategory(ext: string) returns (category: string)
    ensures category == CategoryOf(ext)
  {
    category := OTHER;
    var i := 0;
    while i < |CATEGORIES|
      invariant 0 <= i <= |CATEGORIES|
      invariant CategoryFrom(CATEGORIES, ext, 0) == CategoryFrom(CATEGORIES, ext, i)
      decreases |CATEGORIES| - i
    {
      if ext in CATEGORIES[i].1 {
        category := CATEGORIES[i].0;
        return;
      }
      i := i + 1;
    }
  }

  /** No extension of list `j` appears in a list before it. */
  ghost predicate DisjointFromEarlier(table: seq<(string, seq<string>)>, j: nat)
    requires j < |table|
  {
    forall i, x :: 0 <= i < j && x in table[j].1 ==> x !in table[i].1
  }

  /** When list `j` shares nothing with the lists before it and its name is
      its own, the first match is category `j` exactly when list `j` holds
      the extension: the order of the table does not matter. */
  lemma {:induction false} FirstMatchIsOnlyMatch(table: seq<(string, seq<string>)>, ext: string, i: nat, j: nat)
    requires i <= j < |table|
    requires DisjointFromEarlier(table, j)
    requires forall k :: 0 <= k < |table| && k != j ==> table[k].0 != table[j].0
    requires table[j].0 != OTHER
    ensures CategoryFrom(table, ext, i) == table[j].0 <==> ext in table[j].1
    decreases j - i
  {
    if i < j {
      if ext in table[i].1 {
        assert ext !in table[j].1;
      } else {
        FirstMatchIsOnlyMatch(table, ext, i + 1, j);
      }
    }
  }

  /** The category names differ from each other. */
  lemma CategoryNamesDistinct()
    ensures forall a, b :: 0 <= a < b < |CATEGORIES| ==> CATEGORIES[a].0 != CATEGORIES[b].0
  {
  }

  /** List `i` and list `j` share no extension. */
  ghost predicate Apart(table: seq<(string, seq<string>)>, i: nat, j: nat)
    requires i < |table| && j < |table|
  {
    forall x :: x in table[j].1 ==> x !in table[i].1
  }

  lemma DocumentsApartImages()
    ensures Apart(CATEGORIES, 0, 1)
  {
  }

  lemma VideosApartImages()
    ensures Apart(CATEGORIES, 0, 2)
  {
  }

  lemma VideosApartDocuments()
    ensures Apart(CATEGORIES, 1, 2)
  {
  }

  lemma MusicApartImages()
    ensures Apart(CATEGORIES, 0, 3)
  {
  }

  lemma MusicApartDocuments()
    ensures Apart(CATEGORIES, 1, 3)
  {
  }

  lemma MusicApartVideos()
    ensures Apart(CATEGORIES, 2, 3)
  {
  }

  lemma ArchivesApartImages()
    ensures Apart(CATEGORIES, 0, 4)
  {
  }

  lemma ArchivesApartDocuments()
    ensures Apart(CATEGORIES, 1, 4)
  {
  }

  lemma ArchivesApartVideos()
    ensures Apart(CATEGORIES, 2, 4)
  {
  }

  lemma ArchivesApartMusic()
    ensures Apart(CATEGORIES, 3, 4)
  {
  }

  lemma CodeApartImages()
    ensures Apart(CATEGORIES, 0, 5)
  {
  }

  lemma CodeApartDocuments()
    ensures Apart(CATEGORIES, 1, 5)
  {
  }

  lemma CodeApartVideos()
    ensures Apart(CATEGORIES, 2, 5)
  {
  }

  lemma CodeApartMusic()
    ensures Apart(CATEGORIES, 3, 5)
  {
  }

  lemma CodeApartArchives()
    ensures Apart(CATEGORIES, 4, 5)
  {
  }

  lemma ExecutablesApartImages()
    ensures Apart(CATEGORIES, 0, 6)
  {
  }

  lemma ExecutablesApartDocuments()
    ensures Apart(CATEGORIES, 1, 6)
  {
  }

  lemma ExecutablesApartVideos()
    ensures Apart(CATEGORIES, 2, 6)
  {
  }

  lemma ExecutablesApartMusic()
    ensures Apart(CATEGORIES, 3, 6)
  {
  }

  lemma ExecutablesApartArchives()
    ensures Apart(CATEGORIES, 4, 6)
  {
  }

  lemma ExecutablesApartCode()
    ensures Apart(CATEGORIES, 5, 6)
  {
  }

  lemma FontsApartImages()
    ensures Apart(CATEGORIES, 0, 7)
  {
  }

  lemma FontsApartDocuments()
    ensures Apart(CATEGORIES, 1, 7)
  {
  }

  lemma FontsApartVideos()
    ensures Apart(CATEGORIES, 2, 7)
  {
  }

  lemma FontsApartMusic()
    ensures Apart(CATEGORIES, 3, 7)
  {
  }

  lemma FontsApartArchives()
    ensures Apart(CATEGORIES, 4, 7)
  {
  }

  lemma FontsApartCode()
    ensures Apart(CATEGORIES, 5, 7)
  {
  }

  lemma FontsApartExecutables()
    ensures Apart(CATEGORIES, 6, 7)
  {
  }

  lemma DocumentsDisjoint()
    ensures DisjointFromEarlier(CATEGORIES, 1)
  {
    DocumentsApartImages();
  }

  lemma VideosDisjoint()
    ensures DisjointFromEarlier(CATEGORIES, 2)
  {
    VideosApartImages();
    VideosApartDocuments();
  }

  lemma MusicDisjoint()
    ensures DisjointFromEarlier(CATEGORIES, 3)
  {
    MusicApartImages();
    MusicApartDocuments();
    MusicApartVideos();
  }

  lemma ArchivesDisjoint()
    ensures DisjointFromEarlier(CATEGORIES, 4)
  {
    ArchivesApartImages();
    ArchivesApartDocuments();
    ArchivesApartVideos();
    ArchivesApartMusic();
  }

  lemma CodeDisjoint()
    ensures DisjointFromEarlier(CATEGORIES, 5)
  {
    CodeApartImages();
    CodeApartDocuments();
    CodeApartVideos();
    CodeApartMusic();
    CodeApartArchives();
  }

  lemma ExecutablesDisjoint()
    ensures DisjointFromEarlier(CATEGORIES, 6)
  {
    ExecutablesApartImages();
    ExecutablesApartDocuments();
    ExecutablesApartVideos();
    ExecutablesApartMusic();
    ExecutablesApartArchives();
    ExecutablesApartCode();
  }

  lemma FontsDisjoint()
    ensures DisjointFromEarlier(CATEGORIES, 7)
  {
    FontsApartImages();
    FontsApartDocuments();
    FontsApartVideos();
    FontsApartMusic();
    FontsApartArchives();
    FontsApartCode();
    FontsApartExecutables();
  }

  /** An extension goes to a named category exactly when that category's
      list holds it. */
  lemma CategoryOfIff(ext: string, j: nat)
    requires j < |CATEGORIES| - 1
    ensures CategoryOf(ext) == CATEGORIES[j].0 <==> ext in CATEGORIES[j].1
  {
    CategoryNamesDistinct();
    if j == 1 {
      DocumentsDisjoint();
    } else if j == 2 {
      VideosDisjoint();
    } else if j == 3 {
      MusicDisjoint();
    } else if j == 4 {
      ArchivesDisjoint();
    } else if j == 5 {
      CodeDisjoint();
    } else if j == 6 {
      ExecutablesDisjoint();
    } else if j == 7 {
      FontsDisjoint();
    }
    FirstMatchIsOnlyMatch(CATEGORIES, ext, 0, j);
  }

  // ---------------------------------------------------------------------
  // counting, as the `defaultdict(int)` does

  /** Counts per category, in the order of first occurrence. */
  type Stats = seq<(string, nat)>

  /** `stats[c] += 1` on a `defaultdict(int)`. */
  function Bump(stats: Stats, c: string): (r: Stats)
    decreases |stats|
  {
    if stats == [] then [(c, 1)]
    else if stats[0].0 == c then [(c, stats[0].1 + 1)] + stats[1..]
    else [stats[0]] + Bump(stats[1..], c)
  }

  function Lookup(stats: Stats, c: string): nat
    decreases |stats|
  {
    if stats == [] then 0
    else if stats[0].0 == c then stats[0].1
    else Lookup(stats[1..], c)
  }

  function Total(stats: Stats): nat
    decreases |stats|
  {
    if stats == [] then 0 else stats[0].1 + Total(stats[1..])
  }

  function Keys(stats: Stats): set<string>
  {
    set x | x in stats :: x.0
  }

  predicate DistinctKeys(stats: Stats)
    decreases |stats|
  {
    stats == [] || (stats[0].0 !in Keys(stats[1..]) && DistinctKeys(stats[1..]))
  }

  predicate AllPositive(stats: Stats)
  {
    forall a :: 0 <= a < |stats| ==> stats[a].1 > 0
  }

  /** One increment adds one to the count of `c` and to no other count. */
  lemma {:induction false} BumpLookup(stats: Stats, c: string, d: string)
    ensures Lookup(Bump(stats, c), d) == Lookup(stats, d) + (if c == d then 1 else 0)
    decreases |stats|
  {
    if stats != [] && stats[0].0 != c {
      BumpLookup(stats[1..], c, d);
    }
  }

  /** One increment adds one to the total. */
  lemma {:induction false} BumpTotal(stats: Stats, c: string)
    ensures Total(Bump(stats, c)) == Total(stats) + 1
    decreases |stats|
  {
    if stats != [] && stats[0].0 != c {
      BumpTotal(stats[1..], c);
    }
  }

  /** One increment adds `c` to the keys if missing, and keeps the keys
      distinct and the counts positive. */
  lemma {:induction false} BumpKeys(stats: Stats, c: string)
    ensures Keys(Bump(stats, c)) == Keys(stats) + {c}
    ensures DistinctKeys(stats) ==> DistinctKeys(Bump(stats, c))
    ensures AllPositive(stats) ==> AllPositive(Bump(stats, c))
    decreases |stats|
  {
    if stats == [] {
      assert Keys([(c, 1)]) == {c} by {
        assert (c, 1) in [(c, 1)];
      }
    } else {
      var r := if stats[0].0 == c then stats[1..] else Bump(stats[1..], c);
      if stats[0].0 != c {
        BumpKeys(stats[1..], c);
      }
      var h := if stats[0].0 == c then (c, stats[0].1 + 1) else stats[0];
      assert Bump(stats, c) == [h] + r;
      KeysCons(h, r);
      KeysCons(stats[0], stats[1..]);
      assert stats == [stats[0]] + stats[1..];
    }
  }

  lemma KeysCons(x: (string, nat), s: Stats)
    ensures Keys([x] + s) == {x.0} + Keys(s)
  {
    forall k | k in Keys([x] + s) ensures k in {x.0} + Keys(s) {
      var y :| y in [x] + s && y.0 == k;
      if y != x {
        assert y in s;
      }
    }
    forall k | k in {x.0} + Keys(s) ensures k in Keys([x] + s) {
      if k != x.0 {
        var y :| y in s && y.0 == k;
        assert y in [x] + s;
      } else {
        assert x in [x] + s;
      }
    }
  }

  /** The category a file goes to. */
  function FileCategory(filename: string): string
  {
    CategoryOf(Ext(filename))
  }

  /** The statistics of a list of files: one increment per file, under the
      category `category` gives it. */
  function StatsBy(files: seq<string>, category: string -> string): Stats
    decreases |files|
  {
    if files == [] then [] else Bump(StatsBy(files[..|files| - 1], category), category(files[|files| - 1]))
  }

  /** The keys stay distinct and the counts positive. */
  lemma {:induction false} StatsWellFormed(files: seq<string>, category: string -> string)
    ensures DistinctKeys(StatsBy(files, category)) && AllPositive(StatsBy(files, category))
    decreases |files|
  {
    if files != [] {
      StatsWellFormed(files[..|files| - 1], category);
      BumpKeys(StatsBy(files[..|files| - 1], category), category(files[|files| - 1]));
    }
  }

  /** Every file is counted once, under its own category: the count of a
      category is the number of files of that category. */
  lemma {:induction false} StatsCount(files: seq<string>, category: string -> string, c: string)
    ensures Lookup(StatsBy(files, category), c) == Count(files, f => category(f) == c)
    decreases |files|
  {
    if files != [] {
      var init := files[..|files| - 1];
      var last := files[|files| - 1];
      StatsCount(init, category, c);
      BumpLookup(StatsBy(init, category), category(last), c);
      assert files == init + [last];
      CountAppend(init, last, f => category(f) == c);
    }
  }

  /** The counts add up to the number of files. */
  lemma {:induction false} StatsTotal(files: seq<string>, category: string -> string)
    ensures Total(StatsBy(files, category)) == |files|
    decreases |files|
  {
    if files != [] {
      StatsTotal(files[..|files| - 1], category);
      BumpTotal(StatsBy(files[..|files| - 1], category), category(files[|files| - 1]));
    }
  }

  // ---------------------------------------------------------------------
  // moving files

  /** The name a file gets when its category folder already holds its name. */
  function TimestampedName(filename: string, timestamp: string): string
  {
    SplitExt(filename).0 + "_" + timestamp + SplitExt(filename).1
  }

  /** The folder: regular files at the top, by name, each bound to a file
      identity, and the category folders, each binding every name it holds
      (a file or a sub-folder alike) to the identity of that entry. */
  type FileId = int

  datatype Tree = Tree(top: map<string, FileId>, sub: map<string, map<string, FileId>>)

  /** Where a run of moves stops: the folder as it is then, and whether a
      move raised and ended the run there. */
  datatype Moved = Moved(tree: Tree, raised: bool)

  /** The name `filename` ends up under in the folder `inside`. */
  function Destination(inside: map<string, FileId>, filename: string, timestamp: string): string
  {
    if filename in inside then TimestampedName(filename, timestamp) else filename
  }

  /** `os.makedirs(target_folder, exist_ok=True)` raises FileExistsError
      when the category's name is taken by a regular file at the top. */
  predicate Clashes(t: Tree, filename: string)
  {
    FileCategory(filename) in t.top
  }

  /** Moving one file into its category folder, creating the folder when it
      is missing; None when creating the folder raises. */
  function MoveOne(t: Tree, filename: string, timestamp: string): (r: Option<Tree>)
    ensures r.None? <==> filename in t.top && Clashes(t, filename)
    ensures r.Some? ==> filename !in r.value.top
    ensures r.Some? ==> forall n :: n in r.value.top ==> n in t.top && r.value.top[n] == t.top[n]
  {
    if filename !in t.top then Some(t)
    else
      var c := FileCategory(filename);
      if c in t.top then None
      else
        var inside := if c in t.sub then t.sub[c] else map[];
        var target := Destination(inside, filename, timestamp);
        Some(Tree(t.top - {filename}, t.sub[c := inside[target := t.top[filename]]]))
  }

  /** A move never overwrites unless the timestamped name is taken as well:
      the file lands in its category folder, everything that folder held
      stays there, and every other folder is as it was. */
  lemma MoveKeeps(t: Tree, filename: string, timestamp: string)
    requires filename in t.top && !Clashes(t, filename)
    ensures var c := FileCategory(filename);
      var inside := if c in t.sub then t.sub[c] else map[];
      var r := MoveOne(t, filename, timestamp).value;
      var target := Destination(inside, filename, timestamp);
      c in r.sub && target in r.sub[c] && r.sub[c][target] == t.top[filename] &&
      (forall d :: d in t.sub && d != c ==> d in r.sub && r.sub[d] == t.sub[d]) &&
      (TimestampedName(filename, timestamp) !in inside ==>
        forall n :: n in inside ==> n in r.sub[c] && r.sub[c][n] == inside[n])
  {
  }

  /** The files moved so far, first to last, up to the first move that
      raises: the exception ends the loop with the folder as it is then. */
  function MoveAll(t: Tree, files: seq<string>, timestamp: string): Moved
    decreases |files|
  {
    if files == [] then Moved(t, false)
    else
      var m := MoveAll(t, files[..|files| - 1], timestamp);
      if m.raised then m
      else match MoveOne(m.tree, files[|files| - 1], timestamp)
        case None => Moved(m.tree, true)
        case Some(r) => Moved(r, false)
  }

  /** Once a run has raised, the files after it change nothing. */
  lemma {:induction false} MoveAllRaisedStays(t: Tree, files: seq<string>, k: nat, timestamp: string)
    requires k <= |files| && MoveAll(t, files[..k], timestamp).raised
    ensures MoveAll(t, files, timestamp) == MoveAll(t, files[..k], timestamp)
    decreases |files|
  {
    if k < |files| {
      var init := files[..|files| - 1];
      assert init[..k] == files[..k];
      MoveAllRaisedStays(t, init, k, timestamp);
    } else {
      assert files[..k] == files;
    }
  }

  /** A run that does not raise leaves no listed file at the top; whatever
      run it is, nothing new appears there. */
  lemma {:induction false} MoveAllEmptiesTop(t: Tree, files: seq<string>, timestamp: string)
    ensures !MoveAll(t, files, timestamp).raised ==>
      forall f :: f in files ==> f !in MoveAll(t, files, timestamp).tree.top
    ensures forall n :: n in MoveAll(t, files, timestamp).tree.top ==> n in t.top && t.top[n] == MoveAll(t, files, timestamp).tree.top[n]
    ensures !MoveAll(t, files, timestamp).raised ==>
      forall n :: n in MoveAll(t, files, timestamp).tree.top ==> n !in files
    decreases |files|
  {
    if files != [] {
      var init := files[..|files| - 1];
      MoveAllEmptiesTop(t, init, timestamp);
      assert files == init + [files[|files| - 1]];
    }
  }

  /** The names of the category folders. */
  predicate NamesCategory(n: string)
  {
    n == OTHER || exists j :: 0 <= j < |CATEGORIES| && n == CATEGORIES[j].0
  }

  /** With no regular file at the top named like a category folder, no move
      raises. */
  lemma {:induction false} MoveAllNoClash(t: Tree, files: seq<string>, timestamp: string)
    requires forall n :: n in t.top ==> !NamesCategory(n)
    ensures !MoveAll(t, files, timestamp).raised
    decreases |files|
  {
    if files != [] {
      var init := files[..|files| - 1];
      MoveAllNoClash(t, init, timestamp);
      MoveAllEmptiesTop(t, init, timestamp);
      var m := MoveAll(t, init, timestamp);
      var f := files[|files| - 1];
      assert NamesCategory(FileCategory(f));
    }
  }

  /** A regular file called `其他` has no extension, so it belongs in the
      folder of its own name: creating that folder raises. */
  lemma OtherFileRaises(id: FileId, timestamp: string)
    ensures MoveAll(Tree(map[OTHER := id], map[]), [OTHER], timestamp) == Moved(Tree(map[OTHER := id], map[]), true)
  {
    NoExtensionOther(OTHER);
    assert [OTHER][..0] == [];
  }

  lemma ExampleCategories()
    ensures FileCategory("文档") == OTHER && FileCategory("a.pdf") == "文档"
  {
    NoExtensionOther("文档");
    PdfCategory();
  }

  /** A name without a dot has no extension and goes to `其他`. */
  lemma NoExtensionOther(filename: string)
    requires '.' !in filename
    ensures FileCategory(filename) == OTHER
  {
    SplitExtNoDot(filename);
    assert Ext(filename) == [];
    EmptyExtensionOther();
  }

  lemma EmptyExtensionOther()
    ensures CategoryOf([]) == OTHER
  {
    assert [] !in CATEGORIES[0].1 && [] !in CATEGORIES[1].1 && [] !in CATEGORIES[2].1;
    assert [] !in CATEGORIES[3].1 && [] !in CATEGORIES[4].1 && [] !in CATEGORIES[5].1;
    assert [] !in CATEGORIES[6].1 && [] !in CATEGORIES[7].1 && [] !in CATEGORIES[8].1;
  }

  lemma PdfCategory()
    ensures FileCategory("a.pdf") == "文档"
  {
    PdfExtension();
    assert CATEGORIES[1].1[3] == ".pdf";
    CategoryOfIff(".pdf", 1);
  }

  lemma PdfExtension()
    ensures Ext("a.pdf") == ".pdf"
  {
    assert "a"[0] != '.' && LastIndexOf("a", '/') == -1;
    SplitExtJoin("a", ".pdf");
    assert "a" + ".pdf" == "a.pdf";
    assert Lower(".pdf") == ".pdf";
  }

  /** A regular file `文档` beside `a.pdf`: moving `a.pdf` first raises,
      while moving `文档` (which has no extension) into `其他` first clears
      the way, so the listing order decides. */
  lemma DocumentsFileOrder(timestamp: string)
    ensures MoveAll(Tree(map["文档" := 1, "a.pdf" := 2], map[]), ["a.pdf", "文档"], timestamp).raised
    ensures !MoveAll(Tree(map["文档" := 1, "a.pdf" := 2], map[]), ["文档", "a.pdf"], timestamp).raised
  {
    var t := Tree(map["文档" := 1, "a.pdf" := 2], map[]);
    ExampleCategories();
    assert MoveOne(t, "a.pdf", timestamp).None?;
    assert ["a.pdf", "文档"][..1] == ["a.pdf"] && ["a.pdf"][..0] == [];
    assert MoveAll(t, ["a.pdf"], timestamp).raised;
    var u := MoveOne(t, "文档", timestamp).value;
    assert u.top == map["a.pdf" := 2];
    assert MoveOne(u, "a.pdf", timestamp).Some?;
    assert ["文档", "a.pdf"][..1] == ["文档"] && ["文档"][..0] == [];
    assert MoveAll(t, ["文档"], timestamp) == Moved(u, false);
  }

  /** The regular files of the listing, in listing order. */
  function RegularFiles(listing: seq<string>, top: map<string, FileId>): (r: seq<string>)
    ensures forall f :: f in r <==> f in listing && f in top
  {
    FilterMembers(listing, f => f in top);
    Filter(listing, f => f in top)
  }

  class Folder {
    var tree: Tree

    constructor(tree: Tree)
      ensures this.tree == tree
    {
      this.tree := tree;
    }

    /** `os.makedirs` and `shutil.move` of one file into its category
        folder; false when `makedirs` raises, which changes nothing. */
    method Move(filename: string, timestamp: string) returns (ok: bool)
      modifies this
      ensures ok <==> MoveOne(old(tree), filename, timestamp).Some?
      ensures ok ==> tree == MoveOne(old(tree), filename, timestamp).value
      ensures !ok ==> tree == old(tree)
    {
      if filename !in tree.top {
        return true;
      }
      var c := FileCategory(filename);
      if c in tree.top {
        return false;
      }
      var inside := if c in tree.sub then tree.sub[c] else map[];
      var target := filename;
      if filename in inside {
        target := TimestampedName(filename, timestamp);
      }
      tree := Tree(tree.top - {filename}, tree.sub[c := inside[target := tree.top[filename]]]);
      ok := true;
    }

    /** One pass of the loop of `organize_files`: count the file under its
        category and, unless `dryRun`, move it there; false when the move
        raises. */
    method OrganizeOne(counts: Stats, filename: string, dryRun: bool, timestamp: string)
      returns (next: Stats, ok: bool)
      modifies this
      ensures next == Bump(counts, FileCategory(filename))
      ensures dryRun ==> ok && tree == old(tree)
      ensures !dryRun ==> (ok <==> MoveOne(old(tree), filename, timestamp).Some?)
      ensures !dryRun && ok ==> tree == MoveOne(old(tree), filename, timestamp).value
      ensures !ok ==> tree == old(tree)
    {
      var category := FindCategory(Ext(filename));
      next := Bump(counts, category);
      ok := true;
      if !dryRun {
        ok := Move(filename, timestamp);
      }
    }

    /** The loop of `organize_files` over the regular files, ended early by
        a move that raises. */
    method OrganizeAll(files: seq<string>, dryRun: bool, timestamp: string) returns (counts: Stats, raised: bool)
      modifies this
      ensures !raised ==> counts == StatsBy(files, FileCategory)
      ensures dryRun ==> !raised && tree == old(tree)
      ensures !dryRun ==> Moved(tree, raised) == MoveAll(old(tree), files, timestamp)
    {
      counts, raised := [], false;
      var k := 0;
      while k < |files|
        invariant 0 <= k <= |files|
        invariant counts == StatsBy(files[..k], FileCategory)
        invariant dryRun ==> tree == old(tree)
        invariant !dryRun ==> Moved(tree, false) == MoveAll(old(tree), files[..k], timestamp)
        decreases |files| - k
      {
        var ok;
        counts, ok := OrganizeOne(counts, files[k], dryRun, timestamp);
        assert files[..k + 1][..k] == files[..k];
        if !ok {
          MoveAllRaisedStays(old(tree), files, k + 1, timestamp);
          return counts, true;
        }
        k := k + 1;
      }
      assert files[..k] == files;
    }

    /** `organize_files`: `None` for a missing folder; otherwise the counts
        per category of the regular files of the listing, moving each into
        its category folder unless `dryRun` asks only for the counts.
        `raised` is the FileExistsError of a move, which returns nothing.
        The clock's timestamp is a parameter. */
    method OrganizeFiles(present: bool, listing: seq<string>, dryRun: bool, timestamp: string)
      returns (stats: Option<Stats>, raised: bool)
      modifies this
      ensures !present ==> stats == None && !raised && tree == old(tree)
      ensures raised ==> stats == None
      ensures present && !raised ==> stats == Some(StatsBy(RegularFiles(listing, old(tree).top), FileCategory))
      ensures dryRun ==> !raised && tree == old(tree)
      ensures present && !dryRun ==>
        Moved(tree, raised) == MoveAll(old(tree), RegularFiles(listing, old(tree).top), timestamp)
    {
      if !present {
        return None, false;
      }
      var files := RegularFiles(listing, tree.top);
      if files == [] {
        return Some([]), false;
      }
      var counts;
      counts, raised := OrganizeAll(files, dryRun, timestamp);
      stats := if raised then None else Some(counts);
    }
  }

  // ---------------------------------------------------------------------
  // the report

  predicate SortedByCountDesc(s: Stats)
  {
    forall i :: 0 <= i < |s| - 1 ==> s[i].1 >= s[i + 1].1
  }

  /** Places `x` before the first entry with a count no larger; entries
      with equal counts keep their order, as Python's stable `sorted` does. */
  function InsertByCount(x: (string, nat), s: Stats): Stats
    decreases |s|
  {
    if s == [] || x.1 >= s[0].1 then [x] + s else [s[0]] + InsertByCount(x, s[1..])
  }

  /** `sorted(stats.items(), key=lambda x: -x[1])`. */
  function SortByCountDesc(s: Stats): Stats
    decreases |s|
  {
    if s == [] then [] else InsertByCount(s[0], SortByCountDesc(s[1..]))
  }

  lemma {:induction false} InsertByCountSorted(x: (string, nat), s: Stats)
    requires SortedByCountDesc(s)
    ensures SortedByCountDesc(InsertByCount(x, s))
    ensures InsertByCount(x, s)[0] == x || (s != [] && InsertByCount(x, s)[0] == s[0])
    decreases |s|
  {
    if s != [] && x.1 < s[0].1 {
      InsertByCountSorted(x, s[1..]);
    }
  }

  lemma {:induction false} InsertByCountPermutes(x: (string, nat), s: Stats)
    ensures multiset(InsertByCount(x, s)) == multiset(s) + multiset{x}
    decreases |s|
  {
    if s != [] && x.1 < s[0].1 {
      InsertByCountPermutes(x, s[1..]);
      assert s == [s[0]] + s[1..];
    }
  }

  lemma {:induction false} InsertByCountTotal(x: (string, nat), s: Stats)
    ensures Total(InsertByCount(x, s)) == Total(s) + x.1
    decreases |s|
  {
    if s != [] && x.1 < s[0].1 {
      InsertByCountTotal(x, s[1..]);
    }
  }

  /** The report lists every category once, in descending order of count. */
  lemma {:induction false} SortByCountDescSorted(s: Stats)
    ensures SortedByCountDesc(SortByCountDesc(s))
    decreases |s|
  {
    if s != [] {
      SortByCountDescSorted(s[1..]);
      InsertByCountSorted(s[0], SortByCountDesc(s[1..]));
    }
  }

  /** Sorting neither adds, drops nor changes an entry. */
  lemma {:induction false} SortByCountDescPermutes(s: Stats)
    ensures multiset(SortByCountDesc(s)) == multiset(s)
    decreases |s|
  {
    if s != [] {
      var t := s[1..];
      SortByCountDescPermutes(t);
      InsertByCountPermutes(s[0], SortByCountDesc(t));
      assert multiset(s) == multiset{s[0]} + multiset(t) by {
        assert s == [s[0]] + t;
      }
    }
  }

  /** Sorting keeps the total. */
  lemma {:induction false} SortByCountDescTotal(s: Stats)
    ensures Total(SortByCountDesc(s)) == Total(s)
    decreases |s|
  {
    if s != [] {
      SortByCountDescTotal(s[1..]);
      InsertByCountTotal(s[0], SortByCountDesc(s[1..]));
    }
  }

  function HasCount(c: nat): ((string, nat)) -> bool
  {
    (e: (string, nat)) => e.1 == c
  }

  lemma {:induction false} InsertByCountStable(x: (string, nat), s: Stats, c: nat)
    ensures Filter(InsertByCount(x, s), HasCount(c)) == Filter([x] + s, HasCount(c))
    decreases |s|
  {
    if s != [] && x.1 < s[0].1 {
      InsertByCountStable(x, s[1..], c);
      assert ([s[0]] + InsertByCount(x, s[1..]))[1..] == InsertByCount(x, s[1..]);
      assert ([x] + s[1..])[1..] == s[1..];
      assert ([x] + s)[1..] == s;
    }
  }

  /** Sorting is stable: for every count, the entries that have it come in
      the report in the order of the statistics, as Python's `sorted` keeps
      equal keys. */
  lemma {:induction false} SortByCountDescStable(s: Stats, c: nat)
    ensures Filter(SortByCountDesc(s), HasCount(c)) == Filter(s, HasCount(c))
    decreases |s|
  {
    if s != [] {
      SortByCountDescStable(s[1..], c);
      InsertByCountStable(s[0], SortByCountDesc(s[1..]), c);
      assert ([s[0]] + SortByCountDesc(s[1..]))[1..] == SortByCountDesc(s[1..]);
    }
  }

  /** The categories the report lists: those with a positive count. */
  function Listed(s: Stats): (r: Stats)
    ensures forall i :: 0 <= i < |r| ==> r[i].1 > 0
    decreases |s|
  {
    if s == [] then []
    else Listed(s[..|s| - 1]) + (if s[|s| - 1].1 > 0 then [s[|s| - 1]] else [])
  }

  /** The loop of `generate_report`: one line per category with a positive
      count, and the running total. */
  method WriteLines(sorted: Stats) returns (lines: Stats, total: nat)
    ensures lines == Listed(sorted)
    ensures total == Total(sorted)
  {
    lines := [];
    total := 0;
    var k := 0;
    while k < |sorted|
      invariant 0 <= k <= |sorted|
      invariant lines == Listed(sorted[..k])
      invariant total == Total(sorted[..k])
      decreases |sorted| - k
    {
      var x := sorted[k];
      assert sorted[..k + 1] == sorted[..k] + [x];
      TotalAppend(sorted[..k], x);
      ListedAppend(sorted[..k], x);
      if x.1 > 0 {
        lines := lines + [x];
        total := total + x.1;
      }
      k := k + 1;
    }
    assert sorted[..k] == sorted;
  }

  /** `generate_report` without the file and the clock: the lines it writes
      in order, and their total. */
  method ReportLines(stats: Stats) returns (lines: Stats, total: nat)
    ensures lines == Listed(SortByCountDesc(stats))
    ensures total == Total(stats)
  {
    var sorted := SortByCountDesc(stats);
    lines, total := WriteLines(sorted);
    SortByCountDescTotal(stats);
  }

  lemma ListedAppend(s: Stats, x: (string, nat))
    ensures Listed(s + [x]) == Listed(s) + (if x.1 > 0 then [x] else [])
  {
    assert (s + [x])[..|s|] == s;
  }

  lemma {:induction false} TotalAppend(s: Stats, x: (string, nat))
    ensures Total(s + [x]) == Total(s) + x.1
    decreases |s|
  {
    if s == [] {
      assert s + [x] == [x];
    } else {
      assert (s + [x])[1..] == s[1..] + [x];
      TotalAppend(s[1..], x);
    }
  }

}

=== FILE: game_exercises.dfy ===
/** The per-frame rules of the pygame exercises, each taken out of its
    `while running` loop: a blinking circle, a score board, dragging a square
    with the mouse, a resizable circle, a marquee, coin collecting, and the
    final dodging game. Drawing, fonts and the clock are not modelled. */
module GameExercises {
  import opened Geometry
  import opened Lists

  // ---- Exercise 302: a circle whose colour changes every 30 frames ----

  const BLINK_FRAMES := 30
  const BLINK_COLORS := 5

  /** One frame: the timer counts up and, on reaching 30, restarts while the
      colour index moves to the next of the 5 colours. Returns (index, timer). */
  function BlinkStep(index: int, timer: int): (r: (int, int))
    ensures 0 <= r.0 < BLINK_COLORS || r.0 == index
    ensures 0 <= timer < BLINK_FRAMES ==> 0 <= r.1 < BLINK_FRAMES
  {
    var t := timer + 1;
    if t >= BLINK_FRAMES then ((index + 1) % BLINK_COLORS, 0) else (index, t)
  }

  /** The frame loop from index 0 and timer 0: after `frames` frames the timer
      is the number of frames since the last change and the colour has moved
      on once per 30 frames, cycling through the 5 colours. */
  method Blink(frames: nat) returns (index: int, timer: int)
    ensures timer == frames % BLINK_FRAMES
    ensures index == (frames / BLINK_FRAMES) % BLINK_COLORS
  {
    index, timer := 0, 0;
    var i := 0;
    ghost var changes := 0;
    while i < frames
      invariant 0 <= i <= frames && 0 <= changes
      invariant i == changes * BLINK_FRAMES + timer && 0 <= timer < BLINK_FRAMES
      invariant index == changes % BLINK_COLORS
    {
      var next := BlinkStep(index, timer);
      if timer + 1 >= BLINK_FRAMES {
        CycleStep(changes);
        changes := changes + 1;
      }
      index, timer := next.0, next.1;
      i := i + 1;
    }
    DivMod(frames, changes, timer);
  }

  /** Moving on one colour from `q % 5` gives `(q + 1) % 5`. */
  lemma CycleStep(q: nat)
    ensures (q % BLINK_COLORS + 1) % BLINK_COLORS == (q + 1) % BLINK_COLORS
  {
  }

  /** Division by 30 recovers the quotient and remainder it was built from. */
  lemma DivMod(n: int, q: int, t: int)
    requires n == q * BLINK_FRAMES + t && 0 <= t < BLINK_FRAMES
    ensures n / BLINK_FRAMES == q && n % BLINK_FRAMES == t
  {
  }

  // ---- Exercise 303: a score board, SPACE adds 10 and R resets ----

  datatype BoardKey = Space | Reset | OtherKey

  function BoardStep(score: int, key: BoardKey): int
  {
    match key
    case Space => score + 10
    case Reset => 0
    case OtherKey => score
  }

  /** SPACE presses since the last R. */
  function SpacesSinceReset(keys: seq<BoardKey>): nat
  {
    if keys == [] then 0
    else if keys[|keys| - 1] == Reset then 0
    else SpacesSinceReset(keys[..|keys| - 1]) + (if keys[|keys| - 1] == Space then 1 else 0)
  }

  /** The key loop from score 0: the score is 10 times the SPACE presses since
      the last R, so it is always a non-negative multiple of 10. */
  method Scoreboard(keys: seq<BoardKey>) returns (score: int)
    ensures score == 10 * SpacesSinceReset(keys)
    ensures score >= 0 && score % 10 == 0
  {
    score := 0;
    var i := 0;
    while i < |keys|
      invariant 0 <= i <= |keys|
      invariant score == 10 * SpacesSinceReset(keys[..i])
    {
      assert keys[..i + 1][..i] == keys[..i];
      score := BoardStep(score, keys[i]);
      i := i + 1;
    }
    assert keys[..i] == keys;
  }

  // ---- Exercise 401: dragging a square with the mouse ----

  const DRAG_SIZE := 50

  datatype Mouse = Press(button: int, px: int, py: int) | Release(button: int) | Move(px: int, py: int) | NoMouse

  /** The square's corner, whether it is being dragged, and the offset from
      the mouse to the corner taken when the drag started. */
  datatype Drag = Drag(x: int, y: int, dragging: bool, offX: int, offY: int)

  /** A left click inside the square (edges included) starts a drag; releasing
      the left button stops it; moving the mouse while dragging puts the
      corner at the mouse position plus the offset. */
  function DragStep(d: Drag, e: Mouse): (r: Drag)
    ensures r.dragging && !d.dragging ==>
              e.Press? && e.button == 1 &&
              d.x <= e.px <= d.x + DRAG_SIZE && d.y <= e.py <= d.y + DRAG_SIZE &&
              r.x == d.x && r.y == d.y && r.offX == d.x - e.px && r.offY == d.y - e.py
    ensures e.Release? && e.button == 1 ==> !r.dragging && r.x == d.x && r.y == d.y
    ensures e.Move? && d.dragging ==> r.x == e.px + d.offX && r.y == e.py + d.offY && r.dragging
    ensures !e.Press? ==> r.offX == d.offX && r.offY == d.offY
    ensures (r.x, r.y) != (d.x, d.y) ==> e.Move? && d.dragging
  {
    match e
    case Press(button, px, py) =>
      if button == 1 && d.x <= px <= d.x + DRAG_SIZE && d.y <= py <= d.y + DRAG_SIZE then
        d.(dragging := true, offX := d.x - px, offY := d.y - py)
      else d
    case Release(button) => if button == 1 then d.(dragging := false) else d
    case Move(px, py) => if d.dragging then d.(x := px + d.offX, y := py + d.offY) else d
    case NoMouse => d
  }

  /** A drag that starts on a click keeps the square at the same offset from
      the pointer: after a press at (px, py) and any moves, the corner sits
      where the press left it relative to the last pointer position. */
  lemma {:induction false} DragFollows(d: Drag, px: int, py: int, moves: seq<(int, int)>)
    requires d.x <= px <= d.x + DRAG_SIZE && d.y <= py <= d.y + DRAG_SIZE
    requires moves != []
    ensures var r := DragMoves(DragStep(d, Press(1, px, py)), moves);
            r.dragging && r.x - moves[|moves| - 1].0 == d.x - px && r.y - moves[|moves| - 1].1 == d.y - py
    decreases |moves|
  {
    var s := DragStep(d, Press(1, px, py));
    if |moves| > 1 {
      DragFollows(d, px, py, moves[..|moves| - 1]);
    }
    DragMovesKeepsOffset(s, moves[..|moves| - 1]);
  }

  /** The square after a run of pointer moves. */
  function DragMoves(d: Drag, moves: seq<(int, int)>): Drag
  {
    if moves == [] then d
    else DragStep(DragMoves(d, moves[..|moves| - 1]), Move(moves[|moves| - 1].0, moves[|moves| - 1].1))
  }

  lemma {:induction false} DragMovesKeepsOffset(d: Drag, moves: seq<(int, int)>)
    ensures DragMoves(d, moves).dragging == d.dragging
    ensures DragMoves(d, moves).offX == d.offX && DragMoves(d, moves).offY == d.offY
    decreases |moves|
  {
    if moves != [] {
      DragMovesKeepsOffset(d, moves[..|moves| - 1]);
    }
  }

  // ---- Exercise 402: a circle resized with UP/DOWN and recoloured with LEFT/RIGHT ----

  datatype ArrowKey = Up | Down | Left | Right | OtherArrow

  const MIN_RADIUS := 10
  const MAX_RADIUS := 200
  const COLOR_COUNT := 3

  /** UP gives `min(radius + 5, 200)`, DOWN `max(radius - 5, 10)`, LEFT and
      RIGHT step the colour index backwards and forwards modulo 3 (Python's
      `%`, which for the divisor 3 agrees with Dafny's). Returns (radius,
      colour index). */
  function ResizeStep(radius: int, color: int, key: ArrowKey): (r: (int, int))
    ensures MIN_RADIUS <= radius <= MAX_RADIUS ==> MIN_RADIUS <= r.0 <= MAX_RADIUS
    ensures key == Up ==> r.0 <= radius + 5 && r.0 <= MAX_RADIUS && (r.0 == radius + 5 || r.0 == MAX_RADIUS)
    ensures key == Down ==> r.0 >= radius - 5 && r.0 >= MIN_RADIUS && (r.0 == radius - 5 || r.0 == MIN_RADIUS)
    ensures (key == Left || key == Right) ==> 0 <= r.1 < COLOR_COUNT && r.0 == radius
    ensures key == Left ==> (r.1 - (color - 1)) % COLOR_COUNT == 0
    ensures key == Right ==> (r.1 - (color + 1)) % COLOR_COUNT == 0
    ensures (key == Up || key == Down || key == OtherArrow) ==> r.1 == color
  {
    match key
    case Up => (if radius + 5 < MAX_RADIUS then radius + 5 else MAX_RADIUS, color)
    case Down => (if radius - 5 > MIN_RADIUS then radius - 5 else MIN_RADIUS, color)
    case Left => (radius, (color - 1) % COLOR_COUNT)
    case Right => (radius, (color + 1) % COLOR_COUNT)
    case OtherArrow => (radius, color)
  }

  /** LEFT undoes RIGHT: the colours form a cycle. */
  lemma ColorCycle(radius: int, color: int)
    requires 0 <= color < COLOR_COUNT
    ensures var r := ResizeStep(radius, color, Right);
            ResizeStep(r.0, r.1, Left) == (radius, color)
  {
  }

  /** The key loop from radius 50 and colour 0: the radius stays within
      [10, 200] and a multiple of 5, the colour index within [0, 3). */
  method Resize(keys: seq<ArrowKey>) returns (radius: int, color: int)
    ensures MIN_RADIUS <= radius <= MAX_RADIUS && radius % 5 == 0
    ensures 0 <= color < COLOR_COUNT
  {
    radius, color := 50, 0;
    for i := 0 to |keys|
      invariant MIN_RADIUS <= radius <= MAX_RADIUS && radius % 5 == 0
      invariant 0 <= color < COLOR_COUNT
    {
      var r := ResizeStep(radius, color, keys[i]);
      radius, color := r.0, r.1;
    }
  }

  // ---- Exercise 501: a square moving right and coming back from the left ----

  const MARQUEE_SPEED := 5
  const MARQUEE_WIDTH := 50

  /** Moves 5 to the right; once past x = 800 it reappears at -50. */
  function MarqueeStep(x: int): (r: int)
    ensures x + MARQUEE_SPEED > 800 ==> r == -MARQUEE_WIDTH
    ensures x + MARQUEE_SPEED <= 800 ==> r == x + MARQUEE_SPEED
    ensures -MARQUEE_WIDTH <= x <= 800 ==> -MARQUEE_WIDTH <= r <= 800
  {
    var n := x + MARQUEE_SPEED;
    if n > 800 then -MARQUEE_WIDTH else n
  }

  /** Starting at 0, the square's x stays in [-50, 800] on the 5-pixel grid. */
  method Marquee(frames: nat) returns (x: int)
    ensures -MARQUEE_WIDTH <= x <= 800 && x % MARQUEE_SPEED == 0
  {
    x := 0;
    for i := 0 to frames
      invariant -MARQUEE_WIDTH <= x <= 800 && x % MARQUEE_SPEED == 0
    {
      x := MarqueeStep(x);
    }
  }

  // ---- Exercise 601: collecting coins ----

  const COLLECTOR_SIZE := 40
  const COLLECTOR_SPEED := 5
  const COIN_HALF := 15

  /** Held direction keys (arrow or WASD). */
  datatype Held = Held(left: bool, right: bool, up: bool, down: bool)

  type Coin = (int, int)

  /** Python's `max(0, min(v, hi))` on integers. */
  function MaxMinInt(v: int, hi: int): (r: int)
    requires 0 <= hi
    ensures r == Clamp(v, 0, hi)
  {
    max(0, min(v, hi))
  }

  function min(a: int, b: int): int { if a < b then a else b }
  function max(a: int, b: int): int { if a > b then a else b }

  /** Each held key moves the square by 5 (LEFT and RIGHT together cancel),
      then it is clamped into the 800 x 600 window. */
  function CollectorMove(x: int, y: int, keys: Held): (p: (int, int))
    ensures 0 <= p.0 <= 800 - COLLECTOR_SIZE && 0 <= p.1 <= 600 - COLLECTOR_SIZE
    ensures keys.left == keys.right && 0 <= x <= 800 - COLLECTOR_SIZE ==> p.0 == x
    ensures keys.up == keys.down && 0 <= y <= 600 - COLLECTOR_SIZE ==> p.1 == y
  {
    var dx := (if keys.right then COLLECTOR_SPEED else 0) - (if keys.left then COLLECTOR_SPEED else 0);
    var dy := (if keys.down then COLLECTOR_SPEED else 0) - (if keys.up then COLLECTOR_SPEED else 0);
    (MaxMinInt(x + dx, 800 - COLLECTOR_SIZE), MaxMinInt(y + dy, 600 - COLLECTOR_SIZE))
  }

  /** The coin's circle is tested as its bounding square. */
  predicate Touches(player: Rect, c: Coin)
  {
    CollideRect(player, Rect(c.0 - COIN_HALF, c.1 - COIN_HALF, 2 * COIN_HALF, 2 * COIN_HALF))
  }

  function Untouched(player: Rect): Coin -> bool
  {
    c => !Touches(player, c)
  }

  /** The loop over a copy of the coin list: each touched coin is removed with
      `coins.remove(coin)` and scores 10. The coins left are the untouched
      ones in their original order, and score + 10 per coin left is kept. */
  method CollectCoins(player: Rect, coins: seq<Coin>, score: int) returns (left: seq<Coin>, newScore: int)
    ensures left == Filter(coins, Untouched(player))
    ensures newScore + 10 * |left| == score + 10 * |coins|
  {
    var keep := Untouched(player);
    left, newScore := coins, score;
    var i := 0;
    while i < |coins|
      invariant 0 <= i <= |coins|
      invariant left == Filter(coins[..i], keep) + coins[i..]
      invariant newScore + 10 * |left| == score + 10 * |coins|
    {
      var c := coins[i];
      FilterWalkSame(coins, i, keep, left);
      if Touches(player, c) {
        assert !keep(c);
        left := RemoveFirst(left, c);
        newScore := newScore + 10;
      } else {
        assert keep(c);
      }
      i := i + 1;
    }
    assert coins[..i] == coins;
  }

  /** One frame of the coin game: move, then collect. */
  method CoinFrame(x: int, y: int, keys: Held, coins: seq<Coin>, score: int)
    returns (x': int, y': int, left: seq<Coin>, newScore: int)
    ensures 0 <= x' <= 800 - COLLECTOR_SIZE && 0 <= y' <= 600 - COLLECTOR_SIZE
    ensures (x', y') == CollectorMove(x, y, keys)
    ensures left == Filter(coins, Untouched(Rect(x', y', COLLECTOR_SIZE, COLLECTOR_SIZE)))
    ensures newScore + 10 * |left| == score + 10 * |coins|
  {
    var p := CollectorMove(x, y, keys);
    x', y' := p.0, p.1;
    left, newScore := CollectCoins(Rect(x', y', COLLECTOR_SIZE, COLLECTOR_SIZE), coins, score);
  }

  // ---- The final exercise: dodging falling obstacles ----

  const DODGER_Y := 530
  const DODGER_SIZE := 50
  const DODGER_SPEED := 7
  const DODGER_START := 375
  const START_DELAY := 40
  const MIN_DELAY := 15

  datatype Obstacle = Obstacle(x: int, y: real, width: int, height: int, speed: real)

  function Fall(o: Obstacle): Obstacle { o.(y := o.y + o.speed) }

  /** Every obstacle moved down by its speed. */
  function FallAll(s: seq<Obstacle>): (r: seq<Obstacle>)
    ensures |r| == |s| && forall k :: 0 <= k < |s| ==> r[k] == Fall(s[k])
  {
    seq(|s|, k requires 0 <= k < |s| => Fall(s[k]))
  }

  /** Not yet past the bottom edge (y > 600 means dodged). */
  predicate Falling(o: Obstacle) { o.y <= 600.0 }

  /** The obstacle loop over a copy of the list: each obstacle falls by its
      speed, in place, and one past y = 600 is removed with `remove` and
      counted as dodged. What is left is the fallen obstacles still on screen,
      in order, and the dodge count grows by the number removed. */
  method MoveObstacles(obstacles: seq<Obstacle>) returns (obs: seq<Obstacle>, dodged: nat)
    ensures obs == Filter(FallAll(obstacles), Falling)
    ensures dodged == |obstacles| - |obs|
  {
    obs, dodged := obstacles, 0;
    var i := 0;
    while i < |obstacles|
      invariant 0 <= i <= |obstacles|
      invariant obs == Filter(FallAll(obstacles)[..i], Falling) + obstacles[i..]
      invariant dodged == |obstacles| - |obs|
    {
      var o := Fall(obstacles[i]);
      // The obstacle being moved sits after the ones kept so far.
      var at := |obs| - (|obstacles| - i);
      FilterWalkStep(FallAll(obstacles), obstacles, i, Falling, obs);
      obs := obs[at := o];
      if o.y > 600.0 {
        assert obs[at] == o;
        obs := RemoveFirst(obs, o);
        dodged := dodged + 1;
      }
      i := i + 1;
    }
    assert FallAll(obstacles)[..i] == FallAll(obstacles);
  }

  /** pygame truncates the float y of an obstacle's rectangle. */
  function ObstacleRect(o: Obstacle): Rect
  {
    Rect(o.x, Trunc(o.y), o.width, o.height)
  }

  /** Some obstacle overlaps the player. */
  predicate HitsAny(player: Rect, obs: seq<Obstacle>)
  {
    exists k :: 0 <= k < |obs| && CollideRect(player, ObstacleRect(obs[k]))
  }

  /** The collision loop, which stops at the first hit. */
  method AnyHit(player: Rect, obs: seq<Obstacle>) returns (hit: bool)
    ensures hit <==> HitsAny(player, obs)
  {
    hit := false;
    var i := 0;
    while i < |obs|
      invariant 0 <= i <= |obs|
      invariant forall k :: 0 <= k < i ==> !CollideRect(player, ObstacleRect(obs[k]))
    {
      if CollideRect(player, ObstacleRect(obs[i])) {
        hit := true;
        break;
      }
      i := i + 1;
    }
  }

  /** While the dodge count is a positive multiple of 5 the spawn delay drops
      by one each frame, but not below 15. */
  function NextDelay(dodges: int, delay: int): (r: int)
    ensures MIN_DELAY <= delay ==> MIN_DELAY <= r <= delay
    ensures r == delay - 1 || r == delay
  {
    if dodges > 0 && dodges % 5 == 0 && delay > MIN_DELAY then delay - 1 else delay
  }

  datatype DodgeKey = Escape | KeyR | OtherDodgeKey

  /** The dodging game's loop variables. */
  class DodgeGame {
    var playerX: int
    var obstacles: seq<Obstacle>
    var spawnTimer: int
    var spawnDelay: int
    var gameOver: bool
    var dodgeCount: int

    /** The player is inside the window, the spawn delay within [15, 40], the
        spawn timer never above it, and the dodge count non-negative. */
    ghost predicate Valid()
      reads this
    {
      0 <= playerX <= 800 - DODGER_SIZE &&
      MIN_DELAY <= spawnDelay <= START_DELAY &&
      0 <= spawnTimer <= spawnDelay &&
      dodgeCount >= 0
    }

    constructor ()
      ensures Valid() && playerX == DODGER_START && obstacles == [] && spawnTimer == 0
      ensures spawnDelay == START_DELAY && !gameOver && dodgeCount == 0
    {
      playerX, obstacles, spawnTimer := DODGER_START, [], 0;
      spawnDelay, gameOver, dodgeCount := START_DELAY, false, 0;
    }

    /** R restarts a finished game; the spawn timer is not reset. */
    method HandleKey(key: DodgeKey) returns (running: bool)
      requires Valid()
      modifies this
      ensures Valid() && (running <==> key != Escape)
      ensures key == KeyR && old(gameOver) ==>
                playerX == DODGER_START && obstacles == [] && !gameOver && dodgeCount == 0 &&
                spawnDelay == START_DELAY && spawnTimer == old(spawnTimer)
      ensures !(key == KeyR && old(gameOver)) ==> unchanged(this)
    {
      if key == Escape {
        return false;
      }
      if key == KeyR && gameOver {
        playerX, obstacles, gameOver, dodgeCount, spawnDelay := DODGER_START, [], false, 0, START_DELAY;
      }
      return true;
    }

    /** One frame of a running game. `spawnX` and `spawnSpeed` are the draws
        `randint(0, 750)` and `uniform(3, 7)` for an obstacle spawned now. */
    method Frame(left: bool, right: bool, spawnX: int, spawnSpeed: real)
      requires Valid()
      requires 0 <= spawnX <= 750 && 3.0 <= spawnSpeed <= 7.0
      modifies this
      ensures Valid()
      ensures old(gameOver) ==> unchanged(this)
      ensures dodgeCount >= old(dodgeCount) && spawnDelay <= old(spawnDelay)
      ensures !old(gameOver) ==> (gameOver <==> HitsAny(Rect(playerX, DODGER_Y, DODGER_SIZE, DODGER_SIZE), obstacles))
      ensures !old(gameOver) ==> spawnDelay == NextDelay(dodgeCount, old(spawnDelay))
      ensures !old(gameOver) ==>
        playerX == MaxMinInt(old(playerX) + (if right then DODGER_SPEED else 0) - (if left then DODGER_SPEED else 0),
                             800 - DODGER_SIZE)
      ensures !old(gameOver) ==>
        var spawn := old(spawnTimer) + 1 >= old(spawnDelay);
        var list := old(obstacles) + (if spawn then [Obstacle(spawnX, -50.0, 50, 50, spawnSpeed)] else []);
        spawnTimer == (if spawn then 0 else old(spawnTimer) + 1) &&
        obstacles == Filter(FallAll(list), Falling) &&
        dodgeCount == old(dodgeCount) + |list| - |obstacles|
    {
      if gameOver {
        return;
      }
      var dx := (if right then DODGER_SPEED else 0) - (if left then DODGER_SPEED else 0);
      var x := MaxMinInt(playerX + dx, 800 - DODGER_SIZE);
      var spawn := spawnTimer + 1 >= spawnDelay;
      var timer := if spawn then 0 else spawnTimer + 1;
      var list := obstacles + (if spawn then [Obstacle(spawnX, -50.0, 50, 50, spawnSpeed)] else []);
      var obs, dodged := MoveObstacles(list);
      var hit := AnyHit(Rect(x, DODGER_Y, DODGER_SIZE, DODGER_SIZE), obs);
      var delay := NextDelay(dodgeCount + dodged, spawnDelay);
      playerX, spawnTimer, obstacles := x, timer, obs;
      dodgeCount, gameOver, spawnDelay := dodgeCount + dodged, hit, delay;
    }
  }
}

=== FILE: game_lessons.dfy ===
/** The tutorial lessons: a box moved by the held keys and clamped into the
    window (lesson 4), a ball bouncing off the walls (lesson 5), a square
    tested against a rectangle and a circle (lesson 6), and the menu that
    starts a lesson by its number. */
module GameLessons {
  import opened Geometry
  import opened MovingBall
  import GameExercises
  import opened Options

  /** Held direction keys: `left` is the left arrow or A, and so on. */
  datatype Held = Held(left: bool, right: bool, up: bool, down: bool)

  /** The key rule of lessons 4 and 6: LEFT subtracts the speed, RIGHT adds
      it (both together cancel), the same for UP and DOWN, and then each
      coordinate goes through `max(0, min(v, bound - size))`. */
  function HeldMove(p: (int, int), keys: Held, speed: int, size: int): (q: (int, int))
    requires 0 <= size <= 600
    ensures 0 <= q.0 <= 800 - size && 0 <= q.1 <= 600 - size
    ensures !keys.left && !keys.right && 0 <= p.0 <= 800 - size ==> q.0 == p.0
    ensures !keys.up && !keys.down && 0 <= p.1 <= 600 - size ==> q.1 == p.1
    ensures keys.right && !keys.left ==> q.0 == Clamp(p.0 + speed, 0, 800 - size)
    ensures keys.left && !keys.right ==> q.0 == Clamp(p.0 - speed, 0, 800 - size)
    ensures keys.down && !keys.up ==> q.1 == Clamp(p.1 + speed, 0, 600 - size)
    ensures keys.up && !keys.down ==> q.1 == Clamp(p.1 - speed, 0, 600 - size)
  {
    var x := p.0 - (if keys.left then speed else 0) + (if keys.right then speed else 0);
    var y := p.1 - (if keys.up then speed else 0) + (if keys.down then speed else 0);
    (GameExercises.MaxMinInt(x, 800 - size), GameExercises.MaxMinInt(y, 600 - size))
  }

  /** The position after a run of frames, each applying `HeldMove`. */
  function Replay(start: (int, int), frames: seq<Held>, speed: int, size: int): (int, int)
    requires 0 <= size <= 600
  {
    if frames == [] then start
    else HeldMove(Replay(start, frames[..|frames| - 1], speed, size), frames[|frames| - 1], speed, size)
  }

  /** A replay that starts inside the window never leaves it. */
  lemma {:induction false} ReplayInside(start: (int, int), frames: seq<Held>, speed: int, size: int)
    requires 0 <= size <= 600
    requires 0 <= start.0 <= 800 - size && 0 <= start.1 <= 600 - size
    ensures var p := Replay(start, frames, speed, size);
            0 <= p.0 <= 800 - size && 0 <= p.1 <= 600 - size
  {
  }

  /** With no key ever held, the square stays where it started. */
  lemma {:induction false} ReplayIdle(start: (int, int), frames: seq<Held>, speed: int, size: int)
    requires 0 <= size <= 600
    requires 0 <= start.0 <= 800 - size && 0 <= start.1 <= 600 - size
    requires forall k :: 0 <= k < |frames| ==> frames[k] == Held(false, false, false, false)
    ensures Replay(start, frames, speed, size) == start
  {
    if frames != [] {
      ReplayIdle(start, frames[..|frames| - 1], speed, size);
    }
  }

  /** The coin collector of exercise 601 moves by exactly the lesson rule,
      with speed 5 and a 40-pixel square. */
  lemma CollectorIsLessonMove(x: int, y: int, l: bool, r: bool, u: bool, d: bool)
    ensures GameExercises.CollectorMove(x, y, GameExercises.Held(l, r, u, d)) ==
            HeldMove((x, y), Held(l, r, u, d), 5, GameExercises.COLLECTOR_SIZE)
  {
  }

  // ---- Lesson 4: a 50-pixel box at speed 5, starting at (400, 300) ----

  const BOX_SIZE := 50
  const BOX_SPEED := 5

  /** The lesson 4 loop over the frames' held keys. The box ends inside
      [0, 750] x [0, 550] and where the replay of the frames puts it. */
  method Lesson4(frames: seq<Held>) returns (x: int, y: int)
    ensures (x, y) == Replay((400, 300), frames, BOX_SPEED, BOX_SIZE)
    ensures 0 <= x <= 750 && 0 <= y <= 550
  {
    x, y := 400, 300;
    var i := 0;
    while i < |frames|
      invariant 0 <= i <= |frames|
      invariant (x, y) == Replay((400, 300), frames[..i], BOX_SPEED, BOX_SIZE)
      invariant 0 <= x <= 750 && 0 <= y <= 550
    {
      var keys := frames[i];
      if keys.left {
        x := x - BOX_SPEED;
      }
      if keys.right {
        x := x + BOX_SPEED;
      }
      if keys.up {
        y := y - BOX_SPEED;
      }
      if keys.down {
        y := y + BOX_SPEED;
      }
      x := GameExercises.max(0, GameExercises.min(x, 800 - BOX_SIZE));
      y := GameExercises.max(0, GameExercises.min(y, 600 - BOX_SIZE));
      assert frames[..i + 1][..i] == frames[..i];
      i := i + 1;
    }
    assert frames[..i] == frames;
  }

  // ---- Lesson 5: a ball of radius 20 in an 800 x 600 window ----

  const LESSON_BALL_RADIUS := 20

  /** The ball after `n` frames, each one moving it by its speed and then
      bouncing each axis with `Bounce`. Position and speed are returned as
      `Motion`. */
  function BallAfter(n: nat): Motion
  {
    if n == 0 then Motion(400.0, 300.0, 5.0, 3.0)
    else
      var m := BallAfter(n - 1);
      var hx := Bounce(m.x + m.speedX, m.speedX, LESSON_BALL_RADIUS as real, 800.0);
      var hy := Bounce(m.y + m.speedY, m.speedY, LESSON_BALL_RADIUS as real, 600.0);
      Motion(hx.0, hy.0, hx.1, hy.1)
  }

  /** The lesson 5 loop run for `frames` frames. The ball stays in
      [20, 780] x [20, 580] and keeps its speeds up to sign. */
  method Lesson5(frames: nat) returns (ball: Motion)
    ensures ball == BallAfter(frames)
    ensures 20.0 <= ball.x <= 780.0 && 20.0 <= ball.y <= 580.0
    ensures Abs(ball.speedX) == 5.0 && Abs(ball.speedY) == 3.0
  {
    var x, y, sx, sy := 400.0, 300.0, 5.0, 3.0;
    var r := LESSON_BALL_RADIUS as real;
    var i := 0;
    while i < frames
      invariant 0 <= i <= frames
      invariant Motion(x, y, sx, sy) == BallAfter(i)
      invariant 20.0 <= x <= 780.0 && 20.0 <= y <= 580.0
      invariant Abs(sx) == 5.0 && Abs(sy) == 3.0
    {
      x := x + sx;
      y := y + sy;
      if x - r <= 0.0 {
        x := r;
        sx := -sx;
      } else if x + r >= 800.0 {
        x := 800.0 - r;
        sx := -sx;
      }
      if y - r <= 0.0 {
        y := r;
        sy := -sy;
      } else if y + r >= 600.0 {
        y := 600.0 - r;
        sy := -sy;
      }
      i := i + 1;
    }
    ball := Motion(x, y, sx, sy);
  }

  // ---- Lesson 6: rectangle and circle collision ----

  const PLAYER_SIZE := 40
  const PLAYER_SPEED := 5
  const TARGET := Rect(300, 200, 60, 60)
  const CIRCLE_X := 500
  const CIRCLE_Y := 350
  const CIRCLE_RADIUS := 40

  /** The circle test without the square root: the square's centre
      `(x + 20, y + 20)` is closer to the circle's centre than 20 + 40. */
  predicate CircleHit(x: int, y: int)
  {
    var dx := x + PLAYER_SIZE / 2 - CIRCLE_X;
    var dy := y + PLAYER_SIZE / 2 - CIRCLE_Y;
    dx * dx + dy * dy < (PLAYER_SIZE / 2 + CIRCLE_RADIUS) * (PLAYER_SIZE / 2 + CIRCLE_RADIUS)
  }

  /** Comparing the distance `d` (the non-negative root of `dist2`) with a
      non-negative bound is the same as comparing `dist2` with the bound's
      square, so `CircleHit` is the lesson's `distance < 20 + 40`. */
  lemma DistanceBySquares(d: real, dist2: int, bound: int)
    requires 0.0 <= d && d * d == dist2 as real && 0 <= bound
    ensures d < bound as real <==> dist2 < bound * bound
  {
    var b := bound as real;
    if d < b {
      assert d * d <= d * b < b * b;
    } else {
      assert d * d >= b * d >= b * b;
    }
    assert (bound * bound) as real == b * b;
  }

  /** The lesson 6 loop. The square starts at (100, 100) and ends inside
      [0, 760] x [0, 560]; after at least one frame the two flags say
      whether it overlaps the target rectangle and the circle. */
  method Lesson6(frames: seq<Held>) returns (x: int, y: int, rectHit: bool, circleHit: bool)
    ensures (x, y) == Replay((100, 100), frames, PLAYER_SPEED, PLAYER_SIZE)
    ensures 0 <= x <= 760 && 0 <= y <= 560
    ensures |frames| > 0 ==> (rectHit <==> CollideRect(Rect(x, y, PLAYER_SIZE, PLAYER_SIZE), TARGET))
    ensures |frames| > 0 ==> (circleHit <==> CircleHit(x, y))
  {
    x, y, rectHit, circleHit := 100, 100, false, false;
    var i := 0;
    while i < |frames|
      invariant 0 <= i <= |frames|
      invariant (x, y) == Replay((100, 100), frames[..i], PLAYER_SPEED, PLAYER_SIZE)
      invariant 0 <= x <= 760 && 0 <= y <= 560
      invariant i > 0 ==> (rectHit <==> CollideRect(Rect(x, y, PLAYER_SIZE, PLAYER_SIZE), TARGET))
      invariant i > 0 ==> (circleHit <==> CircleHit(x, y))
    {
      var keys := frames[i];
      if keys.left {
        x := x - PLAYER_SPEED;
      }
      if keys.right {
        x := x + PLAYER_SPEED;
      }
      if keys.up {
        y := y - PLAYER_SPEED;
      }
      if keys.down {
        y := y + PLAYER_SPEED;
      }
      x := GameExercises.max(0, GameExercises.min(x, 800 - PLAYER_SIZE));
      y := GameExercises.max(0, GameExercises.min(y, 600 - PLAYER_SIZE));
      rectHit := CollideRect(Rect(x, y, PLAYER_SIZE, PLAYER_SIZE), TARGET);
      circleHit := CircleHit(x, y);
      assert frames[..i + 1][..i] == frames[..i];
      i := i + 1;
    }
    assert frames[..i] == frames;
  }

  // ---- The lesson menu ----

  datatype Lesson = CreateWindow | DrawShapes | HandleEvents | MovingObjects
                  | CollisionDetection | CatchBallGame | SnakeGame

  /** `run_lesson`: the numbers 2 to 8 start the lessons in order; any other
      choice is reported as invalid (`None`). */
  function RunLesson(choice: int): (r: Option<Lesson>)
    ensures r.Some? <==> 2 <= choice <= 8
  {
    match choice
    case 2 => Some(CreateWindow)
    case 3 => Some(DrawShapes)
    case 4 => Some(HandleEvents)
    case 5 => Some(MovingObjects)
    case 6 => Some(CollisionDetection)
    case 7 => Some(CatchBallGame)
    case 8 => Some(SnakeGame)
    case _ => None
  }

  /** Different numbers start different lessons, and every lesson has a
      number. */
  lemma RunLessonOneToOne(a: int, b: int, l: Lesson)
    ensures RunLesson(a).Some? && RunLesson(a) == RunLesson(b) ==> a == b
    ensures exists c :: 2 <= c <= 8 && RunLesson(c) == Some(l)
  {
    match l
    case CreateWindow => assert RunLesson(2) == Some(l);
    case DrawShapes => assert RunLesson(3) == Some(l);
    case HandleEvents => assert RunLesson(4) == Some(l);
    case MovingObjects => assert RunLesson(5) == Some(l);
    case CollisionDetection => assert RunLesson(6) == Some(l);
    case CatchBallGame => assert RunLesson(7) == Some(l);
    case SnakeGame => assert RunLesson(8) == Some(l);
  }
}

=== FILE: geometry.dfy ===
/** Screen geometry shared by the pygame games: Python's `int()` on a float,
    pygame's integer `Rect` and its `colliderect` test, and clamping a
    coordinate into the window. */
module Geometry {

  /** Python's `int(r)` on a float: truncation toward zero. */
  function Trunc(r: real): (i: int)
    ensures r >= 0.0 ==> i as real <= r < i as real + 1.0
    ensures r < 0.0 ==> i as real - 1.0 < r <= i as real
  {
    if r >= 0.0 then r.Floor else -((-r).Floor)
  }

  /** A pygame `Rect`: top-left corner and size, all integers. */
  datatype Rect = Rect(x: int, y: int, w: int, h: int)
  {
    /** pygame's `Rect.centery`: `y + h // 2`. */
    function CenterY(): int { y + h / 2 }
  }

  /** A rectangle built from float coordinates: pygame truncates each one. */
  function RectOf(x: real, y: real, w: real, h: real): Rect
  {
    Rect(Trunc(x), Trunc(y), Trunc(w), Trunc(h))
  }

  /** pygame's `colliderect` for rectangles of non-negative size: both have an
      area and their interiors overlap (touching edges do not collide). */
  predicate CollideRect(a: Rect, b: Rect)
  {
    a.w != 0 && a.h != 0 && b.w != 0 && b.h != 0 &&
    a.x < b.x + b.w && b.x < a.x + a.w &&
    a.y < b.y + b.h && b.y < a.y + a.h
  }

  /** Collision does not depend on which rectangle asks. */
  lemma CollideSymmetric(a: Rect, b: Rect)
    ensures CollideRect(a, b) <==> CollideRect(b, a)
  {
  }

  /** Two rectangles collide exactly when some integer point lies inside both. */
  lemma CollideIffCommonPoint(a: Rect, b: Rect)
    requires a.w >= 0 && a.h >= 0 && b.w >= 0 && b.h >= 0
    ensures CollideRect(a, b) <==> exists px, py :: Inside(a, px, py) && Inside(b, px, py)
  {
    if CollideRect(a, b) {
      var px := if a.x < b.x then b.x else a.x;
      var py := if a.y < b.y then b.y else a.y;
      assert Inside(a, px, py) && Inside(b, px, py);
    }
  }

  /** The integer point `(px, py)` lies inside `r` (left and top edges included). */
  predicate Inside(r: Rect, px: int, py: int)
  {
    r.x <= px < r.x + r.w && r.y <= py < r.y + r.h
  }

  /** Python's `max(lo, min(v, hi))`. */
  function Clamp(v: int, lo: int, hi: int): (r: int)
    requires lo <= hi
    ensures lo <= r <= hi
    ensures lo <= v <= hi ==> r == v
    ensures v < lo ==> r == lo
    ensures v > hi ==> r == hi
  {
    if v < lo then lo else if v > hi then hi else v
  }

  /** The paddle/player clamp: `if x < 0: x = 0` then `elif x + size > bound:
      x = bound - size`. For an object that fits, it equals `Clamp`. */
  function KeepInside(x: int, size: int, bound: int): (r: int)
    ensures size <= bound && 0 <= size ==> r == Clamp(x, 0, bound - size)
  {
    if x < 0 then 0 else if x + size > bound then bound - size else x
  }

  /** `KeepInside` for float coordinates. */
  function KeepInsideReal(x: real, size: real, bound: real): (r: real)
    ensures 0.0 <= size <= bound ==> 0.0 <= r <= bound - size
    ensures 0.0 <= x && x + size <= bound ==> r == x
    ensures x < 0.0 ==> r == 0.0
  {
    if x < 0.0 then 0.0 else if x + size > bound then bound - size else x
  }
}

=== FILE: keyboard_control.dfy ===
/** Keyboard control: a square moved with the arrow keys or WASD collects
    food items for 10 points each; R puts it back in the middle and scatters
    nothing new, it only marks every food uncollected. A second version moves
    faster while SHIFT is held. */
module KeyboardControl {
  import opened Geometry
  import opened Lists

  const WIDTH := 800
  const HEIGHT := 600
  const PLAYER_SIZE := 50
  const PLAYER_SPEED := 6
  const FOOD_SIZE := 15
  /** The float `0.707`, standing for 1/sqrt(2). */
  const DIAGONAL: real := 0.707

  /** Held keys: `up` is the up arrow or W, `down` the down arrow or S, and so
      on; `shift` is either shift key. */
  datatype Keys = Keys(up: bool, down: bool, left: bool, right: bool, shift: bool)

  /** One axis: the key towards the positive side overrides the other one. */
  function AxisVelocity(negative: bool, positive: bool, speed: real): (v: real)
    ensures positive ==> v == speed
    ensures negative && !positive ==> v == -speed
    ensures !negative && !positive ==> v == 0.0
  {
    var v := if negative then -speed else 0.0;
    if positive then speed else v
  }

  /** `handle_input`: both components are reset, set from the keys, and scaled
      by 0.707 when both are non-zero. */
  function Velocity(keys: Keys, speed: real): (v: (real, real))
  {
    var vx := AxisVelocity(keys.left, keys.right, speed);
    var vy := AxisVelocity(keys.up, keys.down, speed);
    if vx != 0.0 && vy != 0.0 then (vx * DIAGONAL, vy * DIAGONAL) else (vx, vy)
  }

  /** Down overrides up and right overrides left; movement along one axis
      keeps the full speed, diagonal movement gets 0.707 of it on each axis,
      and no key means no movement. */
  lemma VelocityCases(keys: Keys, speed: real)
    requires speed > 0.0
    ensures var v := Velocity(keys, speed);
            var sx := if keys.right then 1.0 else if keys.left then -1.0 else 0.0;
            var sy := if keys.down then 1.0 else if keys.up then -1.0 else 0.0;
            v == (if sx != 0.0 && sy != 0.0 then (sx * speed * DIAGONAL, sy * speed * DIAGONAL)
                  else (sx * speed, sy * speed))
  {
  }

  class Player {
    var x: real
    var y: real
    const width: int
    const height: int
    const speed: real
    var velocityX: real
    var velocityY: real

    constructor (x0: real, y0: real, w: int, h: int, s: real)
      ensures x == x0 && y == y0 && width == w && height == h && speed == s
      ensures velocityX == 0.0 && velocityY == 0.0
    {
      x, y, width, height, speed := x0, y0, w, h, s;
      velocityX, velocityY := 0.0, 0.0;
    }

    method HandleInput(keys: Keys)
      modifies this
      ensures (velocityX, velocityY) == Velocity(keys, speed)
      ensures x == old(x) && y == old(y)
    {
      velocityX, velocityY := 0.0, 0.0;
      if keys.up {
        velocityY := -speed;
      }
      if keys.down {
        velocityY := speed;
      }
      if keys.left {
        velocityX := -speed;
      }
      if keys.right {
        velocityX := speed;
      }
      if velocityX != 0.0 && velocityY != 0.0 {
        velocityX := velocityX * DIAGONAL;
        velocityY := velocityY * DIAGONAL;
      }
    }

    /** Moves by the velocity and pushes the square back inside the window on
        each axis separately. */
    method Update(screenWidth: int, screenHeight: int)
      modifies this
      ensures x == KeepInsideReal(old(x) + velocityX, width as real, screenWidth as real)
      ensures y == KeepInsideReal(old(y) + velocityY, height as real, screenHeight as real)
      ensures velocityX == old(velocityX) && velocityY == old(velocityY)
      ensures 0 <= width <= screenWidth ==> 0.0 <= x <= (screenWidth - width) as real
      ensures 0 <= height <= screenHeight ==> 0.0 <= y <= (screenHeight - height) as real
    {
      x := x + velocityX;
      y := y + velocityY;
      if x < 0.0 {
        x := 0.0;
      } else if x + width as real > screenWidth as real {
        x := (screenWidth - width) as real;
      }
      if y < 0.0 {
        y := 0.0;
      } else if y + height as real > screenHeight as real {
        y := (screenHeight - height) as real;
      }
    }

    function GetRect(): Rect
      reads this
    {
      Rect(Trunc(x), Trunc(y), width, height)
    }
  }

  datatype Food = Food(x: int, y: int, size: int, collected: bool)
  {
    /** A collected food never collides; otherwise the player's rectangle is
        tested against the square of side 2 * size centred on the food. */
    predicate CheckCollision(player: Rect)
    {
      !collected && CollideRect(player, Rect(x - size, y - size, size * 2, size * 2))
    }
  }

  predicate IsCollected(f: Food) { f.collected }

  /** The foods after the collection loop: each one touched is marked
      collected. */
  function AfterCollect(f: Food, player: Rect): (g: Food)
    ensures g == f.(collected := f.collected || f.CheckCollision(player))
  {
    if f.CheckCollision(player) then f.(collected := true) else f
  }

  /** The collection loop of a frame: every food the player touches is marked
      collected and scores 10. Only uncollected food can be touched, so the
      points gained are 10 per newly collected food. */
  method CollectFoods(foods: seq<Food>, player: Rect) returns (fs: seq<Food>, gained: int)
    ensures |fs| == |foods|
    ensures forall k :: 0 <= k < |fs| ==> fs[k] == AfterCollect(foods[k], player)
    ensures gained == 10 * (Count(fs, IsCollected) - Count(foods, IsCollected))
    ensures gained >= 0
  {
    fs, gained := foods, 0;
    var i := 0;
    while i < |fs|
      invariant 0 <= i <= |fs| == |foods|
      invariant forall k :: 0 <= k < i ==> fs[k] == AfterCollect(foods[k], player)
      invariant forall k :: i <= k < |fs| ==> fs[k] == foods[k]
      invariant gained == 10 * (Count(fs, IsCollected) - Count(foods, IsCollected))
      invariant Count(fs, IsCollected) >= Count(foods, IsCollected)
    {
      if fs[i].CheckCollision(player) {
        CountUpdate(fs, i, fs[i].(collected := true), IsCollected);
        fs := fs[i := fs[i].(collected := true)];
        gained := gained + 10;
      }
      i := i + 1;
    }
  }

  /** Every food marked uncollected again. */
  function Uncollect(foods: seq<Food>): (fs: seq<Food>)
    ensures |fs| == |foods|
    ensures forall k :: 0 <= k < |fs| ==> fs[k] == foods[k].(collected := false)
  {
    seq(|foods|, k requires 0 <= k < |foods| => foods[k].(collected := false))
  }

  datatype Key = Escape | KeyR | OtherKey
  datatype Event = Quit | KeyPress(key: Key) | OtherEvent

  /** The state of `main`: the player, the food list and the score. */
  class KeyboardGame {
    var player: Player
    var foods: seq<Food>
    var score: int

    /** The score counts 10 for every collected food, and the player is the
        standard square inside the window. */
    ghost predicate Valid()
      reads this, player
    {
      score == 10 * Count(foods, IsCollected) &&
      player.width == PLAYER_SIZE && player.height == PLAYER_SIZE &&
      0.0 <= player.x <= (WIDTH - PLAYER_SIZE) as real &&
      0.0 <= player.y <= (HEIGHT - PLAYER_SIZE) as real
    }

    /** The player in the middle and the foods at the drawn positions, none
        collected. */
    constructor (spots: seq<(int, int)>)
      ensures Valid() && score == 0 && |foods| == |spots|
      ensures forall k :: 0 <= k < |foods| ==> foods[k] == Food(spots[k].0, spots[k].1, FOOD_SIZE, false)
    {
      player := new Player((WIDTH / 2) as real, (HEIGHT / 2) as real, PLAYER_SIZE, PLAYER_SIZE, PLAYER_SPEED as real);
      var fs := seq(|spots|, k requires 0 <= k < |spots| => Food(spots[k].0, spots[k].1, FOOD_SIZE, false));
      CountNone(fs, IsCollected);
      foods := fs;
      score := 0;
    }

    /** One frame: input, movement, then collection. */
    method Frame(keys: Keys)
      requires Valid()
      modifies this, player
      ensures Valid() && player == old(player) && score >= old(score)
      ensures |foods| == |old(foods)|
      ensures forall k :: 0 <= k < |foods| ==> foods[k] == AfterCollect(old(foods[k]), player.GetRect())
      ensures (player.velocityX, player.velocityY) == Velocity(keys, player.speed)
      ensures player.x == KeepInsideReal(old(player.x) + player.velocityX, PLAYER_SIZE as real, WIDTH as real)
      ensures player.y == KeepInsideReal(old(player.y) + player.velocityY, PLAYER_SIZE as real, HEIGHT as real)
      ensures score == old(score) + 10 * (Count(foods, IsCollected) - Count(old(foods), IsCollected))
    {
      player.HandleInput(keys);
      player.Update(WIDTH, HEIGHT);
      var rect := player.GetRect();
      var fs, gained := CollectFoods(foods, rect);
      foods, score := fs, score + gained;
    }

    /** R moves the player back to the middle, zeroes the score and marks all
        food uncollected; quit or Escape stops. */
    method HandleEvent(e: Event) returns (running: bool)
      requires Valid()
      modifies this, player
      ensures Valid() && player == old(player)
      ensures running <==> !(e == Quit || e == KeyPress(Escape))
      ensures e == KeyPress(KeyR) ==>
                score == 0 && foods == Uncollect(old(foods)) &&
                player.x == (WIDTH / 2) as real && player.y == (HEIGHT / 2) as real
      ensures e != KeyPress(KeyR) ==> unchanged(this, player)
    {
      match e
      case Quit => return false;
      case OtherEvent => return true;
      case KeyPress(key) =>
        if key == Escape {
          return false;
        } else if key == KeyR {
          player.x := (WIDTH / 2) as real;
          player.y := (HEIGHT / 2) as real;
          score := 0;
          CountNone(Uncollect(foods), IsCollected);
          foods := Uncollect(foods);
        }
        return true;
    }
  }

  const BOOST_SIZE := 40
  const BASE_SPEED := 5

  /** The boost version's speed: doubled while SHIFT is held. */
  function BoostSpeed(keys: Keys): (s: real)
    ensures s == if keys.shift then 2.0 * BASE_SPEED as real else BASE_SPEED as real
  {
    if keys.shift then (BASE_SPEED * 2) as real else BASE_SPEED as real
  }

  /** Python's `max(0, min(v, hi))`. */
  function MaxMin(v: real, hi: real): (r: real)
    ensures 0.0 <= hi ==> 0.0 <= r <= hi
    ensures 0.0 <= v <= hi ==> r == v
  {
    var m := if v < hi then v else hi;
    if 0.0 < m then m else 0.0
  }

  /** For a square that fits, `max(0, min(v, hi))` clamps exactly like the
      player's update. */
  lemma MaxMinKeepsInside(v: real, size: real, bound: real)
    requires 0.0 <= size <= bound
    ensures MaxMin(v, bound - size) == KeepInsideReal(v, size, bound)
  {
  }

  /** One frame of the boost version, a 40-pixel square moving at the boost
      speed and clamped into the window. Returns the new position. */
  function BoostFrame(x: real, y: real, keys: Keys): (p: (real, real))
    ensures 0.0 <= p.0 <= (WIDTH - BOOST_SIZE) as real
    ensures 0.0 <= p.1 <= (HEIGHT - BOOST_SIZE) as real
    ensures var v := Velocity(keys, BoostSpeed(keys));
            p == (KeepInsideReal(x + v.0, BOOST_SIZE as real, WIDTH as real),
                  KeepInsideReal(y + v.1, BOOST_SIZE as real, HEIGHT as real))
  {
    var v := Velocity(keys, BoostSpeed(keys));
    MaxMinKeepsInside(x + v.0, BOOST_SIZE as real, WIDTH as real);
    MaxMinKeepsInside(y + v.1, BOOST_SIZE as real, HEIGHT as real);
    (MaxMin(x + v.0, (WIDTH - BOOST_SIZE) as real), MaxMin(y + v.1, (HEIGHT - BOOST_SIZE) as real))
  }
}

=== FILE: lists.dfy ===
/** List helpers behind Python's `[x for x in xs if keep(x)]` and
    `sum(1 for x in xs if p(x))`. */
module Lists {

  /** Number of elements satisfying `p`. */
  function Count<T>(s: seq<T>, p: T -> bool): (n: nat)
    ensures n <= |s|
  {
    if s == [] then 0 else (if p(s[0]) then 1 else 0) + Count(s[1..], p)
  }

  /** The list comprehension `[x for x in s if keep(x)]`. */
  function Filter<T(==)>(s: seq<T>, keep: T -> bool): (r: seq<T>)
    ensures |r| == Count(s, keep)
    ensures forall i :: 0 <= i < |r| ==> keep(r[i])
  {
    if s == [] then [] else (if keep(s[0]) then [s[0]] else []) + Filter(s[1..], keep)
  }

  /** The filter keeps exactly the elements of `s` that pass `keep`. */
  lemma {:induction false} FilterMembers<T>(s: seq<T>, keep: T -> bool)
    ensures forall x :: x in Filter(s, keep) <==> x in s && keep(x)
    decreases |s|
  {
    if s != [] {
      FilterMembers(s[1..], keep);
      assert s == [s[0]] + s[1..];
    }
  }

  /** `r` is `s` with some elements left out, the rest in their original order. */
  ghost predicate IsSublist<T>(r: seq<T>, s: seq<T>)
    decreases |s|
  {
    if r == [] then true
    else if s == [] then false
    else (r[0] == s[0] && IsSublist(r[1..], s[1..])) || IsSublist(r, s[1..])
  }

  /** A comprehension filter keeps the order of what it keeps. */
  lemma {:induction false} FilterSublist<T>(s: seq<T>, keep: T -> bool)
    ensures IsSublist(Filter(s, keep), s)
    decreases |s|
  {
    if s != [] {
      FilterSublist(s[1..], keep);
      if keep(s[0]) {
        assert Filter(s, keep) == [s[0]] + Filter(s[1..], keep);
        assert Filter(s, keep)[1..] == Filter(s[1..], keep);
      } else {
        assert Filter(s, keep) == Filter(s[1..], keep);
      }
    }
  }

  /** What holds of every element still holds of every element kept. */
  lemma {:induction false} FilterKeeps<T>(s: seq<T>, keep: T -> bool, q: T -> bool)
    requires forall i :: 0 <= i < |s| ==> q(s[i])
    ensures forall i :: 0 <= i < |Filter(s, keep)| ==> q(Filter(s, keep)[i])
    decreases |s|
  {
    if s != [] {
      FilterKeeps(s[1..], keep, q);
      assert Filter(s, keep) == (if keep(s[0]) then [s[0]] else []) + Filter(s[1..], keep);
    }
  }

  /** Filtering keeps everything when everything passes. */
  lemma {:induction false} FilterAll<T>(s: seq<T>, keep: T -> bool)
    requires forall i :: 0 <= i < |s| ==> keep(s[i])
    ensures Filter(s, keep) == s
    decreases |s|
  {
    if s != [] {
      FilterAll(s[1..], keep);
    }
  }

  /** Two filters in a row are one filter with both tests. */
  lemma {:induction false} FilterTwice<T>(s: seq<T>, p: T -> bool, q: T -> bool, both: T -> bool)
    requires forall x :: both(x) == (p(x) && q(x))
    ensures Filter(Filter(s, p), q) == Filter(s, both)
    decreases |s|
  {
    if s != [] {
      FilterTwice(s[1..], p, q, both);
      var rest := Filter(Filter(s[1..], p), q);
      assert Filter(s, both) == (if both(s[0]) then [s[0]] else []) + Filter(s[1..], both);
      if p(s[0]) {
        assert Filter(s, p) == [s[0]] + Filter(s[1..], p);
        assert Filter(s, p)[1..] == Filter(s[1..], p);
        assert Filter(Filter(s, p), q) == (if q(s[0]) then [s[0]] else []) + rest;
      } else {
        assert Filter(s, p) == Filter(s[1..], p);
      }
    }
  }

  /** Nothing satisfies `p`, so the count is zero. */
  lemma {:induction false} CountNone<T>(s: seq<T>, p: T -> bool)
    requires forall i :: 0 <= i < |s| ==> !p(s[i])
    ensures Count(s, p) == 0
    decreases |s|
  {
    if s != [] {
      CountNone(s[1..], p);
    }
  }

  /** One element that passes makes the count positive. */
  lemma {:induction false} CountSome<T>(s: seq<T>, i: nat, p: T -> bool)
    requires i < |s| && p(s[i])
    ensures Count(s, p) >= 1
    decreases |s|
  {
    if i > 0 {
      CountSome(s[1..], i - 1, p);
    }
  }

  lemma {:induction false} CountAppend<T>(s: seq<T>, x: T, p: T -> bool)
    ensures Count(s + [x], p) == Count(s, p) + (if p(x) then 1 else 0)
    decreases |s|
  {
    if s == [] {
      assert s + [x] == [x];
    } else {
      assert (s + [x])[1..] == s[1..] + [x];
      CountAppend(s[1..], x, p);
    }
  }

  /** Replacing one element changes the count by at most the two flags. */
  lemma {:induction false} CountUpdate<T>(s: seq<T>, i: nat, v: T, p: T -> bool)
    requires i < |s|
    ensures Count(s[i := v], p) == Count(s, p) - (if p(s[i]) then 1 else 0) + (if p(v) then 1 else 0)
    decreases |s|
  {
    if i > 0 {
      assert s[i := v][1..] == s[1..][i - 1 := v];
      CountUpdate(s[1..], i - 1, v, p);
    }
  }

  /** Filtering a list with one more element at the end. */
  lemma {:induction false} FilterAppend<T>(s: seq<T>, x: T, keep: T -> bool)
    ensures Filter(s + [x], keep) == Filter(s, keep) + (if keep(x) then [x] else [])
    decreases |s|
  {
    if s == [] {
      assert s + [x] == [x];
    } else {
      assert (s + [x])[1..] == s[1..] + [x];
      FilterAppend(s[1..], x, keep);
    }
  }

  /** No element occurs twice. */
  predicate Distinct<T(==)>(s: seq<T>)
  {
    forall i, j :: 0 <= i < j < |s| ==> s[i] != s[j]
  }

  /** Filtering a list without repetitions gives one without repetitions. */
  lemma {:induction false} FilterDistinct<T>(s: seq<T>, keep: T -> bool)
    requires Distinct(s)
    ensures Distinct(Filter(s, keep))
    decreases |s|
  {
    if s != [] {
      var rest := Filter(s[1..], keep);
      FilterDistinct(s[1..], keep);
      FilterMembers(s[1..], keep);
      assert s[0] !in s[1..] by {
        forall j | 0 <= j < |s[1..]| ensures s[1..][j] != s[0] {
          assert s[1..][j] == s[j + 1];
        }
      }
      if keep(s[0]) {
        var r := [s[0]] + rest;
        forall i, j | 0 <= i < j < |r| ensures r[i] != r[j] {
          if i == 0 {
            assert r[j] == rest[j - 1] && r[j] in rest;
          } else {
            assert r[i] == rest[i - 1] && r[j] == rest[j - 1];
          }
        }
      } else {
        assert Filter(s, keep) == rest;
      }
    }
  }

  /** Python's `list.remove(x)` for an `x` in the list: the first element
      equal to `x` is taken out. */
  function RemoveFirst<T(==)>(s: seq<T>, x: T): (r: seq<T>)
    ensures x in s ==> |r| == |s| - 1
    ensures x !in s ==> r == s
  {
    if s == [] then []
    else if s[0] == x then s[1..]
    else [s[0]] + RemoveFirst(s[1..], x)
  }

  /** When `x` does not occur before a given position, `remove(x)` takes out
      the element at that position. */
  lemma {:induction false} RemoveFirstAt<T>(a: seq<T>, x: T, b: seq<T>)
    requires x !in a
    ensures RemoveFirst(a + [x] + b, x) == a + b
    decreases |a|
  {
    if a == [] {
      assert a + [x] + b == [x] + b;
    } else {
      assert (a + [x] + b)[1..] == a[1..] + [x] + b;
      RemoveFirstAt(a[1..], x, b);
      assert a + b == [a[0]] + (a[1..] + b);
    }
  }

  /** Walking a copy of a list and calling `remove` on each element that
      fails `keep` filters the list: one step of that walk. */
  lemma FilterRemoveStep<T>(prefix: seq<T>, x: T, rest: seq<T>, keep: T -> bool)
    ensures var kept := Filter(prefix, keep);
            (if keep(x) then kept + [x] + rest else RemoveFirst(kept + [x] + rest, x)) == Filter(prefix + [x], keep) + rest
  {
    var kept := Filter(prefix, keep);
    FilterAppend(prefix, x, keep);
    if !keep(x) {
      assert x !in kept;
      RemoveFirstAt(kept, x, rest);
    }
  }

  /** The loop invariant of such a walk, `left == Filter(s[..i]) + rest`,
      carried over one element; `orig` is the list before each element was
      updated in place to its value in `s`. */
  lemma FilterWalkStep<T>(s: seq<T>, orig: seq<T>, i: nat, keep: T -> bool, left: seq<T>)
    requires i < |s| == |orig|
    requires left == Filter(s[..i], keep) + orig[i..]
    ensures var l := left[|Filter(s[..i], keep)| := s[i]];
            (if keep(s[i]) then l else RemoveFirst(l, s[i])) == Filter(s[..i + 1], keep) + orig[i + 1..]
    ensures |left[|Filter(s[..i], keep)| := s[i]]| == |left|
  {
    var kept := Filter(s[..i], keep);
    assert s[..i + 1] == s[..i] + [s[i]];
    assert orig[i..] == [orig[i]] + orig[i + 1..];
    assert left[|kept| := s[i]] == kept + [s[i]] + orig[i + 1..];
    FilterRemoveStep(s[..i], s[i], orig[i + 1..], keep);
  }

  /** The walk of `FilterWalkStep` over a copy of the list itself: the
      element visited is still in place, so `remove` of it (when it is not
      kept) takes one step of the filter. */
  lemma FilterWalkSame<T>(s: seq<T>, i: nat, keep: T -> bool, left: seq<T>)
    requires i < |s|
    requires left == Filter(s[..i], keep) + s[i..]
    ensures s[i] in left
    ensures (if keep(s[i]) then left else RemoveFirst(left, s[i])) == Filter(s[..i + 1], keep) + s[i + 1..]
  {
    assert left[|Filter(s[..i], keep)|] == s[i];
    assert left[|Filter(s[..i], keep)| := s[i]] == left;
    FilterWalkStep(s, s, i, keep, left);
  }

  /** Sum of the integers in a list. */
  function Sum(s: seq<int>): int
  {
    if s == [] then 0 else s[0] + Sum(s[1..])
  }

  lemma {:induction false} SumAppend(s: seq<int>, x: int)
    ensures Sum(s + [x]) == Sum(s) + x
    decreases |s|
  {
    if s == [] {
      assert s + [x] == [x];
    } else {
      assert (s + [x])[1..] == s[1..] + [x];
      SumAppend(s[1..], x);
    }
  }
}

=== FILE: merge_sorted.dfy ===
/** `Solution.merge`: merges the sorted array `nums2` into the sorted first
    `m` elements of `nums1`, in place, filling `nums1` from the back. */
module MergeSorted {

  predicate Sorted(s: seq<int>)
  {
    forall i, j :: 0 <= i < j < |s| ==> s[i] <= s[j]
  }

  /** The merge of the first `i` elements of `a` with the first `j` of `b`,
      as the back-to-front loop builds it: the larger of the two last
      elements goes last, and on equal keys the element of `b` goes last. */
  function MergeUpTo(a: seq<int>, b: seq<int>, i: nat, j: nat): (r: seq<int>)
    requires i <= |a| && j <= |b|
    ensures |r| == i + j
    decreases i + j
  {
    if i == 0 then b[..j]
    else if j == 0 then a[..i]
    else if a[i - 1] > b[j - 1] then MergeUpTo(a, b, i - 1, j) + [a[i - 1]]
    else MergeUpTo(a, b, i, j - 1) + [b[j - 1]]
  }

  /** The whole merge. */
  function MergeBack(a: seq<int>, b: seq<int>): (r: seq<int>)
    ensures |r| == |a| + |b|
  {
    MergeUpTo(a, b, |a|, |b|)
  }

  /** The merge step that appends `a[i - 1]` keeps the elements counted. */
  lemma PermutesTakingA(a: seq<int>, b: seq<int>, i: nat, j: nat)
    requires 0 < i <= |a| && 0 < j <= |b| && a[i - 1] > b[j - 1]
    requires multiset(MergeUpTo(a, b, i - 1, j)) == multiset(a[..i - 1]) + multiset(b[..j])
    ensures multiset(MergeUpTo(a, b, i, j)) == multiset(a[..i]) + multiset(b[..j])
  {
    assert a[..i] == a[..i - 1] + [a[i - 1]];
  }

  /** The merge step that appends `b[j - 1]` keeps the elements counted. */
  lemma PermutesTakingB(a: seq<int>, b: seq<int>, i: nat, j: nat)
    requires 0 < i <= |a| && 0 < j <= |b| && a[i - 1] <= b[j - 1]
    requires multiset(MergeUpTo(a, b, i, j - 1)) == multiset(a[..i]) + multiset(b[..j - 1])
    ensures multiset(MergeUpTo(a, b, i, j)) == multiset(a[..i]) + multiset(b[..j])
  {
    assert b[..j] == b[..j - 1] + [b[j - 1]];
  }

  /** The merge holds exactly the elements of both prefixes. */
  lemma {:induction false} MergePermutes(a: seq<int>, b: seq<int>, i: nat, j: nat)
    requires i <= |a| && j <= |b|
    ensures multiset(MergeUpTo(a, b, i, j)) == multiset(a[..i]) + multiset(b[..j])
    decreases i + j
  {
    if i == 0 {
      assert a[..i] == [];
    } else if j == 0 {
      assert b[..j] == [];
    } else if a[i - 1] > b[j - 1] {
      MergePermutes(a, b, i - 1, j);
      PermutesTakingA(a, b, i, j);
    } else {
      MergePermutes(a, b, i, j - 1);
      PermutesTakingB(a, b, i, j);
    }
  }

  /** Every element of `s` is at most `x`. */
  predicate AtMost(s: seq<int>, x: int)
  {
    forall k :: 0 <= k < |s| ==> s[k] <= x
  }

  /** Appending an element at least as large as every element keeps a
      sequence sorted. */
  lemma SortedAppend(s: seq<int>, x: int)
    requires Sorted(s) && AtMost(s, x)
    ensures Sorted(s + [x])
  {
  }

  /** A bound on both prefixes bounds their merge. */
  lemma {:induction false} MergeBounded(a: seq<int>, b: seq<int>, i: nat, j: nat, x: int)
    requires i <= |a| && j <= |b|
    requires forall k :: 0 <= k < i ==> a[k] <= x
    requires forall k :: 0 <= k < j ==> b[k] <= x
    ensures AtMost(MergeUpTo(a, b, i, j), x)
    decreases i + j
  {
    if i == 0 || j == 0 {
    } else if a[i - 1] > b[j - 1] {
      MergeBounded(a, b, i - 1, j, x);
    } else {
      MergeBounded(a, b, i, j - 1, x);
    }
  }

  /** Merging sorted inputs gives a sorted sequence. */
  lemma {:induction false} MergeSorts(a: seq<int>, b: seq<int>, i: nat, j: nat)
    requires i <= |a| && j <= |b| && Sorted(a) && Sorted(b)
    ensures Sorted(MergeUpTo(a, b, i, j))
    decreases i + j
  {
    if i == 0 || j == 0 {
    } else if a[i - 1] > b[j - 1] {
      MergeSorts(a, b, i - 1, j);
      MergeBounded(a, b, i - 1, j, a[i - 1]);
      SortedAppend(MergeUpTo(a, b, i - 1, j), a[i - 1]);
    } else {
      MergeSorts(a, b, i, j - 1);
      MergeBounded(a, b, i, j - 1, b[j - 1]);
      SortedAppend(MergeUpTo(a, b, i, j - 1), b[j - 1]);
    }
  }

  /** The merged array is a permutation of the two inputs together. */
  lemma MergeBackPermutes(a: seq<int>, b: seq<int>)
    ensures multiset(MergeBack(a, b)) == multiset(a) + multiset(b)
  {
    MergePermutes(a, b, |a|, |b|);
    assert a[..|a|] == a && b[..|b|] == b;
  }

  /** Merging two sorted inputs gives a sorted array. */
  lemma MergeBackSorted(a: seq<int>, b: seq<int>)
    requires Sorted(a) && Sorted(b)
    ensures Sorted(MergeBack(a, b))
  {
    MergeSorts(a, b, |a|, |b|);
  }

  /** The worked example of the script. */
  lemma Example()
    ensures MergeBack([1, 2, 3], [2, 5, 6]) == [1, 2, 2, 3, 5, 6]
  {
    assert [1, 2, 3][..2] == [1, 2] && [1, 2][..1] == [1] && [1][..0] == [];
    assert [2, 5, 6][..2] == [2, 5] && [2, 5][..1] == [2] && [2][..0] == [];
  }

  /** The first `i + j` elements of `merged` are the merge of the first `i`
      of `a` and the first `j` of `b`. */
  ghost predicate Split(a: seq<int>, b: seq<int>, i: nat, j: nat, merged: seq<int>)
  {
    i <= |a| && j <= |b| && i + j <= |merged| && MergeUpTo(a, b, i, j) == merged[..i + j]
  }

  /** The step of the loop that writes `a[i - 1]`: when the merge of the
      first `i` elements of `a` and the first `j` of `b` is the start of
      `merged` and `a[i - 1]` is the larger last element, it is the element
      at position `i + j - 1`, and the merge without it is one shorter. */
  lemma TakeFromA(a: seq<int>, b: seq<int>, i: nat, j: nat, merged: seq<int>)
    requires Split(a, b, i, j, merged) && 0 < i && 0 < j
    requires a[i - 1] > b[j - 1]
    ensures Split(a, b, i - 1, j, merged)
    ensures merged[i + j - 1] == a[i - 1]
  {
    assert merged[..i + j] == merged[..i + j - 1] + [merged[i + j - 1]];
  }

  /** The step that writes `b[j - 1]`, when `a` is used up or its last
      element is not larger. */
  lemma TakeFromB(a: seq<int>, b: seq<int>, i: nat, j: nat, merged: seq<int>)
    requires Split(a, b, i, j, merged) && 0 < j
    requires i == 0 || a[i - 1] <= b[j - 1]
    ensures Split(a, b, i, j - 1, merged)
    ensures merged[i + j - 1] == b[j - 1]
  {
    assert merged[..i + j] == merged[..i + j - 1] + [merged[i + j - 1]];
    if i == 0 {
      assert b[..j] == b[..j - 1] + [b[j - 1]];
    }
  }

  /** When one input is used up, the merge of what is left is the other
      input's prefix. */
  lemma Exhausted(a: seq<int>, b: seq<int>, i: nat, j: nat, merged: seq<int>)
    requires Split(a, b, i, j, merged) && (i == 0 || j == 0)
    ensures j == 0 ==> forall k :: 0 <= k < i ==> merged[k] == a[k]
    ensures i == 0 ==> forall k :: 0 <= k < j ==> merged[k] == b[k]
  {
    forall k | 0 <= k < i + j ensures merged[k] == merged[..i + j][k] {
    }
  }

  /** The second loop of `merge`: once `nums1`'s own elements are used up,
      the rest of `nums2`, up to index `p2`, is copied to the same
      positions of `nums1` (`p` equals `p2` then). */
  method CopyRest(nums1: array<int>, nums2: array<int>, start: int, last: int)
    requires nums1 != nums2 && -1 <= last < nums2.Length && last < nums1.Length
    requires last >= 0 ==> start == last
    modifies nums1
    ensures forall k :: 0 <= k <= last ==> nums1[k] == nums2[k]
    ensures forall k :: last < k < nums1.Length ==> nums1[k] == old(nums1[k])
  {
    var p, p2 := start, last;
    while p2 >= 0
      invariant -1 <= p2 <= last && (p2 >= 0 ==> p == p2)
      invariant forall k :: p2 < k <= last ==> nums1[k] == nums2[k]
      invariant forall k :: 0 <= k < nums1.Length && !(p2 < k <= last) ==> nums1[k] == old(nums1[k])
    {
      nums1[p] := nums2[p2];
      p2 := p2 - 1;
      p := p - 1;
    }
  }

  /** The first loop of `merge`: while both inputs have unread elements,
      the larger of the two last ones is written at `p`. It stops with one
      input used up; the unread part of `nums1` is still as it was and every
      slot above the unread parts holds its element of the merge. */
  method MergeTails(nums1: array<int>, m: nat, nums2: array<int>, n: nat,
                    ghost a: seq<int>, ghost b: seq<int>, ghost merged: seq<int>)
      returns (p1: int, p2: int)
    requires nums1.Length == m + n && nums2.Length == n && nums1 != nums2
    requires a == nums1[..m] && b == nums2[..] && Split(a, b, m, n, merged)
    modifies nums1
    ensures -1 <= p1 < m && -1 <= p2 < n && (p1 < 0 || p2 < 0)
    ensures forall k :: 0 <= k <= p1 ==> nums1[k] == a[k]
    ensures forall k :: p1 + p2 + 2 <= k < nums1.Length ==> nums1[k] == merged[k]
    ensures Split(a, b, p1 + 1, p2 + 1, merged)
  {
    var p;
    p1, p2, p := m - 1, n - 1, m + n - 1;
    ghost var i: nat, j: nat := m, n;
    while p1 >= 0 && p2 >= 0
      invariant i == p1 + 1 && j == p2 + 1 && p == p1 + p2 + 1
      invariant forall k :: 0 <= k < i ==> nums1[k] == a[k]
      invariant forall k :: i + j <= k < nums1.Length ==> nums1[k] == merged[k]
      invariant Split(a, b, i, j, merged)
    {
      var x;
      if nums1[p1] > nums2[p2] {
        TakeFromA(a, b, i, j, merged);
        x := nums1[p1];
        p1, i := p1 - 1, i - 1;
      } else {
        TakeFromB(a, b, i, j, merged);
        x := nums2[p2];
        p2, j := p2 - 1, j - 1;
      }
      assert x == merged[p];
      nums1[p] := x;
      p := p - 1;
    }
  }

  /** The in-place merge. `p1` and `p2` point at the last unread element of
      each input and `p` at the slot written next; `p == p1 + p2 + 1`
      throughout, so every write lands above the unread part of `nums1`,
      which is still as it was. Afterwards `nums1` is the merge of its
      first `m` elements with `nums2` (which `MergePermutes` and
      `MergeSorts` show to be a sorted permutation). */
  method Merge(nums1: array<int>, m: nat, nums2: array<int>, n: nat)
    requires nums1.Length == m + n && nums2.Length == n && nums1 != nums2
    modifies nums1
    ensures nums1[..] == MergeBack(old(nums1[..m]), nums2[..])
  {
    ghost var a := nums1[..m];
    ghost var b := nums2[..];
    ghost var merged := MergeBack(a, b);
    assert merged[..m + n] == merged;
    var p1, p2 := MergeTails(nums1, m, nums2, n, a, b, merged);
    Exhausted(a, b, p1 + 1, p2 + 1, merged);
    CopyRest(nums1, nums2, p1 + p2 + 1, p2);
    assert nums1[..] == merged;
  }
}

=== FILE: moving_ball.dfy ===
/** The bouncing ball: a ball moves by its speed every frame and bounces off
    the window edges. The first version pushes a ball that touches a wall back
    inside; the trail version only reverses the speed and keeps the last 50
    positions for drawing a fading trail. */
module MovingBall {

  const MAX_TRAIL := 50

  /** One axis of `check_boundary`: a ball touching the low wall (p - r <= 0)
      is put at r, one touching the high wall at bound - r, and in both cases
      the speed along that axis is reversed. Returns position and speed. */
  function Bounce(p: real, v: real, r: real, bound: real): (res: (real, real))
    ensures 2.0 * r <= bound ==> r <= res.0 <= bound - r
    ensures p - r <= 0.0 || p + r >= bound ==> res.1 == -v
    ensures !(p - r <= 0.0 || p + r >= bound) ==> res == (p, v)
    ensures Abs(res.1) == Abs(v)
  {
    if p - r <= 0.0 then (r, -v)
    else if p + r >= bound then (bound - r, -v)
    else (p, v)
  }

  function Abs(v: real): real { if v < 0.0 then -v else v }

  /** Applying the bounce again right away changes nothing more than the
      speed: the position is already inside, so it stays where it is. */
  lemma BounceSettles(p: real, v: real, r: real, bound: real)
    requires 0.0 < r && 2.0 * r < bound
    ensures Bounce(Bounce(p, v, r, bound).0, v, r, bound).0 == Bounce(p, v, r, bound).0
  {
  }

  class Ball {
    var x: real
    var y: real
    const radius: int
    var speedX: real
    var speedY: real

    constructor (x0: real, y0: real, r: int, sx: real, sy: real)
      ensures x == x0 && y == y0 && radius == r && speedX == sx && speedY == sy
    {
      x, y, radius, speedX, speedY := x0, y0, r, sx, sy;
    }

    /** The new position is the old one plus the speed. */
    method Update()
      modifies this
      ensures x == old(x) + speedX && y == old(y) + speedY
      ensures speedX == old(speedX) && speedY == old(speedY)
    {
      x := x + speedX;
      y := y + speedY;
    }

    /** The two axes are handled independently, each by `Bounce`. */
    method CheckBoundary(width: int, height: int)
      modifies this
      ensures (x, speedX) == Bounce(old(x), old(speedX), radius as real, width as real)
      ensures (y, speedY) == Bounce(old(y), old(speedY), radius as real, height as real)
      ensures 2 * radius <= width ==> radius as real <= x <= (width - radius) as real
      ensures 2 * radius <= height ==> radius as real <= y <= (height - radius) as real
    {
      var r := radius as real;
      if x - r <= 0.0 {
        x := r;
        speedX := -speedX;
      } else if x + r >= width as real {
        x := width as real - r;
        speedX := -speedX;
      }
      if y - r <= 0.0 {
        y := r;
        speedY := -speedY;
      } else if y + r >= height as real {
        y := height as real - r;
        speedY := -speedY;
      }
    }
  }

  /** The ball of the trail version, kept in local variables. */
  datatype Motion = Motion(x: real, y: real, speedX: real, speedY: real)

  /** One frame of the trail version: move, then reverse the speed along an
      axis whose wall is touched, without moving the ball back inside. */
  function TrailMove(m: Motion, radius: real, width: real, height: real): (n: Motion)
    ensures n.x == m.x + m.speedX && n.y == m.y + m.speedY
    ensures Abs(n.speedX) == Abs(m.speedX) && Abs(n.speedY) == Abs(m.speedY)
    ensures n.speedX == if n.x - radius <= 0.0 || n.x + radius >= width then -m.speedX else m.speedX
    ensures n.speedY == if n.y - radius <= 0.0 || n.y + radius >= height then -m.speedY else m.speedY
  {
    var x, y := m.x + m.speedX, m.y + m.speedY;
    var sx := if x - radius <= 0.0 || x + radius >= width then -m.speedX else m.speedX;
    var sy := if y - radius <= 0.0 || y + radius >= height then -m.speedY else m.speedY;
    Motion(x, y, sx, sy)
  }

  /** The ball after `n` frames. */
  function Iterate(m: Motion, radius: real, width: real, height: real, n: nat): Motion
  {
    if n == 0 then m else TrailMove(Iterate(m, radius, width, height, n - 1), radius, width, height)
  }

  /** The positions after frames 1..n, oldest first. */
  function Positions(m: Motion, radius: real, width: real, height: real, n: nat): (ps: seq<(real, real)>)
    ensures |ps| == n
  {
    if n == 0 then []
    else
      var b := Iterate(m, radius, width, height, n);
      Positions(m, radius, width, height, n - 1) + [(b.x, b.y)]
  }

  /** The last `k` elements of `s` (all of it when shorter). */
  function LastN<T>(s: seq<T>, k: nat): (r: seq<T>)
    ensures |r| <= k && |r| <= |s|
    ensures s == s[..|s| - |r|] + r
    ensures |s| >= k ==> |r| == k
  {
    if |s| <= k then s else s[|s| - k..]
  }

  /** Appending to a list of at most `k` and popping the oldest when it grows
      past `k` leaves the last `k` elements. */
  lemma {:induction false} LastNPush<T>(s: seq<T>, x: T, k: nat)
    requires k > 0
    ensures var t := LastN(s, k) + [x];
            (if |t| > k then t[1..] else t) == LastN(s + [x], k)
  {
    var t := LastN(s, k) + [x];
    if |s| < k {
      assert LastN(s + [x], k) == s + [x];
    } else {
      assert |t| == k + 1;
      assert t[1..] == (s + [x])[|s| + 1 - k..];
    }
  }

  /** The trail loop: every frame the ball moves and its new position is
      appended to the trail, whose oldest entry is dropped once it holds more
      than 50. The trail is the last 50 positions, oldest first. */
  method RunWithTrail(start: Motion, radius: real, width: real, height: real, frames: nat)
    returns (ball: Motion, trail: seq<(real, real)>)
    ensures ball == Iterate(start, radius, width, height, frames)
    ensures trail == LastN(Positions(start, radius, width, height, frames), MAX_TRAIL)
    ensures |trail| <= MAX_TRAIL
  {
    ball, trail := start, [];
    var i := 0;
    while i < frames
      invariant 0 <= i <= frames
      invariant ball == Iterate(start, radius, width, height, i)
      invariant trail == LastN(Positions(start, radius, width, height, i), MAX_TRAIL)
    {
      ball := TrailMove(ball, radius, width, height);
      LastNPush(Positions(start, radius, width, height, i), (ball.x, ball.y), MAX_TRAIL);
      trail := trail + [(ball.x, ball.y)];
      if |trail| > MAX_TRAIL {
        trail := trail[1..];
      }
      i := i + 1;
    }
  }
}

=== FILE: options.dfy ===
/** An optional value, for lookups and choices that may find nothing. */
module Options {
  datatype Option<T> = None | Some(value: T)
  {
    /** Python's `d.get(key, default)` once the lookup is an Option. */
    function GetOr(default: T): (r: T)
      ensures Some? ==> r == value
      ensures None? ==> r == default
    {
      if Some? then value else default
    }
  }
}

=== FILE: reals.dfy ===
/** Sums, extremes and averages of lists of numbers, as Python's `sum`,
    `max`, `min` and `/` compute them on exact values. */
module Reals {

  /** Python's `sum(xs)`. */
  function SumR(xs: seq<real>): real
  {
    if xs == [] then 0.0 else xs[0] + SumR(xs[1..])
  }

  /** `len(xs)` as the divisor of a true division. */
  function LenR(xs: seq<real>): real
  {
    if xs == [] then 0.0 else 1.0 + LenR(xs[1..])
  }

  lemma {:induction false} LenRIsLength(xs: seq<real>)
    ensures LenR(xs) == |xs| as real
    decreases |xs|
  {
    if xs != [] {
      LenRIsLength(xs[1..]);
    }
  }

  lemma {:induction false} LenPositive(xs: seq<real>)
    requires xs != []
    ensures LenR(xs) > 0.0
    decreases |xs|
  {
    if xs[1..] != [] {
      LenPositive(xs[1..]);
    }
  }

  /** Python's `max(xs)`. */
  function MaxR(xs: seq<real>): (m: real)
    requires xs != []
    ensures m in xs && forall i :: 0 <= i < |xs| ==> xs[i] <= m
  {
    if |xs| == 1 then xs[0]
    else
      var rest := MaxR(xs[1..]);
      if xs[0] >= rest then xs[0] else rest
  }

  /** Python's `min(xs)`. */
  function MinR(xs: seq<real>): (m: real)
    requires xs != []
    ensures m in xs && forall i :: 0 <= i < |xs| ==> m <= xs[i]
  {
    if |xs| == 1 then xs[0]
    else
      var rest := MinR(xs[1..]);
      if xs[0] <= rest then xs[0] else rest
  }

  /** A sum of values each at least `lo` is at least `|xs| * lo`. */
  lemma {:induction false} SumAtLeast(xs: seq<real>, lo: real)
    requires forall i :: 0 <= i < |xs| ==> lo <= xs[i]
    ensures LenR(xs) * lo <= SumR(xs)
    decreases |xs|
  {
    if xs != [] {
      SumAtLeast(xs[1..], lo);
    }
  }

  /** A sum of values each at most `hi` is at most `|xs| * hi`. */
  lemma {:induction false} SumAtMost(xs: seq<real>, hi: real)
    requires forall i :: 0 <= i < |xs| ==> xs[i] <= hi
    ensures SumR(xs) <= LenR(xs) * hi
    decreases |xs|
  {
    if xs != [] {
      SumAtMost(xs[1..], hi);
    }
  }

  /** A total at least `n * lo` over a positive `n` averages at least `lo`. */
  lemma DivideAtLeast(lo: real, total: real, n: real)
    requires n > 0.0 && n * lo <= total
    ensures lo <= total / n
  {
    assert total / n * n == total;
  }

  /** A total at most `n * hi` over a positive `n` averages at most `hi`. */
  lemma DivideAtMost(total: real, hi: real, n: real)
    requires n > 0.0 && total <= n * hi
    ensures total / n <= hi
  {
    assert total / n * n == total;
  }

  /** `sum(xs) / len(xs)`. */
  function Average(xs: seq<real>): real
    requires xs != []
  {
    LenPositive(xs);
    SumR(xs) / LenR(xs)
  }

  /** The average of a list is at least its minimum. */
  lemma AverageAtLeastMin(xs: seq<real>)
    requires xs != []
    ensures MinR(xs) <= Average(xs)
  {
    var lo, total, n := MinR(xs), SumR(xs), LenR(xs);
    LenPositive(xs);
    SumAtLeast(xs, lo);
    DivideAtLeast(lo, total, n);
  }

  /** The average of a list is at most its maximum. */
  lemma AverageAtMostMax(xs: seq<real>)
    requires xs != []
    ensures Average(xs) <= MaxR(xs)
  {
    var hi, total, n := MaxR(xs), SumR(xs), LenR(xs);
    LenPositive(xs);
    SumAtMost(xs, hi);
    DivideAtMost(total, hi, n);
  }
}

=== FILE: score.dfy ===
/** Score arithmetic shared by the games, whose scores grow in steps of 10. */
module Score {

  /** Adding tens keeps the last digit and never lowers a number. */
  lemma {:induction false} AddTens(a: int, n: nat)
    ensures (a + 10 * n) % 10 == a % 10 && a + 10 * n >= a
    decreases n
  {
    if n > 0 {
      AddTens(a, n - 1);
      assert a + 10 * n == (a + 10 * (n - 1)) + 10;
    }
  }
}

=== FILE: snake.dfy ===
/** The snake game on an integer grid: the snake's body, the food, and the game
    state that advances once every `moveDelay` frames. Drawing is not modelled. */
module Snake {
  import opened Options

  /** A grid cell or a direction, as the `(x, y)` tuples of the game. */
  type Cell = (int, int)

  const UP: Cell := (0, -1)
  const DOWN: Cell := (0, 1)
  const LEFT: Cell := (-1, 0)
  const RIGHT: Cell := (1, 0)

  predicate IsDirection(d: Cell)
  {
    d == UP || d == DOWN || d == LEFT || d == RIGHT
  }

  function Opposite(d: Cell): Cell { (-d.0, -d.1) }

  function Step(p: Cell, d: Cell): Cell { (p.0 + d.0, p.1 + d.1) }

  predicate InGrid(p: Cell, gridWidth: int, gridHeight: int)
  {
    0 <= p.0 < gridWidth && 0 <= p.1 < gridHeight
  }

  /** The body of a new snake: `length` cells in a horizontal run, head first,
      each cell one step left of the one before it. */
  function InitialBody(startX: int, startY: int, length: nat): (body: seq<Cell>)
    ensures |body| == length
    ensures length > 0 ==> body[0] == (startX, startY)
    ensures forall i :: 0 < i < length ==> body[i] == Step(body[i - 1], LEFT)
    ensures forall i, j :: 0 <= i < j < length ==> body[i] != body[j]
  {
    seq(length, i requires 0 <= i < length => (startX - i, startY))
  }

  /** The body after one move: a new head one step from the old head, and the
      tail dropped unless the snake is growing. */
  function Advance(body: seq<Cell>, direction: Cell, grow: bool): seq<Cell>
    requires |body| >= 1
  {
    [Step(body[0], direction)] + (if grow then body else body[..|body| - 1])
  }

  /** A move keeps the length, or adds exactly one cell when growing; every old
      cell moves one place back, and only the last one can fall off. */
  lemma AdvanceShape(body: seq<Cell>, direction: Cell, grow: bool)
    requires |body| >= 1
    ensures var b := Advance(body, direction, grow);
      |b| == |body| + (if grow then 1 else 0) &&
      b[0] == Step(body[0], direction) &&
      (forall i :: 1 <= i < |b| ==> b[i] == body[i - 1])
  {
  }

  /** A cell that is neither on the old body nor the new head is not on the new body. */
  lemma AdvanceCells(body: seq<Cell>, direction: Cell, grow: bool, p: Cell)
    requires |body| >= 1
    requires p !in body && p != Step(body[0], direction)
    ensures p !in Advance(body, direction, grow)
  {
    if !grow {
      assert forall q :: q in body[..|body| - 1] ==> q in body;
    }
  }

  /** A direction is never its own opposite, so once `update` copies the next
      direction into the current one, the snake has not reversed. */
  lemma OppositeDiffers(d: Cell)
    requires IsDirection(d)
    ensures Opposite(d) != d && IsDirection(Opposite(d))
  {
  }

  /** The random draws `Food.spawn` makes are all inside the grid, and one of
      them is a free cell, so its loop stops. */
  predicate Spawnable(draws: seq<Cell>, body: seq<Cell>, gridWidth: int, gridHeight: int)
  {
    (forall k :: 0 <= k < |draws| ==> InGrid(draws[k], gridWidth, gridHeight)) &&
    exists k :: 0 <= k < |draws| && draws[k] !in body
  }

  class Snake {
    var body: seq<Cell>
    var direction: Cell
    var nextDirection: Cell
    var shouldGrow: bool

    ghost predicate Valid()
      reads this
    {
      |body| >= 1 && IsDirection(direction) && IsDirection(nextDirection) &&
      nextDirection != Opposite(direction)
    }

    constructor (startX: int, startY: int, length: nat)
      ensures body == InitialBody(startX, startY, length)
      ensures direction == RIGHT && nextDirection == RIGHT && !shouldGrow
      ensures length >= 1 ==> Valid()
    {
      var cells: seq<Cell> := [];
      var i := 0;
      while i < length
        invariant 0 <= i <= length
        invariant cells == InitialBody(startX, startY, i)
      {
        cells := cells + [(startX - i, startY)];
        i := i + 1;
      }
      body := cells;
      direction := RIGHT;
      nextDirection := RIGHT;
      shouldGrow := false;
    }

    /** Accepts the new direction unless it is the reverse of the current one. */
    method ChangeDirection(newDirection: Cell)
      requires Valid() && IsDirection(newDirection)
      modifies this
      ensures Valid()
      ensures nextDirection ==
        (if newDirection != Opposite(direction) then newDirection else old(nextDirection))
      ensures body == old(body) && direction == old(direction) && shouldGrow == old(shouldGrow)
    {
      if newDirection != Opposite(direction) {
        nextDirection := newDirection;
      }
    }

    method Update()
      requires Valid()
      modifies this
      ensures Valid()
      ensures direction == old(nextDirection) && nextDirection == old(nextDirection)
      ensures body == Advance(old(body), old(nextDirection), old(shouldGrow))
      ensures !shouldGrow
    {
      direction := nextDirection;
      OppositeDiffers(direction);
      var head := body[0];
      var newHead := (head.0 + direction.0, head.1 + direction.1);
      body := [newHead] + body;
      if !shouldGrow {
        body := body[..|body| - 1];
      } else {
        shouldGrow := false;
      }
    }

    method Grow()
      modifies this
      ensures shouldGrow
      ensures body == old(body) && direction == old(direction) && nextDirection == old(nextDirection)
    {
      shouldGrow := true;
    }

    function Head(): Cell
      reads this
      requires |body| >= 1
    {
      body[0]
    }

    /** The head occupies the same cell as some later part of the body. */
    predicate SelfCollision()
      reads this
      requires |body| >= 1
    {
      body[0] in body[1..]
    }

    /** The head is outside the `gridWidth` by `gridHeight` grid. */
    predicate WallCollision(gridWidth: int, gridHeight: int)
      reads this
      requires |body| >= 1
    {
      var (x, y) := body[0];
      x < 0 || x >= gridWidth || y < 0 || y >= gridHeight
    }
  }

  lemma SelfCollisionIff(s: Snake)
    requires |s.body| >= 1
    ensures s.SelfCollision() <==> exists i :: 1 <= i < |s.body| && s.body[i] == s.body[0]
  {
    if s.SelfCollision() {
      var j :| 0 <= j < |s.body[1..]| && s.body[1..][j] == s.body[0];
      assert s.body[j + 1] == s.body[0];
    }
  }

  lemma WallCollisionIff(s: Snake, gridWidth: int, gridHeight: int)
    requires |s.body| >= 1
    ensures s.WallCollision(gridWidth, gridHeight) <==> !InGrid(s.body[0], gridWidth, gridHeight)
  {
  }

  class Food {
    var x: int
    var y: int

    constructor ()
      ensures x == 0 && y == 0
    {
      x, y := 0, 0;
    }

    function Position(): Cell
      reads this
    {
      (x, y)
    }

    /** Draws cells until one is off the snake; `draws` stands for the successive
        `randint` results. The food lands on the first free draw. */
    method Spawn(body: seq<Cell>, gridWidth: int, gridHeight: int, draws: seq<Cell>)
      requires Spawnable(draws, body, gridWidth, gridHeight)
      modifies this
      ensures InGrid(Position(), gridWidth, gridHeight) && Position() !in body
      ensures exists k :: 0 <= k < |draws| && Position() == draws[k] &&
                          (forall j :: 0 <= j < k ==> draws[j] in body)
    {
      var k := 0;
      while true
        invariant 0 <= k < |draws|
        invariant forall j :: 0 <= j < k ==> draws[j] in body
        invariant exists j :: k <= j < |draws| && draws[j] !in body
        decreases |draws| - k
      {
        x, y := draws[k].0, draws[k].1;
        if (x, y) !in body {
          break;
        }
        k := k + 1;
      }
    }
  }

  /** Keys and events the game reacts to. */
  datatype Key = Escape | Space | KeyR | KeyUp | KeyW | KeyDown | KeyS | KeyLeft | KeyA | KeyRight | KeyD | OtherKey

  datatype Event = Quit | KeyPress(key: Key) | OtherEvent

  /** The direction a key selects, if any. */
  function KeyDirection(k: Key): (d: Option<Cell>)
    ensures d.Some? ==> IsDirection(d.value)
  {
    match k
    case KeyUp | KeyW => Some(UP)
    case KeyDown | KeyS => Some(DOWN)
    case KeyLeft | KeyA => Some(LEFT)
    case KeyRight | KeyD => Some(RIGHT)
    case _ => None
  }

  /** The fields that input events can change: game over, pause, score,
      move timer and delay, and the snake's body, direction, queued direction
      and growth flag. The respawned food of a restart is not part of it. */
  datatype Controls = Controls(over: bool, paused: bool, score: int, timer: int, delay: int,
                               body: seq<Cell>, direction: Cell, next: Cell, grow: bool)

  /** Quit or Escape: the events that stop the game. */
  predicate Stops(e: Event) { e == Quit || e == KeyPress(Escape) }

  /** What one event does to the controls: SPACE toggles pause unless the game
      is over; R restarts a finished game with the snake `start`; a direction
      key of a running, unpaused game is queued unless it reverses the current
      direction; anything else changes nothing. */
  function EventOf(c: Controls, e: Event, start: seq<Cell>): (r: Controls)
    ensures Stops(e) || e == OtherEvent || e == KeyPress(OtherKey) ==> r == c
    ensures r.over ==> c.over
    ensures r.body == c.body || r.body == start
    ensures r.score == c.score || r.score == 0
  {
    match e
    case Quit => c
    case OtherEvent => c
    case KeyPress(key) =>
      if key == Escape then c
      else
        var c1 :=
          if key == Space then (if c.over then c else c.(paused := !c.paused))
          else if key == KeyR && c.over then Controls(false, false, 0, 0, START_DELAY, start, RIGHT, RIGHT, false)
          else c;
        var d := KeyDirection(key);
        if !c1.over && !c1.paused && d.Some? && d.value != Opposite(c1.direction) then c1.(next := d.value) else c1
  }

  /** The events of one frame in order, up to the first that stops the game. */
  function EventsOf(c: Controls, es: seq<Event>, start: seq<Cell>): Controls
    decreases |es|
  {
    if es == [] || Stops(es[0]) then c else EventsOf(EventOf(c, es[0], start), es[1..], start)
  }

  /** Input alone never ends a game or moves the snake: after any events the
      game is over only if it was, and the body is the old one or the restart
      body. */
  lemma {:induction false} EventsNeverMove(c: Controls, es: seq<Event>, start: seq<Cell>)
    ensures EventsOf(c, es, start).over ==> c.over
    ensures EventsOf(c, es, start).body == c.body || EventsOf(c, es, start).body == start
    decreases |es|
  {
    if es != [] && !Stops(es[0]) {
      EventsNeverMove(EventOf(c, es[0], start), es[1..], start);
    }
  }

  const START_LENGTH := 3
  const START_DELAY := 8
  const MIN_DELAY := 3

  class SnakeGame {
    const gridWidth: int
    const gridHeight: int
    var snake: Snake
    var food: Food
    var score: int
    var gameOver: bool
    var paused: bool
    var moveTimer: int
    var moveDelay: int

    /** The score is a multiple of 10, the delay stays in [3, 8], the timer below
        the delay, and the food inside the grid and off the snake. */
    ghost predicate Valid()
      reads this, snake, food
    {
      snake.Valid() &&
      0 <= score && score % 10 == 0 &&
      MIN_DELAY <= moveDelay <= START_DELAY && 0 <= moveTimer < moveDelay &&
      InGrid(food.Position(), gridWidth, gridHeight) && food.Position() !in snake.body
    }

    /** The fields input events change, as one value. */
    ghost function State(): Controls
      reads this, snake
    {
      Controls(gameOver, paused, score, moveTimer, moveDelay,
               snake.body, snake.direction, snake.nextDirection, snake.shouldGrow)
    }

    /** The body the snake of a fresh game starts with. */
    function StartBody(): seq<Cell>
    {
      InitialBody(gridWidth / 2, gridHeight / 2, START_LENGTH)
    }

    /** On this frame the snake moves. */
    ghost predicate WillMove()
      reads this
    {
      !gameOver && !paused && moveTimer + 1 >= moveDelay
    }

    /** On this frame the snake moves onto the food. */
    ghost predicate WillEat()
      reads this, snake, food
      requires snake.Valid()
    {
      WillMove() && Step(snake.body[0], snake.nextDirection) == food.Position()
    }

    constructor (width: int, height: int, gridSize: int, draws: seq<Cell>)
      requires gridSize > 0
      requires Spawnable(draws, InitialBody((width / gridSize) / 2, (height / gridSize) / 2, START_LENGTH),
                         width / gridSize, height / gridSize)
      ensures Valid()
      ensures gridWidth == width / gridSize && gridHeight == height / gridSize
      ensures snake.body == StartBody() && score == 0 && !gameOver && !paused
      ensures moveTimer == 0 && moveDelay == START_DELAY
    {
      var gw := width / gridSize;
      var gh := height / gridSize;
      var s := new Snake(gw / 2, gh / 2, START_LENGTH);
      var f := new Food();
      f.Spawn(s.body, gw, gh, draws);
      gridWidth, gridHeight := gw, gh;
      snake, food := s, f;
      score := 0;
      gameOver := false;
      paused := false;
      moveTimer := 0;
      moveDelay := START_DELAY;
    }

    method Reset(draws: seq<Cell>)
      requires Spawnable(draws, StartBody(), gridWidth, gridHeight)
      modifies this
      ensures Valid() && fresh(snake) && fresh(food)
      ensures snake.body == StartBody() && snake.direction == RIGHT && snake.nextDirection == RIGHT && !snake.shouldGrow
      ensures score == 0 && !gameOver && !paused && moveTimer == 0 && moveDelay == START_DELAY
    {
      snake := new Snake(gridWidth / 2, gridHeight / 2, START_LENGTH);
      food := new Food();
      food.Spawn(snake.body, gridWidth, gridHeight, draws);
      score := 0;
      gameOver := false;
      paused := false;
      moveTimer := 0;
      moveDelay := START_DELAY;
    }

    /** One frame. `draws` are the random cells used if the food is eaten and
        respawns; they need a free cell only on a frame where that happens. */
    method Update(draws: seq<Cell>)
      requires Valid()
      requires WillEat() ==>
        Spawnable(draws, Advance(snake.body, snake.nextDirection, snake.shouldGrow), gridWidth, gridHeight)
      modifies this, snake, food
      ensures Valid()
      ensures snake == old(snake) && food == old(food) && paused == old(paused)
      ensures old(gameOver) || old(paused) ==> unchanged(this, snake, food)
      ensures !old(gameOver) && !old(paused) && !old(WillMove()) ==>
        moveTimer == old(moveTimer) + 1 && unchanged(snake, food) &&
        score == old(score) && moveDelay == old(moveDelay) && gameOver == old(gameOver)
      ensures old(WillMove()) ==>
        moveTimer == 0 &&
        snake.body == Advance(old(snake.body), old(snake.nextDirection), old(snake.shouldGrow)) &&
        snake.direction == old(snake.nextDirection) &&
        (gameOver <==> snake.SelfCollision() || snake.WallCollision(gridWidth, gridHeight))
      ensures old(WillEat()) ==>
        score == old(score) + 10 && snake.shouldGrow &&
        moveDelay == (if score % 50 == 0 && old(moveDelay) > MIN_DELAY then old(moveDelay) - 1 else old(moveDelay))
      ensures !old(WillEat()) ==>
        score == old(score) && moveDelay == old(moveDelay) && food.Position() == old(food.Position())
    {
      if gameOver || paused {
        return;
      }
      moveTimer := moveTimer + 1;
      if moveTimer >= moveDelay {
        moveTimer := 0;
        Move(draws);
      }
    }

    /** The part of a frame where the snake moves one cell: eating, growing,
        respawning the food, speeding up, and the collision tests. */
    method Move(draws: seq<Cell>)
      requires Valid() && moveTimer == 0
      requires Step(snake.body[0], snake.nextDirection) == food.Position() ==>
        Spawnable(draws, Advance(snake.body, snake.nextDirection, snake.shouldGrow), gridWidth, gridHeight)
      modifies this, snake, food
      ensures Valid()
      ensures snake == old(snake) && food == old(food) && paused == old(paused) && moveTimer == old(moveTimer)
      ensures snake.body == Advance(old(snake.body), old(snake.nextDirection), old(snake.shouldGrow))
      ensures snake.direction == old(snake.nextDirection)
      ensures gameOver <==> old(gameOver) || snake.SelfCollision() || snake.WallCollision(gridWidth, gridHeight)
      ensures var eats := Step(old(snake.body[0]), old(snake.nextDirection)) == old(food.Position());
        (eats ==>
          score == old(score) + 10 && snake.shouldGrow &&
          moveDelay == (if score % 50 == 0 && old(moveDelay) > MIN_DELAY then old(moveDelay) - 1 else old(moveDelay))) &&
        (!eats ==>
          score == old(score) && moveDelay == old(moveDelay) && food.Position() == old(food.Position()))
    {
      ghost var oldFood := food.Position();
      ghost var oldBody := snake.body;
      ghost var dir := snake.nextDirection;
      ghost var grow := snake.shouldGrow;
      snake.Update();
      if snake.Head() == food.Position() {
        snake.Grow();
        score := score + 10;
        food.Spawn(snake.body, gridWidth, gridHeight, draws);
        if score % 50 == 0 && moveDelay > MIN_DELAY {
          moveDelay := moveDelay - 1;
        }
      } else {
        AdvanceCells(oldBody, dir, grow, oldFood);
      }
      if snake.SelfCollision() || snake.WallCollision(gridWidth, gridHeight) {
        gameOver := true;
      }
    }

    /** One input event; returns false when the game should stop. `draws` are
        the random cells for the food if the event restarts the game. */
    method HandleEvent(e: Event, draws: seq<Cell>) returns (running: bool)
      requires Valid()
      requires Spawnable(draws, StartBody(), gridWidth, gridHeight)
      modifies this, snake
      ensures Valid() && (snake == old(snake) || fresh(snake))
      ensures running <==> !(e == Quit || e == KeyPress(Escape))
      ensures !running ==> unchanged(this, old(snake))
      ensures e == KeyPress(Space) ==>
        paused == (if old(gameOver) then old(paused) else !old(paused)) &&
        gameOver == old(gameOver) && unchanged(old(snake)) && score == old(score)
      ensures e == KeyPress(KeyR) && old(gameOver) ==>
        fresh(snake) && score == 0 && !gameOver && !paused && moveDelay == START_DELAY &&
        |snake.body| == START_LENGTH
      ensures e == KeyPress(KeyR) && !old(gameOver) ==> unchanged(this, old(snake))
      ensures e.KeyPress? && KeyDirection(e.key).Some? ==>
        gameOver == old(gameOver) && paused == old(paused) && snake == old(snake) &&
        snake.body == old(snake.body) && snake.direction == old(snake.direction) &&
        (if !old(gameOver) && !old(paused) && KeyDirection(e.key).value != Opposite(old(snake.direction))
         then snake.nextDirection == KeyDirection(e.key).value
         else snake.nextDirection == old(snake.nextDirection))
      ensures e == OtherEvent || e == KeyPress(OtherKey) ==> unchanged(this, old(snake))
      ensures State() == EventOf(old(State()), e, StartBody())
    {
      match e
      case Quit => return false;
      case OtherEvent => return true;
      case KeyPress(key) =>
        if key == Escape {
          return false;
        } else if key == Space {
          if !gameOver {
            paused := !paused;
          }
        } else if key == KeyR {
          if gameOver {
            Reset(draws);
          }
        }
        var d := KeyDirection(key);
        if !gameOver && !paused && d.Some? {
          snake.ChangeDirection(d.value);
        }
        return true;
    }

    /** A batch of events, as `handle_input` reads them in one frame. It stops at
        the first quit or Escape. */
    method HandleInput(events: seq<Event>, resetDraws: seq<seq<Cell>>) returns (running: bool)
      requires Valid()
      requires |resetDraws| == |events|
      requires forall i :: 0 <= i < |events| ==> Spawnable(resetDraws[i], StartBody(), gridWidth, gridHeight)
      modifies this, snake
      ensures Valid()
      ensures running <==> forall i :: 0 <= i < |events| ==> !Stops(events[i])
      ensures State() == EventsOf(old(State()), events, StartBody())
    {
      var i := 0;
      while i < |events|
        invariant 0 <= i <= |events|
        invariant Valid()
        invariant snake == old(snake) || fresh(snake)
        invariant forall j :: 0 <= j < i ==> !Stops(events[j])
        invariant EventsOf(old(State()), events, StartBody()) == EventsOf(State(), events[i..], StartBody())
      {
        assert events[i..][1..] == events[i + 1..];
        var r := HandleEvent(events[i], resetDraws[i]);
        if !r {
          return false;
        }
        i := i + 1;
      }
      return true;
    }
  }
}

=== FILE: space_shooter.dfy ===
/** The space shooter: a ship that moves along the bottom edge and fires
    bullets upward at enemies that fall from the top. Stars, drawing and the
    type-2 enemy's sine sway (a parameter here) are not modelled. */
module SpaceShooter {
  import opened Geometry
  import opened Lists
  import opened Score
  import opened Options

  const PLAYER_WIDTH := 50
  const PLAYER_HEIGHT := 40
  const PLAYER_SPEED := 7
  const BULLET_WIDTH := 4
  const BULLET_HEIGHT := 15
  const BULLET_SPEED := 12
  const ENEMY_WIDTH := 40
  const ENEMY_HEIGHT := 35
  const SHOOT_DELAY := 10
  const START_INTERVAL := 60
  const MIN_INTERVAL := 20

  /** Held controls: `left` is the left arrow or A, `right` the right arrow or D,
      `fire` the space bar. */
  datatype Keys = Keys(left: bool, right: bool, fire: bool)

  class Player {
    var x: int
    const y: int
    const width: int
    const height: int
    const speed: int

    constructor (x0: int, y0: int, w: int, h: int, s: int)
      ensures x == x0 && y == y0 && width == w && height == h && speed == s
    {
      x, y, width, height, speed := x0, y0, w, h, s;
    }

    /** The horizontal velocity for the held keys: right overrides left. */
    function HandleInput(keys: Keys): (v: int)
      ensures v == speed || v == -speed || v == 0
      ensures keys.right ==> v == speed
      ensures !keys.right ==> (v == -speed <==> keys.left) || speed == 0
      ensures !keys.left && !keys.right ==> v == 0
    {
      var v := if keys.left then -speed else 0;
      if keys.right then speed else v
    }

    /** Moves by the velocity, then pushes the ship back inside the screen. */
    method Update(velocity: int, screenWidth: int)
      modifies this
      ensures x == KeepInside(old(x) + velocity, width, screenWidth)
      ensures 0 <= width <= screenWidth ==> 0 <= x <= screenWidth - width
      ensures 0 <= old(x) + velocity && old(x) + velocity + width <= screenWidth ==> x == old(x) + velocity
    {
      x := x + velocity;
      if x < 0 {
        x := 0;
      } else if x + width > screenWidth {
        x := screenWidth - width;
      }
    }

    function GetRect(): Rect
      reads this
    {
      Rect(x, y, width, height)
    }

    /** Where bullets leave the ship: the middle of its top edge. */
    function GunPosition(): (int, int)
      reads this
    {
      (x + width / 2, y)
    }
  }

  datatype Bullet = Bullet(x: int, y: int, speed: int, active: bool)
  {
    function Update(): (b: Bullet)
      ensures b.y == y - speed && b.x == x && b.speed == speed && b.active == active
    {
      this.(y := y - speed)
    }

    predicate IsOffScreen() { y < 0 }

    function GetRect(): Rect
    {
      Rect(x - BULLET_WIDTH / 2, y, BULLET_WIDTH, BULLET_HEIGHT)
    }
  }

  /** An enemy; `kind` is the random type 1, 2 or 3 (type 2 sways sideways). */
  datatype Enemy = Enemy(x: real, y: real, speed: real, kind: int, active: bool)
  {
    /** Falls by its speed; a type-2 enemy also shifts by `sway` of its new
        height, which stands for `sin(y * 0.05) * 2`. */
    function Update(sway: real -> real): (e: Enemy)
      ensures e.y == y + speed && e.speed == speed && e.kind == kind && e.active == active
      ensures kind != 2 ==> e.x == x
    {
      var y1 := y + speed;
      this.(y := y1, x := if kind == 2 then x + sway(y1) else x)
    }

    predicate IsOffScreen(height: int) { y > height as real }

    function GetRect(): Rect
    {
      RectOf(x, y, ENEMY_WIDTH as real, ENEMY_HEIGHT as real)
    }
  }

  datatype Explosion = Explosion(x: real, y: real, radius: int, maxRadius: int, active: bool)
  {
    /** Grows by 3 and goes out once it reaches its maximum radius. */
    function Update(): (e: Explosion)
      ensures e.radius == radius + 3 && e.maxRadius == maxRadius && e.x == x && e.y == y
      ensures e.active <==> active && e.radius < maxRadius
    {
      var r := radius + 3;
      this.(radius := r, active := if r >= maxRadius then false else active)
    }
  }

  predicate IsActiveBullet(b: Bullet) { b.active }
  predicate IsOnScreen(b: Bullet) { !b.IsOffScreen() }
  predicate IsAboveBottom(b: Bullet) { b.y >= 0 }
  predicate IsActiveEnemy(e: Enemy) { e.active }
  predicate IsActiveExplosion(e: Explosion) { e.active }

  /** `bullet.update()` for every bullet of the list. */
  function MoveBullets(bs: seq<Bullet>): (r: seq<Bullet>)
    ensures |r| == |bs|
    ensures forall k :: 0 <= k < |bs| ==>
      r[k] == bs[k].(y := bs[k].y - bs[k].speed)
  {
    seq(|bs|, k requires 0 <= k < |bs| => bs[k].Update())
  }

  /** `enemy.update()` for every enemy of the list. */
  function MoveEnemies(es: seq<Enemy>, sway: real -> real): (r: seq<Enemy>)
    ensures |r| == |es|
    ensures forall k :: 0 <= k < |es| ==>
      r[k].y == es[k].y + es[k].speed && r[k].speed == es[k].speed &&
      r[k].kind == es[k].kind && r[k].active == es[k].active &&
      (es[k].kind != 2 ==> r[k].x == es[k].x)
  {
    seq(|es|, k requires 0 <= k < |es| => es[k].Update(sway))
  }

  /** `explosion.update()` for every explosion of the list. */
  function GrowExplosions(xs: seq<Explosion>): (r: seq<Explosion>)
    ensures |r| == |xs|
    ensures forall k :: 0 <= k < |xs| ==>
      r[k].radius == xs[k].radius + 3 && r[k].maxRadius == xs[k].maxRadius &&
      r[k].x == xs[k].x && r[k].y == xs[k].y &&
      (r[k].active <==> xs[k].active && r[k].radius < r[k].maxRadius)
  {
    seq(|xs|, k requires 0 <= k < |xs| => xs[k].Update())
  }

  /** A new enemy above the top edge; `x` is the `randint` draw and `r` the
      `random()` draw. */
  function NewEnemy(x: int, difficulty: real, r: real, kind: int): (e: Enemy)
    requires 0.0 <= r < 1.0
    ensures e.x == x as real && e.y == -40.0 && e.active && e.kind == kind
    ensures 2.0 + difficulty * 0.5 <= e.speed < 3.0 + difficulty * 0.5
  {
    Enemy(x as real, -40.0, 2.0 + difficulty * 0.5 + r, kind, true)
  }

  /** The explosion left where an enemy was hit, at the enemy's centre. */
  function HitExplosion(e: Enemy): Explosion
  {
    Explosion(e.x + (ENEMY_WIDTH / 2) as real, e.y + (ENEMY_HEIGHT / 2) as real, 5, 30, true)
  }

  /** An active bullet overlapping an active enemy. */
  predicate Hits(b: Bullet, e: Enemy)
  {
    b.active && e.active && CollideRect(b.GetRect(), e.GetRect())
  }

  /** Same object, perhaps switched off, never switched on. */
  predicate BulletAfter(b: Bullet, b0: Bullet) { b == b0.(active := b.active) && (b.active ==> b0.active) }
  predicate EnemyAfter(e: Enemy, e0: Enemy) { e == e0.(active := e.active) && (e.active ==> e0.active) }

  /** The first enemy from index `j` on that the bullet hits, if there is one. */
  function FirstHit(b: Bullet, es: seq<Enemy>, j: nat): (r: Option<nat>)
    requires j <= |es|
    ensures r.None? <==> forall k :: j <= k < |es| ==> !Hits(b, es[k])
    ensures r.Some? ==> j <= r.value < |es| && Hits(b, es[r.value]) &&
                        forall k :: j <= k < r.value ==> !Hits(b, es[k])
    decreases |es| - j
  {
    if j == |es| then None
    else if Hits(b, es[j]) then Some(j)
    else FirstHit(b, es, j + 1)
  }

  /** One bullet against the enemy list: the first active enemy it overlaps is
      switched off together with the bullet and leaves an explosion at its
      centre, so a bullet makes at most one hit and afterwards overlaps no
      active enemy. */
  function BulletStep(b: Bullet, es: seq<Enemy>): (r: (Bullet, seq<Enemy>, seq<Explosion>))
    ensures BulletAfter(r.0, b) && |r.1| == |es|
    ensures forall k :: 0 <= k < |es| ==> EnemyAfter(r.1[k], es[k])
    ensures |r.2| == (if b.active then 1 else 0) - (if r.0.active then 1 else 0)
    ensures |r.2| == Count(es, IsActiveEnemy) - Count(r.1, IsActiveEnemy)
    ensures r.2 == [] <==> forall k :: 0 <= k < |es| ==> !Hits(b, es[k])
    ensures forall k :: 0 <= k < |es| ==> !Hits(r.0, r.1[k])
    ensures forall k :: 0 <= k < |r.2| ==> r.2[k].active && r.2[k].radius == 5 && r.2[k].maxRadius == 30
  {
    match FirstHit(b, es, 0)
    case None => (b, es, [])
    case Some(j) =>
      CountUpdate(es, j, es[j].(active := false), IsActiveEnemy);
      (b.(active := false), es[j := es[j].(active := false)], [HitExplosion(es[j])])
  }

  /** Every bullet against every enemy, in list order, each bullet meeting the
      enemies the earlier bullets left. Each hit uses up one bullet and one
      enemy and leaves one explosion (the game adds 10 points per explosion);
      afterwards no active bullet still overlaps an active enemy. */
  function Resolve(bullets: seq<Bullet>, es: seq<Enemy>): (r: (seq<Bullet>, seq<Enemy>, seq<Explosion>))
    ensures |r.0| == |bullets| && |r.1| == |es|
    ensures forall k :: 0 <= k < |bullets| ==> BulletAfter(r.0[k], bullets[k])
    ensures forall k :: 0 <= k < |es| ==> EnemyAfter(r.1[k], es[k])
    ensures |r.2| == Count(bullets, IsActiveBullet) - Count(r.0, IsActiveBullet)
    ensures |r.2| == Count(es, IsActiveEnemy) - Count(r.1, IsActiveEnemy)
    ensures forall a, j :: 0 <= a < |bullets| && 0 <= j < |es| ==> !Hits(r.0[a], r.1[j])
    ensures forall k :: 0 <= k < |r.2| ==> r.2[k].active && r.2[k].radius == 5 && r.2[k].maxRadius == 30
    decreases |bullets|
  {
    if bullets == [] then ([], es, [])
    else
      var n := |bullets| - 1;
      var prev := Resolve(bullets[..n], es);
      var step := BulletStep(bullets[n], prev.1);
      assert bullets[..n] + [bullets[n]] == bullets;
      CountAppend(bullets[..n], bullets[n], IsActiveBullet);
      CountAppend(prev.0, step.0, IsActiveBullet);
      ResolveStepKeepsApart(prev.0, step.0, prev.1, step.1);
      ResolveStepShape(bullets, prev.0, step.0, prev.2, step.2);
      (prev.0 + [step.0], step.1, prev.2 + step.2)
  }

  /** Switching enemies off cannot make an earlier bullet hit one, and the
      new bullet hits none of the enemies it leaves. */
  lemma ResolveStepKeepsApart(bs: seq<Bullet>, b: Bullet, es1: seq<Enemy>, es2: seq<Enemy>)
    requires |es2| == |es1|
    requires forall a, j :: 0 <= a < |bs| && 0 <= j < |es1| ==> !Hits(bs[a], es1[j])
    requires forall k :: 0 <= k < |es1| ==> EnemyAfter(es2[k], es1[k])
    requires forall k :: 0 <= k < |es2| ==> !Hits(b, es2[k])
    ensures forall a, j :: 0 <= a < |bs| + 1 && 0 <= j < |es2| ==> !Hits((bs + [b])[a], es2[j])
  {
    forall a, j | 0 <= a < |bs| + 1 && 0 <= j < |es2| ensures !Hits((bs + [b])[a], es2[j]) {
      if a < |bs| {
        assert !Hits(bs[a], es1[j]);
      }
    }
  }

  /** One more bullet keeps the bullets' identities and the explosions' shape. */
  lemma ResolveStepShape(bullets: seq<Bullet>, bs: seq<Bullet>, b: Bullet,
                         booms: seq<Explosion>, hit: seq<Explosion>)
    requires |bullets| == |bs| + 1
    requires forall k :: 0 <= k < |bs| ==> BulletAfter(bs[k], bullets[k])
    requires BulletAfter(b, bullets[|bs|])
    requires forall k :: 0 <= k < |booms| ==> booms[k].active && booms[k].radius == 5 && booms[k].maxRadius == 30
    requires forall k :: 0 <= k < |hit| ==> hit[k].active && hit[k].radius == 5 && hit[k].maxRadius == 30
    ensures forall k :: 0 <= k < |bullets| ==> BulletAfter((bs + [b])[k], bullets[k])
    ensures forall k :: 0 <= k < |booms + hit| ==>
      (booms + hit)[k].active && (booms + hit)[k].radius == 5 && (booms + hit)[k].maxRadius == 30
  {
  }

  /** `Resolve` of one more bullet: the last bullet meets the enemies the
      earlier ones left. */
  lemma ResolveSnoc(bullets: seq<Bullet>, i: nat, es: seq<Enemy>)
    requires i < |bullets|
    ensures var prev := Resolve(bullets[..i], es);
      var step := BulletStep(bullets[i], prev.1);
      Resolve(bullets[..i + 1], es) == (prev.0 + [step.0], step.1, prev.2 + step.2)
  {
    assert bullets[..i + 1][..i] == bullets[..i];
  }

  /** The loop of `update` over bullets and enemies, computing `Resolve`. */
  method ResolveHits(bullets: seq<Bullet>, enemies: seq<Enemy>)
    returns (bs: seq<Bullet>, es: seq<Enemy>, booms: seq<Explosion>)
    ensures (bs, es, booms) == Resolve(bullets, enemies)
  {
    var done: seq<Bullet> := [];
    es, booms := enemies, [];
    for i := 0 to |bullets|
      invariant (done, es, booms) == Resolve(bullets[..i], enemies)
    {
      ResolveSnoc(bullets, i, enemies);
      var b, es1, hit := BulletHits(bullets[i], es);
      done, es, booms := done + [b], es1, booms + hit;
    }
    assert bullets[..|bullets|] == bullets;
    bs := done;
  }

  /** The inner loop of `update` for one bullet, computing `BulletStep`. */
  method BulletHits(bullet: Bullet, enemies: seq<Enemy>)
    returns (b: Bullet, es: seq<Enemy>, booms: seq<Explosion>)
    ensures (b, es, booms) == BulletStep(bullet, enemies)
  {
    b, es, booms := bullet, enemies, [];
    var j := 0;
    while j < |es|
      invariant 0 <= j <= |es| == |enemies|
      invariant b.active ==> b == bullet && es == enemies && booms == []
      invariant b.active ==> forall k :: 0 <= k < j ==> !Hits(bullet, enemies[k])
      invariant !b.active ==> (b, es, booms) == BulletStep(bullet, enemies)
    {
      if b.active && es[j].active && CollideRect(b.GetRect(), es[j].GetRect()) {
        assert Hits(bullet, enemies[j]);
        assert FirstHit(bullet, enemies, 0) == Some(j);
        assert booms + [HitExplosion(es[j])] == [HitExplosion(enemies[j])];
        booms := booms + [HitExplosion(es[j])];
        b := b.(active := false);
        es := es[j := es[j].(active := false)];
        assert (b, es, booms) == BulletStep(bullet, enemies);
      }
      j := j + 1;
    }
  }

  /** Every enemy below the bottom edge is switched off; nothing else changes. */
  function Breach(es: seq<Enemy>, height: int): (r: seq<Enemy>)
    ensures |r| == |es|
    ensures forall k :: 0 <= k < |es| ==>
      EnemyAfter(r[k], es[k]) && (r[k].active <==> es[k].active && !es[k].IsOffScreen(height))
  {
    seq(|es|, k requires 0 <= k < |es| => es[k].(active := es[k].active && !es[k].IsOffScreen(height)))
  }

  /** Some enemy is below the bottom edge. */
  predicate Breached(es: seq<Enemy>, height: int)
  {
    exists k :: 0 <= k < |es| && es[k].IsOffScreen(height)
  }

  /** The loop of `update` that ends the game on an enemy past the bottom edge
      and switches that enemy off. */
  method CheckBreaches(enemies: seq<Enemy>, height: int) returns (es: seq<Enemy>, breached: bool)
    ensures es == Breach(enemies, height)
    ensures breached <==> Breached(enemies, height)
  {
    es, breached := enemies, false;
    var i := 0;
    while i < |es|
      invariant 0 <= i <= |es| == |enemies|
      invariant forall k :: 0 <= k < i ==> es[k] == Breach(enemies, height)[k]
      invariant forall k :: i <= k < |es| ==> es[k] == enemies[k]
      invariant breached <==> exists k :: 0 <= k < i && enemies[k].IsOffScreen(height)
    {
      if es[i].IsOffScreen(height) {
        breached := true;
        es := es[i := es[i].(active := false)];
      }
      i := i + 1;
    }
  }

  /** An active enemy overlaps the ship. */
  predicate Touched(ship: Rect, es: seq<Enemy>)
  {
    exists k :: 0 <= k < |es| && es[k].active && CollideRect(ship, es[k].GetRect())
  }

  /** The explosion of radius up to 50 left at the ship's centre. */
  function ShipBoom(ship: Rect): Explosion
  {
    Explosion((ship.x + ship.w / 2) as real, (ship.y + ship.h / 2) as real, 5, 50, true)
  }

  /** One ship explosion for each active enemy touching the ship; none exactly
      when no active enemy touches it. */
  function ShipBooms(ship: Rect, es: seq<Enemy>): (r: seq<Explosion>)
    ensures |r| <= |es|
    ensures r == [] <==> !Touched(ship, es)
    ensures forall k :: 0 <= k < |r| ==> r[k] == ShipBoom(ship)
    decreases |es|
  {
    if es == [] then []
    else
      var n := |es| - 1;
      var prev := ShipBooms(ship, es[..n]);
      assert Touched(ship, es) <==> Touched(ship, es[..n]) || (es[n].active && CollideRect(ship, es[n].GetRect())) by {
        if Touched(ship, es[..n]) {
          var k :| 0 <= k < n && es[..n][k].active && CollideRect(ship, es[..n][k].GetRect());
          assert es[k] == es[..n][k];
        }
        if Touched(ship, es) && !(es[n].active && CollideRect(ship, es[n].GetRect())) {
          var k :| 0 <= k < |es| && es[k].active && CollideRect(ship, es[k].GetRect());
          assert es[..n][k] == es[k];
        }
      }
      prev + (if es[n].active && CollideRect(ship, es[n].GetRect()) then [ShipBoom(ship)] else [])
  }

  /** The loop of `update` testing the ship against every active enemy: each
      overlap means game over and adds an explosion at the ship's centre. */
  method PlayerHits(ship: Rect, enemies: seq<Enemy>) returns (hit: bool, booms: seq<Explosion>)
    ensures hit <==> Touched(ship, enemies)
    ensures booms == ShipBooms(ship, enemies)
  {
    hit, booms := false, [];
    var i := 0;
    while i < |enemies|
      invariant 0 <= i <= |enemies|
      invariant booms == ShipBooms(ship, enemies[..i])
      invariant hit <==> booms != []
    {
      assert enemies[..i + 1][..i] == enemies[..i];
      if enemies[i].active && CollideRect(ship, enemies[i].GetRect()) {
        hit := true;
        booms := booms + [ShipBoom(ship)];
      }
      i := i + 1;
    }
    assert enemies[..i] == enemies;
  }

  /** What the rest of a frame leaves: the surviving lists, the number of
      bullet hits (10 points each) and whether the game is over. */
  datatype Outcome = Outcome(bullets: seq<Bullet>, enemies: seq<Enemy>, explosions: seq<Explosion>,
                             hits: nat, over: bool)

  /** The rest of a frame: enemies fall; one past the bottom edge ends the
      game and is switched off; bullets and enemies that meet are both
      destroyed; an active enemy still touching the ship ends the game;
      explosions grow; destroyed objects and spent explosions are removed. */
  function CombatOf(bullets: seq<Bullet>, enemies: seq<Enemy>, explosions: seq<Explosion>,
                    ship: Rect, height: int, sway: real -> real): (o: Outcome)
    ensures var hit := Resolve(bullets, Breach(MoveEnemies(enemies, sway), height));
      o.over <==> Breached(MoveEnemies(enemies, sway), height) || Touched(ship, hit.1)
    ensures o.hits == Count(bullets, IsActiveBullet) - |o.bullets|
    ensures o.hits + |o.enemies| == Count(Breach(MoveEnemies(enemies, sway), height), IsActiveEnemy)
    ensures forall x :: x in o.bullets ==> x.active && x in bullets
    ensures forall e :: e in o.enemies ==> e.active && e in MoveEnemies(enemies, sway) && !e.IsOffScreen(height)
    ensures forall e :: e in o.explosions ==> e.active
    ensures forall x, e :: x in o.bullets && e in o.enemies ==> !CollideRect(x.GetRect(), e.GetRect())
  {
    var moved := MoveEnemies(enemies, sway);
    var hit := Resolve(bullets, Breach(moved, height));
    CombatSurvivors(bullets, moved, height, hit.0, hit.1);
    var xs := Filter(GrowExplosions(explosions + hit.2 + ShipBooms(ship, hit.1)), IsActiveExplosion);
    FilterMembers(GrowExplosions(explosions + hit.2 + ShipBooms(ship, hit.1)), IsActiveExplosion);
    Outcome(Filter(hit.0, IsActiveBullet), Filter(hit.1, IsActiveEnemy), xs,
            |hit.2|, Breached(MoveEnemies(enemies, sway), height) || Touched(ship, hit.1))
  }

  /** What survives the hits: untouched active bullets, active on-screen moved
      enemies, and no survivor of one list overlapping a survivor of the other. */
  lemma CombatSurvivors(bullets: seq<Bullet>, moved: seq<Enemy>, height: int,
                        hb: seq<Bullet>, he: seq<Enemy>)
    requires |hb| == |bullets| && |he| == |moved|
    requires forall k :: 0 <= k < |bullets| ==> BulletAfter(hb[k], bullets[k])
    requires forall k :: 0 <= k < |moved| ==> EnemyAfter(he[k], Breach(moved, height)[k])
    requires forall a, j :: 0 <= a < |hb| && 0 <= j < |he| ==> !Hits(hb[a], he[j])
    ensures forall x :: x in Filter(hb, IsActiveBullet) ==> x.active && x in bullets
    ensures forall e :: e in Filter(he, IsActiveEnemy) ==> e.active && e in moved && !e.IsOffScreen(height)
    ensures forall x, e :: x in Filter(hb, IsActiveBullet) && e in Filter(he, IsActiveEnemy) ==>
      !CollideRect(x.GetRect(), e.GetRect())
  {
    FilterMembers(hb, IsActiveBullet);
    FilterMembers(he, IsActiveEnemy);
    forall x | x in Filter(hb, IsActiveBullet) ensures x in bullets {
      var k :| 0 <= k < |hb| && hb[k] == x;
      assert x == bullets[k];
    }
    forall e | e in Filter(he, IsActiveEnemy) ensures e in moved && !e.IsOffScreen(height) {
      var k :| 0 <= k < |he| && he[k] == e;
      assert e == moved[k];
    }
    forall x, e | x in Filter(hb, IsActiveBullet) && e in Filter(he, IsActiveEnemy)
      ensures !CollideRect(x.GetRect(), e.GetRect())
    {
      var a :| 0 <= a < |hb| && hb[a] == x;
      var j :| 0 <= j < |he| && he[j] == e;
      assert !Hits(hb[a], he[j]);
    }
  }

  /** The rest of a frame on the game's lists, computing `CombatOf`. */
  method Combat(bullets: seq<Bullet>, enemies: seq<Enemy>, explosions: seq<Explosion>,
                ship: Rect, height: int, sway: real -> real)
    returns (bs: seq<Bullet>, es: seq<Enemy>, xs: seq<Explosion>, hits: nat, over: bool)
    ensures Outcome(bs, es, xs, hits, over) == CombatOf(bullets, enemies, explosions, ship, height, sway)
  {
    var moved := MoveEnemies(enemies, sway);
    var breached;
    moved, breached := CheckBreaches(moved, height);
    var hitBullets, hitEnemies, booms := ResolveHits(bullets, moved);
    var hit, shipBooms := PlayerHits(ship, hitEnemies);
    over := breached || hit;
    hits := |booms|;
    bs := Filter(hitBullets, IsActiveBullet);
    es := Filter(hitEnemies, IsActiveEnemy);
    xs := Filter(GrowExplosions(explosions + booms + shipBooms), IsActiveExplosion);
  }

  /** Bullets taken from a list of active bullets at or below the top edge are
      active and at or below the top edge too. */
  lemma SurvivorsStayValid(kept: seq<Bullet>, bullets: seq<Bullet>)
    requires forall x :: x in kept ==> x in bullets
    requires forall k :: 0 <= k < |bullets| ==> bullets[k].active && bullets[k].y >= 0
    ensures forall k :: 0 <= k < |kept| ==> kept[k].active && kept[k].y >= 0
  {
    forall k | 0 <= k < |kept| ensures kept[k].active && kept[k].y >= 0 {
      assert kept[k] in bullets;
    }
  }

  /** Active bullets that rise and are dropped once above the top edge leave
      only active bullets at or below the top edge. */
  lemma Fly(bullets: seq<Bullet>)
    ensures (forall k :: 0 <= k < |bullets| ==> bullets[k].active) ==>
      forall k :: 0 <= k < |Filter(MoveBullets(bullets), IsOnScreen)| ==>
        Filter(MoveBullets(bullets), IsOnScreen)[k].active && Filter(MoveBullets(bullets), IsOnScreen)[k].y >= 0
  {
    if forall k :: 0 <= k < |bullets| ==> bullets[k].active {
      var moved := MoveBullets(bullets);
      assert forall k :: 0 <= k < |moved| ==> IsActiveBullet(moved[k]);
      FilterKeeps(moved, IsOnScreen, IsActiveBullet);
    }
  }

  /** The bullet leaving the gun when a shot is fired, else none. */
  function Shot(fired: bool, gun: (int, int)): seq<Bullet>
  {
    if fired then [Bullet(gun.0, gun.1, BULLET_SPEED, true)] else []
  }

  /** The shot cooldown after a frame: a shot sets it to the delay, and it then
      counts down by one while positive, so it never goes negative. */
  function Cooldown(fire: bool, cooldown: int): (r: int)
    ensures cooldown >= 0 ==> 0 <= r && (r <= cooldown || r == SHOOT_DELAY - 1)
    ensures fire && cooldown <= 0 ==> r == SHOOT_DELAY - 1
    ensures !(fire && cooldown <= 0) ==> r == (if cooldown > 0 then cooldown - 1 else cooldown)
  {
    var c := if fire && cooldown <= 0 then SHOOT_DELAY else cooldown;
    if c > 0 then c - 1 else c
  }

  /** The spawn timer, interval and difficulty after one frame, given the
      number of enemies before it: when the timer reaches the interval an enemy
      spawns and the timer restarts at 0, and when that spawn makes the count a
      multiple of 10 the game gets harder. */
  function NextSpawn(timer: int, interval: int, difficulty: real, count: nat): (r: (int, int, real))
    ensures timer + 1 < interval ==> r == (timer + 1, interval, difficulty)
    ensures timer + 1 >= interval ==> r.0 == 0
    ensures MIN_INTERVAL <= interval && interval % 2 == 0 ==> MIN_INTERVAL <= r.1 <= interval && r.1 % 2 == 0
    ensures difficulty <= r.2 <= difficulty + 0.2
    ensures r.2 > difficulty <==> timer + 1 >= interval && (count + 1) % 10 == 0
  {
    if timer + 1 < interval then (timer + 1, interval, difficulty)
    else if (count + 1) % 10 == 0 then
      assert LowerInterval(interval, 1) == LowerInterval(if interval > MIN_INTERVAL then interval - 2 else interval, 0);
      (0, LowerInterval(interval, 1), difficulty + 0.2)
    else (0, interval, difficulty)
  }

  /** The fields of a game that a frame changes, as one value: the ship's
      column, the three lists, the score, game over, the shot cooldown and the
      spawn timer, interval and difficulty. */
  datatype Snapshot = Snapshot(x: int, bullets: seq<Bullet>, enemies: seq<Enemy>, explosions: seq<Explosion>,
                               score: int, over: bool, cooldown: int,
                               timer: int, interval: int, difficulty: real)

  /** The ship's part of a frame on values: the ship moves by `velocity` and
      is kept inside the screen, fires from its new gun position (row `y`)
      when `fire` is held and the cooldown has run out, the cooldown counts
      down, bullets fly and those above the top edge are dropped. Nothing else
      changes. */
  function ShipOf(s: Snapshot, velocity: int, fire: bool, width: int, y: int): (r: Snapshot)
    ensures PLAYER_WIDTH <= width ==> 0 <= r.x <= width - PLAYER_WIDTH
    ensures (forall k :: 0 <= k < |s.bullets| ==> s.bullets[k].active) ==>
      forall k :: 0 <= k < |r.bullets| ==> r.bullets[k].active && r.bullets[k].y >= 0
    ensures r == s.(x := r.x, bullets := r.bullets, cooldown := r.cooldown)
  {
    var x := KeepInside(s.x + velocity, PLAYER_WIDTH, width);
    var fired := s.bullets + Shot(fire && s.cooldown <= 0, (x + PLAYER_WIDTH / 2, y));
    Fly(fired);
    s.(x := x, bullets := Filter(MoveBullets(fired), IsOnScreen), cooldown := Cooldown(fire, s.cooldown))
  }

  /** The spawn timer's part of a frame on values: `NextSpawn`, appending the
      drawn enemy exactly when the timer reaches the interval. Nothing else
      changes. */
  function SpawnOf(s: Snapshot, spawnX: int, spawnRandom: real, spawnKind: int): (r: Snapshot)
    requires 0.0 <= spawnRandom < 1.0
    ensures s.timer + 1 < s.interval ==> r == s.(timer := s.timer + 1)
    ensures s.timer + 1 >= s.interval ==>
      r.timer == 0 && r.enemies == s.enemies + [NewEnemy(spawnX, s.difficulty, spawnRandom, spawnKind)]
    ensures r == s.(enemies := r.enemies, timer := r.timer, interval := r.interval, difficulty := r.difficulty)
  {
    var next := NextSpawn(s.timer, s.interval, s.difficulty, |s.enemies|);
    s.(enemies := s.enemies + (if s.timer + 1 >= s.interval
                               then [NewEnemy(spawnX, s.difficulty, spawnRandom, spawnKind)] else []),
       timer := next.0, interval := next.1, difficulty := next.2)
  }

  /** The rest of a frame on values: `CombatOf` against the ship at column
      `s.x`, row `y`; the score gains 10 per hit and game over is never
      undone. */
  function CombatStepOf(s: Snapshot, y: int, height: int, sway: real -> real): Snapshot
  {
    var o := CombatOf(s.bullets, s.enemies, s.explosions, Rect(s.x, y, PLAYER_WIDTH, PLAYER_HEIGHT), height, sway);
    s.(bullets := o.bullets, enemies := o.enemies, explosions := o.explosions,
       score := s.score + 10 * o.hits, over := s.over || o.over)
  }

  datatype Key = Escape | KeyR | OtherKey
  datatype Event = Quit | KeyPress(key: Key) | OtherEvent

  class SpaceShooterGame {
    const width: int
    const height: int
    var player: Player
    var bullets: seq<Bullet>
    var enemies: seq<Enemy>
    var explosions: seq<Explosion>
    var score: int
    var gameOver: bool
    var shootCooldown: int
    var shootDelay: int
    var enemyTimer: int
    var enemyInterval: int
    var difficulty: real

    /** The ship is on screen, the score a multiple of 10, the cooldown within
        the shot delay, the spawn interval between its floor 20 and its start
        60, the difficulty at least 1, and everything in the lists active. */
    ghost predicate Valid()
      reads this, player
    {
      PLAYER_WIDTH <= width &&
      player.width == PLAYER_WIDTH && player.height == PLAYER_HEIGHT && player.speed == PLAYER_SPEED &&
      0 <= player.x <= width - PLAYER_WIDTH &&
      0 <= score && score % 10 == 0 &&
      shootDelay == SHOOT_DELAY && 0 <= shootCooldown <= shootDelay &&
      SpawnValid() &&
      (forall k :: 0 <= k < |bullets| ==> bullets[k].active && bullets[k].y >= 0) &&
      (forall k :: 0 <= k < |enemies| ==> enemies[k].active) &&
      (forall k :: 0 <= k < |explosions| ==> explosions[k].active)
    }

    /** The spawn interval lies between its floor 20 and its start 60, the timer
        below it, and the difficulty is at least 1. */
    ghost predicate SpawnValid()
      reads this
    {
      MIN_INTERVAL <= enemyInterval <= START_INTERVAL && enemyInterval % 2 == 0 &&
      0 <= enemyTimer < enemyInterval &&
      difficulty >= 1.0
    }

    /** The fields a frame changes, as one value. */
    ghost function State(): Snapshot
      reads this, player
    {
      Snapshot(player.x, bullets, enemies, explosions, score, gameOver,
               shootCooldown, enemyTimer, enemyInterval, difficulty)
    }

    /** The state `reset_game` sets up. */
    ghost predicate Fresh()
      reads this, player
    {
      player.x == width / 2 - PLAYER_WIDTH / 2 && player.y == height - 60 &&
      bullets == [] && enemies == [] && explosions == [] &&
      score == 0 && !gameOver && shootCooldown == 0 && shootDelay == SHOOT_DELAY &&
      enemyTimer == 0 && enemyInterval == START_INTERVAL && difficulty == 1.0
    }

    constructor (w: int, h: int)
      requires w >= PLAYER_WIDTH
      ensures width == w && height == h
      ensures Valid() && Fresh()
    {
      width, height := w, h;
      player := new Player(w / 2 - 25, h - 60, PLAYER_WIDTH, PLAYER_HEIGHT, PLAYER_SPEED);
      bullets, enemies, explosions := [], [], [];
      score, gameOver := 0, false;
      shootCooldown, shootDelay := 0, SHOOT_DELAY;
      enemyTimer, enemyInterval, difficulty := 0, START_INTERVAL, 1.0;
    }

    method Reset()
      requires width >= PLAYER_WIDTH
      modifies this
      ensures Valid() && Fresh() && fresh(player)
    {
      player := new Player(width / 2 - 25, height - 60, PLAYER_WIDTH, PLAYER_HEIGHT, PLAYER_SPEED);
      bullets, enemies, explosions := [], [], [];
      score, gameOver := 0, false;
      shootCooldown, shootDelay := 0, SHOOT_DELAY;
      enemyTimer, enemyInterval, difficulty := 0, START_INTERVAL, 1.0;
    }

    /** Fires one bullet from the gun, only when the cooldown has run out. */
    method Shoot()
      modifies this
      ensures old(shootCooldown) <= 0 ==>
        bullets == old(bullets) + [Bullet(player.GunPosition().0, player.GunPosition().1, BULLET_SPEED, true)] &&
        shootCooldown == shootDelay
      ensures old(shootCooldown) > 0 ==> bullets == old(bullets) && shootCooldown == old(shootCooldown)
      ensures player == old(player) && enemies == old(enemies) && explosions == old(explosions)
      ensures score == old(score) && gameOver == old(gameOver) && shootDelay == old(shootDelay)
      ensures enemyTimer == old(enemyTimer) && enemyInterval == old(enemyInterval) && difficulty == old(difficulty)
    {
      if shootCooldown <= 0 {
        var (gunX, gunY) := player.GunPosition();
        bullets := bullets + [Bullet(gunX, gunY, BULLET_SPEED, true)];
        shootCooldown := shootDelay;
      }
    }

    /** Appends one enemy at the drawn column, speed drawn for the difficulty. */
    method SpawnEnemy(x: int, r: real, kind: int)
      requires 0.0 <= r < 1.0
      modifies this
      ensures enemies == old(enemies) + [NewEnemy(x, difficulty, r, kind)]
      ensures player == old(player) && bullets == old(bullets) && explosions == old(explosions)
      ensures score == old(score) && gameOver == old(gameOver) && shootDelay == old(shootDelay)
      ensures shootCooldown == old(shootCooldown)
      ensures enemyTimer == old(enemyTimer) && enemyInterval == old(enemyInterval) && difficulty == old(difficulty)
    {
      enemies := enemies + [NewEnemy(x, difficulty, r, kind)];
    }

    /** The spawn timer: every `enemyInterval` frames one enemy appears; when the
        list length is then a multiple of 10 the game gets harder. */
    method SpawnTick(x: int, r: real, kind: int)
      requires SpawnValid()
      requires 0.0 <= r < 1.0
      modifies this
      ensures SpawnValid()
      ensures player == old(player) && bullets == old(bullets) && explosions == old(explosions)
      ensures shootDelay == old(shootDelay)
      ensures score == old(score) && gameOver == old(gameOver) && shootCooldown == old(shootCooldown)
      ensures old(enemyTimer) + 1 < old(enemyInterval) ==>
        enemyTimer == old(enemyTimer) + 1 && enemies == old(enemies) &&
        enemyInterval == old(enemyInterval) && difficulty == old(difficulty)
      ensures old(enemyTimer) + 1 >= old(enemyInterval) ==>
        enemyTimer == 0 && enemies == old(enemies) + [NewEnemy(x, old(difficulty), r, kind)] &&
        (if |enemies| % 10 == 0
         then difficulty == old(difficulty) + 0.2 &&
              enemyInterval == (if old(enemyInterval) > MIN_INTERVAL then old(enemyInterval) - 2 else old(enemyInterval))
         else difficulty == old(difficulty) && enemyInterval == old(enemyInterval))
      ensures (enemyTimer, enemyInterval, difficulty) ==
        NextSpawn(old(enemyTimer), old(enemyInterval), old(difficulty), |old(enemies)|)
      ensures State() == SpawnOf(old(State()), x, r, kind)
    {
      enemyTimer := enemyTimer + 1;
      if enemyTimer >= enemyInterval {
        SpawnEnemy(x, r, kind);
        enemyTimer := 0;
        if |enemies| % 10 == 0 {
          difficulty := difficulty + 0.2;
          if enemyInterval > MIN_INTERVAL {
            enemyInterval := enemyInterval - 2;
          }
        }
      }
    }

    /** One frame. `spawnX`, `spawnRandom` and `spawnKind` are the random draws
        for an enemy spawned on this frame; `sway` is the type-2 sideways drift. */
    method Update(keys: Keys, spawnX: int, spawnRandom: real, spawnKind: int, sway: real -> real)
      requires Valid()
      requires 0 <= spawnX <= width - ENEMY_WIDTH && 0.0 <= spawnRandom < 1.0 && 1 <= spawnKind <= 3
      modifies this, player
      ensures Valid() && player == old(player)
      ensures old(gameOver) ==> unchanged(this, player)
      ensures !old(gameOver) ==>
        State() == CombatStepOf(SpawnOf(ShipOf(old(State()), player.HandleInput(keys), keys.fire, width, player.y),
                                        spawnX, spawnRandom, spawnKind),
                                player.y, height, sway)
    {
      if gameOver {
        return;
      }
      ghost var shipped := ShipOf(State(), player.HandleInput(keys), keys.fire, width, player.y);
      ShipStep(keys);
      assert State() == shipped;
      ghost var spawned := SpawnOf(shipped, spawnX, spawnRandom, spawnKind);
      SpawnTick(spawnX, spawnRandom, spawnKind);
      assert State() == spawned;
      CombatStep(sway);
    }

    /** The first part of a frame: the ship moves and perhaps fires, the cooldown
        counts down, bullets fly and those above the screen are dropped. */
    method ShipStep(keys: Keys)
      requires Valid()
      modifies this, player
      ensures Valid() && player == old(player)
      ensures enemies == old(enemies) && explosions == old(explosions)
      ensures score == old(score) && gameOver == old(gameOver)
      ensures enemyTimer == old(enemyTimer) && enemyInterval == old(enemyInterval) && difficulty == old(difficulty)
      ensures shootCooldown == Cooldown(keys.fire, old(shootCooldown))
      ensures player.x == KeepInside(old(player.x) + player.HandleInput(keys), PLAYER_WIDTH, width)
      ensures bullets == Filter(MoveBullets(old(bullets) + Shot(keys.fire && old(shootCooldown) <= 0, player.GunPosition())),
                                IsOnScreen)
    {
      var v := player.HandleInput(keys);
      player.Update(v, width);
      ghost var before := bullets;
      if keys.fire {
        Shoot();
      }
      assert bullets == before + Shot(keys.fire && old(shootCooldown) <= 0, player.GunPosition());
      Fly(bullets);
      bullets, shootCooldown := Filter(MoveBullets(bullets), IsOnScreen),
                                if shootCooldown > 0 then shootCooldown - 1 else shootCooldown;
    }

    /** The rest of a frame, applied to the game's lists by `Combat`: the
        score gains 10 per hit. */
    method CombatStep(sway: real -> real)
      requires Valid()
      modifies this
      ensures Valid()
      ensures player == old(player) && shootCooldown == old(shootCooldown) && shootDelay == old(shootDelay)
      ensures enemyTimer == old(enemyTimer) && enemyInterval == old(enemyInterval) && difficulty == old(difficulty)
      ensures old(gameOver) ==> gameOver
      ensures score >= old(score) && score % 10 == old(score) % 10
      ensures var o := CombatOf(old(bullets), old(enemies), old(explosions), player.GetRect(), height, sway);
        bullets == o.bullets && enemies == o.enemies && explosions == o.explosions &&
        score == old(score) + 10 * o.hits && gameOver == (old(gameOver) || o.over)
      ensures State() == CombatStepOf(old(State()), player.y, height, sway)
    {
      var bs, es, xs, hits, over := Combat(bullets, enemies, explosions, player.GetRect(), height, sway);
      SurvivorsStayValid(bs, bullets);
      Apply(Outcome(bs, es, xs, hits, over));
    }

    /** Stores what the rest of a frame leaves: the surviving lists, 10 points
        per hit, and game over once it is over. */
    method Apply(o: Outcome)
      requires Valid()
      requires forall k :: 0 <= k < |o.bullets| ==> o.bullets[k].active && o.bullets[k].y >= 0
      requires forall k :: 0 <= k < |o.enemies| ==> o.enemies[k].active
      requires forall k :: 0 <= k < |o.explosions| ==> o.explosions[k].active
      modifies this
      ensures Valid()
      ensures player == old(player) && shootCooldown == old(shootCooldown) && shootDelay == old(shootDelay)
      ensures enemyTimer == old(enemyTimer) && enemyInterval == old(enemyInterval) && difficulty == old(difficulty)
      ensures bullets == o.bullets && enemies == o.enemies && explosions == o.explosions
      ensures score == old(score) + 10 * o.hits && gameOver == (old(gameOver) || o.over)
    {
      AddTens(score, o.hits);
      bullets, enemies, explosions := o.bullets, o.enemies, o.explosions;
      score := score + 10 * o.hits;
      gameOver := gameOver || o.over;
    }

    /** One input event; returns false when the game should stop. R restarts a
        finished game and is ignored otherwise. */
    method HandleEvent(e: Event) returns (running: bool)
      requires Valid()
      modifies this
      ensures Valid()
      ensures running <==> !(e == Quit || e == KeyPress(Escape))
      ensures e == KeyPress(KeyR) && old(gameOver) ==> Fresh()
      ensures !(e == KeyPress(KeyR) && old(gameOver)) ==> unchanged(this)
    {
      match e
      case Quit => return false;
      case OtherEvent => return true;
      case KeyPress(key) =>
        if key == Escape {
          return false;
        } else if key == KeyR && gameOver {
          Reset();
        }
        return true;
    }
  }

  /** Starting from 60 and dropping by 2 only while above 20, the spawn
      interval never falls below 20, however many times it is lowered. */
  lemma {:induction false} IntervalFloor(interval: int, steps: nat)
    requires MIN_INTERVAL <= interval && interval % 2 == 0
    ensures MIN_INTERVAL <= LowerInterval(interval, steps) <= interval
    decreases steps
  {
    if steps > 0 {
      var next := if interval > MIN_INTERVAL then interval - 2 else interval;
      IntervalFloor(next, steps - 1);
    }
  }

  /** The interval after `steps` difficulty increases. */
  function LowerInterval(interval: int, steps: nat): int
    decreases steps
  {
    if steps == 0 then interval
    else LowerInterval(if interval > MIN_INTERVAL then interval - 2 else interval, steps - 1)
  }
}

=== FILE: text.dfy ===
/** Python string semantics used throughout the scripts: substring tests,
    `str.count`, `str.replace`, `str.lower`, `str.strip`, `str.split`,
    `os.path.splitext`, `str(int)` and `str.zfill`. */
module Text {

  /** `t` occurs in `s` starting at index `i`. */
  predicate OccursAt(s: string, t: string, i: nat)
  {
    i + |t| <= |s| && s[i..i + |t|] == t
  }

  /** Python's `t in s` for two strings, computed by scanning from the left. */
  function Contains(s: string, t: string): bool
    decreases |s|
  {
    if |t| > |s| then false
    else if s[..|t|] == t then true
    else Contains(s[1..], t)
  }

  lemma OccursShift(s: string, t: string, i: nat)
    requires |s| > 0
    ensures OccursAt(s[1..], t, i) <==> OccursAt(s, t, i + 1)
  {
    if i + 1 + |t| <= |s| {
      assert s[1..][i..i + |t|] == s[i + 1..i + 1 + |t|];
    }
  }

  /** The scanning test agrees with the definition of "occurs somewhere". */
  lemma {:induction false} ContainsIff(s: string, t: string)
    ensures Contains(s, t) <==> exists i: nat :: OccursAt(s, t, i)
    decreases |s|
  {
    if |t| > |s| {
      assert forall i: nat :: !OccursAt(s, t, i);
    } else if s[..|t|] == t {
      assert OccursAt(s, t, 0);
    } else {
      ContainsIff(s[1..], t);
      if Contains(s, t) {
        var i: nat :| OccursAt(s[1..], t, i);
        OccursShift(s, t, i);
      } else {
        forall i: nat ensures !OccursAt(s, t, i) {
          if i > 0 { OccursShift(s, t, i - 1); }
        }
      }
    }
  }

  /** The empty string is in every string, and every string is in itself. */
  lemma ContainsTrivial(s: string)
    ensures Contains(s, []) && Contains(s, s)
  {
    assert s[..0] == [];
    assert s[..|s|] == s;
  }

  /** A string whose first character is absent does not occur. */
  lemma {:induction false} ContainsMissingChar(s: string, t: string)
    requires t != [] && t[0] !in s
    ensures !Contains(s, t)
    decreases |s|
  {
    if |t| <= |s| {
      assert s[..|t|][0] == s[0];
      ContainsMissingChar(s[1..], t);
    }
  }

  /** `t in a + t + b`. */
  lemma ContainsInfix(a: string, t: string, b: string)
    ensures Contains(a + t + b, t)
  {
    var s := a + t + b;
    assert s[|a|..|a| + |t|] == t;
    assert OccursAt(s, t, |a|);
    ContainsIff(s, t);
  }

  /** What holds a string holds every piece of it. */
  lemma ContainsPiece(s: string, a: string, b: string)
    requires Contains(s, a + b)
    ensures Contains(s, a)
  {
    ContainsIff(s, a + b);
    var i: nat :| OccursAt(s, a + b, i);
    assert s[i..i + |a|] == (a + b)[..|a|] == a;
    assert OccursAt(s, a, i);
    ContainsIff(s, a);
  }

  /** Python's `s.count(t)`: non-overlapping occurrences, scanned from the left;
      an empty `t` is counted at each of the `|s| + 1` positions. */
  function CountOf(s: string, t: string): nat
    decreases |s|
  {
    if t == [] then |s| + 1
    else if |s| < |t| then 0
    else if s[..|t|] == t then 1 + CountOf(s[|t|..], t)
    else CountOf(s[1..], t)
  }

  /** `rep` before every character of `s` and once at the end: Python's `s.replace("", rep)`. */
  function Interleave(s: string, rep: string): string
    decreases |s|
  {
    if s == [] then rep else rep + [s[0]] + Interleave(s[1..], rep)
  }

  /** Python's `s.replace(pat, rep)`: every non-overlapping occurrence, left to right. */
  function ReplaceAll(s: string, pat: string, rep: string): string
    decreases |s|
  {
    if pat == [] then Interleave(s, rep)
    else if |s| < |pat| then s
    else if s[..|pat|] == pat then rep + ReplaceAll(s[|pat|..], pat, rep)
    else [s[0]] + ReplaceAll(s[1..], pat, rep)
  }

  /** A non-empty pattern is counted zero times exactly when it does not occur. */
  lemma {:induction false} CountZeroIff(s: string, t: string)
    requires t != []
    ensures CountOf(s, t) == 0 <==> !Contains(s, t)
    decreases |s|
  {
    if |s| < |t| {
    } else if s[..|t|] == t {
    } else {
      CountZeroIff(s[1..], t);
    }
  }

  /** Replacing a pattern that does not occur leaves the string unchanged. */
  lemma {:induction false} ReplaceAbsent(s: string, pat: string, rep: string)
    requires pat != [] && !Contains(s, pat)
    ensures ReplaceAll(s, pat, rep) == s
    decreases |s|
  {
    if |s| < |pat| {
    } else {
      ReplaceAbsent(s[1..], pat, rep);
      assert [s[0]] + s[1..] == s;
    }
  }

  lemma {:induction false} InterleaveLength(s: string, rep: string)
    ensures |Interleave(s, rep)| == |s| + (|s| + 1) * |rep|
    decreases |s|
  {
    if s != [] {
      InterleaveLength(s[1..], rep);
      assert (|s| + 1) * |rep| == |s| * |rep| + |rep|;
    }
  }

  lemma MulSucc(c: int, d: int)
    ensures (1 + c) * d == d + c * d
  {
  }

  /** Each replaced occurrence changes the length by `|rep| - |pat|`. */
  lemma {:induction false} ReplaceLength(s: string, pat: string, rep: string)
    ensures |ReplaceAll(s, pat, rep)| == |s| + CountOf(s, pat) * (|rep| - |pat|)
    decreases |s|
  {
    var d := |rep| - |pat|;
    if pat == [] {
      InterleaveLength(s, rep);
    } else if |s| < |pat| {
    } else if s[..|pat|] == pat {
      var t := s[|pat|..];
      ReplaceLength(t, pat, rep);
      var c := CountOf(t, pat);
      assert CountOf(s, pat) == 1 + c;
      assert ReplaceAll(s, pat, rep) == rep + ReplaceAll(t, pat, rep);
      assert |ReplaceAll(t, pat, rep)| == |t| + c * d;
      MulSucc(c, d);
    } else {
      ReplaceLength(s[1..], pat, rep);
    }
  }

  /** Replacing a pattern by itself changes nothing. */
  lemma {:induction false} ReplaceSelf(s: string, pat: string)
    requires pat != []
    ensures ReplaceAll(s, pat, pat) == s
    decreases |s|
  {
    if |s| < |pat| {
    } else if s[..|pat|] == pat {
      ReplaceSelf(s[|pat|..], pat);
      assert pat + s[|pat|..] == s;
    } else {
      ReplaceSelf(s[1..], pat);
      assert [s[0]] + s[1..] == s;
    }
  }

  predicate StartsWith(s: string, p: string) { |p| <= |s| && s[..|p|] == p }

  predicate EndsWith(s: string, p: string) { |p| <= |s| && s[|s| - |p|..] == p }

  /** `str.lower` on one character (ASCII letters only). */
  function LowerChar(c: char): char
  {
    if 'A' <= c <= 'Z' then (c as int + 32) as char else c
  }

  predicate IsUpperChar(c: char) { 'A' <= c <= 'Z' }
  predicate IsLowerChar(c: char) { 'a' <= c <= 'z' }
  predicate IsDigitChar(c: char) { '0' <= c <= '9' }

  /** `str.lower` (ASCII letters only). */
  function Lower(s: string): (r: string)
    ensures |r| == |s|
  {
    seq(|s|, i requires 0 <= i < |s| => LowerChar(s[i]))
  }

  lemma LowerIdempotent(s: string)
    ensures Lower(Lower(s)) == Lower(s)
  {
  }

  lemma LowerAppend(a: string, b: string)
    ensures Lower(a + b) == Lower(a) + Lower(b)
  {
    assert Lower(a + b) == Lower(a) + Lower(b);
  }

  /** The characters Python's `str.isspace` accepts, which `str.split()` and
      `str.strip()` use. */
  predicate IsSpace(c: char)
  {
    c == ' ' || c == '\t' || c == '\n' || c == '\r' ||
    (0x0B <= c as int <= 0x0C) || (0x1C <= c as int <= 0x1F) ||
    c as int == 0x85 || c as int == 0xA0 || c as int == 0x1680 ||
    (0x2000 <= c as int <= 0x200A) || c as int == 0x2028 || c as int == 0x2029 ||
    c as int == 0x202F || c as int == 0x205F || c as int == 0x3000
  }

  function StripLeft(s: string): string
    decreases |s|
  {
    if s != [] && IsSpace(s[0]) then StripLeft(s[1..]) else s
  }

  function StripRight(s: string): string
    decreases |s|
  {
    if s != [] && IsSpace(s[|s| - 1]) then StripRight(s[..|s| - 1]) else s
  }

  /** Python's `s.strip()`. */
  function Strip(s: string): string
  {
    StripRight(StripLeft(s))
  }

  /** A string that starts and ends with a non-space is its own strip. */
  lemma StripPlain(s: string)
    requires s != [] && !IsSpace(s[0]) && !IsSpace(s[|s| - 1])
    ensures Strip(s) == s
  {
    assert StripLeft(s) == s;
  }

  /** The leading run of non-space characters. */
  function TakeWord(s: string): (w: string)
    ensures |w| <= |s| && w == s[..|w|]
    decreases |s|
  {
    if s == [] || IsSpace(s[0]) then [] else [s[0]] + TakeWord(s[1..])
  }

  /** Python's `s.split()` with no separator: the maximal runs of non-space characters. */
  function Split(s: string): seq<string>
    decreases |s|
  {
    if s == [] then []
    else if IsSpace(s[0]) then Split(s[1..])
    else
      var w := TakeWord(s);
      [w] + Split(s[|w|..])
  }

  /** Number of characters of `s` equal to `c`. */
  function CountChar(s: string, c: char): nat
  {
    if s == [] then 0 else (if s[0] == c then 1 else 0) + CountChar(s[1..], c)
  }

  lemma {:induction false} CountCharAppend(a: string, b: string, c: char)
    ensures CountChar(a + b, c) == CountChar(a, c) + CountChar(b, c)
    decreases |a|
  {
    if a != [] {
      CountCharAppend(a[1..], b, c);
      assert (a + b)[1..] == a[1..] + b;
    } else {
      assert a + b == b;
    }
  }

  lemma {:induction false} CountCharAbsent(s: string, c: char)
    requires forall i :: 0 <= i < |s| ==> s[i] != c
    ensures CountChar(s, c) == 0
    decreases |s|
  {
    if s != [] {
      assert s[0] != c;
      CountCharAbsent(s[1..], c);
    }
  }

  /** `s` without the characters equal to `c`: Python's `s.replace(c, "")` for one character. */
  function RemoveChar(s: string, c: char): (r: string)
    ensures |r| == |s| - CountChar(s, c)
    ensures c !in r
  {
    if s == [] then [] else (if s[0] == c then [] else [s[0]]) + RemoveChar(s[1..], c)
  }

  /** Index of the last `c` in `s`, or -1. */
  function LastIndexOf(s: string, c: char): (k: int)
    ensures -1 <= k < |s|
    ensures k >= 0 ==> s[k] == c
    ensures forall j :: k < j < |s| ==> s[j] != c
  {
    if s == [] then -1
    else if s[|s| - 1] == c then |s| - 1
    else LastIndexOf(s[..|s| - 1], c)
  }

  /** Any index that is `c` with no `c` after it, or -1 when `s` has no
      `c`, is the last index of `c`. */
  lemma LastIndexOfUnique(s: string, c: char, k: int)
    requires -1 <= k < |s|
    requires k >= 0 ==> s[k] == c
    requires forall j :: k < j < |s| ==> s[j] != c
    ensures LastIndexOf(s, c) == k
  {
  }

  /** The last `c` of `a + b` is the last of `b` when `b` has one, and the
      last of `a` otherwise. */
  lemma LastIndexOfAppend(a: string, b: string, c: char)
    ensures LastIndexOf(a + b, c) ==
      if LastIndexOf(b, c) >= 0 then |a| + LastIndexOf(b, c) else LastIndexOf(a, c)
  {
    var lb := LastIndexOf(b, c);
    var la := LastIndexOf(a, c);
    var s := a + b;
    if lb >= 0 {
      forall j | |a| + lb < j < |s| ensures s[j] != c {
        assert s[j] == b[j - |a|];
      }
      LastIndexOfUnique(s, c, |a| + lb);
    } else {
      forall j | la < j < |s| ensures s[j] != c {
        if j < |a| {
          assert s[j] == a[j];
        } else {
          assert s[j] == b[j - |a|];
        }
      }
      LastIndexOfUnique(s, c, la);
    }
  }

  /** Python's `os.path.splitext` (POSIX): split before the last dot of the last
      path component, unless that component is only dots up to it. */
  function SplitExt(p: string): (string, string)
  {
    var sep := LastIndexOf(p, '/');
    var dot := LastIndexOf(p, '.');
    if dot > sep && exists k :: sep < k < dot && p[k] != '.' then (p[..dot], p[dot..])
    else (p, [])
  }

  /** splitext's two parts put back together give the path, and a non-empty
      extension is one dot followed by neither a dot nor a separator. */
  lemma SplitExtParts(p: string)
    ensures SplitExt(p).0 + SplitExt(p).1 == p
    ensures var e := SplitExt(p).1;
      e == [] || (e[0] == '.' && '.' !in e[1..] && '/' !in e)
  {
    var sep := LastIndexOf(p, '/');
    var dot := LastIndexOf(p, '.');
    if dot > sep && exists k :: sep < k < dot && p[k] != '.' {
      var e := p[dot..];
      assert p[..dot] + e == p;
      forall j | 0 <= j < |e| ensures e[j] != '/' && (j > 0 ==> e[j] != '.') {
        assert e[j] == p[dot + j];
      }
    }
  }

  /** A name with no dot has no extension. */
  lemma SplitExtNoDot(p: string)
    requires '.' !in p
    ensures SplitExt(p) == (p, [])
  {
    var dot := LastIndexOf(p, '.');
    assert dot == -1;
  }

  /** A stem with a character other than a dot after its last separator,
      followed by an extension (one dot, then neither dots nor separators),
      splits back into the two. */
  lemma SplitExtJoin(stem: string, ext: string)
    requires ext != [] && ext[0] == '.' && '.' !in ext[1..] && '/' !in ext
    requires exists k :: LastIndexOf(stem, '/') < k < |stem| && stem[k] != '.'
    ensures SplitExt(stem + ext) == (stem, ext)
  {
    var b := stem + ext;
    assert LastIndexOf(ext, '/') == -1;
    assert LastIndexOf(ext, '.') == 0 by {
      forall j | 0 < j < |ext| ensures ext[j] != '.' {
        assert ext[j] == ext[1..][j - 1];
      }
      LastIndexOfUnique(ext, '.', 0);
    }
    LastIndexOfAppend(stem, ext, '.');
    LastIndexOfAppend(stem, ext, '/');
    var sep := LastIndexOf(stem, '/');
    var k :| sep < k < |stem| && stem[k] != '.';
    assert b[k] == stem[k];
    assert b[..|stem|] == stem;
    assert b[|stem|..] == ext;
  }

  /** Python's `s.split(sep)` for a non-empty separator: the pieces between
      the occurrences of `sep`, scanned from the left. */
  function SplitOn(s: string, sep: string): (r: seq<string>)
    requires sep != []
    ensures |r| >= 1
    decreases |s|
  {
    if |s| < |sep| then [s]
    else if s[..|sep|] == sep then [[]] + SplitOn(s[|sep|..], sep)
    else
      var rest := SplitOn(s[1..], sep);
      [[s[0]] + rest[0]] + rest[1..]
  }

  /** Python's `sep.join(parts)`. */
  function JoinWith(parts: seq<string>, sep: string): string
  {
    if parts == [] then []
    else if |parts| == 1 then parts[0]
    else parts[0] + sep + JoinWith(parts[1..], sep)
  }

  /** Joining the pieces with the separator gives the string back. */
  lemma {:induction false} SplitOnJoin(s: string, sep: string)
    requires sep != []
    ensures JoinWith(SplitOn(s, sep), sep) == s
    decreases |s|
  {
    if |s| < |sep| {
    } else if s[..|sep|] == sep {
      SplitOnJoin(s[|sep|..], sep);
      assert s == [] + sep + s[|sep|..];
    } else {
      var rest := SplitOn(s[1..], sep);
      assert SplitOn(s, sep) == [[s[0]] + rest[0]] + rest[1..];
      SplitOnJoin(s[1..], sep);
      JoinWithCons(s[0], rest, sep);
      assert [s[0]] + s[1..] == s;
    }
  }

  /** A character put in front of the first piece comes out in front of the
      joined string. */
  lemma JoinWithCons(c: char, parts: seq<string>, sep: string)
    requires parts != []
    ensures JoinWith([[c] + parts[0]] + parts[1..], sep) == [c] + JoinWith(parts, sep)
  {
    var r := [[c] + parts[0]] + parts[1..];
    assert r[0] == [c] + parts[0] && r[1..] == parts[1..];
    if |parts| > 1 {
      assert JoinWith(r, sep) == ([c] + parts[0]) + sep + JoinWith(parts[1..], sep);
      assert ([c] + parts[0]) + sep + JoinWith(parts[1..], sep) == [c] + (parts[0] + sep + JoinWith(parts[1..], sep));
    }
  }

  /** A piece holding no first character of the separator ends at the
      separator that follows it. */
  lemma {:induction false} SplitOnFirst(a: string, sep: string, b: string)
    requires sep != [] && sep[0] !in a
    ensures SplitOn(a + sep + b, sep) == [a] + SplitOn(b, sep)
    decreases |a|
  {
    var s := a + sep + b;
    if a == [] {
      assert s == sep + b && s[..|sep|] == sep && s[|sep|..] == b;
    } else {
      assert s[0] == a[0] != sep[0];
      assert s[1..] == a[1..] + sep + b;
      SplitOnFirst(a[1..], sep, b);
      assert [a[0]] + a[1..] == a;
    }
  }

  /** A string holding no first character of the separator is one piece. */
  lemma {:induction false} SplitOnNone(s: string, sep: string)
    requires sep != [] && sep[0] !in s
    ensures SplitOn(s, sep) == [s]
    decreases |s|
  {
    if |s| >= |sep| {
      assert s[0] != sep[0];
      SplitOnNone(s[1..], sep);
      assert [s[0]] + s[1..] == s;
    }
  }

  /** Text holding no first character of the pattern passes through a
      replacement unchanged. */
  lemma {:induction false} ReplacePlainPrefix(a: string, b: string, pat: string, rep: string)
    requires pat != [] && pat[0] !in a
    ensures ReplaceAll(a + b, pat, rep) == a + ReplaceAll(b, pat, rep)
    decreases |a|
  {
    if a != [] {
      var s := a + b;
      assert s[0] == a[0] != pat[0] && s[1..] == a[1..] + b;
      ReplacePlainPrefix(a[1..], b, pat, rep);
      if |s| < |pat| {
        ReplacePlainShort(b, pat, rep);
      }
    } else {
      assert a + b == b;
    }
  }

  /** A leading occurrence of the pattern is the first one replaced. */
  lemma ReplaceLead(pat: string, b: string, rep: string)
    requires pat != []
    ensures ReplaceAll(pat + b, pat, rep) == rep + ReplaceAll(b, pat, rep)
  {
    assert (pat + b)[..|pat|] == pat && (pat + b)[|pat|..] == b;
  }

  /** A string shorter than the pattern is left as it is. */
  lemma ReplacePlainShort(s: string, pat: string, rep: string)
    requires pat != [] && |s| < |pat|
    ensures ReplaceAll(s, pat, rep) == s
  {
  }

  /** There is one piece more than there are occurrences of the separator. */
  lemma {:induction false} SplitOnCount(s: string, sep: string)
    requires sep != []
    ensures |SplitOn(s, sep)| == CountOf(s, sep) + 1
    decreases |s|
  {
    if |s| < |sep| {
    } else if s[..|sep|] == sep {
      SplitOnCount(s[|sep|..], sep);
    } else {
      SplitOnCount(s[1..], sep);
    }
  }

  function DigitChar(d: nat): char
    requires d < 10
  {
    ['0', '1', '2', '3', '4', '5', '6', '7', '8', '9'][d]
  }

  /** Python's `str(n)` for a natural number. */
  function NatToStr(n: nat): (s: string)
    ensures |s| >= 1
    ensures forall i :: 0 <= i < |s| ==> IsDigitChar(s[i])
  {
    if n < 10 then [DigitChar(n)] else NatToStr(n / 10) + [DigitChar(n % 10)]
  }

  /** Python's `str(i)` for an integer. */
  function IntToStr(i: int): string
  {
    if i < 0 then "-" + NatToStr(-i) else NatToStr(i)
  }

  function Zeros(k: nat): (z: string)
    ensures |z| == k && forall j :: 0 <= j < k ==> z[j] == '0'
  {
    if k == 0 then [] else "0" + Zeros(k - 1)
  }

  /** Python's `s.zfill(width)`: pad with zeros on the left to `width`, keeping a
      leading sign in front; never truncates. */
  function ZFill(s: string, width: int): string
  {
    if |s| >= width then s
    else
      var fill := width - |s|;
      if |s| > 0 && (s[0] == '+' || s[0] == '-') then [s[0]] + Zeros(fill) + s[1..]
      else Zeros(fill) + s
  }

  /** For a natural number, zfill pads `str(n)` with zeros up to the width and
      never cuts it: the result is zeros followed by `str(n)`. */
  lemma ZFillNat(n: nat, width: int)
    ensures var z := ZFill(NatToStr(n), width);
      var s := NatToStr(n);
      |z| == (if |s| >= width then |s| else width) &&
      z == Zeros(|z| - |s|) + s
  {
    var s := NatToStr(n);
    assert IsDigitChar(s[0]);
    if |s| >= width {
      assert Zeros(0) + s == s;
    }
  }

  /** Python's `a <= b` on strings: code point by code point, a proper
      prefix first. */
  predicate LexLe(a: string, b: string)
    decreases |a|
  {
    a == [] || (b != [] && (a[0] < b[0] || (a[0] == b[0] && LexLe(a[1..], b[1..]))))
  }

  /** Any two strings are ordered one way or the other. */
  lemma {:induction false} LexTotal(a: string, b: string)
    ensures LexLe(a, b) || LexLe(b, a)
    decreases |a|
  {
    if a != [] && b != [] && a[0] == b[0] {
      LexTotal(a[1..], b[1..]);
    }
  }
}

=== FILE: text_replacer.dfy ===
/** The text replacer: literal find-and-replace in one file or in every
    matching file of a folder, keyword statistics over a log, a preview of
    the matches with the lines around them, and backup names. A folder is a
    map from file name to content; a file that cannot be read is one that is
    missing from the map. A file read line by line is given as its lines. */
module TextReplacer {
  import opened Text
  import opened Lists
  import opened Options
  import BatchRename

  // ---------------------------------------------------------------------
  // replacing in files

  /** The files of a folder listing that `replace_in_files` processes: those
      matching the shell pattern that are regular files, in listing order. */
  function Candidates(listing: seq<string>, pattern: string, files: map<string, string>): (r: seq<string>)
    ensures forall f :: f in r <==> f in listing && BatchRename.GlobMatch(pattern, f) && f in files
  {
    FilterMembers(listing, n => BatchRename.GlobMatch(pattern, n) && n in files);
    Filter(listing, n => BatchRename.GlobMatch(pattern, n) && n in files)
  }

  /** The result map after processing the files `done`: a file is in it
      exactly when its count was positive, bound to that count. */
  function Results(files: map<string, string>, done: seq<string>, oldText: string): (r: map<string, nat>)
    ensures forall f :: f in r <==> f in done && f in files && CountOf(files[f], oldText) > 0
    ensures forall f :: f in r ==> r[f] == CountOf(files[f], oldText)
  {
    map f | f in done && f in files && CountOf(files[f], oldText) > 0 :: CountOf(files[f], oldText)
  }

  /** The folder after processing the files `done`: each of them holds its
      content with every occurrence replaced, every other file is as it was. */
  function Replaced(files: map<string, string>, done: seq<string>, oldText: string, newText: string): (r: map<string, string>)
    ensures r.Keys == files.Keys
  {
    map f | f in files :: if f in done then ReplaceAll(files[f], oldText, newText) else files[f]
  }

  /** Not writing back a file with no occurrence is the same as writing back
      its replaced content: the file is unchanged either way. */
  lemma NoMatchNoChange(content: string, oldText: string, newText: string)
    requires CountOf(content, oldText) == 0
    ensures ReplaceAll(content, oldText, newText) == content
  {
    assert oldText != [];
    CountZeroIff(content, oldText);
    ReplaceAbsent(content, oldText, newText);
  }

  lemma PrefixStep(todo: seq<string>, k: nat)
    requires k < |todo|
    ensures forall g :: g in todo[..k + 1] <==> g in todo[..k] || g == todo[k]
  {
    assert todo[..k + 1] == todo[..k] + [todo[k]];
  }

  /** One more processed file: its content is the only one that changes. */
  lemma ReplacedStep(files: map<string, string>, todo: seq<string>, k: nat, oldText: string, newText: string)
    requires k < |todo| && todo[k] in files
    ensures Replaced(files, todo[..k + 1], oldText, newText) ==
      Replaced(files, todo[..k], oldText, newText)[todo[k] := ReplaceAll(files[todo[k]], oldText, newText)]
  {
    PrefixStep(todo, k);
    var a := Replaced(files, todo[..k + 1], oldText, newText);
    var b := Replaced(files, todo[..k], oldText, newText)[todo[k] := ReplaceAll(files[todo[k]], oldText, newText)];
    assert a.Keys == b.Keys;
  }

  /** One more processed file: it enters the result map, with its count,
      exactly when that count is positive. */
  lemma ResultsStep(files: map<string, string>, todo: seq<string>, k: nat, oldText: string)
    requires k < |todo| && todo[k] in files
    ensures var f := todo[k];
      Results(files, todo[..k + 1], oldText) ==
        if CountOf(files[f], oldText) > 0 then Results(files, todo[..k], oldText)[f := CountOf(files[f], oldText)]
        else Results(files, todo[..k], oldText)
  {
    PrefixStep(todo, k);
    var f := todo[k];
    var r := Results(files, todo[..k + 1], oldText);
    if CountOf(files[f], oldText) > 0 {
      assert r.Keys == Results(files, todo[..k], oldText).Keys + {f};
    } else {
      assert r.Keys == Results(files, todo[..k], oldText).Keys;
    }
  }

  class Folder {
    var files: map<string, string>

    constructor(files: map<string, string>)
      ensures this.files == files
    {
      this.files := files;
    }

    /** `replace_in_file`: -1 for a file that cannot be read; otherwise the
        number of non-overlapping occurrences of `oldText`, and the file is
        written back with every occurrence replaced unless there is none. */
    method ReplaceInFile(path: string, oldText: string, newText: string) returns (count: int)
      modifies this
      ensures path !in old(files) ==> count == -1 && files == old(files)
      ensures path in old(files) ==> count == CountOf(old(files)[path], oldText)
      ensures path in old(files) && count == 0 ==> files == old(files)
      ensures path in old(files) && count > 0 ==>
        files == old(files)[path := ReplaceAll(old(files)[path], oldText, newText)]
    {
      if path !in files {
        return -1;
      }
      var content := files[path];
      count := CountOf(content, oldText);
      if count == 0 {
        return 0;
      }
      files := files[path := ReplaceAll(content, oldText, newText)];
    }

    /** `replace_in_files` over a folder listing (without sub-folders):
        every matching regular file is processed once, the result map holds
        exactly the files with a positive count, and each processed file
        ends up with its occurrences replaced. */
    method ReplaceInFiles(listing: seq<string>, pattern: string, oldText: string, newText: string)
      returns (results: map<string, nat>)
      requires Distinct(listing)
      modifies this
      ensures results == Results(old(files), Candidates(listing, pattern, old(files)), oldText)
      ensures files == Replaced(old(files), Candidates(listing, pattern, old(files)), oldText, newText)
    {
      var fs := files;
      var todo := Candidates(listing, pattern, fs);
      FilterDistinct(listing, n => BatchRename.GlobMatch(pattern, n) && n in fs);
      results := ProcessAll(todo, oldText, newText);
    }

    /** The second loop of `replace_in_files`: `replace_in_file` on each
        collected file, keeping the positive counts. */
    method ProcessAll(todo: seq<string>, oldText: string, newText: string) returns (results: map<string, nat>)
      requires Distinct(todo)
      requires forall f :: f in todo ==> f in files
      modifies this
      ensures results == Results(old(files), todo, oldText)
      ensures files == Replaced(old(files), todo, oldText, newText)
    {
      results := map[];
      var k := 0;
      assert Replaced(files, todo[..0], oldText, newText) == files;
      while k < |todo|
        invariant 0 <= k <= |todo|
        invariant results == Results(old(files), todo[..k], oldText)
        invariant files == Replaced(old(files), todo[..k], oldText, newText)
        decreases |todo| - k
      {
        results := ProcessOne(old(files), todo, k, oldText, newText, results);
        k := k + 1;
      }
      assert todo[..k] == todo;
    }

    /** One pass of that loop: the `k`-th collected file, with `original`
        the folder before the loop. */
    method ProcessOne(ghost original: map<string, string>, todo: seq<string>, k: nat,
                      oldText: string, newText: string, results: map<string, nat>)
      returns (next: map<string, nat>)
      requires k < |todo| && Distinct(todo) && todo[k] in original
      requires results == Results(original, todo[..k], oldText)
      requires files == Replaced(original, todo[..k], oldText, newText)
      modifies this
      ensures next == Results(original, todo[..k + 1], oldText)
      ensures files == Replaced(original, todo[..k + 1], oldText, newText)
    {
      var f := todo[k];
      assert f !in todo[..k];
      ReplacedStep(original, todo, k, oldText, newText);
      ResultsStep(original, todo, k, oldText);
      var count := ReplaceInFile(f, oldText, newText);
      if count > 0 {
        next := results[f := count];
      } else {
        next := results;
        NoMatchNoChange(original[f], oldText, newText);
      }
    }
  }

  // ---------------------------------------------------------------------
  // log analysis

  const DEFAULT_KEYWORDS: seq<string> := ["INFO", "WARNING", "ERROR", "DEBUG"]

  /** What `analyze_log_file` returns: the count per keyword, the lines
      holding `ERROR` as (1-based number, stripped line), and the number of
      lines. */
  datatype LogReport = LogReport(stats: map<string, nat>, errorLines: seq<(nat, string)>, totalLines: nat)

  /** How many times `w` is listed among the keywords. */
  function Occurrences(keywords: seq<string>, w: string): nat
    decreases |keywords|
  {
    if keywords == [] then 0
    else Occurrences(keywords[..|keywords| - 1], w) + (if keywords[|keywords| - 1] == w then 1 else 0)
  }

  /** How many lines contain `w`. */
  function LinesWith(lines: seq<string>, w: string): nat
    decreases |lines|
  {
    if lines == [] then 0
    else LinesWith(lines[..|lines| - 1], w) + (if Contains(lines[|lines| - 1], w) then 1 else 0)
  }

  /** The count of `w` after the lines: each line holding `w` adds one for
      every time `w` is listed among the keywords. */
  function Tally(lines: seq<string>, keywords: seq<string>, w: string): nat
    decreases |lines|
  {
    if lines == [] then 0
    else Tally(lines[..|lines| - 1], keywords, w) + (if Contains(lines[|lines| - 1], w) then Occurrences(keywords, w) else 0)
  }

  /** The statistics map: one key per distinct keyword. */
  function Stats(lines: seq<string>, keywords: seq<string>): map<string, nat>
  {
    map w | w in keywords :: Tally(lines, keywords, w)
  }

  /** The error lines of the first lines, in file order. */
  function ErrorLines(lines: seq<string>): seq<(nat, string)>
    decreases |lines|
  {
    if lines == [] then []
    else
      var last := lines[|lines| - 1];
      ErrorLines(lines[..|lines| - 1]) + (if Contains(last, "ERROR") then [(|lines|, Strip(last))] else [])
  }

  /** The count of a keyword is the number of lines holding it times the
      number of times it is listed. */
  lemma {:induction false} TallyIsLinesTimesListed(lines: seq<string>, keywords: seq<string>, w: string)
    ensures Tally(lines, keywords, w) == LinesWith(lines, w) * Occurrences(keywords, w)
    decreases |lines|
  {
    if lines != [] {
      TallyIsLinesTimesListed(lines[..|lines| - 1], keywords, w);
      var n := LinesWith(lines[..|lines| - 1], w);
      var o := Occurrences(keywords, w);
      assert (n + 1) * o == n * o + o;
    }
  }

  lemma {:induction false} OccurrencesOfDistinct(keywords: seq<string>, w: string)
    requires Distinct(keywords)
    ensures Occurrences(keywords, w) == if w in keywords then 1 else 0
    decreases |keywords|
  {
    if keywords != [] {
      var init := keywords[..|keywords| - 1];
      OccurrencesOfDistinct(init, w);
      assert keywords == init + [keywords[|keywords| - 1]];
      if keywords[|keywords| - 1] == w {
        assert w !in init;
      }
    }
  }

  lemma {:induction false} LinesWithBound(lines: seq<string>, w: string)
    ensures LinesWith(lines, w) <= |lines|
    decreases |lines|
  {
    if lines != [] {
      LinesWithBound(lines[..|lines| - 1], w);
    }
  }

  /** With distinct keywords each keyword is counted at most once per line:
      its count is the number of lines holding it, independently of the
      other keywords, and never more than the number of lines. */
  lemma DistinctKeywordsCountLines(lines: seq<string>, keywords: seq<string>, w: string)
    requires Distinct(keywords) && w in keywords
    ensures Stats(lines, keywords)[w] == LinesWith(lines, w) <= |lines|
  {
    TallyIsLinesTimesListed(lines, keywords, w);
    OccurrencesOfDistinct(keywords, w);
    LinesWithBound(lines, w);
  }

  /** Every recorded error line is a line holding `ERROR`, with its 1-based
      number and its stripped text. */
  lemma {:induction false} ErrorLinesSound(lines: seq<string>)
    ensures forall a :: 0 <= a < |ErrorLines(lines)| ==>
      var e := ErrorLines(lines)[a];
      1 <= e.0 <= |lines| && Contains(lines[e.0 - 1], "ERROR") && e.1 == Strip(lines[e.0 - 1])
    decreases |lines|
  {
    if lines != [] {
      var init := lines[..|lines| - 1];
      ErrorLinesSound(init);
      forall a | 0 <= a < |ErrorLines(init)| ensures lines[ErrorLines(init)[a].0 - 1] == init[ErrorLines(init)[a].0 - 1] {
      }
    }
  }

  /** Every line holding `ERROR` is recorded. */
  lemma {:induction false} ErrorLinesComplete(lines: seq<string>)
    ensures forall n :: 0 <= n < |lines| && Contains(lines[n], "ERROR") ==> (n + 1, Strip(lines[n])) in ErrorLines(lines)
    decreases |lines|
  {
    if lines != [] {
      var init := lines[..|lines| - 1];
      ErrorLinesComplete(init);
      forall n | 0 <= n < |init| ensures lines[n] == init[n] {
      }
    }
  }

  /** The error lines come in file order, each line once. */
  lemma {:induction false} ErrorLinesOrdered(lines: seq<string>)
    ensures forall a :: 0 <= a < |ErrorLines(lines)| ==> 1 <= ErrorLines(lines)[a].0 <= |lines|
    ensures forall a, b :: 0 <= a < b < |ErrorLines(lines)| ==> ErrorLines(lines)[a].0 < ErrorLines(lines)[b].0
    decreases |lines|
  {
    if lines != [] {
      ErrorLinesOrdered(lines[..|lines| - 1]);
    }
  }

  /** `analyze_log_file`: `None` for a file that cannot be read; `keywords`
      defaults to INFO, WARNING, ERROR and DEBUG. Every line is checked for
      every keyword, and for `ERROR` whether or not it is a keyword. */
  method AnalyzeLogFile(content: Option<seq<string>>, keywords: Option<seq<string>>)
    returns (report: Option<LogReport>)
    ensures content.None? ==> report.None?
    ensures content.Some? ==>
      var ks := if keywords.Some? then keywords.value else DEFAULT_KEYWORDS;
      report == Some(LogReport(Stats(content.value, ks), ErrorLines(content.value), |content.value|))
  {
    if content.None? {
      return None;
    }
    var lines := content.value;
    var ks := if keywords.Some? then keywords.value else DEFAULT_KEYWORDS;
    var stats: map<string, nat> := map w | w in ks :: 0;
    var errorLines: seq<(nat, string)> := [];
    var i := 0;
    while i < |lines|
      invariant 0 <= i <= |lines|
      invariant stats == Stats(lines[..i], ks)
      invariant errorLines == ErrorLines(lines[..i])
      decreases |lines| - i
    {
      assert lines[..i + 1][..i] == lines[..i];
      stats := CountLine(stats, ks, lines, i);
      if Contains(lines[i], "ERROR") {
        errorLines := errorLines + [(i + 1, Strip(lines[i]))];
      }
      i := i + 1;
    }
    assert lines[..i] == lines;
    report := Some(LogReport(stats, errorLines, i));
  }

  /** The inner loop of `analyze_log_file`: one more line, checked against
      every keyword in turn. */
  method CountLine(stats: map<string, nat>, keywords: seq<string>, lines: seq<string>, i: nat)
    returns (next: map<string, nat>)
    requires i < |lines| && stats == Stats(lines[..i], keywords)
    ensures next == Stats(lines[..i + 1], keywords)
  {
    var line := lines[i];
    next := stats;
    var j := 0;
    while j < |keywords|
      invariant 0 <= j <= |keywords|
      invariant next.Keys == stats.Keys
      invariant forall w :: w in next ==>
        next[w] == stats[w] + (if Contains(line, w) then Occurrences(keywords[..j], w) else 0)
      decreases |keywords| - j
    {
      var k := keywords[j];
      assert keywords[..j + 1] == keywords[..j] + [k];
      if Contains(line, k) {
        next := next[k := next[k] + 1];
      }
      j := j + 1;
    }
    assert keywords[..j] == keywords;
    assert lines[..i + 1][..i] == lines[..i];
  }

  // ---------------------------------------------------------------------
  // preview

  /** One printed line of the preview: its 1-based number, its text with
      trailing white space removed (and the matches marked on the matching
      line), and whether it is the matching line. */
  datatype Shown = Shown(number: int, text: string, marked: bool)

  function Max(a: int, b: int): int { if a >= b then a else b }

  function Min(a: int, b: int): int { if a <= b then a else b }

  /** The lines shown around the match at line `i`, as a half-open range. */
  function Window(i: int, context: int, n: int): (int, int)
  {
    (Max(0, i - context), Min(n, i + context + 1))
  }

  /** The printed form of line `j` when showing the match at line `i`. */
  function Entry(lines: seq<string>, i: int, j: nat, oldText: string, newText: string): Shown
    requires j < |lines|
  {
    var text := StripRight(lines[j]);
    if j == i then Shown(j + 1, ReplaceAll(text, oldText, "[" + oldText + "]→[" + newText + "]"), true)
    else Shown(j + 1, text, false)
  }

  /** The lines `lo` to `hi - 1`, printed around the match at line `i`. */
  function WindowLines(lines: seq<string>, i: int, lo: nat, hi: int, oldText: string, newText: string): (r: seq<Shown>)
    requires hi <= |lines|
    ensures |r| == Max(0, hi - lo)
    ensures forall t :: 0 <= t < |r| ==> r[t].number == lo + t + 1 && (r[t].marked <==> lo + t == i)
    decreases hi - lo
  {
    if hi <= lo then []
    else WindowLines(lines, i, lo, hi - 1, oldText, newText) + [Entry(lines, i, hi - 1, oldText, newText)]
  }

  /** Everything the preview prints for the first `k` lines. */
  function PreviewOf(lines: seq<string>, k: nat, oldText: string, newText: string, context: int): seq<Shown>
    requires k <= |lines|
    decreases k
  {
    if k == 0 then []
    else
      var i := k - 1;
      var (lo, hi) := Window(i, context, |lines|);
      PreviewOf(lines, k - 1, oldText, newText, context) +
        (if Contains(lines[i], oldText) then WindowLines(lines, i, lo, hi, oldText, newText) else [])
  }

  /** The window around a match holds the match, stays inside the file and
      spans at most `2 * context + 1` lines; it shows the lines in order,
      and the match is the only marked one. */
  lemma WindowAroundMatch(lines: seq<string>, i: nat, context: nat, oldText: string, newText: string)
    requires i < |lines|
    ensures var (lo, hi) := Window(i, context, |lines|);
      0 <= lo <= i < hi <= |lines| && hi - lo <= 2 * context + 1 &&
      var w := WindowLines(lines, i, lo, hi, oldText, newText);
      |w| == hi - lo && w[i - lo].marked && w[i - lo].number == i + 1 &&
      forall t :: 0 <= t < |w| && t != i - lo ==> !w[t].marked
  {
  }

  /** `preview_replace`: -1 for a file that cannot be read; otherwise the
      number of lines holding `oldText` (not the number of occurrences),
      and what it prints around each of them. */
  method PreviewReplace(content: Option<seq<string>>, oldText: string, newText: string, context: int)
    returns (count: int, shown: seq<Shown>)
    ensures content.None? ==> count == -1 && shown == []
    ensures content.Some? ==> (count == LinesWith(content.value, oldText) &&
      shown == PreviewOf(content.value, |content.value|, oldText, newText, context))
  {
    if content.None? {
      return -1, [];
    }
    var lines := content.value;
    count := 0;
    shown := [];
    var i := 0;
    while i < |lines|
      invariant 0 <= i <= |lines|
      invariant count == LinesWith(lines[..i], oldText)
      invariant shown == PreviewOf(lines, i, oldText, newText, context)
      decreases |lines| - i
    {
      assert lines[..i + 1][..i] == lines[..i];
      if Contains(lines[i], oldText) {
        count := count + 1;
        var (lo, hi) := Window(i, context, |lines|);
        var around := ShowWindow(lines, i, lo, hi, oldText, newText);
        shown := shown + around;
      }
      i := i + 1;
    }
    assert lines[..i] == lines;
  }

  /** The inner loop of `preview_replace`: print the lines of one window. */
  method ShowWindow(lines: seq<string>, i: int, lo: int, hi: int, oldText: string, newText: string)
    returns (out: seq<Shown>)
    requires 0 <= lo && hi <= |lines|
    ensures out == WindowLines(lines, i, lo, hi, oldText, newText)
  {
    out := [];
    if hi <= lo {
      return;
    }
    var j := lo;
    while j < hi
      invariant lo <= j <= hi
      invariant out == WindowLines(lines, i, lo, j, oldText, newText)
      decreases hi - j
    {
      out := out + [Entry(lines, i, j, oldText, newText)];
      j := j + 1;
    }
  }

  // ---------------------------------------------------------------------
  // backups

  /** `create_backup`'s name: `_backup_` and the timestamp go between the
      stem and the extension. */
  function BackupName(path: string, timestamp: string): string
  {
    SplitExt(path).0 + "_backup_" + timestamp + SplitExt(path).1
  }

  /** Appending text with no dot and no slash to a path without extension
      gives a path without extension. */
  lemma SplitExtAppendPlain(path: string, mid: string)
    requires SplitExt(path).1 == []
    requires '.' !in mid && '/' !in mid
    ensures SplitExt(path + mid) == (path + mid, [])
  {
    var b := path + mid;
    assert LastIndexOf(mid, '.') == -1 && LastIndexOf(mid, '/') == -1;
    LastIndexOfAppend(path, mid, '.');
    LastIndexOfAppend(path, mid, '/');
    var sep := LastIndexOf(path, '/');
    var dot := LastIndexOf(path, '.');
    if dot > sep {
      assert !exists k :: sep < k < dot && path[k] != '.';
      forall k | sep < k < dot ensures b[k] == '.' {
        assert b[k] == path[k];
      }
    }
  }

  /** Inserting text that has no dot or slash and does not start with a dot
      between a stem and its extension keeps the extension. */
  lemma SplitExtInsert(stem: string, mid: string, ext: string)
    requires ext != [] && ext[0] == '.' && '.' !in ext[1..] && '/' !in ext
    requires mid != [] && '.' !in mid && '/' !in mid
    ensures SplitExt(stem + mid + ext) == (stem + mid, ext)
  {
    var b := stem + mid + ext;
    assert LastIndexOf(mid, '/') == -1 && LastIndexOf(ext, '/') == -1;
    assert LastIndexOf(ext, '.') == 0 by {
      forall j | 0 < j < |ext| ensures ext[j] != '.' {
        assert ext[j] == ext[1..][j - 1];
      }
      LastIndexOfUnique(ext, '.', 0);
    }
    LastIndexOfAppend(stem + mid, ext, '.');
    LastIndexOfAppend(stem + mid, ext, '/');
    LastIndexOfAppend(stem, mid, '/');
    var dot := LastIndexOf(b, '.');
    var sep := LastIndexOf(b, '/');
    assert dot == |stem + mid| && sep == LastIndexOf(stem, '/');
    assert sep < |stem| < dot && b[|stem|] != '.';
    assert b[..dot] == stem + mid;
    assert b[dot..] == ext;
  }

  /** Splitting the backup name gives back the original extension, and the
      stem with the marker and the timestamp, for a timestamp like the one
      `%Y%m%d_%H%M%S` prints (no dot, no slash). */
  lemma BackupKeepsExtension(path: string, timestamp: string)
    requires '.' !in timestamp && '/' !in timestamp
    ensures SplitExt(BackupName(path, timestamp)) == (SplitExt(path).0 + "_backup_" + timestamp, SplitExt(path).1)
  {
    var stem := SplitExt(path).0;
    var ext := SplitExt(path).1;
    var mid := "_backup_" + timestamp;
    assert BackupName(path, timestamp) == stem + mid + ext;
    assert stem + "_backup_" + timestamp == stem + mid;
    assert '.' !in mid && '/' !in mid;
    SplitExtParts(path);
    if ext == [] {
      assert stem + mid + ext == path + mid;
      SplitExtAppendPlain(path, mid);
    } else {
      SplitExtInsert(stem, mid, ext);
    }
  }

  /** `create_backup`: copies the file under its backup name and returns
      that name; a file that cannot be read raises, shown as `None`. */
  method CreateBackup(folder: Folder, path: string, timestamp: string) returns (backup: Option<string>)
    modifies folder
    ensures path !in old(folder.files) ==> backup.None? && folder.files == old(folder.files)
    ensures path in old(folder.files) ==> (backup == Some(BackupName(path, timestamp)) &&
      folder.files == old(folder.files)[BackupName(path, timestamp) := old(folder.files)[path]])
  {
    if path !in folder.files {
      return None;
    }
    var name := BackupName(path, timestamp);
    folder.files := folder.files[name := folder.files[path]];
    backup := Some(name);
  }
}

=== FILE: webserver.dfy ===
/** The logic behind the Flask tutorial's handlers: the upload filter, the
    calculator page, the labels of the form demo and the in-memory student
    table with its id counter, shared by the page handlers and the JSON
    API. Requests become parameters and responses become results; the
    HTML and JSON around them are not modelled. */
module Webserver {
  import opened Options
  import opened Text
  import Lists

  // ---------------------------------------------------------------------
  // allowed_file

  const ALLOWED_EXTENSIONS: set<string> := {"txt", "pdf", "png", "jpg", "jpeg", "gif"}

  /** `allowed_file(filename)`: the name holds a dot and the lowercased text
      after its last dot is an allowed extension. */
  predicate AllowedFile(filename: string)
  {
    '.' in filename && Lower(filename[LastIndexOf(filename, '.') + 1..]) in ALLOWED_EXTENSIONS
  }

  /** Only the text after the last dot decides, whatever comes before it,
      dots included. */
  lemma AllowedFileSplit(stem: string, ext: string)
    requires '.' !in ext
    ensures AllowedFile(stem + "." + ext) <==> Lower(ext) in ALLOWED_EXTENSIONS
  {
    var f := stem + "." + ext;
    assert f[|stem|] == '.';
    forall j | |stem| < j < |f| ensures f[j] != '.' {
      assert f[j] == ext[j - |stem| - 1];
    }
    LastIndexOfUnique(f, '.', |stem|);
    assert f[|stem| + 1..] == ext;
  }

  /** A name without a dot is refused. */
  lemma AllowedFileNeedsDot(filename: string)
    requires '.' !in filename
    ensures !AllowedFile(filename)
  {
  }

  /** Upper-case extensions pass. */
  lemma AllowedFileUpperCase()
    ensures AllowedFile("photo.JPG")
  {
    AllowedFileSplit("photo", "JPG");
    assert "photo" + "." + "JPG" == "photo.JPG";
    assert Lower("JPG") == "jpg";
  }

  /** A name made of an extension alone passes. */
  lemma AllowedFileOnlyExtension()
    ensures AllowedFile(".png")
  {
    var f := ".png";
    LastIndexOfUnique(f, '.', 0);
    assert f[1..] == "png";
    assert Lower("png") == "png";
  }

  /** Only the last of several extensions counts. */
  lemma AllowedFileLastExtension()
    ensures !AllowedFile("a.txt.exe")
  {
    AllowedFileSplit("a.txt", "exe");
    assert "a.txt" + "." + "exe" == "a.txt.exe";
    assert Lower("exe") == "exe";
  }

  // ---------------------------------------------------------------------
  // calculator

  /** What the calculator page shows as the result. */
  datatype Value = Number(x: real) | Note(text: string)

  /** The page: the error page for a number `float` refuses, else the
      operator's symbol and the result. */
  datatype CalcPage = InvalidNumber | Shown(symbol: string, result: Value)

  const DIVIDE_BY_ZERO := "错误：不能除以0"
  const UNKNOWN_OP := "未知操作"

  /** `calculator()` with the query arguments `a`, `b` and `op` (their
      defaults '0', '0' and 'add' already applied); None stands for a text
      `float` refuses. */
  function Calculator(a: Option<real>, b: Option<real>, op: string): (r: CalcPage)
    ensures r.InvalidNumber? <==> a.None? || b.None?
    ensures r.Shown? && r.result.Note? ==> (r.result.text == DIVIDE_BY_ZERO <==> op == "div")
  {
    if a.None? || b.None? then InvalidNumber
    else
      var x, y := a.value, b.value;
      if op == "add" then Shown("+", Number(x + y))
      else if op == "sub" then Shown("-", Number(x - y))
      else if op == "mul" then Shown("×", Number(x * y))
      else if op == "div" then Shown("÷", if y != 0.0 then Number(x / y) else Note(DIVIDE_BY_ZERO))
      else Shown("?", Note(UNKNOWN_OP))
  }

  /** Subtracting undoes adding, and dividing by a non-zero number undoes
      multiplying by it. */
  lemma CalculatorInverses(x: real, y: real)
    ensures Calculator(Some(x), Some(y), "add").result.x == x + y
    ensures Calculator(Some(x + y), Some(y), "sub") == Shown("-", Number(x))
    ensures y != 0.0 ==> Calculator(Some(x * y), Some(y), "div") == Shown("÷", Number(x))
  {
    if y != 0.0 {
      assert (x * y) / y == x;
    }
  }

  /** Dividing by zero and an unknown operator give their texts, never a
      number. */
  lemma CalculatorErrors(x: real, op: string)
    ensures Calculator(Some(x), Some(0.0), "div") == Shown("÷", Note(DIVIDE_BY_ZERO))
    ensures op !in {"add", "sub", "mul", "div"} ==> Calculator(Some(x), Some(0.0), op) == Shown("?", Note(UNKNOWN_OP))
  {
  }

  // ---------------------------------------------------------------------
  // form_demo labels

  /** The gender label: 男 for 'M', 女 for anything else, a missing field
      (None) included. */
  function GenderText(gender: Option<string>): (t: string)
    ensures t == "男" || t == "女"
  {
    if gender == Some("M") then "男" else "女"
  }

  /** The grade label: `{'7': …, '8': …, '9': …}.get(grade, '未知')`. */
  function GradeText(grade: Option<string>): string
  {
    if grade == Some("7") then "七年级"
    else if grade == Some("8") then "八年级"
    else if grade == Some("9") then "九年级"
    else "未知"
  }

  /** Each of the three grades has its own label and everything else,
      a missing field included, is 未知; 男 is given exactly for 'M'. */
  lemma FormLabels(grade: Option<string>, other: Option<string>, gender: Option<string>)
    ensures GradeText(grade) == "未知" <==> grade !in {Some("7"), Some("8"), Some("9")}
    ensures grade in {Some("7"), Some("8"), Some("9")} && GradeText(grade) == GradeText(other) ==> grade == other
    ensures GenderText(gender) == "男" <==> gender == Some("M")
  {
  }

  // ---------------------------------------------------------------------
  // The student table

  /** One record of `students_db`; the name is None when a JSON body
      created the record without a `name` key. */
  datatype Student = Student(id: int, name: Option<string>, gender: string, age: int, className: string, score: real)

  /** The fields the add and edit forms submit, after `int` and `float`. */
  datatype Form = Form(name: string, gender: string, age: int, className: string, score: real)

  /** The fields of a JSON body; None for a key the body does not have. */
  datatype Body = Body(name: Option<string>, gender: Option<string>, age: Option<int>, className: Option<string>,
                       score: Option<real>)

  /** The ids of the records, in order. */
  function Ids(db: seq<Student>): (ids: seq<int>)
    ensures |ids| == |db|
  {
    seq(|db|, i requires 0 <= i < |db| => db[i].id)
  }

  /** `next((s for s in students_db if s['id'] == id), None)`, as the
      position of the record found. */
  function FindFirst(db: seq<Student>, id: int): (r: Option<nat>)
    ensures r.None? <==> forall i :: 0 <= i < |db| ==> db[i].id != id
    ensures r.Some? ==> (r.value < |db| && db[r.value].id == id &&
      forall j :: 0 <= j < r.value ==> db[j].id != id)
    decreases |db|
  {
    if db == [] then None
    else if db[0].id == id then Some(0)
    else match FindFirst(db[1..], id)
      case None => None
      case Some(i) => Some(i + 1)
  }

  /** With ids without repeats, the record found is the only one with that
      id. */
  lemma FindFirstUnique(db: seq<Student>, id: int)
    requires Lists.Distinct(Ids(db))
    requires FindFirst(db, id).Some?
    ensures forall j :: 0 <= j < |db| && db[j].id == id ==> j == FindFirst(db, id).value
  {
    var i := FindFirst(db, id).value;
    forall j | 0 <= j < |db| && db[j].id == id ensures j == i {
      assert Ids(db)[j] == db[j].id && Ids(db)[i] == db[i].id;
    }
  }

  function KeepsOut(id: int): Student -> bool
  {
    (s: Student) => s.id != id
  }

  /** `[s for s in students_db if s['id'] != id]`. */
  function Without(db: seq<Student>, id: int): seq<Student>
  {
    Lists.Filter(db, KeepsOut(id))
  }

  /** Deleting takes out exactly the records with the id and keeps the
      others in order; with no such record the table is unchanged. */
  lemma WithoutSound(db: seq<Student>, id: int)
    ensures Lists.IsSublist(Without(db, id), db)
    ensures forall s :: s in Without(db, id) <==> s in db && s.id != id
    ensures FindFirst(db, id).None? ==> Without(db, id) == db
  {
    Lists.FilterSublist(db, KeepsOut(id));
    Lists.FilterMembers(db, KeepsOut(id));
    if FindFirst(db, id).None? {
      Lists.FilterAll(db, KeepsOut(id));
    }
  }

  /** `student_edit`'s POST: every field from the form, the id kept. */
  function Edited(s: Student, f: Form): (r: Student)
    ensures r.id == s.id
  {
    Student(s.id, Some(f.name), f.gender, f.age, f.className, f.score)
  }

  /** `api_update_student`: `data.get(key, student[key])` for each field. */
  function Patched(s: Student, b: Body): (r: Student)
    ensures r.id == s.id
  {
    Student(s.id, if b.name.Some? then b.name else s.name, b.gender.GetOr(s.gender), b.age.GetOr(s.age),
            b.className.GetOr(s.className), b.score.GetOr(s.score))
  }

  /** An update changes the supplied fields only: a body with no fields
      changes nothing, and a field's new value is the body's when it has
      one. */
  lemma PatchedFields(s: Student, b: Body)
    ensures b == Body(None, None, None, None, None) ==> Patched(s, b) == s
    ensures b.name.Some? ==> Patched(s, b).name == b.name
    ensures b.name.None? ==> Patched(s, b).name == s.name
    ensures b.score.Some? ==> Patched(s, b).score == b.score.value
    ensures b.score.None? ==> Patched(s, b).score == s.score
  {
  }

  /** `api_create_student`'s record: the body's name, None when it has no
      `name` key, and the defaults 'M', 0, '' and 0 for the other keys the
      body lacks. */
  function Created(id: int, b: Body): (r: Student)
    ensures r.id == id && r.name == b.name
    ensures b.gender.None? ==> r.gender == "M"
    ensures b.score.None? ==> r.score == 0.0
  {
    Student(id, b.name, b.gender.GetOr("M"), b.age.GetOr(0), b.className.GetOr(""), b.score.GetOr(0.0))
  }

  /** The table's invariant: ids without repeats, each below the counter. */
  predicate IdsValid(db: seq<Student>, nextId: int)
  {
    Lists.Distinct(Ids(db)) && forall i :: 0 <= i < |db| ==> db[i].id < nextId
  }

  /** The five demo students with ids 1 to 5. */
  function InitialStudents(): seq<Student>
  {
    [Student(1, Some("小明"), "M", 14, "七年级1班", 95.5),
     Student(2, Some("小红"), "F", 13, "七年级1班", 98.0),
     Student(3, Some("小刚"), "M", 14, "七年级2班", 88.5),
     Student(4, Some("小芳"), "F", 13, "七年级1班", 92.0),
     Student(5, Some("小强"), "M", 15, "七年级2班", 75.5)]
  }

  /** The demo table starts out valid with the counter at 6. */
  lemma InitialValid()
    ensures IdsValid(InitialStudents(), 6)
  {
    var db := InitialStudents();
    assert Ids(db) == [1, 2, 3, 4, 5];
  }

  /** Appending a record with the counter's id and moving the counter on
      keeps the table valid. */
  lemma AppendValid(db: seq<Student>, nextId: int, s: Student)
    requires IdsValid(db, nextId) && s.id == nextId
    ensures IdsValid(db + [s], nextId + 1)
  {
    var r := db + [s];
    assert Ids(r) == Ids(db) + [nextId];
    forall i, j | 0 <= i < j < |r| ensures Ids(r)[i] != Ids(r)[j] {
      if j == |db| {
        assert Ids(r)[i] == db[i].id;
      } else {
        assert Ids(r)[i] == Ids(db)[i] && Ids(r)[j] == Ids(db)[j];
      }
    }
  }

  /** Replacing a record by one with the same id keeps the table valid. */
  lemma ReplaceValid(db: seq<Student>, nextId: int, i: nat, s: Student)
    requires IdsValid(db, nextId) && i < |db| && s.id == db[i].id
    ensures IdsValid(db[i := s], nextId)
  {
    assert Ids(db[i := s]) == Ids(db);
  }

  /** Deleting keeps the table valid. */
  lemma WithoutValid(db: seq<Student>, nextId: int, id: int)
    requires IdsValid(db, nextId)
    ensures IdsValid(Without(db, id), nextId)
  {
    var r := Without(db, id);
    WithoutSound(db, id);
    forall i, j | 0 <= i < j < |r| ensures Ids(r)[i] != Ids(r)[j] {
      Lists.FilterSublist(db, KeepsOut(id));
      SublistIds(r, db, i, j);
    }
    forall i | 0 <= i < |r| ensures r[i].id < nextId {
      assert r[i] in r;
    }
  }

  /** Two positions of a sub-list come from two increasing positions of the
      list. */
  lemma {:induction false} SublistIds(r: seq<Student>, db: seq<Student>, i: nat, j: nat)
    requires Lists.IsSublist(r, db) && Lists.Distinct(Ids(db)) && i < j < |r|
    ensures r[i].id != r[j].id
    decreases |db|
  {
    assert db != [];
    if r[0] == db[0] && Lists.IsSublist(r[1..], db[1..]) {
      DistinctIdsTail(db);
      if i == 0 {
        SublistIn(r[1..], db[1..], j - 1);
        var k :| 0 <= k < |db[1..]| && db[1..][k] == r[j];
        assert Ids(db)[0] != Ids(db)[k + 1];
      } else {
        SublistIds(r[1..], db[1..], i - 1, j - 1);
      }
    } else {
      DistinctIdsTail(db);
      SublistIds(r, db[1..], i, j);
    }
  }

  /** The tail of a table without repeated ids has none either. */
  lemma DistinctIdsTail(db: seq<Student>)
    requires db != [] && Lists.Distinct(Ids(db))
    ensures Lists.Distinct(Ids(db[1..]))
  {
    forall a, b | 0 <= a < b < |db[1..]| ensures Ids(db[1..])[a] != Ids(db[1..])[b] {
      assert Ids(db)[a + 1] != Ids(db)[b + 1];
    }
  }

  /** Every element of a sub-list is somewhere in the list. */
  lemma {:induction false} SublistIn(r: seq<Student>, db: seq<Student>, j: nat)
    requires Lists.IsSublist(r, db) && j < |r|
    ensures exists k :: 0 <= k < |db| && db[k] == r[j]
    decreases |db|
  {
    assert db != [];
    if r[0] == db[0] && Lists.IsSublist(r[1..], db[1..]) {
      if j == 0 {
        assert db[0] == r[0];
      } else {
        SublistIn(r[1..], db[1..], j - 1);
        var k :| 0 <= k < |db[1..]| && db[1..][k] == r[1..][j - 1];
        assert db[k + 1] == r[j];
      }
    } else {
      SublistIn(r, db[1..], j);
      var k :| 0 <= k < |db[1..]| && db[1..][k] == r[j];
      assert db[k + 1] == r[j];
    }
  }

  /** The module-level `students_db` list and `next_id` counter, with the
      ids handed out so far. */
  class StudentStore {
    var students: seq<Student>
    var nextId: int
    ghost var issued: set<int>

    ghost predicate Valid()
      reads this
    {
      IdsValid(students, nextId) &&
      (forall i :: i in issued ==> i < nextId) &&
      (forall k :: 0 <= k < |students| ==> students[k].id in issued)
    }

    /** The demo table and `next_id = 6`. */
    constructor()
      ensures students == InitialStudents() && nextId == 6 && issued == {1, 2, 3, 4, 5}
      ensures Valid()
    {
      students := InitialStudents();
      nextId := 6;
      issued := {1, 2, 3, 4, 5};
      InitialValid();
    }

    /** The detail page, the edit page and `api_get_student`: the first
        record with the id, None for the not-found page and the 404. */
    function Lookup(id: int): (r: Option<Student>)
      reads this
      ensures r.None? <==> forall k :: 0 <= k < |students| ==> students[k].id != id
      ensures r.Some? ==> r.value in students && r.value.id == id
    {
      match FindFirst(students, id)
      case None => None
      case Some(i) => Some(students[i])
    }

    /** `student_add`'s POST: a record with the counter's id goes at the end
        and the counter moves on; the id was never handed out before. */
    method Add(f: Form) returns (id: int)
      requires Valid()
      modifies this
      ensures Valid()
      ensures id == old(nextId) && id !in old(issued) && issued == old(issued) + {id}
      ensures students == old(students) + [Student(id, Some(f.name), f.gender, f.age, f.className, f.score)]
      ensures nextId == old(nextId) + 1
    {
      id := nextId;
      var s := Student(id, Some(f.name), f.gender, f.age, f.className, f.score);
      AppendValid(students, nextId, s);
      students := students + [s];
      nextId := nextId + 1;
      issued := issued + {id};
    }

    /** `api_create_student`: as `Add`, with the defaults of the JSON body. */
    method ApiCreate(b: Body) returns (id: int)
      requires Valid()
      modifies this
      ensures Valid()
      ensures id == old(nextId) && id !in old(issued) && issued == old(issued) + {id}
      ensures students == old(students) + [Created(id, b)]
      ensures nextId == old(nextId) + 1
    {
      id := nextId;
      var s := Created(id, b);
      AppendValid(students, nextId, s);
      students := students + [s];
      nextId := nextId + 1;
      issued := issued + {id};
    }

    /** `student_edit`'s POST: the first record with the id gets every form
        field; false for the not-found page, which changes nothing. */
    method Edit(id: int, f: Form) returns (found: bool)
      requires Valid()
      modifies this
      ensures Valid() && nextId == old(nextId) && issued == old(issued)
      ensures found <==> FindFirst(old(students), id).Some?
      ensures found ==> (var i := FindFirst(old(students), id).value;
        students == old(students)[i := Edited(old(students)[i], f)])
      ensures !found ==> students == old(students)
    {
      var i := FindFirst(students, id);
      found := i.Some?;
      if found {
        var s := Edited(students[i.value], f);
        ReplaceValid(students, nextId, i.value, s);
        students := students[i.value := s];
      }
    }

    /** `api_update_student`: the first record with the id gets the fields
        the body has; false for the 404, which changes nothing. */
    method ApiUpdate(id: int, b: Body) returns (found: bool)
      requires Valid()
      modifies this
      ensures Valid() && nextId == old(nextId) && issued == old(issued)
      ensures found <==> FindFirst(old(students), id).Some?
      ensures found ==> (var i := FindFirst(old(students), id).value;
        students == old(students)[i := Patched(old(students)[i], b)])
      ensures !found ==> students == old(students)
    {
      var i := FindFirst(students, id);
      found := i.Some?;
      if found {
        var s := Patched(students[i.value], b);
        ReplaceValid(students, nextId, i.value, s);
        students := students[i.value := s];
      }
    }

    /** `student_delete`: the records with the id go, whether or not there
        are any. */
    method Delete(id: int)
      requires Valid()
      modifies this
      ensures Valid() && nextId == old(nextId) && issued == old(issued)
      ensures students == Without(old(students), id)
    {
      WithoutValid(students, nextId, id);
      WithoutSound(students, id);
      students := Without(students, id);
    }

    /** `api_delete_student`: false for the 404, which changes nothing;
        otherwise as `Delete`. */
    method ApiDelete(id: int) returns (found: bool)
      requires Valid()
      modifies this
      ensures Valid() && nextId == old(nextId) && issued == old(issued)
      ensures found <==> FindFirst(old(students), id).Some?
      ensures students == Without(old(students), id)
    {
      found := FindFirst(students, id).Some?;
      if found {
        Delete(id);
      } else {
        WithoutSound(students, id);
      }
    }
  }
}
